=== FILE: README.md ===
# A verified model of mentat's deterministic core

mentat is a command-line coding assistant. It sends a language model a prompt
made of the user's conversation and selected code, parses the edits the model
streams back, shows them, and applies them to files. This project models the
deterministic machinery around that loop and proves properties of it in
Dafny 4.11. Each source file, or each closely related group of files, is one
module:

- **Edits and their application**: `FileEdits` (mentat/parsers/file_edit.py) and
  `AbstractChanges` (mentat/code_changes/abstract/abstract_change.py). They cover
  half-open replacement ranges, conflict trimming, splicing lines, and the
  normalisation of overlapping deletions and additions.
- **Edit-format parsers**: `UnifiedDiff`, `ReplacementFormat` and `Parsing`
  (mentat/parsers/). They cover header predicates, header blocks, code blocks,
  the three-stage block search, per-path edit merging, the rename map, and the
  end-of-stream, interrupt and model-error paths.
- **Diff annotation**: `DiffContext` (mentat/diff_context.py). It parses
  `git diff -U0` hunk headers and splices annotations into a line-numbered
  file message.
- **Intervals and features**: `Intervals` (the `"1,3-5"` syntax and inclusive
  intervals) and `CodeFeatures` (levels, line selection, and the checksum-keyed
  message cache).
- **Context selection**: `Selection` (greedy truncation, the greedy selector,
  and the metadata copy after LLM selection), `Embeddings` (First-Fit-Decreasing
  batching and score bookkeeping), `ChromaScores` (the recursive `$or` query and
  the embedding-store rules) and `CodeContext` (include and exclude, the
  auto-context budget, the cached code message, and swap accounting).
- **Trees of files**: `ContextTree` (mentat/context_tree/) and `FileNodes`
  (mentat/file_node.py). They cover navigation, pre-order iteration, settings
  updates, refresh, display, code messages and checksums. Both rest on the
  generic `Trees`, `PathParts` and `Lexical` modules.
- **Display and terminal helpers**: `ChangeDisplay`, `IncludeFiles`,
  `PathUtils`, `Output`, `History`, `PromptInput`, `AutoCompleter` and
  `StreamingPrinters`.
- **Conversation, input and model accounting**: `Conversation`, `SessionInput`,
  `Sampler`, `LlmApi`, and `LspSettings` for the settings table of the
  bundled language server (vscode/bundled/tool/lsp_server.py).

Python's string and list operations are modelled once, in `PyText`: `strip`
(over Python's full whitespace set), `split`, `splitlines` (over every line
boundary Python recognises, `\r\n` included), `int()`, slicing with negative
indices, and so on. A
`dict` in insertion order is modelled in `Dicts`, and Python's stable sort in
`Sorting`.

Anything the code does not compute itself is a parameter of the operation
that uses it. This covers the file system, git, token counts, hashes, the
language model, the embedding store, `fnmatch`, `shlex` and the clock.

## Model

| member | source | states |
|---|---|---|
| Intervals.ContainsLine | mentat/code_feature.py:97-98 | a feature contains a line exactly when one of its intervals contains it |
| Intervals.IntersectsIffCommonLine | mentat/interval.py:27-31 | two non-empty intervals intersect exactly when some line lies in both (inclusive ends) |
| Intervals.IntersectsSymmetric | mentat/interval.py:30-31 | `intersects` is symmetric |
| Intervals.ReversedIntervalIntersects | mentat/interval.py:27-31 | a reversed interval such as 5-3 contains no line, yet it is reported as intersecting 2-6 |
| Intervals.WholeFileContainsEveryLine | mentat/code_feature.py:74-98 | the whole-file interval `Interval(0, inf)` contains every non-negative line |
| Intervals.RoundTrip | mentat/interval.py:4-15 | writing intervals as `a-b,c-d` and parsing the text gives them back, one interval per comma piece, in order |
| Intervals.ParsePieceRoundTrip | mentat/interval.py:8-12 | a piece `a-b` is split at the first `-` only, so a negative end survives, and it holds no comma |
| Intervals.ParseSingle | mentat/interval.py:9-10 | `"n"` parses to the single interval `n..n` |
| Intervals.ParseRange | mentat/interval.py:8-12 | `"a-b"` parses to the single interval `a..b` |
| Intervals.BadPieceEmptiesResult | mentat/interval.py:7-15 | one unparsable comma piece makes the whole result empty |
| Intervals.ParseExamples | mentat/interval.py:14-15 | `"3-"`, `"x"` and `"-3"` each parse to the empty list |
| CodeFeatures.LevelOfRank | mentat/code_feature.py:42-52 | a rank names a level exactly when it is in 1..5, and that level has that rank |
| CodeFeatures.RanksAscend | mentat/code_feature.py:42-52 | ranks are 1..5, strictly increasing from CODE to FILE_NAME, and a level is recovered from its rank |
| CodeFeatures.MakeFeature | mentat/code_feature.py:67-89 | an existing path, or a missing path without `:`, is the whole file at the given level; diff and user flag are kept |
| CodeFeatures.IntervalPathSelectsLines | mentat/code_feature.py:77-86 | `base:spec` with an existing base becomes level INTERVAL on `base` with the parsed intervals of `spec` |
| CodeFeatures.ContainedExactly | mentat/code_feature.py:120-121 | the contained line numbers of a range are listed once each, increasing, and every contained number is listed |
| CodeFeatures.SelectLinesExactly | mentat/code_feature.py:118-125 | the body lines are exactly the contained 1-based line numbers, in order, each rendered with its own file line |
| CodeFeatures.SelectAll | mentat/code_feature.py:118-125 | when every line is contained, every file line is emitted, numbered consecutively |
| CodeFeatures.CodeMessage | mentat/code_feature.py:100-142 | without a diff the message never fails; whenever there is no diff or the level is not CODE, it is the header (`USER INCLUDED: ` marked when user-included), then the level's body, then `""`, and anything added comes after |
| CodeFeatures.WholeFileMessage | mentat/code_feature.py:112-132 | a whole file at level CODE is the path, every line as `i:line` from 1, then `""` |
| CodeFeatures.FileNameMessage | mentat/code_feature.py:112-132 | at level FILE_NAME the message is just the header and `""` |
| CodeFeatures.FileMessage | mentat/code_file.py:91-128 | the older message starts with the bare relative path, and at FILE_NAME is exactly the path and `""` (the `ValueError` branch is never reached) |
| CodeFeatures.GetCached | mentat/code_feature.py:153-161 | the cached message is returned while the checksum matches and a message exists; otherwise the message is recomputed and stored |
| CodeFeatures.CacheStable | mentat/code_feature.py:156-161 | a second request under the same checksum returns the first answer and leaves the cache as it was |
| CodeFeatures.LevelOrDiffChangeRecomputes | mentat/code_feature.py:144-161 | the cache key hashes the file checksum, the level and the diff, so after a feature's level or diff text changes its message is computed afresh |
| CodeFeatures.FileCacheIgnoresLevel | mentat/code_file.py:130-141 | the older cache is keyed by the file checksum only, so for features without a diff a message cached at one level is returned after the level changes |
| FileEdits.InOrderTransitive | mentat/parsers/file_edit.py:39-43 | the order the descending sort produces (ends non-increasing, empty ranges first on equal ends) is transitive |
| FileEdits.SortLtFacts | mentat/parsers/file_edit.py:143 | sorting descending with the literal `__lt__` (ties compare the start with the other's end) gives ends non-increasing, empty ranges first among equal ends, and a permutation of the input |
| FileEdits.SortLtLength | mentat/parsers/file_edit.py:143 | the sort keeps the number of replacements |
| FileEdits.Clip | mentat/parsers/file_edit.py:147-153 | an overlapping later replacement has its end clipped to the earlier one's start and its start kept at or below that end; its lines are kept and a non-overlapping one is untouched |
| FileEdits.ClipAll | mentat/parsers/file_edit.py:145-153 | the inner loop clips every later replacement against the current one, position by position |
| FileEdits.ClipDisjoint | mentat/parsers/file_edit.py:147-153 | after clipping, the clipped replacement no longer shares a line with the one it was clipped against |
| FileEdits.ClipKeepsDisjoint | mentat/parsers/file_edit.py:147-153 | clipping never makes a replacement overlap one it was already disjoint from |
| FileEdits.ResolveFromDisjoint | mentat/parsers/file_edit.py:144-153 | running the outer loop from any index keeps every range proper and leaves all ranges pairwise disjoint |
| FileEdits.ResolvedAreDisjoint | mentat/parsers/file_edit.py:142-153 | after `resolve_conflicts`, proper replacements share no line and none is lost |
| FileEdits.SortLtDisjoint | mentat/parsers/file_edit.py:156 | re-sorting disjoint replacements keeps them disjoint |
| FileEdits.OrderedDisjointStacked | mentat/parsers/file_edit.py:156-164 | disjoint replacements in descending order each end at or before the start of every earlier one |
| FileEdits.ApplyOkIff | mentat/parsers/file_edit.py:157-161 | the overlap error is raised exactly when some replacement ends after the start of the one applied before it |
| FileEdits.ResolvedNeverOverlap | mentat/parsers/file_edit.py:142-161 | the promise that the overlap error never follows `resolve_conflicts` holds for proper replacements, for any file |
| FileEdits.SingleReplacement | mentat/parsers/file_edit.py:165-169 | one in-range replacement gives `lines[:start] + new_lines + lines[end:]` |
| FileEdits.SingleReplacementPadded | mentat/parsers/file_edit.py:162-169 | a replacement ending past the file first pads the file with `""` up to its end |
| FileEdits.ReversedRangeOverlaps | mentat/parsers/file_edit.py:142-161 | a reversed range (start after end) escapes `resolve_conflicts` and still raises the overlap error |
| FileEdits.Kept | mentat/parsers/file_edit.py:114-133 | no more replacements are kept than offered; all answers yes keeps all, all no keeps none |
| FileEdits.KeptSingle | mentat/parsers/file_edit.py:114-133 | one replacement is kept exactly when the answer is yes |
| FileEdits.KeptAppend | mentat/parsers/file_edit.py:114-133 | the replacements are asked about one after another: keeping from two lists is keeping from each and joining the results |
| FileEdits.KeptMembers | mentat/parsers/file_edit.py:114-133 | every replacement answered yes is kept, and everything kept is a replacement answered yes |
| FileEdits.FilterReplacements | mentat/parsers/file_edit.py:72-140 | a refused creation or deletion returns false at once with the edit untouched; otherwise the edit keeps its rename only if accepted and exactly the replacements answered yes, and the result is true exactly when it creates, deletes, keeps a rename or some replacement was answered yes |
| AbstractChanges.OrderIsKeyComparison | mentat/code_changes/abstract/abstract_change.py:34-50 | `subchange_order` compares an addition's line and a deletion's end; renames compare equal to each other and above every positioned change; it is antisymmetric |
| AbstractChanges.OrderTransitive | mentat/code_changes/abstract/abstract_change.py:34-50 | `subchange_order` is transitive, so sorting by it is well defined |
| AbstractChanges.DeletionsOf | mentat/code_changes/abstract/abstract_change.py:63 | the deletions list holds exactly the deletions of the input |
| AbstractChanges.AdditionsOf | mentat/code_changes/abstract/abstract_change.py:64 | the additions list holds exactly the additions of the input |
| AbstractChanges.RenamesOf | mentat/code_changes/abstract/abstract_change.py:65 | the renames list holds exactly the renames of the input |
| AbstractChanges.SplitIsPartition | mentat/code_changes/abstract/abstract_change.py:63-65 | every sub-change lands in exactly one of the three lists |
| AbstractChanges.TrimStacked | mentat/code_changes/abstract/abstract_change.py:69-80 | each kept deletion is non-empty and ends at or before the start of every earlier kept one |
| AbstractChanges.TrimLowers | mentat/code_changes/abstract/abstract_change.py:71-79 | each kept deletion is an input deletion whose start is unchanged and whose end only went down |
| AbstractChanges.TrimSound | mentat/code_changes/abstract/abstract_change.py:71-79 | trimming never deletes a line that no input deletion removes |
| AbstractChanges.TrimComplete | mentat/code_changes/abstract/abstract_change.py:71-79 | below the lowest start seen so far, every line a remaining deletion removes is still removed |
| AbstractChanges.TrimKeepsLines | mentat/code_changes/abstract/abstract_change.py:68-80 | on deletions sorted by end, the kept deletions remove exactly the lines the inputs removed |
| AbstractChanges.AnyCoversAppend | mentat/code_changes/abstract/abstract_change.py:67-80 | a line is removed by two lists of deletions together exactly when one of them removes it |
| AbstractChanges.SortDescCovers | mentat/code_changes/abstract/abstract_change.py:68 | sorting the deletions by end changes no removed line |
| AbstractChanges.TrimDeletionsFacts | mentat/code_changes/abstract/abstract_change.py:67-80 | the kept deletions are non-empty, pairwise disjoint, each an input deletion with only its end lowered, and together remove exactly the input's lines, for any input order |
| AbstractChanges.SkipAdditions | mentat/code_changes/abstract/abstract_change.py:95-100 | the second inner loop stops at the first addition at or before the deletion's end, passing only those after it |
| AbstractChanges.DeletionsWithoutAdditionsRaise | mentat/code_changes/abstract/abstract_change.py:86-91 | with at least one deletion and no addition the loop indexes `additions[0]` and raises `IndexError` |
| AbstractChanges.ShiftAll | mentat/code_changes/abstract/abstract_change.py:82-111 | the corrected shift moves each addition independently, keeping list length and everything but the line |
| AbstractChanges.ShiftLineFixed | mentat/code_changes/abstract/abstract_change.py:103-111 | an addition inside no deletion's `(start, end]` stays on its line |
| AbstractChanges.ShiftLineLeavesDeletions | mentat/code_changes/abstract/abstract_change.py:103-111 | against the kept deletions a shifted addition is inside none of them, never moves down the file's end, and one inside a deletion lands at or before its start |
| AbstractChanges.ShiftLineAbove | mentat/code_changes/abstract/abstract_change.py:103-111 | a line above every deletion's end does not move |
| AbstractChanges.ShiftCorrectedFacts | mentat/code_changes/abstract/abstract_change.py:82-111 | the corrected shift leaves no addition strictly inside a kept deletion, moves an inside one to at or before that deletion's start, and leaves the others alone |
| AbstractChanges.ShiftLoopSingle | mentat/code_changes/abstract/abstract_change.py:84-111 | on a single addition the loop as written moves it through every deletion holding it, as the comment describes |
| AbstractChanges.SkipKeepsLine | mentat/code_changes/abstract/abstract_change.py:87-92 | the deletions the first inner loop passes cannot move the addition |
| AbstractChanges.ShiftAgreesOnOneAddition | mentat/code_changes/abstract/abstract_change.py:82-111 | with one addition, the loop as written and the corrected shift agree |
| AbstractChanges.SecondAdditionNotShifted | mentat/code_changes/abstract/abstract_change.py:103-111 | two additions at line 3 inside deletion (1,5): the loop moves only the first to line 1 and leaves the second inside the deleted range; the corrected shift moves both |
| AbstractChanges.Top | mentat/code_changes/abstract/abstract_change.py:47-48 | the key given to renames lies above every positioned change |
| AbstractChanges.ArrangeFacts | mentat/code_changes/abstract/abstract_change.py:113-117 | `self.changes` is a permutation of deletions, additions and renames, non-increasing under `subchange_order` (renames first), and equal-ranked changes keep their list order (stable sort, so the first of several additions on a line keeps priority) |
| AbstractChanges.MemberIndex | mentat/code_changes/abstract/abstract_change.py:113-117 | every element of the sorted list sits somewhere in the unsorted one |
| AbstractChanges.ArrangeMember | mentat/code_changes/abstract/abstract_change.py:113-117 | every element of `self.changes` is one of the kept deletions, the shifted additions or the renames |
| AbstractChanges.ChangesFacts | mentat/code_changes/abstract/abstract_change.py:54-117 | after construction every deletion is a kept (trimmed) deletion, no addition lies inside one, every rename is an input rename, and the list is sorted descending |
| AbstractChanges.OverlapExample | mentat/code_changes/abstract/abstract_change.py:67-111 | deletions (1,3) and (2,5) become (2,5) and (1,2), together removing lines 1 to 4, and an addition at line 4 ends up at line 1 |
| DiffContext.ParseLinesKeepsChangeLines | mentat/diff_context.py:27-44 | the parsing loop only ever collects `+`/`-` lines that are not `+++`/`---` |
| DiffContext.ParseDiffFacts | mentat/diff_context.py:22-46 | the parsed annotations are sorted ascending by start and hold only `+`/`-` lines (`---`, `+++` and `//` lines skipped) |
| DiffContext.ChangeLineBeforeHeaderIsInvalid | mentat/diff_context.py:39-41 | a `+`/`-` line before any `@@` header raises the invalid-diff error |
| DiffContext.HunkStartOfHeader | mentat/diff_context.py:30-38 | a `@@ -a,b +n,c @@` header starts its annotation at new-file line `n` (third token, after `+`, cut at the comma) |
| DiffContext.DigitsHaveNo | mentat/diff_context.py:33-37 | a written number holds no space or comma, so the header splits where expected |
| DiffContext.AnnotateWithContext | mentat/diff_context.py:110-119 | with no files in the diff the file message is returned unchanged |
| DiffContext.NoAnnotationsKeepMessage | mentat/diff_context.py:53-81 | with no annotations the code message is copied verbatim |
| DiffContext.AnnotateLinesCount | mentat/diff_context.py:66-77 | over signed lines the loop never fails, writes one line per diff line, and advances the active index by the number of `+` lines |
| DiffContext.SignedSplit | mentat/diff_context.py:17-19 | a signed line starts with exactly one of `+` and `-`, so `length` plus the `-` count is the message size |
| DiffContext.FitsBounded | mentat/diff_context.py:55-79 | annotations that fit the message never move the active index past its end |
| DiffContext.AnnotateCount | mentat/diff_context.py:55-81 | for fitting annotations each `+` line replaces exactly one code line and each `-` line is inserted, so the result is longer by the number of `-` lines |
| DiffContext.AnnotateLinesGrows | mentat/diff_context.py:66-77 | annotating only appends to what was written |
| DiffContext.AnnotateFromGrows | mentat/diff_context.py:55-79 | annotating later hunks only appends to what was written |
| DiffContext.PrefixCopied | mentat/diff_context.py:56-59 | code lines before the first annotation's start are copied verbatim |
| DiffContext.PathStaysFirst | mentat/diff_context.py:61-64 | an annotation at line 0 keeps the path line first; on an empty message it raises `IndexError` |
| DiffContext.LabelRunAt | mentat/diff_context.py:70 | the `k`-th line of a run of `+` lines is written with number `first + k`, rendered `f"{n}:{line}"` |
| DiffContext.RemovalRun | mentat/diff_context.py:73-77 | a run of `-` lines is labelled `start + k` with `k` counting within the run, and the active index stays put |
| DiffContext.AdditionRunIgnoresMinus | mentat/diff_context.py:68-72 | a `+` line resets the removal counter |
| DiffContext.AdditionRun | mentat/diff_context.py:68-72 | a run of `+` lines is labelled with consecutive indices from the active index, which advances past them |
| DiffContext.RemovalsThenAdditions | mentat/diff_context.py:61-77 | a hunk of removals then additions at start `n` labels both runs `n, n+1, ...`, removals first, and moves the active index past the additions only |
| ChangeDisplay.Repeat | mentat/code_change_display.py:6 | `n * c` has `n` copies of `c` and is empty for non-positive `n` (the 60-`=` delimiter) |
| ChangeDisplay.LabelsFit | mentat/parsers/change_display_helper.py:25-26 | the line-number column (digits of `len + 1`, plus one) is wide enough for the label `n:` of every line number up to one past the end of the file |
| ChangeDisplay.LineNumberBufferWidth | mentat/parsers/change_display_helper.py:25-26 | the column is `k + 1` wide when `len + 1` has `k` decimal digits |
| ChangeDisplay.FirstContent | mentat/parsers/change_display_helper.py:57-59 | the first scan stops at the first non-blank line, every line before it being blank |
| ChangeDisplay.LastContent | mentat/parsers/change_display_helper.py:62-64 | the last non-blank line, every line after it being blank |
| ChangeDisplay.FirstContentUnique | mentat/parsers/change_display_helper.py:57-59 | the first non-blank index is the only index with that property |
| ChangeDisplay.LastContentUnique | mentat/parsers/change_display_helper.py:62-64 | the last non-blank index is the only index with that property |
| ChangeDisplay.RemoveExtraEmptyLines | mentat/parsers/change_display_helper.py:52-71 | the two scanning loops give `[]` for `[]`, `[" "]` for all-blank input, and otherwise the slice from one before the first to one after the last non-blank line |
| ChangeDisplay.TrimmedShape | mentat/parsers/change_display_helper.py:52-71 | with some non-blank line, the result is a contiguous slice holding every non-blank line with at most one blank line on each side |
| ChangeDisplay.TrimmedIdempotent | mentat/code_change_display.py:9-28 | trimming twice is trimming once |
| ChangeDisplay.ShortWindowKept | mentat/parsers/change_display_helper.py:52-71 | a window of at most two lines is kept as is, or becomes `[" "]` when it is blank |
| ChangeDisplay.StripNewlines | mentat/parsers/change_display_helper.py:77 | `strip("\n")` leaves no line break at either end and never lengthens the line |
| ChangeDisplay.PrefixedPieces | mentat/parsers/change_display_helper.py:74-80 | one printed line per input line, each the prefix, padding to the column, then the line |
| ChangeDisplay.PrefixedLinesSplit | mentat/code_change_display.py:31-39 | splitting the joined block at line breaks gives one line per input line, each starting with the prefix, at least column-wide, and ending with the stripped line |
| ChangeDisplay.Window | mentat/parsers/change_display_helper.py:162-171 | the context window `file_lines[i] for i in range(lo, hi)` has `hi - lo` lines inside the file and is cut at its end |
| ChangeDisplay.PreviousLinesTruthful | mentat/parsers/change_display_helper.py:156-183 | with two lines of context, every line shown before a change inside the file carries its true 1-based line number (a blank one shown as `" "`) |
| ChangeDisplay.LaterLinesTruthful | mentat/parsers/change_display_helper.py:186-213 | every line shown after a change, numbered from `last + 1`, carries its true line number |
| ChangeDisplay.NoContextForHeaders | mentat/parsers/change_display_helper.py:159-160 | a negative first or last changed line shows no context |
| ChangeDisplay.RemovedBlockRange | mentat/code_change_display.py:73-80 | for an in-file range of an edit that is not a deletion, the removed block is lines `first..last` counted from 1, inclusive |
| ChangeDisplay.RemovedBlock | mentat/code_change_display.py:73-80 | a deletion shows the whole file as removed; any removed block is a contiguous run of the file's lines |
| ChangeDisplay.RemovedBlockWraps | mentat/code_change_display.py:78-80 | a first changed line of 0 makes the slice start at the file's last line |
| ChangeDisplay.PrintChange | mentat/code_change_display.py:42-53 | the 60-`=` delimiter is printed before and after the change, except for a rename |
| ChangeDisplay.PrintFullChange | mentat/parsers/change_display_helper.py:95-106 | the delimiter is printed before and after exactly when something is added or removed |
| UnifiedDiff.CouldBeSpecialCoversPrefixes | mentat/parsers/unified_diff_parser.py:44-62 | every prefix of a line that opens a header (`---`), closes one (`+++`) or ends the code (`@@`) could still be special, so it is held back until it can be recognised |
| UnifiedDiff.PrefixOfPrefix | mentat/parsers/unified_diff_parser.py:46-54 | two prefixes of one line are prefixes of each other |
| UnifiedDiff.SpecialBlock | mentat/parsers/unified_diff_parser.py:65-93 | a header of fewer than two lines fails; otherwise the edit is for the parsed file name, starts without replacements, carries the rename, and is followed by a code block |
| UnifiedDiff.HeaderBlockMeaning | mentat/parsers/unified_diff_parser.py:72-83 | a `/dev/null` source is a creation named by the target, a `/dev/null` target is a deletion, and differing names are a rename to the target; otherwise no new name |
| UnifiedDiff.Body | mentat/parsers/unified_diff_parser.py:117-122 | the lines before the closing `@@` are never more than the block |
| UnifiedDiff.HunksOkIff | mentat/parsers/unified_diff_parser.py:117-136 | cutting into hunks fails exactly when a line before the closing `@@` is neither a separator nor empty, `+`, `-` or space-led |
| UnifiedDiff.AllAcceptableCons | mentat/parsers/unified_diff_parser.py:117-134 | an acceptable first line leaves acceptance to the rest |
| UnifiedDiff.HunksContent | mentat/parsers/unified_diff_parser.py:117-136 | the hunks read in order are exactly the non-separator lines before the closing `@@` |
| UnifiedDiff.SearchLinesLength | mentat/parsers/unified_diff_parser.py:142-145 | the searched lines are the `-` and context lines, one each |
| UnifiedDiff.ExactMatch | mentat/parsers/unified_diff_parser.py:206-212 | 0 when both blocks are blank; otherwise the first index where the block occurs, or -1 exactly when it occurs nowhere |
| UnifiedDiff.LowerAll | mentat/parsers/unified_diff_parser.py:197-198 | each line lower-cased, position by position |
| UnifiedDiff.StripAll | mentat/parsers/unified_diff_parser.py:201-202 | each line stripped, position by position |
| UnifiedDiff.MatchingIndexStages | mentat/parsers/unified_diff_parser.py:192-204 | exact match, then lower-cased, then lower-cased and stripped; the first stage that succeeds wins, and -1 means no stage found the block |
| UnifiedDiff.RemovedCons | mentat/parsers/unified_diff_parser.py:165-187 | the removed-line count of a list is its head's plus its tail's |
| UnifiedDiff.AddedCons | mentat/parsers/unified_diff_parser.py:165-187 | the new lines of a list are its head's followed by its tail's |
| UnifiedDiff.BuildRemoved | mentat/parsers/unified_diff_parser.py:165-187 | the ranges of a hunk cover exactly as many lines as it has `-` lines |
| UnifiedDiff.BuildAdded | mentat/parsers/unified_diff_parser.py:165-187 | the new lines of the replacements are exactly the hunk's `+` lines without their marker, in order |
| UnifiedDiff.IncreasingCons | mentat/parsers/unified_diff_parser.py:170-177 | a proper range ending before the next one's start keeps the list increasing |
| UnifiedDiff.BuildOrderedContext | mentat/parsers/unified_diff_parser.py:170-177 | a context line closes the open run and the later runs start after it |
| UnifiedDiff.BuildOrdered | mentat/parsers/unified_diff_parser.py:165-187 | a hunk located at `i` yields proper, strictly increasing ranges separated by context lines and inside the searched lines |
| UnifiedDiff.OneRunExample | mentat/parsers/unified_diff_parser.py:165-187 | context, two removals, one addition, context located at `i` replace lines `i+1` and `i+2` by the addition, as the single-hunk test expects |
| UnifiedDiff.Locate | mentat/parsers/unified_diff_parser.py:139-187 | locating succeeds exactly when every hunk can be placed: its context lines are found in the file, or it has none and the file is empty |
| UnifiedDiff.LocateHunk | mentat/parsers/unified_diff_parser.py:141-164 | one hunk is placed exactly when it can be: a hunk without context lines only into an empty file (`NoContext` otherwise), any other hunk where its lines are found (`NotFound` otherwise) |
| UnifiedDiff.BuildEachChanges | mentat/parsers/unified_diff_parser.py:165-187 | a run opens only on a `+` or `-` line, so every replacement built from a hunk removes a line or adds one |
| UnifiedDiff.AddCodeEffect | mentat/parsers/unified_diff_parser.py:100-190 | any error leaves every edit unchanged; otherwise exactly the located replacements are appended to the current edit |
| ReplacementFormat.HeaderIsOneLine | mentat/parsers/replacement_parser.py:21-30 | a line that starts a header also ends it and could have been special while it streamed |
| ReplacementFormat.SpecialBlock | mentat/parsers/replacement_parser.py:40-87 | no words, one word or more than three after the `@` raise; success names the edit after the first word, with no replacements, and exactly one of creation, deletion, rename or code follows; non-code headers carry range 0..0 |
| ReplacementFormat.UpdateHeader | mentat/parsers/replacement_parser.py:59-64 | `@ f s e` is an update of lines `s-1` to `e-1`, turning the 1-based header into 0-based indices |
| ReplacementFormat.ActionHeader | mentat/parsers/replacement_parser.py:47-58 | `@ f +` creates, `@ f -` deletes, any other second word renames to that word; none of them has code |
| ReplacementFormat.InfoOf | mentat/parsers/replacement_parser.py:40 | the words after `@` of a header line written from single words are those words |
| ReplacementFormat.ClosedBlock | mentat/parsers/replacement_parser.py:101-106 | a block closed by a lone `@` yields exactly its code lines |
| ReplacementFormat.UnclosedBlockAsWritten | mentat/parsers/replacement_parser.py:105 | a block the stream ends without closing loses its last code line as written |
| ReplacementFormat.UnclosedBlock | mentat/parsers/replacement_parser.py:101-106 | the corrected reading keeps every line of an unclosed block |
| ReplacementFormat.AddCodeAppendsOne | mentat/parsers/replacement_parser.py:94-106 | a code block appends exactly one replacement over the header's range to the current edit and changes nothing else |
| ReplacementFormat.CodeLines | mentat/parsers/replacement_parser.py:101-106 | the code lines are the `\n`-pieces of the block without its closing line (the last one or two pieces), in order, none holding a line break |
| ReplacementFormat.Callbacks | mentat/parsers/replacement_parser.py:94-106 | a code block of lines without a line break, closed by `@` or not, adds one replacement over the header's range holding exactly those lines |
| Parsing.PathIndex | mentat/parsers/parser.py:165 | the index of the edit for a path, or -1 exactly when no edit has that path |
| Parsing.MergeFacts | mentat/parsers/parser.py:164-179 | merging keeps one edit per path in first-seen order: a new path is appended, a known one is updated in place, and the returned index holds that path's edit |
| Parsing.AbsorbFacts | mentat/parsers/parser.py:167-179 | a merged edit ORs the creation and deletion flags, keeps path and replacements, and only a new rename replaces the stored one |
| Parsing.FileLinesFor | mentat/parsers/parser.py:244-254 | a renamed path is read under its old name, other paths under their own, and a missing file has no lines |
| Parsing.AddCodePaths | mentat/parsers/parser.py:208-213 | adding code changes no edit's path |
| Parsing.EndSpecialValid | mentat/parsers/parser.py:126-179 | finishing a header keeps the loop invariant: one edit per path and a current edit that exists |
| Parsing.EndLineValid | mentat/parsers/parser.py:119-221 | finishing a line keeps the loop invariant and the message |
| Parsing.ConsumeValid | mentat/parsers/parser.py:87-221 | each piece keeps the loop invariant and is appended to the message |
| Parsing.Feed | mentat/parsers/parser.py:82-221 | feeding the pieces one by one keeps the parser invariant; when no piece ends the run early the message is exactly the pieces received, in order; an early return carries edits with distinct paths |
| Parsing.Parse | mentat/parsers/parser.py:69-241 | the returned edits have distinct paths, however often the response names a file; a run that is not cut short keeps the whole response as the message, and an early return is passed on as it is |
| Parsing.ModelErrorKeepsEdits | mentat/parsers/parser.py:137-147 | a header the format rejects with `ModelError` ends the loop with the message so far and the edits collected before it |
| Parsing.RenameRetargets | mentat/parsers/parser.py:153-162 | a rename records new name to old name, and a header naming a renamed file edits the old path |
| Parsing.UnclosedBlockIsAdded | mentat/parsers/parser.py:222-233 | when the stream ends inside a code block the block is still handed to the format and appended to the current edit |
| Parsing.InterruptDropsOpenBlock | mentat/parsers/parser.py:83-241 | on an interrupt the edits collected so far are returned and nothing more is added |
| Embeddings.TotalAppend | mentat/embeddings.py:25 | the token total of a batch grows by exactly the appended item's size |
| Embeddings.FirstFit | mentat/embeddings.py:24-28 | the batch chosen is the earliest with room for the item; every earlier one lacks room; none chosen means none has room |
| Embeddings.PlaceFirstFit | mentat/embeddings.py:22-30 | a new batch is opened exactly when no batch has room, otherwise the item joins the earliest batch with room and no other batch changes |
| Embeddings.KeysOfAppend | mentat/embeddings.py:16-31 | the keys of joined batches are the keys of each, in order |
| Embeddings.InsertKeys | mentat/embeddings.py:17-19 | inserting an item while sorting adds exactly its key |
| Embeddings.VisitKeys | mentat/embeddings.py:17-19 | sorting by size keeps the same keys |
| Embeddings.FlattenAppend | mentat/embeddings.py:29-30 | a new batch's keys follow the existing ones |
| Embeddings.FlattenUpdate | mentat/embeddings.py:26 | appending to one batch adds exactly that key |
| Embeddings.PlaceKeys | mentat/embeddings.py:22-30 | placing an item adds exactly its key to the batches |
| Embeddings.KeysCons | mentat/embeddings.py:21 | the keys of a list are its head's key and its tail's keys |
| Embeddings.PackKeys | mentat/embeddings.py:21-30 | packing a list of items adds exactly their keys |
| Embeddings.BatchFfd | mentat/embeddings.py:16-31 | the batches hold every key of the dictionary, as often as it occurs there, and nothing else |
| Embeddings.DistinctOnce | mentat/embeddings.py:16 | a dictionary's key occurs once in its keys, others not at all |
| Embeddings.EveryKeyOnce | mentat/embeddings.py:16-31 | every dictionary key lands in exactly one batch, once, and nothing else does |
| Embeddings.PlaceFits | mentat/embeddings.py:24-30 | placing an item keeps every batch non-empty and within capacity unless it holds a single oversized item |
| Embeddings.PackFits | mentat/embeddings.py:21-30 | packing keeps that shape for any number of items |
| Embeddings.PlaceDescending | mentat/embeddings.py:24-30 | an item no larger than those placed keeps sizes non-increasing inside each batch |
| Embeddings.PackDescending | mentat/embeddings.py:21-30 | items arriving largest first leave every batch non-increasing in size |
| Embeddings.BatchFfdShape | mentat/embeddings.py:16-31 | `_batch_ffd`'s batches are non-empty, within `batch_size` unless a single item exceeds it, and largest first inside each batch |
| Embeddings.VisitExample | mentat/embeddings.py:17-19 | items of 4, 5 and 3 tokens are visited as 5, 4, 3 |
| Embeddings.PackExample | mentat/embeddings.py:21-30 | with room for 8, the 3 joins the 5 and the 4 stays alone |
| Embeddings.FfdExample | mentat/embeddings.py:16-31 | the batches of `{a: 4, b: 5, c: 3}` with room for 8 are `[[b, c], [a]]` |
| Embeddings.Put | mentat/embeddings.py:80 | assigning a dictionary key keeps the key order and appends a new key at the end |
| Embeddings.AddFeaturesKeys | mentat/embeddings.py:73-80 | a key is to be embedded exactly when it was already, or some feature within the token limit and missing from the database has that checksum |
| Embeddings.ToEmbedKeys | mentat/embeddings.py:68-80 | exactly the new prompt and the new, not oversized features are sent for embedding |
| Embeddings.SingletonNeverEmbedded | mentat/embeddings.py:84-93 | as written, a new prompt with no features forms a batch of one, is never embedded, and the lookup of its embedding fails |
| Embeddings.ScoreEachFacts | mentat/embeddings.py:94-101 | when every not-skipped feature has an embedding, there is one score per feature, 0.0 exactly for the skipped ones |
| Embeddings.EmbeddedAll | mentat/embeddings.py:84-90 | with every batch sent, every batched key is embedded |
| Embeddings.Scores | mentat/embeddings.py:54-101 | with every batch embedded, scoring never fails, gives one score per feature, 0.0 exactly for features over 8192 tokens and otherwise the similarity to that feature's embedding |
| Embeddings.EverythingEmbedded | mentat/embeddings.py:68-93 | the prompt and every feature that is not skipped end up in the database once all batches are embedded |
| ChromaScores.CreateQueryFacts | mentat/embeddings2.py:35-43 | the filter's leaves are exactly the given checksums in order; it is one flat `$or` exactly when there are at most 10, and otherwise every leaf lists 5 to 10 checksums |
| ChromaScores.SmallLeaf | mentat/embeddings2.py:37-38 | a half of at least 5 checksums is either split further or a leaf of 5 to 10 |
| ChromaScores.QueryExample | mentat/embeddings2.py:39-43 | eleven checksums split into a leaf of five and a leaf of six |
| ChromaScores.CollectFacts | mentat/embeddings2.py:116-122 | the embedding loop keeps its list free of repeated checksums and of unwanted features, and a checksum ends in it exactly when it was there or a wanted feature carries it |
| ChromaScores.ToEmbedFacts | mentat/embeddings2.py:111-122 | each distinct checksum of a feature within the token limit and not yet stored is embedded exactly once, and nothing else is |
| ChromaScores.SimilarityScores | mentat/embeddings2.py:97-165 | a missing context size raises; at most 250 features are scored; an oversized prompt or a declined cost gives all zeros; otherwise each score is the store's distance for that feature's checksum, unless the lookup of an unstored checksum raises `KeyError` |
| ChromaScores.SimilarityScoresKeyError | mentat/embeddings2.py:111-165 | with the prompt within the context size and the cost accepted, scoring raises `KeyError` exactly when some considered feature is neither in the store nor small enough to be embedded, since its distance is then never returned |
| ChromaScores.OversizedUnstoredRaises | mentat/embeddings2.py:116-118 | a single feature of 9 tokens under a limit of 5, not yet stored, makes the score lookup raise `KeyError` |
| AutoCompleter.ReplaceLastWordAppend | mentat/auto_completer.py:23-40 | filtering candidates distributes over concatenation, so the kept ones keep their order |
| AutoCompleter.ReplaceLastWordKeeps | mentat/auto_completer.py:23-40 | every completion comes from a candidate whose display starts with the last word and sits at the common position, and every such candidate is kept |
| AutoCompleter.EmptyWordKeepsAll | mentat/auto_completer.py:23-40 | an empty last word at position 0 keeps every candidate, in order |
| AutoCompleter.NothingOutsideCommands | mentat/auto_completer.py:111-122 | a blank buffer, or one that does not start with `/`, gets no suggestions |
| AutoCompleter.CommandNames | mentat/auto_completer.py:79-119 | a `/` buffer without a space completes exactly the command names starting with the typed word, placed back over that word |
| AutoCompleter.NamesKept | mentat/auto_completer.py:80-83 | the name candidates kept are exactly the names starting with the word, each shown as itself |
| AutoCompleter.ArgumentBuffer | mentat/auto_completer.py:85-86 | the command is the text before the first space and the argument buffer everything after it |
| AutoCompleter.TrailingWhitespace | mentat/auto_completer.py:96-108 | trailing whitespace outside a quote starts a new empty argument: every completion the command offers for the next index is kept, quoted, at position 0 |
| Selection.KeepFacts | mentat/feature_filters/truncate_filter.py:32-33 | keeping the listed levels and the feature's own, in rank order, gives exactly those levels, strictly ascending |
| Selection.LevelsAscending | mentat/feature_filters/truncate_filter.py:33 | the ranks order all levels strictly, and every level is ranked |
| Selection.Candidates | mentat/feature_filters/truncate_filter.py:32-33 | a feature always has at least one candidate level, its own |
| Selection.CandidatesFacts | mentat/feature_filters/truncate_filter.py:32-33 | the candidate levels are exactly the configured ones and the feature's own, most detailed first, without repeats |
| Selection.Choose | mentat/feature_filters/truncate_filter.py:34-43 | the level chosen is one of the candidates |
| Selection.ChooseFacts | mentat/feature_filters/truncate_filter.py:34-43 | the chosen level fits the remaining budget unless forced, every earlier one does not, nothing is chosen exactly when none fits, and a forced feature takes the first candidate |
| Selection.StepFacts | mentat/feature_filters/truncate_filter.py:31-43 | a taken feature is the input at one of its candidate levels and fits unless forced; a user-included feature is always taken at its first candidate |
| Selection.StepFits | mentat/auto_context.py:60-68 | a feature not forced in is taken only if it fits the remaining budget |
| Selection.SelectWithinBudget | mentat/auto_context.py:58-70 | unless something is forced in, the selected features' tokens add up to at most the budget |
| Selection.Select | mentat/feature_filters/truncate_filter.py:29-45 | the output is a subsequence of the input, never longer, each feature at one of its candidate levels |
| Selection.PickedSkip | mentat/feature_filters/truncate_filter.py:31-34 | dropping a feature keeps the output a subsequence of the input |
| Selection.UserIncludedAlwaysKept | mentat/feature_filters/truncate_filter.py:36-43 | with the user-include rule, a user-included feature is taken at its most detailed candidate level whatever it costs, and the budget may go negative |
| Selection.FirstFittingLevel | mentat/auto_context.py:60-68 | a feature not forced in is taken at the most detailed candidate level that fits, and dropped exactly when no candidate fits |
| Selection.TruncateLevelsUsed | mentat/feature_filters/truncate_filter.py:23-28 | the truncate filter only offers the file-name level, the code-map levels when enabled, and the feature's own |
| Selection.TruncateFilter | mentat/feature_filters/truncate_filter.py:18-45 | the kept features are a subsequence of the input, each at a level of the truncation order (code maps only when enabled); when no feature is forced in, nothing or something within the token budget is kept |
| Selection.GreedySelect | mentat/auto_context.py:47-70 | the greedy selector's output fits the budget and is a subsequence of the input at candidate levels |
| Selection.CandidatesWithName | mentat/feature_filters/truncate_filter.py:32-33 | a full-code feature offered the file-name level tries full code, then the file name |
| Selection.CandidatesAlone | mentat/feature_filters/truncate_filter.py:32-33 | a full-code feature offered no other level tries only full code |
| Selection.StepTwo | mentat/feature_filters/truncate_filter.py:34-43 | with two candidates and nothing forced, the first that fits is taken, else none |
| Selection.StepOne | mentat/auto_context.py:63-68 | with a single candidate, the feature is taken exactly when it fits |
| Selection.SelectOne | mentat/auto_context.py:60-70 | on one feature the output is that feature's step |
| Selection.SelectTwo | mentat/auto_context.py:60-70 | on two features the second is tried against what the first left |
| Selection.BothTaken | mentat/auto_context.py:60-70 | when both steps take their feature, both are output, in order |
| Selection.TruncateUnder100 | mentat/feature_filters/truncate_filter.py:18-45 | two files of 188 and 87 tokens under 100: the first by name, the second in full |
| Selection.TruncateUnder200 | mentat/feature_filters/truncate_filter.py:18-45 | under 200: the first in full, the second by name |
| Selection.TruncateUnder188 | mentat/feature_filters/truncate_filter.py:18-45 | under 188: the first in full uses the whole budget and the second is dropped |
| Selection.GreedyUnder100 | mentat/auto_context.py:47-70 | with no extra levels, 100 keeps only the 87-token file |
| Selection.GreedyUnder200 | mentat/auto_context.py:47-70 | with no extra levels, 200 keeps only the 188-token file |
| Selection.GreedyByName | mentat/auto_context.py:47-70 | with the file-name level, 100 keeps the first file by name and the second in full |
| Selection.GetFeatureSelector | mentat/auto_context.py:172-176 | the LLM selector exactly when asked for |
| Selection.Matching | mentat/auto_context.py:151-156 | the matching inputs are exactly those with the same path whose interval intersects the selected one |
| Selection.FirstTruthyFacts | mentat/auto_context.py:161-166 | a truthy value is found exactly when one exists, and it is the first one |
| Selection.FirstTruthyOfMatching | mentat/auto_context.py:161-166 | `next(...)` over the matching inputs finds a value exactly when some match has a truthy one, and then it is the value of the first such match in input order |
| Selection.CopyMetadata | mentat/auto_context.py:150-166 | one selected feature: it is copied exactly when some input matches it (`ValueError` otherwise), and the copy keeps its path, interval and level, is user-included exactly when a match is, and takes the diff (and name) of the first match in input order that has a truthy one |
| Selection.LlmSelect | mentat/auto_context.py:148-169 | the LLM selection fails exactly when matching fails; otherwise the greedy pass keeps it within the budget, as a subsequence of the matched features |
| Conversation.TextOfAppend | mentat/conversation.py:317-327 | the text of joined part lists is the text of each, in order |
| Conversation.ImagesHaveNoText | mentat/conversation.py:323-326 | a message of image parts only has no text |
| Conversation.AddUserMessage | mentat/conversation.py:83-100 | adding a user message appends exactly one user message and one transcript entry and keeps everything before |
| Conversation.UserContentText | mentat/conversation.py:83-98 | whatever image is attached, the user's text reads back unchanged; with an image the content has a text part and an image part |
| Conversation.AddModelMessage | mentat/conversation.py:102-118 | adding a model message appends it as an assistant message carrying its parsed response, and logs its text |
| Conversation.ClearMessages | mentat/conversation.py:206-208 | clearing empties the model-facing list and keeps the transcript |
| Conversation.LastAmendable | mentat/conversation.py:329-331 | the index found is the last user message with text, or none exists |
| Conversation.Amend | mentat/conversation.py:329-334 | with no user message with text nothing changes and nothing is returned; otherwise the list is cut just before the last such message, whose text is returned, and no later message has text |
| Conversation.AmendUndoesAdd | mentat/conversation.py:329-334 | `amend` right after adding a user message with text restores the list and returns that text |
| Conversation.Texts | mentat/conversation.py:160-163 | the text parts never outnumber the parts |
| Conversation.Cleaned | mentat/conversation.py:147-156 | removing metadata keeps the number of messages |
| Conversation.CodePart | mentat/conversation.py:168-182 | one code message exactly when it is asked for |
| Conversation.GetMessages | mentat/conversation.py:135-204 | the assembled list starts with the system prompt (none with `no_parser_prompt`), then one system code message when asked for, then every conversation message in order with its role and content, assistant ones without their parsed response unless it is asked for |
| Conversation.LastPromptOfImageMessage | mentat/conversation.py:158-163 | the prompt of a text-and-image message is its text |
| Conversation.CanAddToContext | mentat/conversation.py:248-262 | a message fits exactly when the remaining context is known and exceeds its tokens plus the buffer |
| Conversation.CanAddMonotone | mentat/conversation.py:248-262 | what fits still fits when it is smaller or there is more room |
| Conversation.Wording | mentat/conversation.py:57-64 | the wording is plural exactly when its first letter is `s`, and says "close to" exactly when the limit is not exceeded |
| Conversation.TokenReportFacts | mentat/conversation.py:47-73 | a warning exactly when the count plus the buffer exceeds the context size, naming files in the plural exactly when more than one is included |
| CodeContext.Keys | mentat/code_context.py:309-312 | the keys of a table, one per entry, in insertion order |
| CodeContext.IncludeFile | mentat/code_context.py:307-312 | `include_file` reports every resolved path, new or not, in order |
| CodeContext.AddNewFacts | mentat/code_context.py:309-311 | including keeps the existing entries first and unchanged and the paths distinct; afterwards a path is included exactly when it was before or was resolved, and every added entry was resolved |
| CodeContext.AddFresh | mentat/code_context.py:309-311 | paths that are all new are appended in the order resolved |
| CodeContext.DeleteKeys | mentat/code_context.py:323 | deleting a path removes exactly that path |
| CodeContext.DeleteThenWithout | mentat/code_context.py:320-323 | deleting one listed path then the rest is deleting all of them |
| CodeContext.WithoutAppend | mentat/code_context.py:320-323 | deleting from a split table deletes from each part |
| CodeContext.PresentAfterDelete | mentat/code_context.py:320-322 | deleting a path not listed later does not change which later paths are found |
| CodeContext.ExcludeFileFacts | mentat/code_context.py:314-324 | `exclude_file` leaves exactly the entries whose path was not listed, in order, and returns exactly the listed paths that were included, in the order listed |
| CodeContext.ExcludeFile | mentat/code_context.py:314-324 | after `exclude_file` a path is included exactly when it was and was not listed, and reported removed exactly when it was listed and included |
| CodeContext.AbsentWithout | mentat/code_context.py:320-323 | listing a path that is not included changes nothing |
| CodeContext.PresentMembers | mentat/code_context.py:320-322 | a path is reported exactly when it was listed and included |
| CodeContext.WithoutMembers | mentat/code_context.py:320-323 | a path stays exactly when it was included and not listed |
| CodeContext.WithoutAll | mentat/code_context.py:320-323 | listing every included path empties the table |
| CodeContext.WithoutNone | mentat/code_context.py:320-323 | listing no included path leaves the table unchanged |
| CodeContext.PresentAll | mentat/code_context.py:320-322 | listing only included paths reports all of them |
| CodeContext.ExcludeUndoesInclude | mentat/code_context.py:307-324 | excluding the paths an `include_file` call added restores the table and reports exactly those paths |
| CodeContext.AutoBudget | mentat/code_context.py:186-197 | only the included features exactly when they already fill the limit or auto tokens are 0; otherwise a non-zero budget no larger than what is left nor than the user's setting, equal to one of them |
| CodeContext.AutoBudgetMonotone | mentat/code_context.py:189-194 | a larger overall limit never turns auto context off or shrinks its budget |
| CodeContext.Header | mentat/code_context.py:177-184 | five header lines with a diff, one without, ending with `Code Files:` |
| CodeContext.GetCodeMessage | mentat/code_context.py:152-165 | the message returned is the one left in the cache; the cached message is reused, with the cache unchanged, when there is one and the checksum matches; otherwise the fresh message is returned and stored with the checksum taken after computing it |
| CodeContext.SecondCallReusesMessage | mentat/code_context.py:152-165 | a second call in an unchanged state returns the first message |
| CodeContext.ChangedChecksumRecomputes | mentat/code_context.py:158-164 | a changed checksum makes the next call return the recomputed message |
| CodeContext.PiecesText | mentat/code_context.py:210 | one range text per interval |
| CodeContext.PathTextRoundTrip | mentat/code_context.py:209-215 | the text built for an interval feature splits at its first `:` into the file and a range list that parses back to the same intervals |
| CodeContext.SplitAtFirst | mentat/code_context.py:211 | splitting `a:b` at the first `:` when `a` has none gives `a` and `b` |
| CodeContext.IntervalFeatureLosesDiff | mentat/code_context.py:209-214 | as written, an interval feature of a file in the diff gets no diff, because its path text is compared with the diff's paths |
| CodeContext.IncludeFeature | mentat/code_context.py:208-216 | corrected: a feature keeps its file and level and carries the diff target exactly when its file is in the diff |
| CodeContext.IncludeFeatureAgrees | mentat/code_context.py:208-216 | as written and corrected agree on every feature that is not an interval |
| CodeContext.Unsorted | mentat/code_context.py:208-216 | one feature per included path, in table order |
| CodeContext.IncludeFeatures | mentat/code_context.py:203-221 | the include features are sorted by relative path, are the same features as the table gives, and features of equally ranked paths keep table order |
| CodeContext.IncludeFeatureFromEntry | mentat/code_context.py:203-221 | every include feature is built from one of the entries |
| CodeContext.FirstFittingLevel | mentat/code_context.py:242-262 | the level chosen is the first whose features total less than the auto budget; none is chosen exactly when none does |
| CodeContext.AutoLevelChoice | mentat/code_context.py:239-262 | full code is never added automatically, with no code map only file names are, and a code map that fits is taken first |
| CodeContext.SimBudget | mentat/code_context.py:272-275 | the swap budget is what is left after the selected features, capped by the auto-token setting |
| CodeContext.Swaps | mentat/code_context.py:277-303 | without embeddings, budget or prompt no swap is made; otherwise a swap is made exactly when its forecast is positive given the earlier ones, and the tokens gained stay below the budget |
| CodeContext.TakenStep | mentat/code_context.py:300-303 | one more decision by forecast keeps every decision matching its forecast |
| CodeContext.GainedPrefix | mentat/code_context.py:302 | a new decision leaves the earlier running totals alone and adds its own gain |
| CodeContext.GainedSame | mentat/code_context.py:302 | the running total depends only on the decisions so far |
| ContextTree.SetFlag | mentat/context_tree/node.py:77-79 | setting one key changes exactly that key to the given value and leaves every other key as it was |
| ContextTree.GetItem | mentat/context_tree/node.py:47-64 | a relative path finds a node exactly when following its parts child by child does, and finds that node; the empty path is the node itself; an absolute path outside the node raises `ValueError` |
| ContextTree.GetItemAbsolute | mentat/context_tree/node.py:51-52 | an absolute path below the node finds the same node as the path made relative to it |
| ContextTree.GetItemChild | mentat/context_tree/node.py:55-64 | a one-part path finds the child of that name, and a name the node lacks raises `KeyError` |
| ContextTree.WalkFiltered | mentat/context_tree/node.py:66-73 | the `include_dirs`/`include_files` flags only filter the full depth-first walk, keeping its order |
| ContextTree.Walk | mentat/context_tree/node.py:66-73 | `iter_nodes` yields only the kinds asked for: filtering its output again by the directory and file flags changes nothing |
| ContextTree.InWalk | mentat/context_tree/node.py:66-73 | every visit of the walk is the start node itself or lies in one of its children's walks |
| ContextTree.WalkFound | mentat/context_tree/node.py:47-73 | every node `iter_nodes` yields sits at a location below the start, and `node[location]` finds exactly that node |
| ContextTree.FoundBelow | mentat/context_tree/node.py:55-62 | a node found below a child is found from the parent by prefixing the child's name |
| ContextTree.ApplyFacts | mentat/context_tree/node.py:77-79 | after applying an update list, each key given in it holds its (last) given value and every other key is unchanged |
| ContextTree.UpdateSettings | mentat/context_tree/node.py:77-82 | the node keeps its name, kind and position, its settings become the updated ones, and without `recursive` its children are untouched |
| ContextTree.UpdateWalk | mentat/context_tree/node.py:77-82 | a recursive update reaches the whole subtree: the updated tree's walk visits the same locations, each holding its node with the updates applied |
| ContextTree.UpdateReachesSubtree | mentat/context_tree/node.py:77-82 | the i-th node of the subtree keeps its location and gets exactly the updated settings |
| ContextTree.CountIsWalkSum | mentat/context_tree/node.py:92-99 | the recursive token count equals the sum of every node's own count over the depth-first walk |
| ContextTree.RefreshedHash | mentat/context_tree/file_node.py:25-28 | after a refresh the stored hash is the hash of the current content, whatever was stored before |
| ContextTree.FileMessage | mentat/context_tree/file_node.py:37-61 | raises `MentatError` exactly when `diff` is set without annotations; an included file is its path then its lines; a diff-only file starts with its path and its annotation lines; no setting gives no lines |
| ContextTree.IncludedIgnoresCodeMap | mentat/context_tree/file_node.py:43-49 | an included file returns before the code map is consulted, so the code map does not affect its message |
| ContextTree.CodeMapOnly | mentat/context_tree/file_node.py:57-61 | a file with only `code_map` set yields the code map, with signatures excluded unless `include_signature` is set |
| ContextTree.HasChildWithSettingIff | mentat/context_tree/directory_node.py:20-27 | `_has_child_with_setting` holds iff some file strictly below the directory has the setting |
| ContextTree.AnyChildWithSettingIff | mentat/context_tree/directory_node.py:20-27 | the loop over any child list finds the setting iff some file in those children's walks has it |
| ContextTree.Selected | mentat/context_tree/directory_node.py:82-88 | the listed children are exactly the children that are included or are directories with an included file below them |
| ContextTree.Display | mentat/context_tree/directory_node.py:77-80 | a directory that is neither included nor has an included file below prints nothing |
| ContextTree.MessageIsWalkConcat | mentat/context_tree/directory_node.py:109-116 | the recursive code message is the concatenation of every node's own message in `iter_nodes` order, the first error propagating |
| ContextTree.Message | mentat/context_tree/directory_node.py:109-116 | a directory's own message is its posix path with a trailing slash when a file below is included, and empty otherwise; recursively that line comes first; a file gives its file message |
| ContextTree.TopParts | mentat/context_tree/directory_node.py:46-59 | the first path part is taken of every listed path; it succeeds iff every path has a part, and otherwise raises `IndexError` naming no value |
| ContextTree.FreshMembers | mentat/context_tree/directory_node.py:61-63 | the added names are exactly the active names that were not already children |
| ContextTree.PruneMembers | mentat/context_tree/directory_node.py:72-74 | a previous child is kept iff it stays by the removal rule (still active, or included) |
| ContextTree.CreatedMembers | mentat/context_tree/directory_node.py:65-71 | every created child comes from an added name that is a directory or text file, and every such name gets its child |
| ContextTree.AddChildrenAppends | mentat/context_tree/directory_node.py:65-71 | storing new, distinct names appends their nodes after the existing children, in order |
| ContextTree.RefreshClosedForm | mentat/context_tree/directory_node.py:44-74 | a refresh yields the kept previous children in their order, followed by one new child per newly listed directory or text name, in sorted order |
| ContextTree.RefreshKeeps | mentat/context_tree/directory_node.py:61-74 | a previous child survives a refresh unchanged iff it is still listed or is included |
| ContextTree.RefreshAdds | mentat/context_tree/directory_node.py:61-71 | a name not seen before gets a child iff it is listed and is a directory or a text file |
| ContextTree.WalkDirectory | mentat/context_tree/node.py:66-73 | a directory's walk is itself (when directories are asked for) followed by its children's walks |
| ContextTree.LeavesWalk | mentat/context_tree/node.py:66-73 | three file leaves are visited in order, and only when files are asked for |
| ContextTree.IterNodesExample | mentat/context_tree/node.py:66-73 | the navigation test's walk: the two directories (if asked for) and then the three files, in that order |
| ContextTree.UpdateExample | mentat/context_tree/node.py:77-82 | including a directory marks only it; recursively, it marks its whole subtree |
| ContextTree.DisplayNothingExample | mentat/context_tree/directory_node.py:77-80 | the test bed with nothing included displays nothing |
| ContextTree.DisplayFileFirst | mentat/context_tree/directory_node.py:90-105 | a file child in a directory without `diff` prints one uncoloured line with `├── `, or `└── ` when last |
| ContextTree.DisplayLastDirectory | mentat/context_tree/directory_node.py:90-107 | a directory listed last prints its name in blue after `└── ` and then its own listing indented by four spaces |
| ContextTree.DisplayLeaves | mentat/context_tree/directory_node.py:77-105 | an included directory of three files lists them with `├── ` and a final `└── ` |
| ContextTree.IncludedRootShows | mentat/context_tree/directory_node.py:79-88 | in a root whose only included branch is one directory, that directory alone is listed and the root is shown |
| ContextTree.DisplayIncludedExample | mentat/context_tree/directory_node.py:77-107 | only the included branch is drawn: `└── scripts` in blue, then its three files one level further in |
| FileNodes.Descend | mentat/file_node.py:25-34 | following relative parts succeeds iff each part names a child in turn, finds that node, and otherwise raises `KeyError` |
| FileNodes.GetItemAsWritten | mentat/file_node.py:20-34 | as written, an absolute path is made relative to the root's path (`ValueError` when it is not below it); a relative path is followed from the node itself, as `Descend` does |
| FileNodes.GetItem | mentat/file_node.py:20-34 | corrected indexing: an absolute path is made relative to the node's own path before descending (`ValueError` when it is not below it); a relative path is followed from the node |
| FileNodes.GetItemAbsolute | mentat/file_node.py:23-24 | with the corrected rule, a node's absolute path below it finds what the relative remainder finds |
| FileNodes.GetItemAgreesAtRoot | mentat/file_node.py:23-24 | on the root node the code as written and the corrected rule agree on every path |
| FileNodes.AbsolutePathBelowRootFails | mentat/file_node.py:23-34 | as written, directory `a` of a tree rooted at `/r` raises `KeyError` for `/r/a/x` although it has the child `x`, which the corrected rule finds |
| FileNodes.WalkFiltered | mentat/file_node.py:36-45 | the flags only filter the full walk, in order: files below an unlisted directory are still reached |
| FileNodes.InWalk | mentat/file_node.py:36-45 | every visit of the walk is the start node itself or lies in one of its children's walks |
| FileNodes.WalkFound | mentat/file_node.py:20-45 | every node `iter_nodes` yields lies at a location below the start, and indexing by the relative location finds exactly that node |
| FileNodes.FoundBelow | mentat/file_node.py:28-34 | a node found below a child is found from the parent by prefixing the child's name |
| FileNodes.WalkDirectoryFirst | mentat/file_node.py:39-43 | a directory child contributes itself, then its children's walks, before its later siblings |
| FileNodes.IterNodesExample | mentat/file_node.py:36-45 | the initialisation test's order: `.`, the two top-level files, then the directory followed by its two files |
| FileNodes.RefreshAll | mentat/file_node.py:54-56 | refreshing existing children keeps their number and their names in place |
| FileNodes.Refresh | mentat/file_node.py:47-58 | a refresh keeps the node's name and kind |
| FileNodes.CreatedNames | mentat/file_node.py:57-58 | new nodes are created for exactly the names not yet children, in the order visited |
| FileNodes.Fresh | mentat/file_node.py:49-53 | the fresh names are exactly the listed names that are not already children |
| FileNodes.SweepNames | mentat/file_node.py:54-58 | the loop over sorted names keeps every previous child's name in place and appends each name not seen before, keeping names distinct |
| FileNodes.RefreshKeepsChildren | mentat/file_node.py:47-58 | a directory refresh keeps every child, manually added ones included, in place, and appends one child per newly listed name in sorted order |
| FileNodes.RefreshNames | mentat/file_node.py:49-58 | after a refresh a name is a child iff it was a child before or is listed by git |
| FileNodes.ReadText | mentat/file_node.py:71-75 | reading raises `MentatError` exactly for a directory and otherwise returns the file's text |
| FileNodes.WriteText | mentat/file_node.py:77-81 | writing through the tree keeps the root's name |
| FileNodes.WriteElsewhere | mentat/file_node.py:77-81 | writing one file leaves every subtree that does not contain it as it was |
| FileNodes.ChecksumIgnoresOrder | mentat/file_node.py:83-89 | a directory's checksum is taken over its children in sorted-name order, so the same children added in any order give the same checksum |
| FileNodes.WriteKeepsOtherChecksums | mentat/file_node.py:77-92 | writing a file leaves the checksum of every subtree that does not contain it unchanged |
| History.Load | mentat/terminal/history_suggester.py:13-14 | the loaded history has at least one entry (the piece after the last newline), and no entry contains a newline |
| History.AppendToHistory | mentat/terminal/history_suggester.py:17-18 | the submission becomes the newest entry and every earlier entry stays in place |
| History.Search | mentat/terminal/history_suggester.py:23-30 | the search gives nothing iff no entry starts with the value (after folding), and otherwise the folded newest entry that does |
| History.GetSuggestion | mentat/terminal/history_suggester.py:22-30 | `get_suggestion` returns the newest matching entry, casefolded in case-insensitive mode, and `None` iff no entry matches |
| History.NewestWins | mentat/terminal/history_suggester.py:17-30 | a matching submission is what gets suggested right after it is appended |
| History.NonMatchingAppend | mentat/terminal/history_suggester.py:17-30 | appending a submission that does not match leaves the suggestion unchanged |
| History.SearchFolded | mentat/terminal/history_suggester.py:25-28 | folding the value again on every round changes nothing: searching for the folded value is searching for the value |
| History.InsensitiveExample | mentat/terminal/history_suggester.py:25-29 | in case-insensitive mode, `Y` against the entry `Yes` suggests the casefolded `yes` |
| IncludeFiles.AnyPart | mentat/include_files.py:36-38 | the inner loop holds iff some component of the path matches the pattern |
| IncludeFiles.MatchPath | mentat/include_files.py:29-39 | a path matches iff some pattern matches the whole path string or one of its components |
| IncludeFiles.FilePart | mentat/include_files.py:100-101 | the file part of a path is everything before its first `:`, or the whole path when it has none |
| IncludeFiles.ValidatePath | mentat/include_files.py:99-109 | validation succeeds iff the file part exists and, when text is required, reads as text; it fails only with a missing-path or unreadable-file error |
| IncludeFiles.ValidateInterval | mentat/include_files.py:100-104 | an interval path is valid exactly when its file is; the interval text is never checked |
| IncludeFiles.AddChainHas | mentat/include_files.py:156-160 | adding one file's parts adds exactly the prefixes of that chain to the tree |
| IncludeFiles.BuildPathTreeHas | mentat/include_files.py:150-161 | the tree holds a chain of keys iff it leads toward some listed file, so shared prefixes share nodes and nothing else appears |
| IncludeFiles.BuildPathTree | mentat/include_files.py:150-161 | every level of the built tree has distinct keys |
| IncludeFiles.BlockColor | mentat/include_files.py:150-188 | in a tree built from files, the line printed for a key is blue exactly when some listed file lies below that key, and green exactly when none does and its path is among the changed files |
| IncludeFiles.DirectoryIffFileBelow | mentat/include_files.py:150-161 | in a tree that holds exactly the chains leading to listed files, a key has entries below it exactly when some listed file passes through it |
| IncludeFiles.PrintPathTree | mentat/include_files.py:164-188 | every line of a printed (sub)tree begins with that level's prefix |
| IncludeFiles.Block | mentat/include_files.py:171-188 | each key yields at least its own line, and every line of its block begins with the prefix of its level |
| IncludeFiles.BlockShape | mentat/include_files.py:171-188 | a key's line starts with `├── ` unless it is the last key, which gets `└── `; its subtree lines continue with `│   `, or with four spaces after the last key |
| IncludeFiles.BlockCorners | mentat/include_files.py:171-176 | a key's block carries this level's `└── ` once if it is the last key and never otherwise |
| IncludeFiles.PrintPathTreeCorner | mentat/include_files.py:169-176 | every non-empty level of a built tree is closed by exactly one `└── ` |
| LlmApi.ApiGuard | mentat/llm_api_handler.py:50-71 | the decorator fails with an assertion exactly in a pytest run without `--benchmark` whose benchmark flag is unset, empty or `false` |
| LlmApi.CallGuardAsWritten | mentat/llm_api.py:39-46 | the guard as written raises `MentatError` only when the benchmark flag is exactly `false` in a pytest run without `--benchmark` |
| LlmApi.GuardAsWrittenWeaker | mentat/llm_api.py:39-46 | whatever the written guard stops, the test-environment check of the handler stops too |
| LlmApi.UnsetFlagSlipsThrough | mentat/llm_api.py:40-44 | a plain pytest run with the benchmark flag unset passes the written guard although it is a test environment |
| LlmApi.CallGuard | mentat/llm_api_handler.py:50-57 | the corrected guard raises `MentatError` exactly in a test environment, and agrees with the written guard wherever that one fires |
| LlmApi.IsTestEnvironment | mentat/llm_api_handler.py:50-57 | `is_test_environment` holds exactly when pytest runs, `--benchmark` is not among the arguments, and `MENTAT_BENCHMARKS_RUNNING` is unset, empty or `"false"` |
| LlmApi.ContentTokens | mentat/llm_api.py:101-103 | the prompt count sums every message's `content`; it raises `KeyError` iff some message has no `content` |
| LlmApi.ContentTokensAppend | mentat/llm_api.py:101-103 | counting two message lists together adds their counts |
| LlmApi.ModelFor | mentat/llm_api.py:106-112 | the 32k model is chosen exactly when it is allowed and the count exceeds 8192 less the 500-token buffer; otherwise the 8k model |
| LlmApi.ChooseModel | mentat/llm_api.py:93-130 | `choose_model` returns the content token count and picks the 32k model iff allowed and the count exceeds 7692; it fails iff some message has no `content` |
| LlmApi.LongerConversationKeeps32k | mentat/llm_api.py:101-112 | adding messages never moves the choice back from the 32k model |
| LlmApi.CheckModelAvailability | mentat/llm_api.py:64-90 | the 32k flag survives exactly when the 32k model is available; a `UserError` is raised exactly when the 8k model is needed and missing |
| LlmApi.ChosenModelAvailable | mentat/llm_api.py:64-112 | after a successful check the chosen model is available, except a short prompt when only the 32k model is |
| LlmApi.ChunkToLines | mentat/llm_api_handler.py:84-88 | the pieces concatenate back to the first choice's content (empty without one), and each piece holds at most one line break of Python's set (`\r\n` counting as one), at its end |
| LlmApi.ChunkLinesEndInBreaks | mentat/llm_api_handler.py:83-88 | every piece but the last ends in a line break, and no `\r\n` pair is split between two pieces, so each chunk line is one whole line |
| LlmApi.CarriageReturnEndsLine | mentat/llm_api_handler.py:88 | a chunk `"a\rb"` is two lines, `"a\r"` and `"b"` |
| LlmApi.GetMaxTokens | mentat/llm_api_handler.py:128-152 | the limit is at most each known bound and equals one of them or 4096; the configuration changes iff both are unknown, and then it holds the 4096 used |
| LlmApi.GetMaxTokensStable | mentat/llm_api_handler.py:136-152 | once the default is written back, asking again gives the same limit and writes nothing new |
| LlmApi.IsContextSufficient | mentat/llm_api_handler.py:155-168 | the prompt is sufficient iff the token buffer still fits beside it within the maximum |
| LlmApi.SufficientDownward | mentat/llm_api_handler.py:155-168 | a smaller prompt still fits whenever a larger one does |
| LlmApi.OpenAiCountTokens | mentat/llm_api_handler.py:173-180 | the count is the encoded length plus exactly 4 framing tokens for a whole message |
| LlmApi.PartsTokens | mentat/llm_api_handler.py:197-214 | counting list content raises `KeyError` iff some part has no `type` |
| LlmApi.FieldTokens | mentat/llm_api_handler.py:196-218 | a string field costs its encoding, one less under `name`; a non-string field counts nothing unless it is list `content` |
| LlmApi.PromptTokens | mentat/llm_api_handler.py:183-220 | the prompt count is the messages' count plus the 2 reply-priming tokens, and an empty prompt costs 2 |
| LlmApi.PromptTokensAppend | mentat/llm_api_handler.py:191-220 | counting a prompt in two pieces overcounts by exactly the 2 priming tokens |
| LlmApi.MessagesTokensAppend | mentat/llm_api_handler.py:192-218 | the per-message counts add up over concatenated message lists |
| LlmApi.SingleMessage | mentat/llm_api_handler.py:173-220 | a plain role-and-content message costs the content's full-message count plus the role's tokens and the 2 priming tokens |
| LlmApi.NameField | mentat/llm_api_handler.py:215-218 | a `name` field costs its encoding less the one role token it replaces |
| LspSettings.UpdateSysPath | vscode/bundled/tool/lsp_server.py:19-25 | a directory not yet on the path is put first for `useBundled` and last for `fromEnvironment`; a present path, a non-directory or another strategy leaves the path unchanged |
| LspSettings.UpdateSysPathIdempotent | vscode/bundled/tool/lsp_server.py:19-25 | adding the same directory twice is the same as adding it once |
| LspSettings.WheelTag | vscode/bundled/tool/lsp_server.py:43 | reading a wheel's tag raises `IndexError` exactly when its name has fewer than three `-`-separated pieces, and otherwise fails only with `ValueError` |
| LspSettings.ThirdPiece | vscode/bundled/tool/lsp_server.py:43 | in a name `dist-version-tag...` the third `-`-separated piece is the tag |
| LspSettings.WheelTagOf | vscode/bundled/tool/lsp_server.py:43 | a wheel named `dist-version-cpNN...` yields the number NN |
| LspSettings.WheelTags | vscode/bundled/tool/lsp_server.py:42-43 | all tags are read in listing order iff every name has one; otherwise the error is that of the first name without one |
| LspSettings.UserVersion | vscode/bundled/tool/lsp_server.py:44 | the interpreter version is the major number followed by the minor number's digits, so 3.11 reads 311 |
| LspSettings.UserVersionParses | vscode/bundled/tool/lsp_server.py:44 | `int()` reads the concatenated version text without error, giving that number |
| LspSettings.ChooseWheelVersion | vscode/bundled/tool/lsp_server.py:42-45 | the version picked is the smaller of the newest bundled tag and the interpreter's own version; an empty listing raises `ValueError` from `max` |
| LspSettings.GlobalDefaults | vscode/bundled/tool/lsp_server.py:168-175 | the five defaulted keys each take the global setting when present and their fallback otherwise |
| LspSettings.Synthesised | vscode/bundled/tool/lsp_server.py:180-186 | the settings made up for a directory have it as `cwd` and `workspaceFS`, its URI as `workspace`, and the global defaults |
| LspSettings.Filed | vscode/bundled/tool/lsp_server.py:189-194 | an editor setting is filed under its workspace's filesystem path, keeping its own keys and recording that path as `workspaceFS` |
| LspSettings.FileAll | vscode/bundled/tool/lsp_server.py:189-194 | the loop raises `KeyError` iff some setting has no `workspace` key |
| LspSettings.FileAllGet | vscode/bundled/tool/lsp_server.py:189-194 | after filing, a key reads as the last setting filed under it, and any other key as before |
| LspSettings.UpdateKeepsKeysMatch | vscode/bundled/tool/lsp_server.py:178-194 | after an update every entry is still filed under its own `workspaceFS` |
| LspSettings.UpdateWorkspaceSettings | vscode/bundled/tool/lsp_server.py:178-194 | the update raises `KeyError` exactly when some setting from the editor has no `workspace` entry; with no settings, the current directory is filed with made-up settings and every other key keeps its value |
| LspSettings.Parent | vscode/bundled/tool/lsp_server.py:200 | a path is its own parent exactly when it is the bare root or empty |
| LspSettings.Ancestors | vscode/bundled/tool/lsp_server.py:200-204 | the loop visits the path and then each parent in turn, one fewer part each time, stopping before the root |
| LspSettings.WorkspaceValues | vscode/bundled/tool/lsp_server.py:198 | the set holds exactly the entries' `workspaceFS` values, and raises `KeyError` iff some entry lacks one |
| LspSettings.FirstIn | vscode/bundled/tool/lsp_server.py:200-204 | the loop stops at the first candidate that is a workspace, and finds none iff no candidate is |
| LspSettings.SettingsByPath | vscode/bundled/tool/lsp_server.py:197-207 | the lookup fails only with `KeyError`, or with `IndexError` on an empty table |
| LspSettings.ValuesAreKeys | vscode/bundled/tool/lsp_server.py:198 | when every entry records its own key, the workspace values are exactly the keys |
| LspSettings.NearestWorkspace | vscode/bundled/tool/lsp_server.py:197-204 | a path gets the settings of the nearest workspace at or above it |
| LspSettings.NoWorkspaceAbove | vscode/bundled/tool/lsp_server.py:206-207 | a path below no workspace gets the first entry, and `IndexError` on an empty table |
| LspSettings.DocumentKey | vscode/bundled/tool/lsp_server.py:210-221 | the key found is an ancestor of the document, and with no workspaces there is none |
| LspSettings.SettingsByDocument | vscode/bundled/tool/lsp_server.py:225-226 | without a document the first entry is returned, and an empty table raises `IndexError` |
| LspSettings.DocumentInWorkspace | vscode/bundled/tool/lsp_server.py:228-239 | inside a workspace a document gets exactly the settings its path does |
| LspSettings.DocumentOutsideWorkspaces | vscode/bundled/tool/lsp_server.py:228-237 | a document below no workspace gets settings made up for its parent directory, which becomes its workspace |
| Output.Normalise | mentat/terminal/output.py:15 | a normalised colour name holds no underscore |
| Output.FormatColor | mentat/terminal/output.py:14-21 | no colour gives the empty style; otherwise the normalised name, prefixed with `ansi` only when ANSI colours are wanted and it lacks that prefix; the style is empty exactly when the name normalises to nothing |
| Output.LightRed | mentat/terminal/output.py:14-21 | `light_red` prints as `ansibrightred`, or as `brightred` without ANSI names |
| Output.StreamOptions | mentat/terminal/output.py:44-51 | `end` and `color` are taken from a message's extras exactly when they hold strings; otherwise `end` is a newline and there is no colour |
| Output.OtherKeysIgnored | mentat/terminal/output.py:47-51 | extras other than `end` and `color` do not change how a message prints |
| Output.NonStringColour | mentat/terminal/output.py:50-51 | a colour that is not a string leaves the message unstyled |
| PathParts.Parse | mentat/include_files.py:102-104 | parsing gives an absolute path exactly for a string starting with `/`, with no empty or `.` parts |
| PathParts.ParseFormat | mentat/context_tree/directory_node.py:112 | rendering a path with `as_posix` and parsing it back gives the same path |
| PathParts.JoinPath | mentat/utils/path.py:36-39 | joining onto a base appends the parts, and an absolute path replaces the base |
| PathParts.RelativeTo | mentat/context_tree/node.py:51-52 | `relative_to` succeeds exactly when the base is a leading part of the path, and gives the remaining parts as a relative path |
| PathParts.RelativeToJoined | mentat/context_tree/node.py:51-52 | `relative_to` undoes joining parts onto a base |
| PathUtils.AbsoluteRelative | mentat/utils/path.py:36-39 | a relative path made absolute against `cwd` is recovered by `relative_to(cwd)` |
| PathUtils.ValidateAndFormat | mentat/utils/path.py:25-67 | a path is rejected as unrecognised exactly when it is no file, has no `:`, is no directory and has no glob character; a file or a colon-free path comes back made absolute; only the validation errors are raised |
| PathUtils.GlobNeedsNoFile | mentat/utils/path.py:61-63 | a glob pattern is accepted, made absolute, without anything on disk being consulted |
| PathUtils.IntervalChecksFilePart | mentat/utils/path.py:49-56 | an interval path is accepted exactly when its file part exists and, when asked, reads as text, and comes back rebuilt from its file part and interval text |
| PathUtils.MatchPathWithPatterns | mentat/utils/path.py:70-90 | a relative path raises; an absolute one matches iff some pattern matches it with `**/` prepended, as a whole, or one of its parts |
| PathUtils.MatchesMoreThanIncludeFiles | mentat/utils/path.py:79-88 | on absolute paths this matcher accepts everything the older matcher of `include_files.py` does |
| PathUtils.CheckDirectory | mentat/utils/path.py:112-117 | listing proceeds exactly for an existing absolute directory, and a missing path gives the does-not-exist error |
| PathUtils.KeepGitPath | mentat/utils/path.py:128-136 | a listed git path is kept iff it is at the top level or the walk is recursive, it matches some include pattern when there are any, and it matches no ignore pattern |
| PathUtils.FilterGitPathsContents | mentat/utils/path.py:125-136 | under an absolute root nothing raises, and a path is collected exactly when it joins from a listed path that is kept |
| PathUtils.FilterGitPaths | mentat/utils/path.py:125-136 | filtering raises exactly when the check of some listed path raises, and otherwise collects the joined path of every listed path that is kept |
| PromptInput.AppendString | mentat/terminal/prompt_session.py:88-95 | a submission reaches the history exactly when it is not blank and, stripped and lower-cased, is none of `y`, `n`, `i`, `q`; nothing else changes |
| PromptInput.UpperCaseAnswerDropped | mentat/terminal/prompt_session.py:94 | the excluded answers are dropped whatever their case |
| PromptInput.LongerWordKept | mentat/terminal/prompt_session.py:94 | a submission longer than one character once stripped, such as `yes`, is kept |
| PromptInput.SuggestionDependsOnHistory | mentat/terminal/prompt_session.py:102-107 | for a non-empty buffer, two different history offers give different results exactly when the buffer is not a command |
| PromptInput.SuggestionFilterIdempotent | mentat/terminal/prompt_session.py:102-107 | an empty buffer raises on its first character and no other does; the filter never offers anything the history did not, and filtering its own result again changes nothing |
| PromptInput.PromptContinuation | mentat/terminal/prompt_session.py:125-130 | a soft wrap gets nothing; otherwise `> ` right-aligned with spaces so the prefix is exactly the width (at least 2) |
| PyText.Strip | mentat/terminal/prompt_session.py:94 | `strip()` never lengthens the text and leaves no Python whitespace (the whole `str.isspace` set, U+00A0 and U+3000 included) at either end |
| PyText.StripEmptyIffBlank | mentat/terminal/prompt_session.py:94 | the stripped text is empty exactly when every character is Python whitespace |
| PyText.StripPrefix | mentat/parsers/unified_diff_parser.py:36 | stripping a prefix of a line gives a prefix of the stripped line |
| PyText.Lower | mentat/terminal/history_suggester.py:26-27 | lower-casing keeps the length and maps each character on its own (ASCII letters only) |
| PyText.LowerIdempotent | mentat/terminal/history_suggester.py:26-27 | folding twice is folding once |
| PyText.IndexOf | mentat/parsers/unified_diff_parser.py:36 | the index found is the first occurrence, and -1 exactly when there is none |
| PyText.Split | mentat/terminal/history_suggester.py:14 | `split(sep)` gives at least one piece and no piece holds the separator |
| PyText.JoinSplit | mentat/terminal/history_suggester.py:14 | joining the pieces of a split with the separator gives back the text |
| PyText.SplitJoin | mentat/terminal/history_suggester.py:14 | splitting a separator-joined list of separator-free pieces gives back the pieces |
| PyText.SplitOnce | mentat/include_files.py:101 | `split(sep, 1)` gives one piece (the text) exactly when the separator is absent, and otherwise cuts at the first separator |
| PyText.SplitOnceAt | mentat/include_files.py:101 | cutting `a + sep + b` with separator-free `a` gives back `a` and `b` |
| PyText.RSplitOnce | mentat/code_feature.py:79 | `rsplit(sep, 1)` gives one piece (the text) exactly when the separator is absent, and otherwise cuts at the last separator |
| PyText.RSplitOnceAt | mentat/code_feature.py:79 | cutting `a + sep + b` with separator-free `b` gives back `a` and `b` |
| PyText.FindFrom | mentat/sampler/sampler.py:25-26 | the search returns the first occurrence at or after the start, and nothing exactly when there is none |
| PyText.ReplaceFirst | mentat/terminal/output.py:15 | `replace` substitutes the first occurrence and resumes scanning after it |
| PyText.ReplaceCharDeletes | mentat/terminal/output.py:15 | replacing one character by nothing deletes every copy of it |
| PyText.SplitLines | mentat/diff_context.py:26 | `splitlines()` gives lines holding none of Python's line breaks (`\n`, `\r`, `\x0b`, `\x0c`, `\x1c`-`\x1e`, `\x85`, U+2028, U+2029), and none exactly for empty text |
| PyText.SplitLinesContent | mentat/diff_context.py:26 | `splitlines()` gives as many lines as `splitlines(keepends=True)`, each the kept-ends piece less its line break |
| PyText.SplitLinesJoin | mentat/context_tree/file_node.py:45 | for text whose only line breaks are `\n` (as a file read in text mode is), joining the lines with `\n` gives back the text, less a final line break |
| PyText.SplitLinesKeepEndsConcat | mentat/llm_api_handler.py:88 | `splitlines(keepends=True)` pieces concatenate back to the text |
| PyText.SplitLinesKeepEndsPieces | mentat/llm_api_handler.py:83-88 | each kept-ends piece holds at most one break of Python's set (`\r\n` as one), at its end; all but the last end in one, and no `\r\n` pair is split |
| PyText.NatToString | mentat/parsers/change_display_helper.py:26 | `str(n)` is a non-empty run of digits without a leading zero |
| PyText.NatToStringValue | mentat/parsers/change_display_helper.py:26 | the digits written for a number read back as that number |
| PyText.NatToStringLength | mentat/parsers/change_display_helper.py:26 | `len(str(n))` is at most `k` exactly when `n` is below ten to the `k` |
| PyText.DigitsValueConcat | vscode/bundled/tool/lsp_server.py:44 | two digit runs written one after the other read as the first shifted by the second's length plus the second |
| PyText.ParseDigits | mentat/parsers/replacement_parser.py:61-62 | a digit run parses exactly when it is non-empty and all digits |
| PyText.ParseInt | mentat/parsers/replacement_parser.py:61-62 | `int()` succeeds only on text that is not blank |
| PyText.ParseIntToString | mentat/parsers/replacement_parser.py:61-62 | `int(str(i)) == i` for every integer |
| PyText.ParseIntRejectsEmpty | mentat/parsers/replacement_parser.py:61-62 | the empty text and a lone sign raise `ValueError` |
| PyText.SliceIndexFromEnd | mentat/code_change_display.py:78-80 | a negative slice bound `-k` within the sequence lands `k` before its end, where the bound `n - k` lands |
| PyText.SliceIndexMonotone | mentat/code_change_display.py:78-80 | two bounds of the same sign land in the order they are given |
| PyText.SliceIndexAcrossSigns | mentat/code_change_display.py:78-80 | across signs the order can flip: in a sequence of two or more, `-1` lands after `0` |
| PyText.SliceNegative | mentat/code_change_display.py:78-80 | a slice between two negative bounds in range is the subsequence counted from the end, `j - i` elements long |
| PyText.SliceSplit | mentat/diff_context.py:58 | two slices meeting at a middle bound join into the slice over both, when the bounds land in order |
| PyText.Slice | mentat/diff_context.py:58 | a slice within bounds is the plain subsequence, and no slice is longer than the sequence |
| Sampler.ParseMessage | mentat/sample.py:15-23 | a string content is returned as it is, a list content gives its first part's text when that is a string, and anything else gives the empty text |
| Sampler.ParseSamplerMessage | mentat/sampler/sampler.py:22-32 | the sampler's parse is a prefix of the plain parse, and equals it unless an assistant message holds an edit block |
| Sampler.SamplerCutsBeforeBlock | mentat/sampler/sampler.py:25-26 | an assistant message with an edit block keeps exactly the text up to the line break before `@@start` |
| Sampler.KeepMessages | mentat/sampler/sampler.py:162-166 | only messages with non-empty parsed text and a user or assistant role are kept, no more than given; a message with text and no role raises `KeyError` |
| Sampler.KeepMessagesSingle | mentat/sampler/sampler.py:162-166 | one message is kept, as its role and parsed text, exactly when the text is non-empty and the role is user or assistant; text with no role raises `KeyError` |
| Sampler.KeepMessagesAppend | mentat/sample.py:60-64 | filtering a conversation in two pieces is filtering it whole |
| Sampler.KeepMessagesIdempotent | mentat/sample.py:60-64 | filtering a sample's own recorded messages again keeps every one of them unchanged |
| Sampler.SetActiveDiff | mentat/sampler/sampler.py:79-91 | outside a repository nothing changes; inside, the active snapshot is recorded and the last sample is forgotten exactly when its commit is no longer the active one |
| Sampler.SetActiveDiffIdempotent | mentat/sampler/sampler.py:79-91 | running it twice in the same state is running it once |
| Sampler.RecordSample | mentat/sampler/sampler.py:197-199 | after a sample is added it is remembered with the commit it was taken at |
| Sampler.ParentKeptUntilCommitMoves | mentat/sampler/sampler.py:86-91 | a sample stays the parent while the active commit is the one it was taken at, and is dropped once that moves |
| SessionInput.CollectUserInput | mentat/session_input.py:21-35 | a reply ends the session exactly when it is a string that strips to `q`; otherwise it is returned unchanged |
| SessionInput.UpperQDoesNotQuit | mentat/session_input.py:32 | `Q` does not quit: the quit test does not lower-case |
| SessionInput.YesNoPrompt | mentat/session_input.py:44 | the prompt is `(Y/n)` exactly when the default is yes and `(y/N)` otherwise |
| SessionInput.RoundFacts | mentat/session_input.py:42-49 | a reply is asked again iff it is a string that is neither `q` nor, stripped and lower-cased, `y`, `n` or empty; `y` answers yes, `n` no, the empty reply the default; `q` ends the session; a non-string raises |
| SessionInput.AskYesNo | mentat/session_input.py:42-49 | `ask_yes_no` keeps asking exactly while every reply is rejected; otherwise it ends at the first reply that is not rejected, with what that reply settles, every earlier reply having been rejected |
| SessionInput.UpperCaseYes | mentat/session_input.py:46-49 | an upper-case `Y` answers yes |
| SessionInput.AskedAgain | mentat/session_input.py:42-49 | any other reply is asked again: `maybe` then `n` answers no after two replies |
| SessionInput.LongReplyRejected | mentat/session_input.py:46-47 | a reply longer than one character once stripped is never accepted |
| SessionInput.BlankTakesDefault | mentat/session_input.py:46-49 | a blank reply takes the default |
| SessionInput.CommandIsNotQuit | mentat/session_input.py:30-56 | a command never strips to `q`, so it never ends the session |
| SessionInput.CommandRoundFacts | mentat/session_input.py:55-66 | a reply keeps the loop reading iff it is a command; otherwise it is returned, unless it strips to `q` |
| SessionInput.Calls | mentat/session_input.py:57-61 | the commands issued are one per command reply, in order |
| SessionInput.CollectWithCommandsFacts | mentat/session_input.py:52-66 | reading stops at the first reply that is not a command, which is returned unless it is `q`; every earlier reply is a command |
| SessionInput.CommandWithArguments | mentat/session_input.py:59-60 | in `/name arg text` the name is the first word after the `/` and the rest is the argument text |
| SessionInput.CommandWithoutArguments | mentat/session_input.py:59-60 | `/name` alone names the command and gives no argument text |
| StreamingPrinters.Tagged | mentat/parsers/streaming_printer.py:35 | every character of the string is queued, in order, each with the same styles |
| StreamingPrinters.AddString | mentat/parsers/streaming_printer.py:17-36 | a string is ignored while finishing or when empty; otherwise the string and its `end` are queued and the counter grows by their length |
| StreamingPrinters.Step | mentat/parsers/streaming_printer.py:49-56 | one loop iteration sends at most one character |
| StreamingPrinters.RunKeepsCount | mentat/parsers/streaming_printer.py:17-62 | the counter `chars_remaining` equals the queue length after any sequence of events |
| StreamingPrinters.ApplyContent | mentat/parsers/streaming_printer.py:17-62 | one event sets finishing only by `wrap_it_up`, and what it sends followed by the new queue is the old queue and what it adds |
| StreamingPrinters.Run | mentat/parsers/streaming_printer.py:17-62 | nothing is lost or reordered: what was sent and what is still queued are the old queue followed by every non-empty string added before the first `wrap_it_up` |
| StreamingPrinters.FinishingDrains | mentat/parsers/streaming_printer.py:49-56 | after `wrap_it_up`, with no shutdown, the loop sends the whole queue one character per iteration and returns on the next |
| StreamingPrinters.IdleWaits | mentat/parsers/streaming_printer.py:49-56 | until finishing, an iteration with an empty queue sends nothing and changes nothing |
| StreamingPrinters.ShutdownStops | mentat/parsers/streaming_printer.py:49-62 | once shut down, the loop returns at its next iteration and sends nothing more |
| StreamingPrinters.OldAddString | mentat/streaming_printer.py:12-18 | the older printer ignores only an empty string, and otherwise queues the string and its `end`, growing the counter by their length |
| StreamingPrinters.OldRunFacts | mentat/streaming_printer.py:12-38 | in the older printer the counter equals the queue length, and what was sent and what is queued are the old queue followed by every non-empty string added, before or after `wrap_it_up` |
| StreamingPrinters.OldWrapUpDrains | mentat/streaming_printer.py:27-38 | after `wrap_it_up` the older printer still prints the whole queue and returns on the next iteration |
| StreamingPrinters.AddAfterWrapUp | mentat/streaming_printer.py:12-18 | unlike the newer printer, the older one still queues a string added after `wrap_it_up` |
| Sorting.SortAscFacts | mentat/code_context.py:221 | the ascending sort is ordered by key, a permutation of its input, and stable: equal keys keep their input order |
| Sorting.SortDescFacts | mentat/code_changes/abstract/abstract_change.py:68-83 | `sort(reverse=True, key=...)` is ordered by non-increasing key, a permutation of its input, and stable: equal keys keep their input order |
| Trees.ChildNamed | mentat/file_node.py:29-32 | `children[name]` finds the child of that name, and raises `KeyError` exactly when there is none |
| Trees.ChildNamedUnique | mentat/file_node.py:29-32 | with distinct names, each child is what its own name finds |
| Trees.LookupAppend | mentat/file_node.py:28-34 | following `a + b` is following `a`, then `b` from where that lands |
| Trees.PutFacts | mentat/file_node.py:58 | `children[name] = node` keeps the names distinct, replaces the same-named child in place or appends the node, and keeps every other child |
| Trees.PutNames | mentat/file_node.py:58 | after storing a node the names are unchanged when its name was present, and otherwise gain it at the end |
| Trees.RootAndRelativePath | mentat/context_tree/node.py:40-45 | a node reached from the root through some names has that root, and its relative path is exactly those names |
| Wrappers.Traverse | mentat/interval.py:7-12 | mapping a partial function over a list succeeds iff it succeeds on every element, giving each result in place |
| Wrappers.Collect | vscode/bundled/tool/lsp_server.py:43 | a list of results gives all the values when every one is `Ok`, and otherwise the first error, as a loop that raises would |
| Dicts.Get | vscode/bundled/tool/lsp_server.py:203 | `d[key]` finds an entry with that key, and raises `KeyError` exactly when there is none |
| Dicts.GetAssign | vscode/bundled/tool/lsp_server.py:191 | after `d[key] = v`, `d[key]` is `v` and every other key reads as before |
| Dicts.AssignKeys | vscode/bundled/tool/lsp_server.py:191 | assignment adds the key to the keys and nothing else, keeping them distinct |
| Lexical.LessTransitive | mentat/include_files.py:170 | string order is transitive |
| Lexical.LessTotal | mentat/include_files.py:170 | any two distinct strings are ordered one way or the other |
| Lexical.SortedSetFacts | mentat/context_tree/directory_node.py:63 | `sorted(set(...))` is ascending and holds exactly the input's elements |
| Lexical.SortedSetLength | mentat/include_files.py:169-171 | sorting duplicate-free keys keeps every one, so `len(sorted(keys)) == len(keys)` |
| Lexical.AscendingUnique | mentat/include_files.py:170 | two ascending lists with the same elements are equal, so the sorted order is unique |
| AbstractChanges.SkipDeletions | mentat/code_changes/abstract/abstract_change.py:88-93 | the first inner loop passes exactly the deletions, from the cursor on, that start at or after the line, stopping at the first that starts before it |
| AbstractChanges.PartOf | mentat/code_changes/abstract/abstract_change.py:113-117 | every element of `deletions + additions + renames` comes from the matching input list |
| AbstractChanges.OverlapTrim | mentat/code_changes/abstract/abstract_change.py:66-80 | the source test's overlapping deletions (1,3) and (2,5) are sorted by end and trimmed to (2,5) and (1,2) |
| AbstractChanges.OverlapShift | mentat/code_changes/abstract/abstract_change.py:83-111 | an addition at line 4 inside (2,5) moves to its start, then inside (1,2) moves to line 1 |
| CodeFeatures.SelectLines | mentat/code_feature.py:118-124 | the loop keeps at most as many lines as the file has |
| CodeFeatures.SelectIsRendered | mentat/code_feature.py:118-124 | the selected lines are the contained 1-based line numbers, in order, each rendered with its file line (numbered when the parser asks) |
| DiffContext.HeaderTokens | mentat/diff_context.py:30-33 | a hunk header `@@ -a,b +n,c @@` splits at spaces into exactly the four tokens `@@`, `-a,b`, `+n,c`, `@@`, so the third token is the new-file range |
| DiffContext.RenderKeptPrefix | mentat/diff_context.py:56-59 | a message that starts with code lines carried over unchanged renders to text starting with those very lines |
| ChangeDisplay.FirstContentFacts | mentat/parsers/change_display_helper.py:56-59 | every line before the index the first loop stops at is blank, and the line at that index, if any, is not |
| ChangeDisplay.LastContentFacts | mentat/parsers/change_display_helper.py:61-64 | every line after the last non-blank index is blank, and the line at that index, if any, is not |
| ChangeDisplay.ContentBoundsOf | mentat/parsers/change_display_helper.py:56-64 | lines that are not all blank have a first and a last non-blank line, the first not after the last |
| ChangeDisplay.TrimmedKeepsContent | mentat/parsers/change_display_helper.py:66-71 | trimming never drops a non-blank line: each lies inside the kept slice |
| FileEdits.InsertLtElements | mentat/parsers/file_edit.py:143 | one insertion step of the sort adds exactly the inserted replacement to the multiset of replacements |
| FileEdits.InsertLtOrdered | mentat/parsers/file_edit.py:143 | inserting into a descending-ordered list keeps it descending |
| FileEdits.InsertLtDisjoint | mentat/parsers/file_edit.py:143-156 | inserting a replacement disjoint from all of a pairwise disjoint list keeps the list pairwise disjoint |
| ReplacementFormat.FromInfo | mentat/parsers/replacement_parser.py:40-87 | no words, one word (just `@ f`) or more than three raise `ValueError`; otherwise the header names file `info[0]`, the edit at that path carries no replacements yet and the rename of the header, exactly one action is chosen, and only an update has code with non-zero lines |
| ReplacementFormat.ThreeWords | mentat/parsers/replacement_parser.py:40 | the line `@ f s e` yields exactly the words `f`, `s`, `e` after stripping and splitting at spaces |
| ReplacementFormat.UpdateBlock | mentat/parsers/replacement_parser.py:59-64 | words `f s e` whose numbers parse make an update of file `f` from line `s - 1` to `e - 1`, converting from 1-based to 0-based |
| Selection.PostSelect | mentat/auto_context.py:148-166 | the selection fails exactly when some selected feature matches no input; otherwise each output is that feature, in order, with its path, interval and level kept, user-included exactly when a match is, and with the diff (and name) of the first match in input order that has a truthy one, keeping its own when none has |

## Left out

- Concurrency: the asyncio tasks, queues and sleeps of the session, the streaming parser and the printers. A printer or parser run is modelled as a sequence of steps.
- Printing, colours, lexers and terminal styling. A printed block is modelled as a sequence of strings, and `cprint` only as its colour-name normalisation.
- Floating point:
  - the printers' `sleep_time`;
  - cosine similarity;
  - image-token scaling in `_open_ai_prompt_tokens`;
  - cost tracking.
  A similarity score names the checksum it compares and carries no number.
- Calls to the language model, the embedding API, whisper and the chromadb collection. Their answers are parameters.
- git, the file system, `os.walk` and `glob`. The non-git directory walk in mentat/utils/path.py and `get_paths_for_directory`/`get_code_features_for_path` in mentat/include_files.py appear only through the checks and filters applied to their results.
- The internals of `fnmatch`, `shlex`, sha256, the tokenizer, pygments and `Path.resolve` are uninterpreted parameters.
- The audio and whisper parts of mentat/terminal/prompt_session.py.
- The architecture-to-wheel mapping and the server handlers of vscode/bundled/tool/lsp_server.py. Only the import-path update, the wheel-version choice and the settings table are modelled.
- Parsing.Feed: mentat/parsers/parser.py does not run as written, and the model assumes the calls its authors evidently meant. Three kinds of mismatch:
  - Missing imports. parser.py:16 imports `chunk_to_lines` from `mentat.llm_api`, but that function is defined only at mentat/llm_api_handler.py:84. parser.py:17-25 imports `get_file_name`, `get_previous_lines`, `get_later_lines` and `get_removed_lines` from mentat/parsers/change_display_helper.py, which defines only the `print_*` coroutines (lines 95-186).
  - Printing helpers. parser.py:101-109 calls `_code_line_beginning(display_information)` and `_code_line_content(cur_line)` with one argument each. The unified-diff overrides at mentat/parsers/unified_diff_parser.py:29-35 also take `cur_block`.
  - `_add_code_block`. parser.py:211 and :229 call it with four arguments. The unified-diff override at unified_diff_parser.py:100-107 takes `code_file_manager` and `rename_map` first.

  So the unified-diff format would stop at a `TypeError`, and the module would fail at import time. Parsing.Feed, Parsing.Parse and UnifiedDiff.Callbacks model the intended calls instead:
  - `chunk_to_lines` as LlmApi.ChunkToLines;
  - the display text as pure strings, without the printing helpers;
  - each format's `_add_code_block` with the arguments its own signature asks for.
- In-place mutation: the source changes shared lists and objects in place, and the model returns fresh values instead. No caller in the modelled code looks at the old objects afterwards, so the results are the same. The places are:
  - mentat/parsers/file_edit.py:143 and :156, where `sort` reorders the edit's own replacement list;
  - mentat/parsers/file_edit.py:151-152, where `resolve_conflicts` changes the shared `Replacement` objects;
  - mentat/parsers/file_edit.py:162-163, where `get_file_lines` pads the caller's list with `+=` before rebinding the name (FileEdits.GetFileLines returns a new sequence);
  - mentat/code_changes/abstract/abstract_change.py:75 and 109-111, where the caller's `Deletion` and `Addition` objects are changed.
- PyText.ParseInt: reads ASCII digits only. Python's `int()` also accepts `_` between digits (`1_000`) and every Unicode decimal digit (category Nd, such as `١٢` or `１２`). The model rejects such text instead. This affects the line numbers read from model output (mentat/parsers/replacement_parser.py:61-62), from interval paths (mentat/interval.py:10-12) and from diff hunk headers (mentat/diff_context.py:38).
- FileEdits.SortLtFacts: Python's sort under the non-strict `Replacement.__lt__` is modelled as a stable insertion sort with the same comparison. The facts are stated for the order that sort produces, not for every order timsort could produce.
- ChromaScores.SimilarityScores: the store's distance is left abstract, so the contract says which checksum each score comes from, not its value.
- Embeddings.Scores: the same holds for the cosine similarity of the embeddings.
- PyText.Lower: `lower()` and `casefold()` are modelled for ASCII letters only. Other characters are kept as they are, so Unicode case mappings are not modelled, such as `ß` folding to `ss` (which also changes the length). History's case-insensitive search inherits this.
- ReplacementFormat.Callbacks: the code-block callback uses the corrected ReplacementFormat.CodeLines, so a block left open at the end of the stream keeps all its code lines. The line that mentat/parsers/replacement_parser.py:105 drops is shown by ReplacementFormat.UnclosedBlockAsWritten (see Findings).
- ReplacementFormat.AddCodeAppendsOne: states the corrected callback, as ReplacementFormat.Callbacks does.
- CodeContext.IncludeFeatures: builds each feature with the corrected CodeContext.IncludeFeature, so an interval feature whose file is in the diff carries the diff target. As written it gets none, as CodeContext.IntervalFeatureLosesDiff shows (see Findings).
- CodeContext.Unsorted: uses the corrected CodeContext.IncludeFeature, as CodeContext.IncludeFeatures does.
- CodeContext.IncludeFeatureFromEntry: states the corrected CodeContext.IncludeFeature, as CodeContext.IncludeFeatures does.
- mentat/code_feature.py:8 and mentat/context_tree/file_node.py:7 import `annotate_file_message` and `parse_diff` from mentat/diff_context.py. That module defines only `_parse_diff` (line 22), `_annotate_file_message` (line 49) and the method `DiffContext.annotate_file_message` (line 110), so those imports fail as written. The model assumes they name the two private helpers: DiffContext.ParseDiff and DiffContext.AnnotateFileMessage.
- StreamingPrinters.Step: one step of the print loop. The delay between steps is not modelled.
- ContextTree.Display: its contract states only the guard. Which lines follow for a shown directory is stated by ContextTree.DisplayFileFirst, ContextTree.DisplayLastDirectory and ContextTree.DisplayLeaves. The colour of each line is modelled as the `Color` of its `Line`: blue for a directory child, green in a directory with `diff` set, plain otherwise. Only the terminal escape text that draws the colour is left out.
- The message bus, the session lifecycle, the servers and the clients are left out: their point is concurrency and I/O.

## Findings

| source | as written | input that shows it | evidently intended | confidence | as-written member | corrected member |
|---|---|---|---|---|---|---|
| mentat/embeddings.py:84-93 | batches of one text are skipped and never embedded, but the scores look up every key | a new prompt and no features: the prompt forms a singleton batch, and `database[prompt_checksum]` raises `KeyError` | every batch is embedded, so every score is found | high, not executed | Embeddings.SingletonNeverEmbedded | Embeddings.Scores |
| mentat/code_changes/abstract/abstract_change.py:86-111 | after one addition is moved to the front of a deletion, the loop moves on to the next deletion | `Deletion(1, 5)` with two additions at line 3: only the first is moved to line 1 | every addition inside a deleted range moves to its start | high, not executed | AbstractChanges.SecondAdditionNotShifted | AbstractChanges.ShiftCorrectedFacts |
| mentat/code_changes/abstract/abstract_change.py:86-92 | the loop reads `additions[cur_addition]` before checking that any addition exists | deletions and no additions: `IndexError` | a change with only deletions is normalised | high, not executed | AbstractChanges.DeletionsWithoutAdditionsRaise | AbstractChanges.ChangesFacts |
| mentat/parsers/replacement_parser.py:105 | `code_block.split("\n")[:-2]` drops the closing `@` line and one more | a block `x`, `y` left open at the end of the stream keeps only `x` | an unclosed block keeps all its code lines | medium, not executed | ReplacementFormat.UnclosedBlockAsWritten | ReplacementFormat.UnclosedBlock |
| mentat/code_context.py:209-214 | for an interval feature the diff check compares the `path:ranges` text with the diff's paths | `calc.py` included with lines 1-3 while `calc.py` is in the diff: the feature gets no diff | a feature carries the diff target when its file is in the diff | medium, not executed | CodeContext.IntervalFeatureLosesDiff | CodeContext.IncludeFeature |
| mentat/file_node.py:23-24 | an absolute path is made relative to the root's path, then followed from the node itself | directory `a` of a tree rooted at `/r`, asked for `/r/a/x`: `KeyError`, though `a` has the child `x` | the path is made relative to the node's own path, as in mentat/context_tree/node.py:52-53 | medium, not executed | FileNodes.AbsolutePathBelowRootFails | FileNodes.GetItemAbsolute |
| mentat/llm_api.py:40-44 | the test guard fires only when `MENTAT_BENCHMARKS_RUNNING` is exactly `"false"` | a pytest run with the variable unset passes the guard | the guard fires in every test environment, as `is_test_environment` in mentat/llm_api_handler.py:50-57 decides | medium, not executed | LlmApi.UnsetFlagSlipsThrough | LlmApi.CallGuard |

FileEdits.ReversedRangeOverlaps is deliberately not listed as a finding. The comment at mentat/parsers/file_edit.py:160 says that the overlap error never follows `resolve_conflicts`. FileEdits.ResolvedNeverOverlap proves this for proper ranges, whose start is not after their end. A reversed range can reach `get_file_lines` only from a malformed header in model output, such as `@ f 6 3`, and raising the overlap error is one way to reject it. The source does not make clear which behaviour is intended for such input. So the lemma records where the comment's promise ends, and no correction is claimed.

=== FILE: abstract_change.dfy ===
/**
 * The normalisation `AbstractChange.__init__` performs on a list of
 * sub-changes (mentat/code_changes/abstract/abstract_change.py): overlapping
 * deletions are trimmed so that no line is deleted twice, additions that fall
 * inside a deleted range are moved to its front, and everything is sorted so
 * that it can be applied from the end of the file to the start.
 *
 * The addition shift is modelled twice: `ShiftLoop` follows the source loop
 * step by step, and `ShiftLine`/`ShiftAll` is the behaviour the comment above
 * that loop describes. The two agree on a single addition and differ when two
 * additions fall into the same deletion, or when there are no additions.
 */
module AbstractChanges {
  import opened Wrappers
  import Sorting

  /** Inserts `content` directly before `line` (0-based). */
  datatype Addition = Addition(line: int, content: string, owner: int)

  /** Deletes lines `start` (inclusive) to `end` (exclusive), 0-based. */
  datatype Deletion = Deletion(start: int, end: int, owner: int)

  /** Renames the file; `None` deletes it. */
  datatype Rename = Rename(name: Option<string>, owner: int)

  datatype SubChange = Add(addition: Addition) | Del(deletion: Deletion) | Ren(rename: Rename)

  /** The exception the source loop raises. */
  datatype ChangeError = IndexError

  // ---------------------------------------------------------------------------
  // subchange_order

  /** The line a sub-change is ordered by: an addition's line, a deletion's end. */
  function Position(c: SubChange): Option<int>
  {
    match c
    case Add(a) => Some(a.line)
    case Del(d) => Some(d.end)
    case Ren(_) => None
  }

  /** `subchange_order`: -1, 0 or 1; a rename is above every positioned change. */
  function SubchangeOrder(a: SubChange, b: SubChange): int
  {
    var l1 := Position(a);
    var l2 := Position(b);
    if l1.None? || l2.None? then
      if l1 == l2 then 0 else if l1.None? then 1 else -1
    else
      if l1.value == l2.value then 0 else if l1.value > l2.value then 1 else -1
  }

  function Sign(x: int): int
  {
    if x > 0 then 1 else if x < 0 then -1 else 0
  }

  /**
   * An integer key that orders like `subchange_order` on every list whose
   * positions are all below `top`: a rename gets `top`.
   */
  function OrderKey(c: SubChange, top: int): int
  {
    match Position(c)
    case Some(n) => n
    case None => top
  }

  predicate Below(c: SubChange, top: int)
  {
    Position(c).Some? ==> Position(c).value < top
  }

  /**
   * `subchange_order` is the comparison of the integer keys; in particular
   * renames compare equal to each other and above every positioned change.
   */
  lemma OrderIsKeyComparison(a: SubChange, b: SubChange, top: int)
    requires Below(a, top) && Below(b, top)
    ensures SubchangeOrder(a, b) == Sign(OrderKey(a, top) - OrderKey(b, top))
    ensures a.Ren? && b.Ren? ==> SubchangeOrder(a, b) == 0
    ensures a.Ren? && !b.Ren? ==> SubchangeOrder(a, b) == 1
    ensures SubchangeOrder(a, b) == -SubchangeOrder(b, a)
  {
  }

  /** The comparison is a total preorder, so sorting by it is well defined. */
  lemma OrderTransitive(a: SubChange, b: SubChange, c: SubChange)
    requires SubchangeOrder(a, b) >= 0 && SubchangeOrder(b, c) >= 0
    ensures SubchangeOrder(a, c) >= 0
  {
  }

  // ---------------------------------------------------------------------------
  // Splitting the list by kind

  function DeletionsOf(cs: seq<SubChange>): (r: seq<Deletion>)
    ensures forall d :: d in r <==> Del(d) in cs
  {
    if cs == [] then []
    else (if cs[0].Del? then [cs[0].deletion] else []) + DeletionsOf(cs[1..])
  }

  function AdditionsOf(cs: seq<SubChange>): (r: seq<Addition>)
    ensures forall a :: a in r <==> Add(a) in cs
  {
    if cs == [] then []
    else (if cs[0].Add? then [cs[0].addition] else []) + AdditionsOf(cs[1..])
  }

  function RenamesOf(cs: seq<SubChange>): (r: seq<Rename>)
    ensures forall n :: n in r <==> Ren(n) in cs
  {
    if cs == [] then []
    else (if cs[0].Ren? then [cs[0].rename] else []) + RenamesOf(cs[1..])
  }

  /** Every sub-change lands in exactly one of the three lists. */
  lemma {:induction false} SplitIsPartition(cs: seq<SubChange>)
    ensures |DeletionsOf(cs)| + |AdditionsOf(cs)| + |RenamesOf(cs)| == |cs|
  {
    if cs != [] {
      SplitIsPartition(cs[1..]);
    }
  }

  // ---------------------------------------------------------------------------
  // Trimming overlapping deletions

  function EndKey(d: Deletion): int { d.end }

  function Min(a: int, b: int): int { if a <= b then a else b }

  /** One step of the trimming loop: clip the end to the lowest start seen so far. */
  function Clip(d: Deletion, cur: Option<int>): (r: Deletion)
  {
    if cur.Some? && d.end > cur.value then d.(end := cur.value) else d
  }

  /** The lowest start seen once `d` has been processed. */
  function NextStart(d: Deletion, cur: Option<int>): int
  {
    if cur.None? then d.start else Min(cur.value, d.start)
  }

  /** The trimming loop over deletions already in descending order of end. */
  function Trim(ds: seq<Deletion>, cur: Option<int>): seq<Deletion>
  {
    if ds == [] then []
    else
      var c := Clip(ds[0], cur);
      (if c.end > c.start then [c] else []) + Trim(ds[1..], Some(NextStart(ds[0], cur)))
  }

  /** The kept deletions: sort descending by end (stably), then trim. */
  function TrimDeletions(ds: seq<Deletion>): seq<Deletion>
  {
    Trim(Sorting.SortDesc(ds, EndKey), None)
  }

  predicate Covers(d: Deletion, line: int)
  {
    d.start <= line < d.end
  }

  /** Some deletion of `ds` removes `line`. */
  predicate AnyCovers(ds: seq<Deletion>, line: int)
  {
    ds != [] && (Covers(ds[0], line) || AnyCovers(ds[1..], line))
  }

  /** Each deletion ends at or before the start of every earlier one. */
  predicate Stacked(ds: seq<Deletion>)
  {
    forall i, j :: 0 <= i < j < |ds| ==> ds[j].end <= ds[i].start
  }

  predicate NonEmpty(ds: seq<Deletion>)
  {
    forall i :: 0 <= i < |ds| ==> ds[i].start < ds[i].end
  }

  predicate Disjoint(a: Deletion, b: Deletion)
  {
    a.end <= b.start || b.end <= a.start
  }

  /** `k` is `d` with at most its end lowered. */
  predicate Lowered(d: Deletion, k: Deletion)
  {
    k.start == d.start && k.owner == d.owner && k.end <= d.end
  }

  predicate AllAtMost(ds: seq<Deletion>, bound: int)
  {
    forall i :: 0 <= i < |ds| ==> ds[i].end <= bound
  }

  lemma {:induction false} TrimStacked(ds: seq<Deletion>, cur: Option<int>)
    ensures Stacked(Trim(ds, cur)) && NonEmpty(Trim(ds, cur))
    ensures cur.Some? ==> AllAtMost(Trim(ds, cur), cur.value)
    decreases |ds|
  {
    if ds != [] {
      var c := Clip(ds[0], cur);
      var next := NextStart(ds[0], cur);
      var rest := Trim(ds[1..], Some(next));
      TrimStacked(ds[1..], Some(next));
      assert next <= c.start;
    }
  }

  /** Every kept deletion is an input deletion with at most its end lowered. */
  lemma {:induction false} TrimLowers(ds: seq<Deletion>, cur: Option<int>)
    ensures forall j :: 0 <= j < |Trim(ds, cur)| ==>
      exists i :: 0 <= i < |ds| && Lowered(ds[i], Trim(ds, cur)[j])
    decreases |ds|
  {
    if ds != [] {
      var c := Clip(ds[0], cur);
      var head := if c.end > c.start then [c] else [];
      var rest := Trim(ds[1..], Some(NextStart(ds[0], cur)));
      TrimLowers(ds[1..], Some(NextStart(ds[0], cur)));
      var r := Trim(ds, cur);
      assert r == head + rest;
      forall j | 0 <= j < |r| ensures exists i :: 0 <= i < |ds| && Lowered(ds[i], r[j]) {
        if j < |head| {
          assert Lowered(ds[0], r[j]);
        } else {
          var i :| 0 <= i < |ds[1..]| && Lowered(ds[1..][i], rest[j - |head|]);
          assert Lowered(ds[i + 1], r[j]);
        }
      }
    }
  }

  /** Trimming never deletes a line no input deletion removes. */
  lemma {:induction false} TrimSound(ds: seq<Deletion>, cur: Option<int>, line: int)
    ensures AnyCovers(Trim(ds, cur), line) ==> AnyCovers(ds, line)
    decreases |ds|
  {
    if ds != [] {
      var c := Clip(ds[0], cur);
      var head := if c.end > c.start then [c] else [];
      var rest := Trim(ds[1..], Some(NextStart(ds[0], cur)));
      TrimSound(ds[1..], Some(NextStart(ds[0], cur)), line);
      AnyCoversAppend(head, rest, line);
    }
  }

  /**
   * Below the lowest start seen so far, trimming keeps every line that some
   * remaining deletion removes (the deletions come in descending order of end).
   */
  lemma {:induction false} TrimComplete(ds: seq<Deletion>, cur: Option<int>, line: int)
    requires Sorting.Descending(ds, EndKey)
    requires AnyCovers(ds, line) && (cur.None? || line < cur.value)
    ensures AnyCovers(Trim(ds, cur), line)
    decreases |ds|
  {
    var c := Clip(ds[0], cur);
    var head := if c.end > c.start then [c] else [];
    var next := NextStart(ds[0], cur);
    var rest := Trim(ds[1..], Some(next));
    AnyCoversAppend(head, rest, line);
    if Covers(ds[0], line) {
      assert Covers(c, line);
      assert head == [c];
    } else {
      assert AnyCovers(ds[1..], line);
      var i := CoveringIndex(ds[1..], line);
      assert ds[1..][i] == ds[i + 1];
      assert EndKey(ds[0]) >= EndKey(ds[i + 1]);
      assert line < next;
      TrimComplete(ds[1..], Some(next), line);
    }
  }

  /** Trimming sorted deletions removes exactly the lines the inputs removed. */
  lemma TrimKeepsLines(ds: seq<Deletion>, line: int)
    requires Sorting.Descending(ds, EndKey)
    ensures AnyCovers(Trim(ds, None), line) <==> AnyCovers(ds, line)
  {
    TrimSound(ds, None, line);
    if AnyCovers(ds, line) {
      TrimComplete(ds, None, line);
    }
  }

  function CoveringIndex(ds: seq<Deletion>, line: int): (i: nat)
    requires AnyCovers(ds, line)
    ensures i < |ds| && Covers(ds[i], line)
  {
    if Covers(ds[0], line) then 0 else 1 + CoveringIndex(ds[1..], line)
  }

  lemma {:induction false} AnyCoversAppend(a: seq<Deletion>, b: seq<Deletion>, line: int)
    ensures AnyCovers(a + b, line) <==> AnyCovers(a, line) || AnyCovers(b, line)
    decreases |a|
  {
    if a != [] {
      assert (a + b)[1..] == a[1..] + b;
      AnyCoversAppend(a[1..], b, line);
    } else {
      assert a + b == b;
    }
  }

  lemma {:induction false} InsertDescCovers(x: Deletion, s: seq<Deletion>, line: int)
    ensures AnyCovers(Sorting.InsertDesc(x, s, EndKey), line) <==> Covers(x, line) || AnyCovers(s, line)
    decreases |s|
  {
    if s != [] && EndKey(x) < EndKey(s[0]) {
      InsertDescCovers(x, s[1..], line);
      assert ([s[0]] + Sorting.InsertDesc(x, s[1..], EndKey))[1..] == Sorting.InsertDesc(x, s[1..], EndKey);
    } else {
      assert ([x] + s)[1..] == s;
    }
  }

  lemma {:induction false} SortDescCovers(s: seq<Deletion>, line: int)
    ensures AnyCovers(Sorting.SortDesc(s, EndKey), line) <==> AnyCovers(s, line)
    decreases |s|
  {
    if s != [] {
      SortDescCovers(s[1..], line);
      InsertDescCovers(s[0], Sorting.SortDesc(s[1..], EndKey), line);
    }
  }

  /**
   * The kept deletions are non-empty and pairwise disjoint, each is an input
   * deletion whose end only went down, and together they remove exactly the
   * lines the input deletions removed, whatever the input order.
   */
  lemma TrimDeletionsFacts(ds: seq<Deletion>)
    ensures var r := TrimDeletions(ds);
      NonEmpty(r) && Stacked(r) &&
      (forall i, j :: 0 <= i < |r| && 0 <= j < |r| && i != j ==> Disjoint(r[i], r[j])) &&
      (forall j :: 0 <= j < |r| ==> exists i :: 0 <= i < |ds| && Lowered(ds[i], r[j])) &&
      (forall line :: AnyCovers(r, line) <==> AnyCovers(ds, line))
  {
    var sorted := Sorting.SortDesc(ds, EndKey);
    var r := TrimDeletions(ds);
    Sorting.SortDescFacts(ds, EndKey);
    TrimStacked(sorted, None);
    forall i, j | 0 <= i < |r| && 0 <= j < |r| && i != j ensures Disjoint(r[i], r[j]) {
      if i < j { assert r[j].end <= r[i].start; } else { assert r[i].end <= r[j].start; }
    }
    TrimLowers(sorted, None);
    forall j | 0 <= j < |r| ensures exists i :: 0 <= i < |ds| && Lowered(ds[i], r[j]) {
      var k :| 0 <= k < |sorted| && Lowered(sorted[k], r[j]);
      assert sorted[k] in multiset(ds);
      var i :| 0 <= i < |ds| && ds[i] == sorted[k];
      assert Lowered(ds[i], r[j]);
    }
    forall line ensures AnyCovers(r, line) <==> AnyCovers(ds, line) {
      TrimKeepsLines(sorted, line);
      SortDescCovers(ds, line);
    }
  }

  // ---------------------------------------------------------------------------
  // Shifting additions, as the loop is written

  function LineKey(a: Addition): int { a.line }

  /** The first inner loop: pass the deletions that start at or after `line`. */
  function SkipDeletions(ds: seq<Deletion>, line: int, i: nat): (r: nat)
    requires i <= |ds|
    ensures i <= r <= |ds|
    ensures r < |ds| ==> ds[r].start < line
    ensures forall k :: i <= k < r ==> ds[k].start >= line
    decreases |ds| - i
  {
    if i < |ds| && ds[i].start >= line then SkipDeletions(ds, line, i + 1) else i
  }

  /** The second inner loop: pass the additions that lie after `end`. */
  function SkipAdditions(adds: seq<Addition>, end: int, j: nat): (r: nat)
    requires j <= |adds|
    ensures j <= r <= |adds|
    ensures r < |adds| ==> adds[r].line <= end
    ensures forall k :: j <= k < r ==> adds[k].line > end
    decreases |adds| - j
  {
    if j < |adds| && adds[j].line > end then SkipAdditions(adds, end, j + 1) else j
  }

  /** 0 when the next pass of the first inner loop is certain to step over `cd`. */
  function Pending(ds: seq<Deletion>, adds: seq<Addition>, cd: nat, ca: nat): nat
  {
    if cd < |ds| && ca < |adds| && ds[cd].start >= adds[ca].line then 0 else 1
  }

  /**
   * The `while True` loop from cursor positions `cd` and `ca`. With deletions
   * left and no addition at all, the first inner loop indexes `additions[0]`
   * and raises `IndexError`.
   */
  function ShiftLoop(ds: seq<Deletion>, adds: seq<Addition>, cd: nat, ca: nat): Result<seq<Addition>, ChangeError>
    requires cd <= |ds| && ca <= |adds|
    requires cd < |ds| && ca == |adds| ==> adds == []
    decreases |ds| - cd, Pending(ds, adds, cd, ca)
  {
    if cd == |ds| then Ok(adds)
    else if ca == |adds| then Err(IndexError)
    else
      var cd2 := SkipDeletions(ds, adds[ca].line, cd);
      if cd2 == |ds| then Ok(adds)
      else
        var ca2 := SkipAdditions(adds, ds[cd2].end, ca);
        if ca2 == |adds| then Ok(adds)
        else
          var a := adds[ca2];
          var d := ds[cd2];
          var adds2 := if d.start < a.line <= d.end then adds[ca2 := a.(line := d.start)] else adds;
          ShiftLoop(ds, adds2, cd2, ca2)
  }

  /** The source's shift: additions sorted descending by line, then the loop. */
  function ShiftAsWritten(ds: seq<Deletion>, adds: seq<Addition>): Result<seq<Addition>, ChangeError>
  {
    ShiftLoop(ds, Sorting.SortDesc(adds, LineKey), 0, 0)
  }

  lemma DeletionsWithoutAdditionsRaise(ds: seq<Deletion>)
    requires ds != []
    ensures ShiftAsWritten(ds, []) == Err(IndexError)
  {
  }

  // ---------------------------------------------------------------------------
  // Shifting additions, as the comment describes it

  /**
   * Where an addition at `line` belongs: every deletion (taken from the end of
   * the file towards the start) whose range `(start, end]` holds the line moves
   * it to that deletion's start.
   */
  function ShiftLine(ds: seq<Deletion>, line: int): int
  {
    if ds == [] then line
    else ShiftLine(ds[1..], if ds[0].start < line <= ds[0].end then ds[0].start else line)
  }

  predicate Inside(d: Deletion, line: int)
  {
    d.start < line <= d.end
  }

  function ShiftAll(ds: seq<Deletion>, adds: seq<Addition>): (r: seq<Addition>)
    ensures |r| == |adds|
    ensures forall i :: 0 <= i < |adds| ==> r[i] == adds[i].(line := ShiftLine(ds, adds[i].line))
  {
    if adds == [] then []
    else [adds[0].(line := ShiftLine(ds, adds[0].line))] + ShiftAll(ds, adds[1..])
  }

  /** The corrected shift: sort descending by line, then move each addition. */
  function ShiftCorrected(ds: seq<Deletion>, adds: seq<Addition>): seq<Addition>
  {
    ShiftAll(ds, Sorting.SortDesc(adds, LineKey))
  }

  /** A line no deletion holds stays where it is. */
  lemma {:induction false} ShiftLineFixed(ds: seq<Deletion>, line: int)
    requires forall k :: 0 <= k < |ds| ==> !Inside(ds[k], line)
    ensures ShiftLine(ds, line) == line
    decreases |ds|
  {
    if ds != [] {
      assert !Inside(ds[0], line);
      forall k | 0 <= k < |ds[1..]| ensures !Inside(ds[1..][k], line) {
        assert ds[1..][k] == ds[k + 1];
      }
      ShiftLineFixed(ds[1..], line);
    }
  }

  /**
   * Against non-empty stacked deletions, a shifted addition never lies inside
   * a deletion, and one that lay inside deletion `k` ends at or before its start.
   */
  lemma {:induction false} ShiftLineLeavesDeletions(ds: seq<Deletion>, line: int)
    requires Stacked(ds) && NonEmpty(ds)
    ensures forall k :: 0 <= k < |ds| ==> !Inside(ds[k], ShiftLine(ds, line))
    ensures ShiftLine(ds, line) <= line
    ensures forall k :: 0 <= k < |ds| && Inside(ds[k], line) ==> ShiftLine(ds, line) <= ds[k].start
    decreases |ds|
  {
    if ds != [] {
      var next := if Inside(ds[0], line) then ds[0].start else line;
      var r := ShiftLine(ds, line);
      assert r == ShiftLine(ds[1..], next);
      ShiftLineLeavesDeletions(ds[1..], next);
      assert forall k :: 0 < k < |ds| ==> ds[1..][k - 1] == ds[k];
      if line > ds[0].end {
        assert AllAtMost(ds[1..], ds[0].end) by {
          forall k | 0 <= k < |ds[1..]| ensures ds[1..][k].end <= ds[0].end {
            assert ds[1..][k] == ds[k + 1];
          }
        }
        ShiftLineAbove(ds[1..], line, ds[0].end);
      }
      forall k | 0 < k < |ds| && Inside(ds[k], line) ensures r <= ds[k].start {
        assert ds[k].end <= ds[0].start;
        assert Inside(ds[1..][k - 1], next);
      }
    }
  }

  /** Against stacked deletions all ending at or below `bound`, a line above `bound` does not move. */
  lemma {:induction false} ShiftLineAbove(ds: seq<Deletion>, line: int, bound: int)
    requires AllAtMost(ds, bound) && line > bound
    ensures ShiftLine(ds, line) == line
  {
    forall k | 0 <= k < |ds| ensures !Inside(ds[k], line) {
      assert ds[k].end <= bound;
    }
    ShiftLineFixed(ds, line);
  }

  /**
   * The corrected shift against the kept deletions: no addition is left
   * strictly inside a deleted range, an addition that was inside one ends up
   * at or before its start, and an addition inside none does not move.
   */
  lemma ShiftCorrectedFacts(ds: seq<Deletion>, adds: seq<Addition>)
    requires Stacked(ds) && NonEmpty(ds)
    ensures var r := ShiftCorrected(ds, adds);
      var s := Sorting.SortDesc(adds, LineKey);
      |r| == |s| &&
      (forall i, k :: 0 <= i < |r| && 0 <= k < |ds| ==> !Inside(ds[k], r[i].line)) &&
      (forall i, k :: 0 <= i < |r| && 0 <= k < |ds| && Inside(ds[k], s[i].line) ==> r[i].line <= ds[k].start) &&
      (forall i :: 0 <= i < |r| && (forall k :: 0 <= k < |ds| ==> !Inside(ds[k], s[i].line)) ==> r[i] == s[i])
  {
    var s := Sorting.SortDesc(adds, LineKey);
    var r := ShiftCorrected(ds, adds);
    forall i | 0 <= i < |r|
      ensures forall k :: 0 <= k < |ds| ==> !Inside(ds[k], r[i].line)
      ensures forall k :: 0 <= k < |ds| && Inside(ds[k], s[i].line) ==> r[i].line <= ds[k].start
      ensures (forall k :: 0 <= k < |ds| ==> !Inside(ds[k], s[i].line)) ==> r[i] == s[i]
    {
      ShiftLineLeavesDeletions(ds, s[i].line);
      if forall k :: 0 <= k < |ds| ==> !Inside(ds[k], s[i].line) {
        ShiftLineFixed(ds, s[i].line);
      }
    }
  }

  /** On a single addition the loop as written does what the comment describes. */
  lemma {:induction false} ShiftLoopSingle(ds: seq<Deletion>, a: Addition, cd: nat)
    requires Stacked(ds) && cd <= |ds|
    ensures ShiftLoop(ds, [a], cd, 0) == Ok([a.(line := ShiftLine(ds[cd..], a.line))])
    decreases |ds| - cd, Pending(ds, [a], cd, 0)
  {
    if cd == |ds| {
      assert ds[cd..] == [];
    } else {
      var cd2 := SkipDeletions(ds, a.line, cd);
      SkipKeepsLine(ds, a.line, cd, cd2);
      if cd2 == |ds| {
        assert ds[cd2..] == [];
      } else {
        var d := ds[cd2];
        var ca2 := SkipAdditions([a], d.end, 0);
        assert ds[cd2..][1..] == ds[cd2 + 1..];
        if ca2 == 1 {
          assert a.line > d.end;
          var later := ds[cd2 + 1..];
          forall k | 0 <= k < |later| ensures later[k].end <= d.start {
            assert later[k] == ds[cd2 + 1 + k];
          }
          ShiftLineAbove(later, a.line, d.start);
        } else {
          assert a.line <= d.end && d.start < a.line;
          var a2 := a.(line := d.start);
          assert [a][0 := a2] == [a2];
          ShiftLoopSingle(ds, a2, cd2);
          assert ShiftLoop(ds, [a2], cd2, 0) == ShiftLoop(ds, [a], cd, 0);
          assert ShiftLine(ds[cd2..], d.start) == ShiftLine(ds[cd2 + 1..], d.start);
        }
      }
    }
  }

  /** The deletions the first inner loop passes do not move the line. */
  lemma {:induction false} SkipKeepsLine(ds: seq<Deletion>, line: int, cd: nat, cd2: nat)
    requires cd <= cd2 <= |ds|
    requires forall k :: cd <= k < cd2 ==> ds[k].start >= line
    ensures ShiftLine(ds[cd..], line) == ShiftLine(ds[cd2..], line)
    decreases cd2 - cd
  {
    if cd < cd2 {
      assert ds[cd..][0] == ds[cd] && ds[cd..][1..] == ds[cd + 1..];
      SkipKeepsLine(ds, line, cd + 1, cd2);
    }
  }

  lemma ShiftAgreesOnOneAddition(ds: seq<Deletion>, a: Addition)
    requires Stacked(ds)
    ensures ShiftAsWritten(ds, [a]) == Ok(ShiftCorrected(ds, [a]))
  {
    assert Sorting.SortDesc([a], LineKey) == [a];
    ShiftLoopSingle(ds, a, 0);
    assert ds[0..] == ds;
    assert ShiftAll(ds, [a]) == [a.(line := ShiftLine(ds, a.line))];
  }

  /**
   * Two additions inside the same deletion: the loop moves only the first,
   * leaving the second inside the deleted range.
   */
  lemma SecondAdditionNotShifted()
    ensures var ds := [Deletion(1, 5, 0)];
      var adds := [Addition(3, "a", 0), Addition(3, "b", 0)];
      ShiftAsWritten(ds, adds) == Ok([Addition(1, "a", 0), Addition(3, "b", 0)]) &&
      Inside(ds[0], 3) &&
      ShiftCorrected(ds, adds) == [Addition(1, "a", 0), Addition(1, "b", 0)]
  {
    var ds := [Deletion(1, 5, 0)];
    var adds := [Addition(3, "a", 0), Addition(3, "b", 0)];
    assert Sorting.SortDesc(adds, LineKey) == adds;
    var a1 := [Addition(1, "a", 0), Addition(3, "b", 0)];
    assert adds[0 := Addition(1, "a", 0)] == a1;
    assert SkipDeletions(ds, 3, 0) == 0;
    assert SkipAdditions(adds, 5, 0) == 0;
    assert ShiftLoop(ds, adds, 0, 0) == ShiftLoop(ds, a1, 0, 0);
    assert SkipDeletions(ds, 1, 0) == 1;
    assert ShiftLine(ds, 3) == 1;
  }

  // ---------------------------------------------------------------------------
  // The constructor

  /** One above every line the sub-changes are positioned at. */
  function Top(cs: seq<SubChange>): (top: int)
    ensures forall i :: 0 <= i < |cs| ==> Below(cs[i], top)
  {
    if cs == [] then 0
    else
      var rest := Top(cs[1..]);
      assert forall i :: 1 <= i < |cs| ==> cs[i] == cs[1..][i - 1];
      match Position(cs[0])
      case Some(n) => if n + 1 > rest then n + 1 else rest
      case None => rest
  }

  function Dels(ds: seq<Deletion>): (r: seq<SubChange>)
    ensures |r| == |ds| && forall i :: 0 <= i < |ds| ==> r[i] == Del(ds[i])
  {
    if ds == [] then [] else [Del(ds[0])] + Dels(ds[1..])
  }

  function Adds(adds: seq<Addition>): (r: seq<SubChange>)
    ensures |r| == |adds| && forall i :: 0 <= i < |adds| ==> r[i] == Add(adds[i])
  {
    if adds == [] then [] else [Add(adds[0])] + Adds(adds[1..])
  }

  function Rens(ns: seq<Rename>): (r: seq<SubChange>)
    ensures |r| == |ns| && forall i :: 0 <= i < |ns| ==> r[i] == Ren(ns[i])
  {
    if ns == [] then [] else [Ren(ns[0])] + Rens(ns[1..])
  }

  /** `sorted(deletions + additions + renames, reverse=True, key=cmp_to_key(subchange_order))`. */
  function Arrange(ds: seq<Deletion>, adds: seq<Addition>, ns: seq<Rename>): seq<SubChange>
  {
    var all := Dels(ds) + Adds(adds) + Rens(ns);
    Sorting.SortDesc(all, ByOrder(Top(all)))
  }

  function ByOrder(top: int): SubChange -> int
  {
    c => OrderKey(c, top)
  }

  /** `self.changes` as the source computes it. */
  function ChangesAsWritten(cs: seq<SubChange>): Result<seq<SubChange>, ChangeError>
  {
    var ds := TrimDeletions(DeletionsOf(cs));
    var adds :- ShiftAsWritten(ds, AdditionsOf(cs));
    Ok(Arrange(ds, adds, RenamesOf(cs)))
  }

  /** `self.changes` with every addition inside a deletion moved. */
  function Changes(cs: seq<SubChange>): seq<SubChange>
  {
    var ds := TrimDeletions(DeletionsOf(cs));
    Arrange(ds, ShiftCorrected(ds, AdditionsOf(cs)), RenamesOf(cs))
  }

  /**
   * The arranged list is a permutation of its parts, descending by
   * `subchange_order` (so every rename comes first), and changes that compare
   * equal keep the order they had in `deletions + additions + renames`.
   */
  lemma ArrangeFacts(ds: seq<Deletion>, adds: seq<Addition>, ns: seq<Rename>)
    ensures var all := Dels(ds) + Adds(adds) + Rens(ns);
      var r := Arrange(ds, adds, ns);
      var key := ByOrder(Top(all));
      multiset(r) == multiset(all) &&
      (forall i, j :: 0 <= i < j < |r| ==> SubchangeOrder(r[i], r[j]) >= 0) &&
      (forall i, j :: 0 <= i < j < |r| && r[j].Ren? ==> r[i].Ren?) &&
      (forall k :: Sorting.WithKey(r, key, k) == Sorting.WithKey(all, key, k))
  {
    var all := Dels(ds) + Adds(adds) + Rens(ns);
    var top := Top(all);
    var key := ByOrder(top);
    var r := Arrange(ds, adds, ns);
    Sorting.SortDescFacts(all, key);
    forall i, j | 0 <= i < j < |r| ensures SubchangeOrder(r[i], r[j]) >= 0 && (r[j].Ren? ==> r[i].Ren?) {
      var ki := MemberIndex(all, r, i);
      var kj := MemberIndex(all, r, j);
      assert key(r[i]) >= key(r[j]);
      OrderIsKeyComparison(r[i], r[j], top);
    }
  }

  /** Where an element of a permutation of `all` sits in `all`. */
  lemma MemberIndex<T>(all: seq<T>, r: seq<T>, i: int) returns (k: nat)
    requires multiset(r) == multiset(all) && 0 <= i < |r|
    ensures k < |all| && all[k] == r[i]
  {
    assert r[i] in multiset(all);
    k :| 0 <= k < |all| && all[k] == r[i];
  }

  /**
   * The constructor's promises about the kept deletions and moved additions:
   * the deletions are trimmed as `TrimDeletionsFacts` states, and no addition
   * is left inside one of them.
   */
  lemma ChangesFacts(cs: seq<SubChange>)
    ensures var r := Changes(cs);
      var ds := TrimDeletions(DeletionsOf(cs));
      (forall i :: 0 <= i < |r| && r[i].Del? ==> r[i].deletion in ds) &&
      (forall i, k :: 0 <= i < |r| && r[i].Add? && 0 <= k < |ds| ==> !Inside(ds[k], r[i].addition.line)) &&
      (forall i :: 0 <= i < |r| && r[i].Ren? ==> Ren(r[i].rename) in cs) &&
      (forall i, j :: 0 <= i < j < |r| ==> SubchangeOrder(r[i], r[j]) >= 0)
  {
    var ds := TrimDeletions(DeletionsOf(cs));
    var adds := ShiftCorrected(ds, AdditionsOf(cs));
    var ns := RenamesOf(cs);
    var r := Changes(cs);
    assert r == Arrange(ds, adds, ns);
    TrimDeletionsFacts(DeletionsOf(cs));
    ShiftCorrectedFacts(ds, AdditionsOf(cs));
    ArrangeFacts(ds, adds, ns);
    forall i | 0 <= i < |r|
      ensures r[i].Del? ==> r[i].deletion in ds
      ensures r[i].Add? ==> forall m :: 0 <= m < |ds| ==> !Inside(ds[m], r[i].addition.line)
      ensures r[i].Ren? ==> r[i].rename in ns
    {
      var k := ArrangeMember(ds, adds, ns, i);
    }
  }

  /** Which part an element of the arranged list came from. */
  lemma ArrangeMember(ds: seq<Deletion>, adds: seq<Addition>, ns: seq<Rename>, i: int) returns (k: nat)
    requires 0 <= i < |Arrange(ds, adds, ns)|
    ensures var c := Arrange(ds, adds, ns)[i];
      (c.Del? ==> k < |ds| && c.deletion == ds[k]) &&
      (c.Add? ==> k < |adds| && c.addition == adds[k]) &&
      (c.Ren? ==> k < |ns| && c.rename == ns[k])
  {
    var all := Dels(ds) + Adds(adds) + Rens(ns);
    var r := Arrange(ds, adds, ns);
    Sorting.SortDescFacts(all, ByOrder(Top(all)));
    var j := MemberIndex(all, r, i);
    k := PartOf(ds, adds, ns, j);
  }

  /** Which part an element of `deletions + additions + renames` came from. */
  lemma PartOf(ds: seq<Deletion>, adds: seq<Addition>, ns: seq<Rename>, j: nat) returns (k: nat)
    requires j < |Dels(ds) + Adds(adds) + Rens(ns)|
    ensures var c := (Dels(ds) + Adds(adds) + Rens(ns))[j];
      (c.Del? ==> k < |ds| && c.deletion == ds[k]) &&
      (c.Add? ==> k < |adds| && c.addition == adds[k]) &&
      (c.Ren? ==> k < |ns| && c.rename == ns[k])
  {
    var all := Dels(ds) + Adds(adds) + Rens(ns);
    if j < |ds| {
      k := j;
      assert all[j] == Dels(ds)[j];
    } else if j < |ds| + |adds| {
      k := j - |ds|;
      assert all[j] == Adds(adds)[k];
    } else {
      k := j - |ds| - |adds|;
      assert all[j] == Rens(ns)[k];
    }
  }

  /** The two overlapping deletions of the source's test, sorted by end and trimmed. */
  lemma OverlapTrim()
    ensures TrimDeletions([Deletion(1, 3, 0), Deletion(2, 5, 0)]) == [Deletion(2, 5, 0), Deletion(1, 2, 0)]
  {
    var a, b := Deletion(1, 3, 0), Deletion(2, 5, 0);
    var dels := [a, b];
    assert dels[1..] == [b] && [b][1..] == [];
    assert Sorting.SortDesc([b], EndKey) == Sorting.InsertDesc(b, [], EndKey) == [b];
    assert Sorting.InsertDesc(a, [b], EndKey) == [b] + Sorting.InsertDesc(a, [], EndKey) == [b, a];
    assert Sorting.SortDesc(dels, EndKey) == [b, a];
    assert Trim([Deletion(1, 3, 0)], Some(2)) == [Deletion(1, 2, 0)] + Trim([], Some(1));
    assert Trim([Deletion(2, 5, 0), Deletion(1, 3, 0)], None) == [Deletion(2, 5, 0)] + Trim([Deletion(1, 3, 0)], Some(2));
  }

  /** The addition at line 4 falls inside (2,5) and moves to its start, then inside (1,2) and moves to 1. */
  lemma OverlapShift()
    ensures ShiftAsWritten([Deletion(2, 5, 0), Deletion(1, 2, 0)], [Addition(4, "x", 0)]) == Ok([Addition(1, "x", 0)])
  {
    var ds := [Deletion(2, 5, 0), Deletion(1, 2, 0)];
    var a := Addition(4, "x", 0);
    ShiftAgreesOnOneAddition(ds, a);
    assert ds[1..] == [Deletion(1, 2, 0)] && ds[1..][1..] == [];
    assert ShiftLine(ds, 4) == ShiftLine([Deletion(1, 2, 0)], 2) == ShiftLine([], 1) == 1;
    assert Sorting.SortDesc([a], LineKey) == [a];
    assert ShiftAll(ds, [a]) == [a.(line := 1)];
  }

  /**
   * The overlapping deletions of the source's test: (1,3) and (2,5) become
   * (2,5) and (1,2), and the addition at line 4 moves to line 1.
   */
  lemma OverlapExample()
    ensures var cs := [Del(Deletion(1, 3, 0)), Del(Deletion(2, 5, 0)), Add(Addition(4, "x", 0))];
      TrimDeletions(DeletionsOf(cs)) == [Deletion(2, 5, 0), Deletion(1, 2, 0)] &&
      ShiftAsWritten(TrimDeletions(DeletionsOf(cs)), AdditionsOf(cs)) == Ok([Addition(1, "x", 0)])
  {
    var cs := [Del(Deletion(1, 3, 0)), Del(Deletion(2, 5, 0)), Add(Addition(4, "x", 0))];
    assert cs[1..] == [Del(Deletion(2, 5, 0)), Add(Addition(4, "x", 0))] && cs[1..][1..] == [Add(Addition(4, "x", 0))];
    assert DeletionsOf(cs) == [Deletion(1, 3, 0), Deletion(2, 5, 0)];
    assert AdditionsOf(cs) == [Addition(4, "x", 0)];
    OverlapTrim();
    OverlapShift();
  }
}

=== FILE: auto_completer.dfy ===
/**
 * Command-line completion (mentat/auto_completer.py): which suggestions the
 * buffer gets and where each one is placed. The command registry and the
 * `shlex` helpers are parameters.
 */
module AutoCompleter {
  import opened Wrappers
  import opened PyText

  /** A suggestion: the text to insert, where (counted back from the cursor), and what to show. */
  datatype Completion = Completion(content: string, position: int, display: string)

  /** A `(content, display)` pair offered to `_replace_last_word`. */
  datatype Candidate = Candidate(content: string, display: string)

  /** Where the suggestion goes: the given position, or back over the last word. */
  function Position(lastWord: string, position: Option<int>): int
  {
    if position.None? then -|lastWord| else position.value
  }

  /** `_replace_last_word`: the candidates whose display starts with the last word. */
  function ReplaceLastWord(lastWord: string, candidates: seq<Candidate>, position: Option<int>): seq<Completion>
  {
    if candidates == [] then []
    else
      var c := candidates[0];
      var rest := ReplaceLastWord(lastWord, candidates[1..], position);
      if StartsWith(c.display, lastWord) then [Completion(c.content, Position(lastWord, position), c.display)] + rest
      else rest
  }

  /** Filtering distributes over concatenation, so the kept candidates keep their order. */
  lemma {:induction false} ReplaceLastWordAppend(lastWord: string, a: seq<Candidate>, b: seq<Candidate>, position: Option<int>)
    ensures ReplaceLastWord(lastWord, a + b, position)
         == ReplaceLastWord(lastWord, a, position) + ReplaceLastWord(lastWord, b, position)
  {
    if a == [] {
      assert a + b == b;
    } else {
      assert (a + b)[0] == a[0];
      assert (a + b)[1..] == a[1..] + b;
      ReplaceLastWordAppend(lastWord, a[1..], b, position);
    }
  }

  /** A completion made from one of the candidates, matching the last word, at the common position. */
  predicate Kept(lastWord: string, candidates: seq<Candidate>, position: Option<int>, c: Completion)
  {
    StartsWith(c.display, lastWord) && c.position == Position(lastWord, position)
    && Candidate(c.content, c.display) in candidates
  }

  /**
   * Exactly the candidates whose display starts with the last word are kept,
   * each placed at the same position.
   */
  lemma {:induction false} ReplaceLastWordKeeps(lastWord: string, candidates: seq<Candidate>, position: Option<int>)
    ensures var r := ReplaceLastWord(lastWord, candidates, position);
      forall k :: 0 <= k < |r| ==> Kept(lastWord, candidates, position, r[k])
    ensures var r := ReplaceLastWord(lastWord, candidates, position);
      forall i :: 0 <= i < |candidates| && StartsWith(candidates[i].display, lastWord) ==>
        Completion(candidates[i].content, Position(lastWord, position), candidates[i].display) in r
  {
    if candidates != [] {
      ReplaceLastWordKeeps(lastWord, candidates[1..], position);
      var r := ReplaceLastWord(lastWord, candidates, position);
      var rest := ReplaceLastWord(lastWord, candidates[1..], position);
      forall i | 0 <= i < |candidates| && StartsWith(candidates[i].display, lastWord)
        ensures Completion(candidates[i].content, Position(lastWord, position), candidates[i].display) in r
      {
        if i > 0 {
          assert candidates[1..][i - 1] == candidates[i];
        }
      }
      var c := candidates[0];
      var head := if StartsWith(c.display, lastWord) then 1 else 0;
      assert r == (if head == 1 then [Completion(c.content, Position(lastWord, position), c.display)] else []) + rest;
      forall k | 0 <= k < |r|
        ensures Kept(lastWord, candidates, position, r[k])
      {
        if k >= head {
          assert r[k] == rest[k - head];
          assert Kept(lastWord, candidates[1..], position, rest[k - head]);
          var x := Candidate(rest[k - head].content, rest[k - head].display);
          var j :| 0 <= j < |candidates[1..]| && candidates[1..][j] == x;
          assert candidates[j + 1] == x;
        } else {
          assert Candidate(r[k].content, r[k].display) == candidates[0];
        }
      }
    }
  }

  /** An empty last word at position 0 keeps every candidate, in order. */
  lemma {:induction false} EmptyWordKeepsAll(candidates: seq<Candidate>)
    ensures ReplaceLastWord("", candidates, Some(0))
         == seq(|candidates|, i requires 0 <= i < |candidates| => Completion(candidates[i].content, 0, candidates[i].display))
  {
    if candidates != [] {
      EmptyWordKeepsAll(candidates[1..]);
    }
  }

  // ---------------------------------------------------------------------------
  // Dispatch

  /** What completion needs from the command registry and from `shlex`. */
  datatype Environment = Environment(
    commandNames: seq<string>,
    /** `_partial_shlex_split`: the words and whether a quote is left open. */
    partialSplit: string -> (seq<string>, bool),
    /** `_find_shlex_last_word_position`. */
    lastWordPosition: (string, int) -> int,
    /** `argument_autocompletions` of the named command, given the earlier words and the argument index. */
    argumentCompletions: (string, seq<string>, int) -> seq<string>,
    /** `shlex.quote`. */
    quote: string -> string)

  const Whitespace := " \t\r\n"

  function NameCandidates(names: seq<string>): seq<Candidate>
  {
    seq(|names|, i requires 0 <= i < |names| => Candidate(names[i], names[i]))
  }

  function QuotedCandidates(quote: string -> string, names: seq<string>): seq<Candidate>
  {
    seq(|names|, i requires 0 <= i < |names| => Candidate(quote(names[i]), names[i]))
  }

  /**
   * `_command_argument_completion` on the buffer after the `/`. With no words
   * and no trailing whitespace, `split_buffer[-1]` raises `IndexError`.
   */
  function CommandArgumentCompletion(env: Environment, buffer: string): Result<seq<Completion>, string>
  {
    if ' ' !in buffer then Ok(ReplaceLastWord(buffer, NameCandidates(env.commandNames), None))
    else
      var pieces := Split(buffer, ' ');
      var command := pieces[0];
      var argumentBuffer := Join(pieces[1..], ' ');
      var (words, inQuote) := env.partialSplit(argumentBuffer);
      var position := env.lastWordPosition(argumentBuffer, |words|);
      var newArgument := buffer[|buffer| - 1] in Whitespace && !inQuote;
      var split := if newArgument then words + [""] else words;
      var lastPosition := if newArgument then 0 else position;
      if split == [] then Err("IndexError")
      else
        var names := env.argumentCompletions(command, split[..|split| - 1], |split| - 1);
        Ok(ReplaceLastWord(split[|split| - 1], QuotedCandidates(env.quote, names), Some(lastPosition)))
  }

  /** `get_completions`. */
  function GetCompletions(env: Environment, buffer: string): Result<seq<Completion>, string>
  {
    if Strip(buffer) == "" then Ok([])
    else if StartsWith(buffer, "/") then CommandArgumentCompletion(env, buffer[1..])
    else Ok([])
  }

  /** A blank buffer, or one that is not a command, gets no suggestions. */
  lemma NothingOutsideCommands(env: Environment, buffer: string)
    requires IsBlank(buffer) || !StartsWith(buffer, "/")
    ensures GetCompletions(env, buffer) == Ok([])
  {
    StripEmptyIffBlank(buffer);
  }

  /** A `/` buffer with no space completes command names by prefix, back over the typed word. */
  lemma CommandNames(env: Environment, word: string)
    requires ' ' !in word
    ensures var r := GetCompletions(env, "/" + word);
      && r.Ok?
      && (forall k :: 0 <= k < |r.value| ==>
            r.value[k].content == r.value[k].display && r.value[k].display in env.commandNames
            && StartsWith(r.value[k].display, word) && r.value[k].position == -|word|)
      && (forall n :: n in env.commandNames && StartsWith(n, word) ==> Completion(n, -|word|, n) in r.value)
  {
    var buffer := "/" + word;
    assert buffer[0] == '/' && !IsBlank(buffer);
    StripEmptyIffBlank(buffer);
    assert buffer[1..] == word;
    assert GetCompletions(env, buffer) == Ok(ReplaceLastWord(word, NameCandidates(env.commandNames), None));
    NamesKept(env.commandNames, word);
  }

  lemma NamesKept(names: seq<string>, word: string)
    ensures var r := ReplaceLastWord(word, NameCandidates(names), None);
      && (forall k :: 0 <= k < |r| ==>
            r[k].content == r[k].display && r[k].display in names
            && StartsWith(r[k].display, word) && r[k].position == -|word|)
      && (forall n :: n in names && StartsWith(n, word) ==> Completion(n, -|word|, n) in r)
  {
    var cs := NameCandidates(names);
    var r := ReplaceLastWord(word, cs, None);
    ReplaceLastWordKeeps(word, cs, None);
    forall k | 0 <= k < |r|
      ensures r[k].content == r[k].display && r[k].display in names
    {
      assert Kept(word, cs, None, r[k]);
      var i :| 0 <= i < |cs| && cs[i] == Candidate(r[k].content, r[k].display);
    }
    forall n | n in names && StartsWith(n, word)
      ensures Completion(n, -|word|, n) in r
    {
      var i :| 0 <= i < |names| && names[i] == n;
      assert cs[i] == Candidate(n, n);
    }
  }

  /** The argument buffer is everything after the first space. */
  lemma ArgumentBuffer(buffer: string)
    requires ' ' in buffer
    ensures var k := IndexOf(buffer, ' ');
      Split(buffer, ' ')[0] == buffer[..k] && Join(Split(buffer, ' ')[1..], ' ') == buffer[k + 1..]
  {
    var k := IndexOf(buffer, ' ');
    JoinSplit(buffer[k + 1..], ' ');
    assert Split(buffer, ' ')[1..] == Split(buffer[k + 1..], ' ');
  }

  /**
   * Trailing whitespace outside a quote starts a new, empty argument: every
   * completion the command offers for the next argument index is kept, at
   * position 0.
   */
  lemma TrailingWhitespace(env: Environment, buffer: string)
    requires ' ' in buffer && buffer[|buffer| - 1] in Whitespace
    requires !env.partialSplit(Join(Split(buffer, ' ')[1..], ' ')).1
    ensures var (words, _) := env.partialSplit(Join(Split(buffer, ' ')[1..], ' '));
      var names := env.argumentCompletions(Split(buffer, ' ')[0], words, |words|);
      CommandArgumentCompletion(env, buffer)
        == Ok(seq(|names|, i requires 0 <= i < |names| => Completion(env.quote(names[i]), 0, names[i])))
  {
    var (words, _) := env.partialSplit(Join(Split(buffer, ' ')[1..], ' '));
    var split := words + [""];
    assert split[..|split| - 1] == words && split[|split| - 1] == "";
    var names := env.argumentCompletions(Split(buffer, ' ')[0], words, |words|);
    assert CommandArgumentCompletion(env, buffer) == Ok(ReplaceLastWord("", QuotedCandidates(env.quote, names), Some(0)));
    var qs := QuotedCandidates(env.quote, names);
    EmptyWordKeepsAll(qs);
    assert seq(|qs|, i requires 0 <= i < |qs| => Completion(qs[i].content, 0, qs[i].display))
        == seq(|names|, i requires 0 <= i < |names| => Completion(env.quote(names[i]), 0, names[i]));
  }
}

=== FILE: chroma_scores.dfy ===
/**
 * Similarity scores through the vector store (mentat/embeddings2.py): the
 * recursive `$or` filter `create_query` builds, and which features are sent
 * for embedding. The store itself is left abstract: `stored` says whether it
 * holds a checksum, and a score names the checksum whose distance it reports.
 */
module ChromaScores {
  import opened Wrappers

  const Threshold := 10
  const FeatureCap := 250

  // ---------------------------------------------------------------------------
  // create_query

  /** `{"$or": [{"checksum": c}, ...]}` or `{"$or": [left, right]}`. */
  datatype Where = AnyChecksum(checksums: seq<string>) | Either(left: Where, right: Where)

  function CreateQuery(checksums: seq<string>): Where
    decreases |checksums|
  {
    if |checksums| <= Threshold then AnyChecksum(checksums)
    else
      var mid := |checksums| / 2;
      Either(CreateQuery(checksums[..mid]), CreateQuery(checksums[mid..]))
  }

  /** The checksums of the leaves, left to right. */
  function Leaves(q: Where): seq<string>
  {
    match q
    case AnyChecksum(cs) => cs
    case Either(l, r) => Leaves(l) + Leaves(r)
  }

  /** Every leaf lists between `lo` and `hi` checksums. */
  predicate LeafSizes(q: Where, lo: int, hi: int)
  {
    match q
    case AnyChecksum(cs) => lo <= |cs| <= hi
    case Either(l, r) => LeafSizes(l, lo, hi) && LeafSizes(r, lo, hi)
  }

  /**
   * The filter matches exactly the given checksums, in order; a short list is
   * one flat `$or`, and a long one is split into leaves of 5 to 10 checksums.
   */
  lemma {:induction false} CreateQueryFacts(checksums: seq<string>)
    ensures Leaves(CreateQuery(checksums)) == checksums
    ensures CreateQuery(checksums).AnyChecksum? <==> |checksums| <= Threshold
    ensures |checksums| > Threshold ==> LeafSizes(CreateQuery(checksums), Threshold / 2, Threshold)
    decreases |checksums|
  {
    if |checksums| > Threshold {
      var mid := |checksums| / 2;
      CreateQueryFacts(checksums[..mid]);
      CreateQueryFacts(checksums[mid..]);
      assert checksums[..mid] + checksums[mid..] == checksums;
      SmallLeaf(checksums[..mid]);
      SmallLeaf(checksums[mid..]);
    }
  }

  lemma SmallLeaf(checksums: seq<string>)
    requires |checksums| >= Threshold / 2
    ensures LeafSizes(CreateQuery(checksums), Threshold / 2, Threshold) || |checksums| > Threshold
  {
  }

  /** Eleven checksums split into five and six. */
  lemma QueryExample(cs: seq<string>)
    requires |cs| == 11
    ensures CreateQuery(cs) == Either(AnyChecksum(cs[..5]), AnyChecksum(cs[5..]))
  {
  }

  // ---------------------------------------------------------------------------
  // Which features are embedded

  datatype Feature = Feature(checksum: string, tokens: nat)

  /** `Zero` is 0.0; `Distance(c)` is the distance the store reports for `c`. */
  datatype Score = Zero | Distance(checksum: string)

  /** Wanted for embedding: small enough, not yet stored. */
  predicate Wanted(f: Feature, stored: string -> bool, maxTokens: int)
  {
    f.tokens <= maxTokens && !stored(f.checksum)
  }

  /** The embedding loop: wanted features, each checksum once, in first-seen order. */
  function Collect(features: seq<Feature>, stored: string -> bool, maxTokens: int, acc: seq<Feature>): seq<Feature>
    decreases |features|
  {
    if features == [] then acc
    else
      var f := features[0];
      var known := exists j :: 0 <= j < |acc| && acc[j].checksum == f.checksum;
      var next := if !Wanted(f, stored, maxTokens) || known then acc else acc + [f];
      Collect(features[1..], stored, maxTokens, next)
  }

  function ToEmbed(features: seq<Feature>, stored: string -> bool, maxTokens: int): seq<Feature>
  {
    Collect(features, stored, maxTokens, [])
  }

  predicate DistinctChecksums(fs: seq<Feature>)
  {
    forall i, j :: 0 <= i < j < |fs| ==> fs[i].checksum != fs[j].checksum
  }

  predicate AllWanted(fs: seq<Feature>, stored: string -> bool, maxTokens: int)
  {
    forall i :: 0 <= i < |fs| ==> Wanted(fs[i], stored, maxTokens)
  }

  predicate HasChecksum(fs: seq<Feature>, c: string)
  {
    exists j :: 0 <= j < |fs| && fs[j].checksum == c
  }

  lemma {:induction false} CollectFacts(features: seq<Feature>, stored: string -> bool, maxTokens: int, acc: seq<Feature>, c: string)
    requires DistinctChecksums(acc) && AllWanted(acc, stored, maxTokens)
    ensures var r := Collect(features, stored, maxTokens, acc);
      && DistinctChecksums(r) && AllWanted(r, stored, maxTokens)
      && (HasChecksum(r, c) <==>
            (HasChecksum(acc, c)
             || exists i :: 0 <= i < |features| && Wanted(features[i], stored, maxTokens) && features[i].checksum == c))
    decreases |features|
  {
    if features != [] {
      var f := features[0];
      var known := HasChecksum(acc, f.checksum);
      var next := if !Wanted(f, stored, maxTokens) || known then acc else acc + [f];
      assert Collect(features, stored, maxTokens, acc) == Collect(features[1..], stored, maxTokens, next);
      if !(!Wanted(f, stored, maxTokens) || known) {
        forall i, j | 0 <= i < j < |next| ensures next[i].checksum != next[j].checksum {
          if j == |acc| {
            assert next[i] == acc[i];
          }
        }
        assert HasChecksum(next, c) <==> HasChecksum(acc, c) || f.checksum == c by {
          if f.checksum == c { assert next[|acc|] == f; }
          if HasChecksum(next, c) {
            var j :| 0 <= j < |next| && next[j].checksum == c;
            if j < |acc| { assert acc[j] == next[j]; }
          }
          if HasChecksum(acc, c) {
            var j :| 0 <= j < |acc| && acc[j].checksum == c;
            assert next[j] == acc[j];
          }
        }
      }
      CollectFacts(features[1..], stored, maxTokens, next, c);
      if exists i :: 0 <= i < |features| && Wanted(features[i], stored, maxTokens) && features[i].checksum == c {
        var i :| 0 <= i < |features| && Wanted(features[i], stored, maxTokens) && features[i].checksum == c;
        if i > 0 {
          assert features[1..][i - 1] == features[i];
        }
      }
      if exists i :: 0 <= i < |features[1..]| && Wanted(features[1..][i], stored, maxTokens) && features[1..][i].checksum == c {
        var i :| 0 <= i < |features[1..]| && Wanted(features[1..][i], stored, maxTokens) && features[1..][i].checksum == c;
        assert features[i + 1] == features[1..][i];
      }
    }
  }

  /**
   * Each distinct checksum of a feature that is small enough and not yet
   * stored is embedded exactly once, and nothing else is.
   */
  lemma ToEmbedFacts(features: seq<Feature>, stored: string -> bool, maxTokens: int, c: string)
    ensures DistinctChecksums(ToEmbed(features, stored, maxTokens))
    ensures AllWanted(ToEmbed(features, stored, maxTokens), stored, maxTokens)
    ensures HasChecksum(ToEmbed(features, stored, maxTokens), c)
        <==> exists i :: 0 <= i < |features| && Wanted(features[i], stored, maxTokens) && features[i].checksum == c
  {
    CollectFacts(features, stored, maxTokens, [], c);
  }

  // ---------------------------------------------------------------------------
  // Scores

  /** `features[:250]`. */
  function Considered(features: seq<Feature>): (r: seq<Feature>)
    ensures |r| == if |features| < FeatureCap then |features| else FeatureCap
    ensures forall i :: 0 <= i < |r| ==> r[i] == features[i]
  {
    if |features| <= FeatureCap then features else features[..FeatureCap]
  }

  /** Whether the store holds `c` once the wanted features have been added. */
  predicate InStoreAfterAdd(considered: seq<Feature>, stored: string -> bool, maxTokens: int, c: string)
  {
    stored(c) || HasChecksum(ToEmbed(considered, stored, maxTokens), c)
  }

  /**
   * `get_feature_similarity_scores` after the cost question: `maxTokens` is
   * the model's context size (`None` raises), `stored` says what the store
   * held before, and `proceed` is the answer (`True` when the cost is
   * unknown or at most a dollar). The query returns distances only for ids
   * in the store, so a feature over the token limit whose checksum was never
   * stored makes `scores[c]` raise `KeyError`.
   */
  function SimilarityScores(promptTokens: nat, features: seq<Feature>, maxTokens: Option<int>, stored: string -> bool, proceed: bool): (r: Result<seq<Score>, string>)
    ensures maxTokens.None? ==> r == Err("Missing model context size")
    ensures r.Ok? ==> |r.value| == if |features| < FeatureCap then |features| else FeatureCap
    ensures r.Ok? && (promptTokens > maxTokens.value || !proceed) ==> forall i :: 0 <= i < |r.value| ==> r.value[i] == Zero
    ensures r.Ok? && promptTokens <= maxTokens.value && proceed ==>
      forall i :: 0 <= i < |r.value| ==> r.value[i] == Distance(features[i].checksum)
    ensures maxTokens.Some? && (promptTokens > maxTokens.value || !proceed) ==> r.Ok?
  {
    var considered := Considered(features);
    if maxTokens.None? then Err("Missing model context size")
    else if promptTokens > maxTokens.value || !proceed then Ok(seq(|considered|, i => Zero))
    else if exists i :: 0 <= i < |considered| && !InStoreAfterAdd(considered, stored, maxTokens.value, considered[i].checksum)
    then Err("KeyError")
    else Ok(seq(|considered|, i requires 0 <= i < |considered| => Distance(considered[i].checksum)))
  }

  /**
   * With the prompt within the limit and the cost accepted, scoring fails
   * with `KeyError` exactly when one of the first 250 features has a
   * checksum that was not stored and that no copy within the token limit
   * brings in.
   */
  lemma SimilarityScoresKeyError(promptTokens: nat, features: seq<Feature>, maxTokens: int, stored: string -> bool)
    requires promptTokens <= maxTokens
    ensures var considered := Considered(features);
      SimilarityScores(promptTokens, features, Some(maxTokens), stored, true) == Err("KeyError")
      <==> exists i :: 0 <= i < |considered| && !stored(considered[i].checksum)
             && forall j :: 0 <= j < |considered| && considered[j].checksum == considered[i].checksum
                  ==> considered[j].tokens > maxTokens
  {
    var considered := Considered(features);
    ScoresFailOnMissing(promptTokens, features, maxTokens, stored);
    forall i | 0 <= i < |considered| {
      MissingAfterAdd(considered, stored, maxTokens, considered[i].checksum);
    }
  }

  lemma ScoresFailOnMissing(promptTokens: nat, features: seq<Feature>, maxTokens: int, stored: string -> bool)
    requires promptTokens <= maxTokens
    ensures var considered := Considered(features);
      SimilarityScores(promptTokens, features, Some(maxTokens), stored, true) == Err("KeyError")
      <==> exists i :: 0 <= i < |considered| && !InStoreAfterAdd(considered, stored, maxTokens, considered[i].checksum)
  {
  }

  /** A checksum is missing after the add exactly when it was not stored and every copy of it is over the limit. */
  lemma MissingAfterAdd(considered: seq<Feature>, stored: string -> bool, maxTokens: int, c: string)
    ensures !InStoreAfterAdd(considered, stored, maxTokens, c)
        <==> !stored(c) && forall j :: 0 <= j < |considered| && considered[j].checksum == c ==> considered[j].tokens > maxTokens
  {
    ToEmbedFacts(considered, stored, maxTokens, c);
  }

  /** A feature over the limit that the store never held cannot be scored. */
  lemma OversizedUnstoredRaises(stored: string -> bool)
    requires !stored("c")
    ensures SimilarityScores(0, [Feature("c", 9)], Some(5), stored, true) == Err("KeyError")
  {
    var fs := [Feature("c", 9)];
    SimilarityScoresKeyError(0, fs, 5, stored);
    assert Considered(fs)[0] == fs[0];
  }
}

=== FILE: code_context.dfy ===
/**
 * The code context (mentat/code_context.py): the included-files table that
 * `include_file` and `exclude_file` edit, the auto-context budget, the cached
 * code message, the include features sorted by relative path, the first
 * auto-context level that fits, and the accounting of code-map to full-code
 * swaps. Token counts, checksums, similarity scores and the filesystem are
 * parameters.
 */
module CodeContext {
  import opened Wrappers
  import opened PyText
  import opened Sorting
  import opened Intervals
  import opened CodeFeatures
  import Selection

  // ---------------------------------------------------------------------------
  // The included-files table

  /**
   * `include_files` is a dict from path to feature; dicts keep insertion
   * order, so the table is a sequence of entries with distinct keys.
   */
  type Entries<V> = seq<(string, V)>

  function Keys<V>(es: Entries<V>): (r: seq<string>)
    ensures |r| == |es|
    ensures forall i :: 0 <= i < |es| ==> r[i] == es[i].0
  {
    seq(|es|, i requires 0 <= i < |es| => es[i].0)
  }

  predicate DistinctKeys<V>(es: Entries<V>)
  {
    forall i, j :: 0 <= i < j < |es| ==> es[i].0 != es[j].0
  }

  predicate NoDuplicates(s: seq<string>)
  {
    forall i, j :: 0 <= i < j < |s| ==> s[i] != s[j]
  }

  /** The loop of `include_file`: each resolved path not yet present is appended. */
  function AddNew<V>(es: Entries<V>, resolved: Entries<V>): Entries<V>
    decreases |resolved|
  {
    if resolved == [] then es
    else
      var next := if resolved[0].0 in Keys(es) then es else es + [resolved[0]];
      AddNew(next, resolved[1..])
  }

  /**
   * `include_file`: `resolved` is what `get_include_files` found for the
   * argument (a dict, so its keys are distinct). Returns the new table and
   * every resolved path, whether or not it was new.
   */
  function IncludeFile<V>(es: Entries<V>, resolved: Entries<V>): (r: (Entries<V>, seq<string>))
    ensures |r.1| == |resolved|
    ensures forall i :: 0 <= i < |resolved| ==> r.1[i] == resolved[i].0
  {
    (AddNew(es, resolved), Keys(resolved))
  }

  /**
   * The existing entries stay first and unchanged, keys stay distinct, the
   * keys afterwards are the old ones plus the resolved ones, and every added
   * entry comes from `resolved`.
   */
  lemma {:induction false} AddNewFacts<V>(es: Entries<V>, resolved: Entries<V>)
    requires DistinctKeys(es)
    ensures var r := AddNew(es, resolved);
      && DistinctKeys(r)
      && es <= r
      && (forall p :: p in Keys(r) <==> p in Keys(es) || p in Keys(resolved))
      && (forall i :: |es| <= i < |r| ==> r[i] in resolved)
    decreases |resolved|
  {
    if resolved != [] {
      var x := resolved[0];
      var next := if x.0 in Keys(es) then es else es + [x];
      if x.0 !in Keys(es) {
        forall i, j | 0 <= i < j < |next| ensures next[i].0 != next[j].0 {
          if j == |es| {
            assert Keys(es)[i] == es[i].0;
          }
        }
        assert Keys(next) == Keys(es) + [x.0];
      }
      AddNewFacts(next, resolved[1..]);
      var r := AddNew(es, resolved);
      assert Keys(resolved) == [x.0] + Keys(resolved[1..]);
      forall i | |es| <= i < |r| ensures r[i] in resolved {
        if i >= |next| {
          assert r[i] in resolved[1..];
        } else {
          assert r[i] == x;
        }
      }
    }
  }

  /** With paths that are all new, `include_file` appends them in order. */
  lemma {:induction false} AddFresh<V>(es: Entries<V>, resolved: Entries<V>)
    requires DistinctKeys(resolved)
    requires forall i :: 0 <= i < |resolved| ==> resolved[i].0 !in Keys(es)
    ensures AddNew(es, resolved) == es + resolved
    decreases |resolved|
  {
    if resolved != [] {
      var x := resolved[0];
      var next := es + [x];
      assert Keys(next) == Keys(es) + [x.0];
      forall i | 0 <= i < |resolved[1..]| ensures resolved[1..][i].0 !in Keys(next) {
        assert resolved[1..][i] == resolved[i + 1];
      }
      AddFresh(next, resolved[1..]);
      assert next + resolved[1..] == es + resolved;
    }
  }

  /** The entries whose key is not `p`. */
  function Delete<V>(es: Entries<V>, p: string): Entries<V>
  {
    if es == [] then []
    else (if es[0].0 == p then [] else [es[0]]) + Delete(es[1..], p)
  }

  /** The reference for `exclude_file`'s table: the entries whose key is not listed. */
  function Without<V>(es: Entries<V>, paths: seq<string>): Entries<V>
  {
    if es == [] then []
    else (if es[0].0 in paths then [] else [es[0]]) + Without(es[1..], paths)
  }

  /** The reference for `exclude_file`'s answer: the listed paths that are keys. */
  function Present(paths: seq<string>, keys: seq<string>): seq<string>
  {
    if paths == [] then []
    else (if paths[0] in keys then [paths[0]] else []) + Present(paths[1..], keys)
  }

  /**
   * The loop of `exclude_file`: each listed path still present is recorded
   * and deleted. Afterwards a path is included iff it was included and not
   * listed, and it is reported removed iff it was listed and included.
   */
  function ExcludeFile<V>(es: Entries<V>, paths: seq<string>): (r: (Entries<V>, seq<string>))
    ensures forall q :: q in Keys(r.0) <==> q in Keys(es) && q !in paths
    ensures forall q :: q in r.1 <==> q in paths && q in Keys(es)
    decreases |paths|
  {
    if paths == [] then (es, [])
    else
      var p := paths[0];
      assert paths == [p] + paths[1..];
      if p in Keys(es) then
        DeleteKeys(es, p);
        var (rest, removed) := ExcludeFile(Delete(es, p), paths[1..]);
        (rest, [p] + removed)
      else ExcludeFile(es, paths[1..])
  }

  lemma {:induction false} DeleteKeys<V>(es: Entries<V>, p: string)
    ensures forall q :: q in Keys(Delete(es, p)) <==> q in Keys(es) && q != p
  {
    if es != [] {
      DeleteKeys(es[1..], p);
      assert Keys(es) == [es[0].0] + Keys(es[1..]);
      var d := Delete(es, p);
      assert Keys(d) == (if es[0].0 == p then [] else [es[0].0]) + Keys(Delete(es[1..], p));
    }
  }

  lemma {:induction false} DeleteThenWithout<V>(es: Entries<V>, p: string, rest: seq<string>)
    ensures Without(Delete(es, p), rest) == Without(es, [p] + rest)
  {
    if es != [] {
      DeleteThenWithout(es[1..], p, rest);
      var head := if es[0].0 == p then [] else [es[0]];
      WithoutAppend(head, Delete(es[1..], p), rest);
    }
  }

  lemma {:induction false} WithoutAppend<V>(a: Entries<V>, b: Entries<V>, paths: seq<string>)
    ensures Without(a + b, paths) == Without(a, paths) + Without(b, paths)
  {
    if a == [] {
      assert a + b == b;
    } else {
      var head := if a[0].0 in paths then [] else [a[0]];
      assert (a + b)[0] == a[0];
      assert (a + b)[1..] == a[1..] + b;
      WithoutAppend(a[1..], b, paths);
      assert Without(a + b, paths) == head + Without(a[1..] + b, paths);
      assert Without(a, paths) == head + Without(a[1..], paths);
    }
  }

  lemma {:induction false} PresentAfterDelete<V>(rest: seq<string>, es: Entries<V>, p: string)
    requires p !in rest
    ensures Present(rest, Keys(Delete(es, p))) == Present(rest, Keys(es))
  {
    if rest != [] {
      DeleteKeys(es, p);
      PresentAfterDelete(rest[1..], es, p);
    }
  }

  /**
   * `exclude_file` leaves exactly the entries whose path was not listed, in
   * their order, and returns exactly the listed paths that were included, in
   * the order listed.
   */
  lemma {:induction false} ExcludeFileFacts<V>(es: Entries<V>, paths: seq<string>)
    requires NoDuplicates(paths)
    ensures ExcludeFile(es, paths).0 == Without(es, paths)
    ensures ExcludeFile(es, paths).1 == Present(paths, Keys(es))
    decreases |paths|
  {
    if paths != [] {
      var p := paths[0];
      var rest := paths[1..];
      assert paths == [p] + rest;
      assert forall j :: 0 <= j < |rest| ==> rest[j] == paths[j + 1] != paths[0];
      assert p !in rest;
      assert NoDuplicates(rest) by {
        forall i, j | 0 <= i < j < |rest| ensures rest[i] != rest[j] {
          assert rest[i] == paths[i + 1] && rest[j] == paths[j + 1];
        }
      }
      if p in Keys(es) {
        ExcludeFileFacts(Delete(es, p), rest);
        DeleteThenWithout(es, p, rest);
        PresentAfterDelete(rest, es, p);
        var (left, removed) := ExcludeFile(Delete(es, p), rest);
        assert ExcludeFile(es, paths) == (left, [p] + removed);
        assert Present(paths, Keys(es)) == [p] + Present(rest, Keys(es));
      } else {
        ExcludeFileFacts(es, rest);
        AbsentWithout(es, p, rest);
        assert ExcludeFile(es, paths) == ExcludeFile(es, rest);
        assert Present(paths, Keys(es)) == Present(rest, Keys(es));
      }
    } else {
      WithoutNone(es, paths);
    }
  }

  lemma {:induction false} AbsentWithout<V>(es: Entries<V>, p: string, rest: seq<string>)
    requires p !in Keys(es)
    ensures Without(es, rest) == Without(es, [p] + rest)
  {
    if es != [] {
      assert Keys(es) == [es[0].0] + Keys(es[1..]);
      AbsentWithout(es[1..], p, rest);
    }
  }

  lemma {:induction false} PresentMembers(paths: seq<string>, keys: seq<string>)
    ensures forall q :: q in Present(paths, keys) <==> q in paths && q in keys
  {
    if paths != [] {
      PresentMembers(paths[1..], keys);
      assert paths == [paths[0]] + paths[1..];
    }
  }

  lemma {:induction false} WithoutMembers<V>(es: Entries<V>, paths: seq<string>)
    ensures forall q :: q in Keys(Without(es, paths)) <==> q in Keys(es) && q !in paths
  {
    if es != [] {
      WithoutMembers(es[1..], paths);
      assert Keys(es) == [es[0].0] + Keys(es[1..]);
      assert Keys(Without(es, paths))
          == (if es[0].0 in paths then [] else [es[0].0]) + Keys(Without(es[1..], paths));
    }
  }

  lemma {:induction false} WithoutAll<V>(es: Entries<V>, paths: seq<string>)
    requires forall i :: 0 <= i < |es| ==> es[i].0 in paths
    ensures Without(es, paths) == []
  {
    if es != [] {
      WithoutAll(es[1..], paths);
    }
  }

  lemma {:induction false} WithoutNone<V>(es: Entries<V>, paths: seq<string>)
    requires forall i :: 0 <= i < |es| ==> es[i].0 !in paths
    ensures Without(es, paths) == es
  {
    if es != [] {
      WithoutNone(es[1..], paths);
      assert es == [es[0]] + es[1..];
    }
  }

  lemma {:induction false} PresentAll(paths: seq<string>, keys: seq<string>)
    requires forall i :: 0 <= i < |paths| ==> paths[i] in keys
    ensures Present(paths, keys) == paths
  {
    if paths != [] {
      PresentAll(paths[1..], keys);
      assert paths == [paths[0]] + paths[1..];
    }
  }

  /**
   * Excluding the paths that an `include_file` call added gives back the
   * table as it was, and reports exactly those paths as removed.
   */
  lemma ExcludeUndoesInclude<V>(es: Entries<V>, resolved: Entries<V>)
    requires DistinctKeys(resolved)
    requires forall i :: 0 <= i < |resolved| ==> resolved[i].0 !in Keys(es)
    ensures var (table, added) := IncludeFile(es, resolved);
      ExcludeFile(table, added) == (es, added)
  {
    var (table, added) := IncludeFile(es, resolved);
    AddFresh(es, resolved);
    assert NoDuplicates(added) by {
      forall i, j | 0 <= i < j < |added| ensures added[i] != added[j] {
        assert added[i] == resolved[i].0 && added[j] == resolved[j].0;
      }
    }
    ExcludeFileFacts(table, added);
    WithoutAppend(es, resolved, added);
    forall i | 0 <= i < |es| ensures es[i].0 !in added {
      assert es[i].0 in Keys(es) by { assert Keys(es)[i] == es[i].0; }
      assert forall j :: 0 <= j < |added| ==> added[j] == resolved[j].0 && added[j] != es[i].0;
    }
    WithoutNone(es, added);
    forall i | 0 <= i < |resolved| ensures resolved[i].0 in added {
      assert added[i] == resolved[i].0;
    }
    WithoutAll(resolved, added);
    forall i | 0 <= i < |added| ensures added[i] in Keys(table) {
      assert Keys(table)[|es| + i] == table[|es| + i].0 == resolved[i].0;
    }
    PresentAll(added, Keys(table));
    assert table == es + resolved;
    assert ExcludeFile(table, added).0 == es + [] == es;
    assert ExcludeFile(table, added).1 == added;
  }

  // ---------------------------------------------------------------------------
  // The auto-context budget of `_get_code_message`

  /** Either only the included features, or auto context with the given budget. */
  datatype Plan = IncludeOnly | Auto(budget: int)

  /**
   * `includeTokens` is the included features' token total less the tokens of
   * the message header; `autoTokens` is the user's auto-token setting.
   */
  function AutoBudget(maxTokens: int, includeTokens: int, autoTokens: Option<int>): (r: Plan)
    ensures r.IncludeOnly? <==> maxTokens <= includeTokens || autoTokens == Some(0)
    ensures r.Auto? ==> r.budget != 0 && r.budget <= maxTokens - includeTokens
    ensures r.Auto? && autoTokens.Some? ==> r.budget <= autoTokens.value
    ensures r.Auto? ==> r.budget == maxTokens - includeTokens || autoTokens == Some(r.budget)
  {
    var maxAuto := if maxTokens - includeTokens > 0 then maxTokens - includeTokens else 0;
    if maxAuto == 0 || autoTokens == Some(0) then IncludeOnly
    else if autoTokens.None? then Auto(maxAuto)
    else Auto(if autoTokens.value < maxAuto then autoTokens.value else maxAuto)
  }

  /** A larger overall limit never turns auto context off or shrinks its budget. */
  lemma AutoBudgetMonotone(maxTokens: int, more: int, includeTokens: int, autoTokens: Option<int>)
    requires maxTokens <= more
    ensures AutoBudget(maxTokens, includeTokens, autoTokens).Auto? ==>
      AutoBudget(more, includeTokens, autoTokens).Auto?
      && AutoBudget(maxTokens, includeTokens, autoTokens).budget <= AutoBudget(more, includeTokens, autoTokens).budget
  {
  }

  /** The header lines of the code message, before the features' own lines. */
  function Header(hasDiffFiles: bool, diffName: string): (r: seq<string>)
    ensures hasDiffFiles <==> |r| == 5
    ensures !hasDiffFiles <==> |r| == 1
    ensures r[|r| - 1] == "Code Files:\n"
  {
    (if hasDiffFiles then ["Diff References:", " \"-\" = " + diffName, " \"+\" = Active Changes", ""] else [])
    + ["Code Files:\n"]
  }

  // ---------------------------------------------------------------------------
  // The cached code message of `get_code_message`

  datatype MessageCache = MessageCache(message: Option<string>, checksum: Option<string>)

  /**
   * One `get_code_message` call: the cached message is reused exactly when
   * there is one and the checksum is the stored one; otherwise the fresh
   * message is returned and stored with the checksum of the state it was
   * computed in. `before` is the checksum of features and
   * settings at the call; `computed` is what `_get_code_message` returns; and
   * `after` is the checksum taken once `_get_code_message` has replaced the
   * features, which is what gets stored.
   */
  function GetCodeMessage(cache: MessageCache, before: string, computed: string, after: string): (r: (string, MessageCache))
    ensures r.1.message == Some(r.0)
    ensures cache.message.Some? && cache.checksum == Some(before) ==> r.0 == cache.message.value && r.1 == cache
    ensures cache.message.None? || cache.checksum != Some(before) ==> r.0 == computed && r.1.checksum == Some(after)
  {
    if cache.message.None? || cache.checksum != Some(before) then (computed, MessageCache(Some(computed), Some(after)))
    else (cache.message.value, cache)
  }

  /**
   * A second call in an unchanged state (its checksum is the stored one: the
   * one taken after the first call, if that call recomputed) returns the first
   * message, whatever a recomputation would give.
   */
  lemma SecondCallReusesMessage(cache: MessageCache, before: string, first: string, after: string, second: string, later: string)
    ensures var (m1, c1) := GetCodeMessage(cache, before, first, after);
      c1.checksum.Some? && GetCodeMessage(c1, c1.checksum.value, second, later) == (m1, c1)
  {
  }

  /**
   * A change of settings or files changes the checksum, so the next call
   * returns the recomputed message.
   */
  lemma ChangedChecksumRecomputes(cache: MessageCache, before: string, first: string, after: string, changed: string, second: string, later: string)
    requires GetCodeMessage(cache, before, first, after).1.checksum != Some(changed)
    ensures var (_, c1) := GetCodeMessage(cache, before, first, after);
      GetCodeMessage(c1, changed, second, later).0 == second
  {
  }

  // ---------------------------------------------------------------------------
  // `_get_include_features`

  /** What `include_files` holds for a path. */
  datatype Included = Included(level: Level, intervals: seq<Interval>)

  /**
   * A `CodeFile` of the code message: `file` is the file it reads and `path`
   * the text it was constructed from (`"file:1-3,7-9"` for an interval).
   */
  datatype CodeFile = CodeFile(file: string, path: string, level: Level, diff: Option<string>)

  /** `f"{i.start}-{i.end}"`; an unbounded end prints as `inf`. */
  function PieceText(iv: Interval): string
  {
    if iv.end.Finite? then FormatInterval(iv) else IntToString(iv.start) + "-inf"
  }

  function PiecesText(ivs: seq<Interval>): (r: seq<string>)
    ensures |r| == |ivs|
    ensures forall i :: 0 <= i < |ivs| ==> r[i] == PieceText(ivs[i])
  {
    seq(|ivs|, i requires 0 <= i < |ivs| => PieceText(ivs[i]))
  }

  /** The constructor text of an included path: interval features append their ranges. */
  function PathText(file: string, inc: Included): string
  {
    if inc.level == IntervalLevel then file + ":" + Join(PiecesText(inc.intervals), ',') else file
  }

  /**
   * An interval path text splits at its first `:` into the file and a range
   * list that parses back to the same intervals, so the constructed feature
   * reads the lines that were included.
   */
  lemma PathTextRoundTrip(file: string, inc: Included)
    requires ':' !in file && inc.level == IntervalLevel
    requires |inc.intervals| >= 1
    requires forall i :: 0 <= i < |inc.intervals| ==> inc.intervals[i].start >= 0 && inc.intervals[i].end.Finite?
    ensures var parts := SplitOnce(PathText(file, inc), ':');
      |parts| == 2 && parts[0] == file && ParseIntervals(parts[1]) == inc.intervals
  {
    var ivs := inc.intervals;
    assert PiecesText(ivs) == FormatPieces(ivs);
    var spec := Join(FormatPieces(ivs), ',');
    var text := PathText(file, inc);
    assert text == file + [':'] + spec;
    var parts := SplitOnce(text, ':');
    assert text[|file|] == ':';
    assert |parts| == 2;
    SplitAtFirst(file, spec, parts[0], parts[1]);
    RoundTrip(ivs);
  }

  /** Splitting `a + ":" + b` at the first `:` when `a` has none gives `a` and `b`. */
  lemma SplitAtFirst(a: string, b: string, x: string, y: string)
    requires ':' !in a && ':' !in x && a + [':'] + b == x + [':'] + y
    ensures x == a && y == b
  {
    var t := a + [':'] + b;
    assert forall k :: 0 <= k < |a| ==> t[k] == a[k];
    assert forall k :: 0 <= k < |x| ==> t[k] == (x + [':'] + y)[k] == x[k];
    assert t[|a|] == ':' && (x + [':'] + y)[|x|] == ':';
    assert |x| == |a|;
    assert x == (x + [':'] + y)[..|x|] && a == t[..|a|];
    assert y == (x + [':'] + y)[|x| + 1..] && b == t[|a| + 1..];
  }

  /**
   * One include feature as written: the diff check is made on the path text,
   * which for an interval feature is a string compared against the list of
   * diff `Path`s, so it never matches.
   */
  function IncludeFeatureAsWritten(file: string, inc: Included, diffFiles: set<string>, target: string): CodeFile
  {
    var inDiff := inc.level != IntervalLevel && file in diffFiles;
    CodeFile(file, PathText(file, inc), inc.level, if inDiff then Some(target) else None)
  }

  /** An interval feature of a file that the diff touches is left without the diff. */
  lemma IntervalFeatureLosesDiff()
    ensures var inc := Included(IntervalLevel, [Interval(1, Finite(3))]);
      IncludeFeatureAsWritten("calc.py", inc, {"calc.py"}, "HEAD").diff == None
      && IncludeFeature("calc.py", inc, {"calc.py"}, "HEAD").diff == Some("HEAD")
  {
  }

  /** One include feature: annotated with the diff target iff its file is in the diff. */
  function IncludeFeature(file: string, inc: Included, diffFiles: set<string>, target: string): (r: CodeFile)
    ensures r.file == file && r.level == inc.level
    ensures r.diff.Some? <==> file in diffFiles
    ensures r.diff.Some? ==> r.diff.value == target
    ensures inc.level != IntervalLevel ==> r.path == file
  {
    CodeFile(file, PathText(file, inc), inc.level, if file in diffFiles then Some(target) else None)
  }

  /** The two agree on every feature that is not an interval. */
  lemma IncludeFeatureAgrees(file: string, inc: Included, diffFiles: set<string>, target: string)
    requires inc.level != IntervalLevel
    ensures IncludeFeatureAsWritten(file, inc, diffFiles, target) == IncludeFeature(file, inc, diffFiles, target)
  {
  }

  function Unsorted(es: Entries<Included>, diffFiles: set<string>, target: string): (r: seq<CodeFile>)
    ensures |r| == |es|
    ensures forall i :: 0 <= i < |es| ==> r[i] == IncludeFeature(es[i].0, es[i].1, diffFiles, target)
  {
    seq(|es|, i requires 0 <= i < |es| => IncludeFeature(es[i].0, es[i].1, diffFiles, target))
  }

  /** Sorting key: `relRank` orders the files' paths relative to the git root. */
  function ByRelativePath(relRank: string -> int): CodeFile -> int
  {
    (f: CodeFile) => relRank(f.file)
  }

  /**
   * `_get_include_features`: one feature per included path, sorted by
   * relative path, with features of equally ranked paths in table order.
   */
  function IncludeFeatures(es: Entries<Included>, diffFiles: set<string>, target: string, relRank: string -> int): (r: seq<CodeFile>)
    ensures Ascending(r, ByRelativePath(relRank))
    ensures multiset(r) == multiset(Unsorted(es, diffFiles, target))
    ensures forall k :: WithKey(r, ByRelativePath(relRank), k) == WithKey(Unsorted(es, diffFiles, target), ByRelativePath(relRank), k)
  {
    SortAscFacts(Unsorted(es, diffFiles, target), ByRelativePath(relRank));
    SortAsc(Unsorted(es, diffFiles, target), ByRelativePath(relRank))
  }

  /** Every include feature is built from one of the entries. */
  lemma IncludeFeatureFromEntry(es: Entries<Included>, diffFiles: set<string>, target: string, relRank: string -> int, f: CodeFile)
    requires f in IncludeFeatures(es, diffFiles, target, relRank)
    ensures exists i :: 0 <= i < |es| && f == IncludeFeature(es[i].0, es[i].1, diffFiles, target)
  {
    var u := Unsorted(es, diffFiles, target);
    assert f in multiset(u);
    var i :| 0 <= i < |u| && u[i] == f;
  }

  // ---------------------------------------------------------------------------
  // `_get_auto_features`

  /** The levels tried for auto context, most detailed first. */
  function AutoLevels(noCodeMap: bool): seq<Level>
  {
    Selection.TruncateLevels(!noCodeMap)
  }

  /**
   * The index of the first level whose features' total (`total`) is below
   * `maxAuto`; `None` adds no auto features.
   */
  function FirstFittingLevel(levels: seq<Level>, total: Level -> int, maxAuto: int): (r: Option<nat>)
    ensures r.Some? ==> r.value < |levels| && total(levels[r.value]) < maxAuto
    ensures r.Some? ==> forall j :: 0 <= j < r.value ==> total(levels[j]) >= maxAuto
    ensures r.None? <==> forall j :: 0 <= j < |levels| ==> total(levels[j]) >= maxAuto
  {
    if levels == [] then None
    else if total(levels[0]) < maxAuto then Some(0)
    else
      match FirstFittingLevel(levels[1..], total, maxAuto)
      case None => None
      case Some(k) => Some(k + 1)
  }

  /** Full code is never added automatically, and with no code map only file names are. */
  lemma AutoLevelChoice(noCodeMap: bool, total: Level -> int, maxAuto: int)
    ensures var levels := AutoLevels(noCodeMap);
      var r := FirstFittingLevel(levels, total, maxAuto);
      && (r.Some? ==> levels[r.value] != Code && levels[r.value] != IntervalLevel)
      && (r.Some? && noCodeMap ==> levels[r.value] == FileName)
      && (!noCodeMap && total(CmapFull) < maxAuto ==> r == Some(0))
  {
  }

  /** `max_sim_tokens`: what is left after the selected features, capped by the auto-token setting. */
  function SimBudget(maxTokens: int, selectedTokens: int, autoTokens: Option<int>): (r: int)
    ensures r <= maxTokens - selectedTokens
    ensures autoTokens.Some? ==> r <= autoTokens.value
    ensures r == maxTokens - selectedTokens || (autoTokens.Some? && r == autoTokens.value)
  {
    var left := maxTokens - selectedTokens;
    if autoTokens.Some? && autoTokens.value < left then autoTokens.value else left
  }

  /**
   * A candidate swap, in descending similarity order: the tokens of the
   * selected (code-map or file-name) feature and of the same file's full code.
   */
  datatype Swap = Swap(recovered: int, added: int)

  /** The tokens gained by the taken swaps among the first `n`. */
  function Gained(swaps: seq<Swap>, taken: seq<bool>, n: nat): int
    requires n <= |swaps| && n <= |taken|
  {
    if n == 0 then 0
    else Gained(swaps, taken, n - 1) + (if taken[n - 1] then swaps[n - 1].added - swaps[n - 1].recovered else 0)
  }

  /** The forecast of `_get_auto_features` for a swap after `gained` tokens. */
  function Forecast(maxSim: int, gained: int, s: Swap): int
  {
    maxSim - gained + s.recovered - s.added
  }

  /**
   * The swap loop of `_get_auto_features`, entered only with embeddings on, a
   * positive budget and a non-empty prompt. A swap is taken iff its forecast
   * is positive given the swaps taken before it, and the tokens gained stay
   * below the budget.
   */
  method Swaps(swaps: seq<Swap>, maxSim: int, useEmbedding: bool, prompt: string) returns (taken: seq<bool>, sim: int)
    ensures |taken| == |swaps|
    ensures sim == Gained(swaps, taken, |swaps|)
    ensures !(useEmbedding && maxSim > 0 && prompt != "") ==> NoneTaken(taken)
    ensures useEmbedding && maxSim > 0 && prompt != "" ==> TakenIffForecast(swaps, taken, maxSim)
    ensures useEmbedding && maxSim > 0 && prompt != "" ==> sim < maxSim
  {
    taken := [];
    sim := 0;
    var on := useEmbedding && maxSim > 0 && prompt != "";
    var i := 0;
    while i < |swaps|
      invariant 0 <= i <= |swaps| && |taken| == i
      invariant sim == Gained(swaps, taken, i)
      invariant !on ==> sim == 0 && NoneTaken(taken)
      invariant on ==> sim < maxSim && TakenIffForecast(swaps, taken, maxSim)
    {
      var take := on && Forecast(maxSim, sim, swaps[i]) > 0;
      GainedPrefix(swaps, taken, take, i);
      if on {
        TakenStep(swaps, taken, take, maxSim);
      }
      if take {
        sim := sim + swaps[i].added - swaps[i].recovered;
      }
      taken := taken + [take];
      i := i + 1;
    }
  }

  predicate NoneTaken(taken: seq<bool>)
  {
    forall j :: 0 <= j < |taken| ==> !taken[j]
  }

  /** Each flag so far says whether that swap's forecast was positive. */
  predicate TakenIffForecast(swaps: seq<Swap>, taken: seq<bool>, maxSim: int)
    requires |taken| <= |swaps|
  {
    forall j :: 0 <= j < |taken| ==> (taken[j] <==> Forecast(maxSim, Gained(swaps, taken, j), swaps[j]) > 0)
  }

  lemma TakenStep(swaps: seq<Swap>, taken: seq<bool>, take: bool, maxSim: int)
    requires |taken| < |swaps| && TakenIffForecast(swaps, taken, maxSim)
    requires take <==> Forecast(maxSim, Gained(swaps, taken, |taken|), swaps[|taken|]) > 0
    ensures TakenIffForecast(swaps, taken + [take], maxSim)
  {
    var n := |taken|;
    GainedPrefix(swaps, taken, take, n);
    var t := taken + [take];
    forall j | 0 <= j < |t| ensures t[j] <==> Forecast(maxSim, Gained(swaps, t, j), swaps[j]) > 0 {
      var g := Gained(swaps, taken, j);
      assert Gained(swaps, t, j) == g;
      if j < n {
        assert t[j] == taken[j];
        assert taken[j] <==> Forecast(maxSim, g, swaps[j]) > 0;
      } else {
        assert t[j] == take;
      }
    }
  }

  /** Appending a flag leaves the earlier partial sums alone. */
  lemma {:induction false} GainedPrefix(swaps: seq<Swap>, taken: seq<bool>, take: bool, n: nat)
    requires n == |taken| && n < |swaps|
    ensures forall j :: 0 <= j <= n ==> Gained(swaps, taken + [take], j) == Gained(swaps, taken, j)
    ensures Gained(swaps, taken + [take], n + 1)
         == Gained(swaps, taken, n) + (if take then swaps[n].added - swaps[n].recovered else 0)
  {
    forall j | 0 <= j <= n ensures Gained(swaps, taken + [take], j) == Gained(swaps, taken, j) {
      GainedSame(swaps, taken + [take], taken, j);
    }
    assert (taken + [take])[n] == take;
  }

  lemma {:induction false} GainedSame(swaps: seq<Swap>, a: seq<bool>, b: seq<bool>, n: nat)
    requires n <= |swaps| && n <= |a| && n <= |b| && a[..n] == b[..n]
    ensures Gained(swaps, a, n) == Gained(swaps, b, n)
  {
    if n > 0 {
      assert a[..n - 1] == a[..n][..n - 1];
      assert b[..n - 1] == b[..n][..n - 1];
      assert a[n - 1] == a[..n][n - 1];
      assert b[n - 1] == b[..n][n - 1];
      GainedSame(swaps, a, b, n - 1);
    }
  }
}

=== FILE: code_feature.dfy ===
/**
 * Code features: a file (or some of its lines) at a level of detail, the
 * message that represents it in the prompt, and the checksum-keyed cache in
 * front of that message (mentat/code_feature.py). The older `CodeFile`
 * (mentat/code_file.py) differs only where noted.
 *
 * The file system, the code map and the line-number preference of the active
 * parser are parameters.
 */
module CodeFeatures {
  import opened Wrappers
  import opened PyText
  import opened Intervals
  import DiffContext

  /** `CodeMessageLevel`, from most to least detailed. */
  datatype Level = Code | IntervalLevel | CmapFull | Cmap | FileName

  function Rank(level: Level): (r: nat)
    ensures 1 <= r <= 5
  {
    match level
    case Code => 1
    case IntervalLevel => 2
    case CmapFull => 3
    case Cmap => 4
    case FileName => 5
  }

  function Key(level: Level): string
  {
    match level
    case Code => "code"
    case IntervalLevel => "interval"
    case CmapFull => "cmap_full"
    case Cmap => "cmap"
    case FileName => "file_name"
  }

  /** The levels in declaration order. */
  const Levels: seq<Level> := [Code, IntervalLevel, CmapFull, Cmap, FileName]

  /** The level with a given rank, if any. */
  function LevelOfRank(rank: int): (r: Option<Level>)
    ensures r.Some? <==> 1 <= rank <= 5
    ensures r.Some? ==> Rank(r.value) == rank
  {
    if 1 <= rank <= 5 then Some(Levels[rank - 1]) else None
  }

  /** Ranks run 1..5 in declaration order, so a rank names exactly one level. */
  lemma RanksAscend()
    ensures forall i, j :: 0 <= i < j < |Levels| ==> Rank(Levels[i]) < Rank(Levels[j])
    ensures forall i :: 0 <= i < |Levels| ==> Rank(Levels[i]) == i + 1
    ensures forall l :: LevelOfRank(Rank(l)) == Some(l)
  {
    forall l ensures LevelOfRank(Rank(l)) == Some(l) {
      assert Levels[Rank(l) - 1] == l;
    }
  }

  /** A `CodeFeature` without its cache. */
  datatype Feature = Feature(path: string, intervals: seq<Interval>, level: Level, diff: Option<string>, userIncluded: bool)

  /**
   * `CodeFeature.__init__`: an existing path is the whole file; otherwise a
   * `base:spec` path whose base exists selects the parsed intervals at level
   * INTERVAL; anything else is kept as given, whole file.
   */
  function MakeFeature(path: string, level: Level, diff: Option<string>, userIncluded: bool, pathExists: string -> bool): (f: Feature)
    ensures f.diff == diff && f.userIncluded == userIncluded
    ensures pathExists(path) ==> f == Feature(path, WholeFile, level, diff, userIncluded)
    ensures !pathExists(path) && ':' !in path ==> f == Feature(path, WholeFile, level, diff, userIncluded)
  {
    if pathExists(path) then Feature(path, WholeFile, level, diff, userIncluded)
    else
      var parts := RSplitOnce(path, ':');
      if !pathExists(parts[0]) then Feature(path, WholeFile, level, diff, userIncluded)
      else Feature(parts[0], ParseIntervals(parts[1]), IntervalLevel, diff, userIncluded)
  }

  /** `"file:spec"` with an existing `file` (and no file named `"file:spec"`) selects `spec`. */
  lemma IntervalPathSelectsLines(base: string, spec: string, level: Level, diff: Option<string>, user: bool, pathExists: string -> bool)
    requires ':' !in spec
    requires pathExists(base) && !pathExists(base + [':'] + spec)
    ensures MakeFeature(base + [':'] + spec, level, diff, user, pathExists)
         == Feature(base, ParseIntervals(spec), IntervalLevel, diff, user)
  {
    RSplitOnceAt(base, ':', spec);
  }

  /** `contains_line`. */
  function FeatureContainsLine(f: Feature, line: int): bool
  {
    ContainsLine(f.intervals, line)
  }

  // ---------------------------------------------------------------------------
  // Line selection

  /** One selected line: `"i:line"` when the parser wants line numbers. */
  function Render(i: int, line: string, numbered: bool): string
  {
    if numbered then DiffContext.Label(i, line) else line
  }

  /** The `enumerate(file_lines, start=1)` loop, `next` numbering `lines[0]`. */
  function SelectLines(keep: int -> bool, lines: seq<string>, next: int, numbered: bool): (r: seq<string>)
    ensures |r| <= |lines|
    decreases |lines|
  {
    if lines == [] then []
    else (if keep(next) then [Render(next, lines[0], numbered)] else [])
         + SelectLines(keep, lines[1..], next + 1, numbered)
  }

  /** The line numbers in `[from, from + count)` that the intervals contain, in order. */
  function Contained(keep: int -> bool, from: int, count: nat): seq<int>
    decreases count
  {
    if count == 0 then []
    else
      var rest := Contained(keep, from + 1, count - 1);
      if keep(from) then [from] + rest else rest
  }

  /** `Contained` lists each contained line number of the range once, in increasing order. */
  lemma {:induction false} ContainedExactly(keep: int -> bool, from: int, count: nat)
    ensures var r := Contained(keep, from, count);
      (forall k :: 0 <= k < |r| ==> from <= r[k] < from + count && keep(r[k]))
      && (forall k, j :: 0 <= k < j < |r| ==> r[k] < r[j])
      && (forall n :: from <= n < from + count && keep(n) ==> n in r)
    decreases count
  {
    if count > 0 {
      ContainedExactly(keep, from + 1, count - 1);
      var rest := Contained(keep, from + 1, count - 1);
      var r := Contained(keep, from, count);
      if keep(from) {
        assert r == [from] + rest;
        assert forall k :: 1 <= k < |r| ==> r[k] == rest[k - 1];
        forall n | from <= n < from + count && keep(n) ensures n in r {
          if n > from { assert n in rest; }
        }
      } else {
        assert r == rest;
      }
    }
  }

  /** Line number `i` rendered from `lines`, numbered from `next`; empty outside the range. */
  function RenderedAt(lines: seq<string>, next: int, numbered: bool, i: int): string
  {
    if next <= i < next + |lines| then Render(i, lines[i - next], numbered) else ""
  }

  /** Each listed line number rendered, in the order listed. */
  function RenderedAll(lines: seq<string>, next: int, numbered: bool, c: seq<int>): seq<string>
  {
    if c == [] then [] else [RenderedAt(lines, next, numbered, c[0])] + RenderedAll(lines, next, numbered, c[1..])
  }

  lemma {:induction false} RenderedAllIndex(lines: seq<string>, next: int, numbered: bool, c: seq<int>)
    ensures |RenderedAll(lines, next, numbered, c)| == |c|
    ensures forall k :: 0 <= k < |c| ==> RenderedAll(lines, next, numbered, c)[k] == RenderedAt(lines, next, numbered, c[k])
  {
    if c != [] {
      RenderedAllIndex(lines, next, numbered, c[1..]);
    }
  }

  /** Dropping the first line and numbering from one further renders the later numbers alike. */
  lemma {:induction false} RenderedAllTail(lines: seq<string>, next: int, numbered: bool, c: seq<int>)
    requires lines != []
    requires forall k :: 0 <= k < |c| ==> next + 1 <= c[k]
    ensures RenderedAll(lines[1..], next + 1, numbered, c) == RenderedAll(lines, next, numbered, c)
  {
    if c != [] {
      RenderedAllTail(lines, next, numbered, c[1..]);
      if c[0] < next + |lines| {
        assert lines[1..][c[0] - (next + 1)] == lines[c[0] - next];
      }
    }
  }

  lemma {:induction false} ContainedFrom(keep: int -> bool, from: int, count: nat)
    ensures forall k :: 0 <= k < |Contained(keep, from, count)| ==> from <= Contained(keep, from, count)[k]
    decreases count
  {
    if count > 0 {
      ContainedFrom(keep, from + 1, count - 1);
    }
  }

  /** The selected lines are the contained line numbers, each rendered. */
  lemma {:induction false} SelectIsRendered(keep: int -> bool, lines: seq<string>, next: int, numbered: bool)
    ensures SelectLines(keep, lines, next, numbered) == RenderedAll(lines, next, numbered, Contained(keep, next, |lines|))
    decreases |lines|
  {
    if lines != [] {
      var rest := Contained(keep, next + 1, |lines| - 1);
      SelectIsRendered(keep, lines[1..], next + 1, numbered);
      ContainedFrom(keep, next + 1, |lines| - 1);
      RenderedAllTail(lines, next, numbered, rest);
      if keep(next) {
        assert Contained(keep, next, |lines|) == [next] + rest;
        assert ([next] + rest)[1..] == rest;
      }
    }
  }

  /**
   * The selected message lines are exactly the contained line numbers, in
   * order, each rendered with its own line.
   */
  lemma SelectLinesExactly(keep: int -> bool, lines: seq<string>, next: int, numbered: bool)
    ensures var c := Contained(keep, next, |lines|);
      forall k :: 0 <= k < |c| ==> next <= c[k] < next + |lines|
    ensures |SelectLines(keep, lines, next, numbered)| == |Contained(keep, next, |lines|)|
    ensures var c := Contained(keep, next, |lines|);
      forall k :: 0 <= k < |c| ==> SelectLines(keep, lines, next, numbered)[k] == Render(c[k], lines[c[k] - next], numbered)
  {
    var c := Contained(keep, next, |lines|);
    ContainedExactly(keep, next, |lines|);
    SelectIsRendered(keep, lines, next, numbered);
    RenderedAllIndex(lines, next, numbered, c);
  }

  /** When every line from `next` on is kept, every line is selected, numbered from `next`. */
  lemma {:induction false} SelectAll(keep: int -> bool, lines: seq<string>, next: int, numbered: bool)
    requires forall n :: n >= next ==> keep(n)
    ensures |SelectLines(keep, lines, next, numbered)| == |lines|
    ensures forall k :: 0 <= k < |lines| ==> SelectLines(keep, lines, next, numbered)[k] == Render(next + k, lines[k], numbered)
    decreases |lines|
  {
    if lines != [] {
      SelectAll(keep, lines[1..], next + 1, numbered);
      var s := SelectLines(keep, lines, next, numbered);
      var tail := SelectLines(keep, lines[1..], next + 1, numbered);
      assert keep(next);
      assert s == [Render(next, lines[0], numbered)] + tail;
      forall k | 0 <= k < |lines| ensures s[k] == Render(next + k, lines[k], numbered) {
        if k > 0 {
          assert s[k] == tail[k - 1];
          assert lines[1..][k - 1] == lines[k];
        }
      }
    }
  }

  // ---------------------------------------------------------------------------
  // The code message

  /** What `_get_code_message` reads from outside the feature. */
  datatype Sources = Sources(
    relPath: string,            // posix path relative to the git root
    fileLines: seq<string>,     // the file's lines
    codeMap: seq<string>,       // `get_code_map(...)` with signatures
    codeMapNames: seq<string>,  // `get_code_map(..., exclude_signatures=True)`
    numbered: bool,             // `parser.provide_line_numbers()`
    diffText: string)           // `get_diff_for_file(...)`

  function Header(f: Feature, src: Sources): string
  {
    if f.userIncluded then "USER INCLUDED: " + src.relPath else src.relPath
  }

  /** The part between the header and the closing `""`, by level. */
  function Body(f: Feature, src: Sources): seq<string>
  {
    match f.level
    case Code => SelectLines(line => FeatureContainsLine(f, line), src.fileLines, 1, src.numbered)
    case IntervalLevel => SelectLines(line => FeatureContainsLine(f, line), src.fileLines, 1, src.numbered)
    case CmapFull => src.codeMap
    case Cmap => src.codeMapNames
    case FileName => []
  }

  function Messages(anns: seq<DiffContext.Annotation>): seq<string>
  {
    if anns == [] then [] else anns[0].message + Messages(anns[1..])
  }

  /** `_get_code_message`: header, body, `""`, then the diff section if any. */
  function CodeMessage(f: Feature, src: Sources): (r: Result<seq<string>, DiffContext.Error>)
    ensures f.diff.None? ==> r.Ok?
    ensures r.Ok? && (f.diff.None? || f.level != Code) ==> Framed(r.value, Header(f, src), Body(f, src))
  {
    var message := [Header(f, src)] + Body(f, src) + [""];
    if f.diff.None? then
      FramedMessage(Header(f, src), Body(f, src), []);
      assert message + [] == message;
      Ok(message)
    else
      match DiffContext.ParseDiff(src.diffText)
      case Err(e) => Err(e)
      case Ok(anns) =>
        if f.level == Code then DiffContext.AnnotateFileMessage(message, anns)
        else
          FramedMessage(Header(f, src), Body(f, src), Messages(anns));
          Ok(message + Messages(anns))
  }

  /** The header line, then the body, then a blank line, with anything after. */
  predicate Framed(m: seq<string>, header: string, body: seq<string>)
  {
    |m| >= 2 + |body| && m[0] == header && m[1..1 + |body|] == body && m[1 + |body|] == ""
  }

  lemma FramedMessage(header: string, body: seq<string>, extra: seq<string>)
    ensures Framed([header] + body + [""] + extra, header, body)
  {
    var m := [header] + body + [""] + extra;
    assert m[1..1 + |body|] == body;
  }

  /** A whole file at level CODE, no diff: the path, every line numbered from 1, then `""`. */
  lemma WholeFileMessage(path: string, src: Sources, user: bool)
    requires src.numbered
    ensures var f := Feature(path, WholeFile, Code, None, user);
      var m := CodeMessage(f, src).value;
      |m| == |src.fileLines| + 2 && m[0] == Header(f, src) && m[|m| - 1] == ""
      && forall k :: 0 <= k < |src.fileLines| ==> m[k + 1] == DiffContext.Label(k + 1, src.fileLines[k])
  {
    var f := Feature(path, WholeFile, Code, None, user);
    var keep := line => FeatureContainsLine(f, line);
    forall n | n >= 1 ensures keep(n) {
      WholeFileContainsEveryLine(n);
    }
    SelectAll(keep, src.fileLines, 1, true);
    var m := CodeMessage(f, src).value;
    forall k | 0 <= k < |src.fileLines| ensures m[k + 1] == DiffContext.Label(k + 1, src.fileLines[k]) {
      assert m[k + 1] == Body(f, src)[k];
    }
  }

  lemma FileNameMessage(f: Feature, src: Sources)
    requires f.level == FileName && f.diff.None?
    ensures CodeMessage(f, src) == Ok([Header(f, src), ""])
  {
    assert Body(f, src) == [];
    assert [Header(f, src)] + [] + [""] == [Header(f, src), ""];
  }

  // ---------------------------------------------------------------------------
  // The older CodeFile

  /**
   * `CodeFile._get_file_message`: no "USER INCLUDED" header and always numbered
   * lines. Its `elif not CodeMessageLevel.FILE_NAME` tests an enum member,
   * which is always truthy, so the `ValueError` branch is never taken.
   */
  function FileMessage(f: Feature, src: Sources): (r: Result<seq<string>, DiffContext.Error>)
    ensures f.diff.None? ==> r.Ok?
    ensures r.Ok? && (f.diff.None? || f.level != Code) ==> |r.value| >= 2 && r.value[0] == src.relPath
    ensures f.diff.None? && f.level == FileName ==> r == Ok([src.relPath, ""])
  {
    var g := f.(userIncluded := false);
    var s := src.(numbered := true);
    assert Header(g, s) == src.relPath;
    assert f.level == FileName ==> Body(g, s) == [] && [Header(g, s)] + Body(g, s) + [""] == [src.relPath, ""];
    CodeMessage(g, s)
  }

  // ---------------------------------------------------------------------------
  // Caching

  /** The cached checksum and message of a feature (`None` before the first call). */
  datatype Cache = Cache(checksum: Option<string>, message: Option<seq<string>>)

  /**
   * `get_code_message`: `compute` is what `_get_code_message` would return now.
   * The cached message is returned while the checksum matches.
   */
  function GetCached(cache: Cache, checksum: string, compute: seq<string>): (r: (seq<string>, Cache))
    ensures r.1 == Cache(Some(checksum), Some(r.0))
    ensures cache.checksum == Some(checksum) && cache.message.Some? ==> r.0 == cache.message.value
    ensures cache.checksum != Some(checksum) || cache.message.None? ==> r.0 == compute
  {
    if cache.checksum != Some(checksum) || cache.message.None? then (compute, Cache(Some(checksum), Some(compute)))
    else (cache.message.value, cache)
  }

  /** `str(self.diff)`: the diff target, or `None`. */
  function DiffText(diff: Option<string>): string
  {
    if diff.Some? then diff.value else "None"
  }

  /**
   * `CodeFeature.get_checksum`: `sha` (standing for sha256) of the file's
   * checksum, the level's key and the diff, written one after the other.
   */
  function FeatureChecksum(fileChecksum: string, f: Feature, sha: string -> string): string
  {
    sha(fileChecksum + Key(f.level) + DiffText(f.diff))
  }

  /** A hash without collisions. */
  ghost predicate Injective(sha: string -> string)
  {
    forall a, b :: sha(a) == sha(b) ==> a == b
  }

  /** Different levels have different keys. */
  lemma KeyInjective(a: Level, b: Level)
    requires a != b
    ensures Key(a) != Key(b)
  {
    assert Key(a)[..2] != Key(b)[..2] || |Key(a)| != |Key(b)| || Key(a)[2] != Key(b)[2];
  }

  /** Equal texts with a common prefix and middles of one length have equal middles and ends. */
  lemma SplitEqual(p: string, a: string, b: string, x: string, y: string)
    requires p + a + x == p + b + y && |a| == |b|
    ensures a == b && x == y
  {
    var t := p + a + x;
    var u := p + b + y;
    assert t[|p|..|p| + |a|] == a;
    assert u[|p|..|p| + |b|] == b;
    assert t[|p| + |a|..] == x;
    assert u[|p| + |b|..] == y;
  }

  /**
   * With a collision-free hash, moving a feature to another level, or giving
   * it another diff, changes its checksum, so the next `get_code_message`
   * recomputes the message instead of returning the cached one.
   */
  lemma LevelOrDiffChangeRecomputes(cache: Cache, fileChecksum: string, f: Feature, g: Feature, sha: string -> string, first: seq<string>, second: seq<string>)
    requires Injective(sha)
    requires (f.level != g.level && f.diff == g.diff) || (f.level == g.level && DiffText(f.diff) != DiffText(g.diff))
    ensures var (m1, c1) := GetCached(cache, FeatureChecksum(fileChecksum, f, sha), first);
      GetCached(c1, FeatureChecksum(fileChecksum, g, sha), second).0 == second
  {
    var x := fileChecksum + Key(f.level) + DiffText(f.diff);
    var y := fileChecksum + Key(g.level) + DiffText(g.diff);
    if x == y {
      if f.level != g.level {
        KeyInjective(f.level, g.level);
        assert |Key(f.level)| == |Key(g.level)|;
        SplitEqual(fileChecksum, Key(f.level), Key(g.level), DiffText(f.diff), DiffText(g.diff));
      } else {
        SplitEqual(fileChecksum, Key(f.level), Key(g.level), DiffText(f.diff), DiffText(g.diff));
      }
      assert false;
    }
    assert sha(x) != sha(y);
  }

  /** A second request under the same checksum returns the first answer. */
  lemma {:induction false} CacheStable(cache: Cache, checksum: string, first: seq<string>, second: seq<string>)
    ensures var (m1, c1) := GetCached(cache, checksum, first);
      GetCached(c1, checksum, second) == (m1, c1)
  {
  }

  /**
   * `CodeFile.get_code_message` keys its cache by the file checksum alone, so
   * a cached message survives a change of level.
   */
  lemma FileCacheIgnoresLevel(cache: Cache, fileChecksum: string, f: Feature, g: Feature, srcF: Sources, srcG: Sources)
    requires f.diff.None? && g.diff.None?
    ensures var (m1, c1) := GetCached(cache, fileChecksum, FileMessage(f, srcF).value);
      GetCached(c1, fileChecksum, FileMessage(g, srcG).value).0 == m1
  {
  }
}

=== FILE: context_tree.dfy ===
// `mentat/context_tree/`: the `ContextNode` tree with its per-node settings,
// the `FileNode` message rules and the `DirectoryNode` refresh, guard and
// message rules.

module ContextTree {
  import opened Wrappers
  import opened PyText
  import opened PathParts
  import opened Trees
  import Lexical
  import DiffContext

  /** `ContextNodeSettings`; every flag starts out false. */
  datatype Settings = Settings(included: bool, diff: bool, includeSignature: bool, codeMap: bool, fileName: bool)

  const Defaults := Settings(false, false, false, false, false)

  /** The attribute names `update_settings` may set. */
  datatype Key = Include | Diff | IncludeSignature | CodeMap | FileName

  function Flag(s: Settings, k: Key): bool
  {
    match k
    case Include => s.included
    case Diff => s.diff
    case IncludeSignature => s.includeSignature
    case CodeMap => s.codeMap
    case FileName => s.fileName
  }

  /** `setattr(settings, key, value)`. */
  function SetFlag(s: Settings, k: Key, v: bool): (r: Settings)
    ensures Flag(r, k) == v
    ensures forall o :: o != k ==> Flag(r, o) == Flag(s, o)
  {
    match k
    case Include => s.(included := v)
    case Diff => s.(diff := v)
    case IncludeSignature => s.(includeSignature := v)
    case CodeMap => s.(codeMap := v)
    case FileName => s.(fileName := v)
  }

  type Node = Tree<Settings>

  /** The exceptions the tree raises. */
  datatype Failure = KeyError | ValueError | IndexError | MentatError | AnnotationFailed(why: DiffContext.Error)

  /** Every dictionary of children has distinct keys, and files have no children. */
  predicate WellFormed(n: Node)
    decreases n
  {
    DistinctNames(n.children)
    && (n.kind == File ==> |n.children| == 0)
    && forall i :: 0 <= i < |n.children| ==> WellFormed(n.children[i])
  }

  // ---------------------------------------------------------------- navigation

  /**
   * `node[path]` for the node whose absolute path is `here`: an absolute path
   * is first made relative to `here`, then the parts are followed child by child.
   */
  function GetItem(n: Node, here: Path, query: Path): (r: Result<Node, Failure>)
    ensures !query.absolute ==> (r.Ok? <==> Lookup(n, query.parts).Some?)
    ensures !query.absolute && r.Ok? ==> Some(r.value) == Lookup(n, query.parts)
    ensures query.absolute && here.absolute && !StartsWith(query.parts, here.parts) ==> r == Err(ValueError)
    ensures !query.absolute && |query.parts| == 0 ==> r == Ok(n)
  {
    var relative := if query.absolute then RelativeTo(query, here) else Some(query);
    match relative
    case None => Err(ValueError)
    case Some(p) =>
      match Lookup(n, p.parts)
      case None => Err(KeyError)
      case Some(m) => Ok(m)
  }

  /** An absolute path under `here` finds the same node as the path relative to it. */
  lemma GetItemAbsolute(n: Node, here: Path, rest: seq<string>)
    requires here.absolute
    ensures GetItem(n, here, Path(true, here.parts + rest)) == GetItem(n, here, Path(false, rest))
  {
    RelativeToJoined(here, rest);
  }

  /** A node's own children are found by name, and a name it lacks raises `KeyError`. */
  lemma GetItemChild(n: Node, here: Path, name: string)
    requires DistinctNames(n.children)
    ensures name in Names(n.children) ==> GetItem(n, here, Path(false, [name])).Ok?
    ensures name in Names(n.children) ==> GetItem(n, here, Path(false, [name])).value.name == name
    ensures name !in Names(n.children) ==> GetItem(n, here, Path(false, [name])) == Err(KeyError)
  {
    assert [name][1..] == [];
    if name in Names(n.children) {
      var c := ChildNamed(n.children, name).value;
      assert Lookup(c, []) == Some(c);
      assert Lookup(n, [name]) == Some(c);
    }
  }

  // ---------------------------------------------------------------- iteration

  /** A node as `iter_nodes` yields it, with its parts below the walk's start. */
  datatype Visit = Visit(location: seq<string>, node: Node)

  /**
   * `iter_nodes(include_dirs, include_files)` from a node at `at`: the node
   * itself if its kind is asked for, then every child's subtree in order.
   * Only nodes of the kinds asked for are yielded: filtering by kind keeps
   * the whole walk.
   */
  function Walk(n: Node, at: seq<string>, dirs: bool, files: bool): (r: seq<Visit>)
    ensures Keep(r, dirs, files) == r
    decreases n, 1
  {
    var own := (if dirs && n.kind == Directory then [Visit(at, n)] else [])
      + (if files && n.kind == File then [Visit(at, n)] else []);
    KeepAppend(own, WalkAll(n.children, at, dirs, files), dirs, files);
    assert Keep(own, dirs, files) == own by {
      if own != [] { assert own[1..] == []; }
    }
    own + WalkAll(n.children, at, dirs, files)
  }

  function WalkAll(cs: seq<Node>, at: seq<string>, dirs: bool, files: bool): (r: seq<Visit>)
    ensures Keep(r, dirs, files) == r
    decreases cs, 0
  {
    if |cs| == 0 then []
    else
      var first := Walk(cs[0], at + [cs[0].name], dirs, files);
      var rest := WalkAll(cs[1..], at, dirs, files);
      KeepAppend(first, rest, dirs, files);
      first + rest
  }

  function VisitNames(vs: seq<Visit>): seq<string>
  {
    if |vs| == 0 then [] else [vs[0].node.name] + VisitNames(vs[1..])
  }

  predicate Wanted(v: Visit, dirs: bool, files: bool)
  {
    (dirs && v.node.kind == Directory) || (files && v.node.kind == File)
  }

  /** The visits of the kinds asked for, in order. */
  function Keep(vs: seq<Visit>, dirs: bool, files: bool): seq<Visit>
  {
    if |vs| == 0 then []
    else (if Wanted(vs[0], dirs, files) then [vs[0]] else []) + Keep(vs[1..], dirs, files)
  }

  lemma {:induction false} KeepAppend(a: seq<Visit>, b: seq<Visit>, dirs: bool, files: bool)
    ensures Keep(a + b, dirs, files) == Keep(a, dirs, files) + Keep(b, dirs, files)
  {
    if |a| > 0 {
      KeepAppend(a[1..], b, dirs, files);
      assert (a + b)[1..] == a[1..] + b;
    } else {
      assert a + b == b;
    }
  }

  /** The flags only filter: the walk visits the full walk's nodes of the wanted kinds, in order. */
  lemma {:induction false} WalkFiltered(n: Node, at: seq<string>, dirs: bool, files: bool)
    ensures Walk(n, at, dirs, files) == Keep(Walk(n, at, true, true), dirs, files)
    decreases n, 1
  {
    WalkAllFiltered(n.children, at, dirs, files);
    var self := [Visit(at, n)];
    KeepAppend(self, WalkAll(n.children, at, true, true), dirs, files);
    assert Walk(n, at, true, true) == self + WalkAll(n.children, at, true, true);
  }

  lemma {:induction false} WalkAllFiltered(cs: seq<Node>, at: seq<string>, dirs: bool, files: bool)
    ensures WalkAll(cs, at, dirs, files) == Keep(WalkAll(cs, at, true, true), dirs, files)
    decreases cs, 0
  {
    if |cs| > 0 {
      WalkFiltered(cs[0], at + [cs[0].name], dirs, files);
      WalkAllFiltered(cs[1..], at, dirs, files);
      KeepAppend(Walk(cs[0], at + [cs[0].name], true, true), WalkAll(cs[1..], at, true, true), dirs, files);
    }
  }

  lemma {:induction false} InWalkAll(cs: seq<Node>, at: seq<string>, v: Visit)
    requires v in WalkAll(cs, at, true, true)
    ensures exists i :: 0 <= i < |cs| && v in Walk(cs[i], at + [cs[i].name], true, true)
  {
    if v !in Walk(cs[0], at + [cs[0].name], true, true) {
      InWalkAll(cs[1..], at, v);
      var i :| 0 <= i < |cs[1..]| && v in Walk(cs[1..][i], at + [cs[1..][i].name], true, true);
      assert cs[1..][i] == cs[i + 1];
    }
  }

  /** A visit of the full walk is the start node's own or one of its children's. */
  lemma InWalk(n: Node, at: seq<string>, v: Visit)
    requires v in Walk(n, at, true, true)
    ensures v == Visit(at, n) || v in WalkAll(n.children, at, true, true)
  {
    if n.kind == Directory {
      assert Walk(n, at, true, true) == [Visit(at, n)] + [] + WalkAll(n.children, at, true, true);
    } else {
      assert Walk(n, at, true, true) == [] + [Visit(at, n)] + WalkAll(n.children, at, true, true);
    }
  }

  /** Every node the walk yields is the one `node[location]` finds. */
  lemma {:induction false} WalkFound(n: Node, at: seq<string>, v: Visit)
    requires WellFormed(n)
    requires v in Walk(n, at, true, true)
    ensures StartsWith(v.location, at)
    ensures Lookup(n, v.location[|at|..]) == Some(v.node)
    decreases n
  {
    InWalk(n, at, v);
    if v == Visit(at, n) {
      assert v.location[|at|..] == [];
    } else {
      InWalkAll(n.children, at, v);
      var i :| 0 <= i < |n.children| && v in Walk(n.children[i], at + [n.children[i].name], true, true);
      var c := n.children[i];
      WalkFound(c, at + [c.name], v);
      FoundBelow(n, i, at, v);
    }
  }

  /** A visit found below child `i` is found from its parent one part further along. */
  lemma FoundBelow(n: Node, i: nat, at: seq<string>, v: Visit)
    requires WellFormed(n) && i < |n.children|
    requires StartsWith(v.location, at + [n.children[i].name])
    requires Lookup(n.children[i], v.location[|at + [n.children[i].name]|..]) == Some(v.node)
    ensures StartsWith(v.location, at)
    ensures Lookup(n, v.location[|at|..]) == Some(v.node)
  {
    LocationStep(at, n.children[i].name, v.location);
    LookupStep(n, i, v.location[|at|..]);
  }

  // ---------------------------------------------------------------- settings

  /** `for key, value in updates.items(): setattr(...)`, last pair applied last. */
  function Apply(s: Settings, updates: seq<(Key, bool)>): Settings
    decreases |updates|
  {
    if |updates| == 0 then s
    else
      var last := updates[|updates| - 1];
      SetFlag(Apply(s, updates[..|updates| - 1]), last.0, last.1)
  }

  /** The value the updates give `k`, if any: the last pair naming it. */
  function Given(updates: seq<(Key, bool)>, k: Key): Option<bool>
    decreases |updates|
  {
    if |updates| == 0 then None
    else if updates[|updates| - 1].0 == k then Some(updates[|updates| - 1].1)
    else Given(updates[..|updates| - 1], k)
  }

  /** Only the given keys change, each to its given value. */
  lemma {:induction false} ApplyFacts(s: Settings, updates: seq<(Key, bool)>, k: Key)
    ensures Given(updates, k).None? ==> Flag(Apply(s, updates), k) == Flag(s, k)
    ensures Given(updates, k).Some? ==> Flag(Apply(s, updates), k) == Given(updates, k).value
    decreases |updates|
  {
    if |updates| > 0 {
      ApplyFacts(s, updates[..|updates| - 1], k);
    }
  }

  /** `update_settings(updates, recursive)`. */
  function UpdateSettings(n: Node, updates: seq<(Key, bool)>, recursive: bool): (r: Node)
    ensures r.name == n.name && r.kind == n.kind && r.data == Apply(n.data, updates)
    ensures !recursive ==> r.children == n.children
    decreases n, 1
  {
    Tree(n.name, n.kind, Apply(n.data, updates),
      if recursive then UpdateAll(n.children, updates) else n.children)
  }

  function UpdateAll(cs: seq<Node>, updates: seq<(Key, bool)>): (r: seq<Node>)
    ensures |r| == |cs|
    ensures Names(r) == Names(cs)
    decreases cs, 0
  {
    if |cs| == 0 then [] else [UpdateSettings(cs[0], updates, true)] + UpdateAll(cs[1..], updates)
  }

  function UpdateVisits(vs: seq<Visit>, updates: seq<(Key, bool)>): (r: seq<Visit>)
    ensures |r| == |vs|
    ensures forall i :: 0 <= i < |vs| ==> r[i] == Visit(vs[i].location, UpdateSettings(vs[i].node, updates, true))
  {
    if |vs| == 0 then [] else [Visit(vs[0].location, UpdateSettings(vs[0].node, updates, true))] + UpdateVisits(vs[1..], updates)
  }

  lemma UpdateVisitsAppend(a: seq<Visit>, b: seq<Visit>, updates: seq<(Key, bool)>)
    ensures UpdateVisits(a + b, updates) == UpdateVisits(a, updates) + UpdateVisits(b, updates)
  {
  }

  /**
   * A recursive update reaches the whole subtree: walking the updated tree
   * visits the same places, each holding its node with the updates applied.
   */
  lemma {:induction false} UpdateWalk(n: Node, updates: seq<(Key, bool)>, at: seq<string>, dirs: bool, files: bool)
    ensures Walk(UpdateSettings(n, updates, true), at, dirs, files) == UpdateVisits(Walk(n, at, dirs, files), updates)
    decreases n, 1
  {
    UpdateAllWalk(n.children, updates, at, dirs, files);
    var self := if dirs && n.kind == Directory then [Visit(at, n)] else [];
    var file := if files && n.kind == File then [Visit(at, n)] else [];
    UpdateVisitsAppend(self + file, WalkAll(n.children, at, dirs, files), updates);
    UpdateVisitsAppend(self, file, updates);
  }

  lemma {:induction false} UpdateAllWalk(cs: seq<Node>, updates: seq<(Key, bool)>, at: seq<string>, dirs: bool, files: bool)
    ensures WalkAll(UpdateAll(cs, updates), at, dirs, files) == UpdateVisits(WalkAll(cs, at, dirs, files), updates)
    decreases cs, 0
  {
    if |cs| > 0 {
      var u := UpdateAll(cs, updates);
      assert u[0] == UpdateSettings(cs[0], updates, true) && u[1..] == UpdateAll(cs[1..], updates);
      UpdateWalk(cs[0], updates, at + [cs[0].name], dirs, files);
      UpdateAllWalk(cs[1..], updates, at, dirs, files);
      UpdateVisitsAppend(Walk(cs[0], at + [cs[0].name], dirs, files), WalkAll(cs[1..], at, dirs, files), updates);
    }
  }

  /** So every node of the subtree, and no other place, carries the updated settings. */
  lemma UpdateReachesSubtree(n: Node, updates: seq<(Key, bool)>, i: nat)
    requires i < |Walk(n, [], true, true)|
    ensures |Walk(UpdateSettings(n, updates, true), [], true, true)| == |Walk(n, [], true, true)|
    ensures Walk(UpdateSettings(n, updates, true), [], true, true)[i].location == Walk(n, [], true, true)[i].location
    ensures Walk(UpdateSettings(n, updates, true), [], true, true)[i].node.data == Apply(Walk(n, [], true, true)[i].node.data, updates)
  {
    UpdateWalk(n, updates, [], true, true);
  }

  // ---------------------------------------------------------------- token counts

  /** `count_tokens(recursive)`, with the node's own message count as `own`. */
  function CountTokens(n: Node, own: Node -> int, recursive: bool): int
    decreases n, 1
  {
    own(n) + (if recursive then CountAll(n.children, own) else 0)
  }

  function CountAll(cs: seq<Node>, own: Node -> int): int
    decreases cs, 0
  {
    if |cs| == 0 then 0 else CountTokens(cs[0], own, true) + CountAll(cs[1..], own)
  }

  function SumOwn(vs: seq<Visit>, own: Node -> int): int
  {
    if |vs| == 0 then 0 else own(vs[0].node) + SumOwn(vs[1..], own)
  }

  lemma {:induction false} SumOwnAppend(a: seq<Visit>, b: seq<Visit>, own: Node -> int)
    ensures SumOwn(a + b, own) == SumOwn(a, own) + SumOwn(b, own)
  {
    if |a| > 0 {
      SumOwnAppend(a[1..], b, own);
      assert (a + b)[1..] == a[1..] + b;
    } else {
      assert a + b == b;
    }
  }

  /** The recursive count is the sum of every node's own count over the walk. */
  lemma {:induction false} CountIsWalkSum(n: Node, own: Node -> int, at: seq<string>)
    ensures CountTokens(n, own, true) == SumOwn(Walk(n, at, true, true), own)
    decreases n, 1
  {
    CountAllIsWalkSum(n.children, own, at);
    SumOwnAppend([Visit(at, n)], WalkAll(n.children, at, true, true), own);
    assert Walk(n, at, true, true) == [Visit(at, n)] + WalkAll(n.children, at, true, true);
  }

  lemma {:induction false} CountAllIsWalkSum(cs: seq<Node>, own: Node -> int, at: seq<string>)
    ensures CountAll(cs, own) == SumOwn(WalkAll(cs, at, true, true), own)
    decreases cs, 0
  {
    if |cs| > 0 {
      CountIsWalkSum(cs[0], own, at + [cs[0].name]);
      CountAllIsWalkSum(cs[1..], own, at);
      SumOwnAppend(Walk(cs[0], at + [cs[0].name], true, true), WalkAll(cs[1..], at, true, true), own);
    }
  }

  // ---------------------------------------------------------------- file nodes

  /** `FileNode.refresh`: the stored hash becomes the content's hash. */
  function RefreshedHash(stored: string, contentHash: string): (r: string)
    ensures r == contentHash
  {
    if contentHash != stored then contentHash else stored
  }

  /** The `start:end` header and lines one diff annotation contributes. */
  function AnnotationBlock(a: DiffContext.Annotation): seq<string>
  {
    [IntToString(a.start) + ":" + IntToString(a.start + DiffContext.Length(a))] + a.message
  }

  function AnnotationLines(anns: seq<DiffContext.Annotation>): seq<string>
  {
    if |anns| == 0 then [] else AnnotationBlock(anns[0]) + AnnotationLines(anns[1..])
  }

  /**
   * `FileNode.get_code_message` for a file at posix path `rel` whose text
   * splits into `lines`; `codeMap(excludeSignatures)` is the split code map.
   */
  function FileMessage(s: Settings, rel: string, lines: seq<string>, anns: seq<DiffContext.Annotation>,
                       codeMap: bool -> seq<string>): (r: Result<seq<string>, Failure>)
    ensures r == Err(MentatError) <==> s.diff && |anns| == 0
    ensures !s.included && !s.diff && !s.codeMap ==> r == Ok([])
    ensures s.included && !s.diff ==> r == Ok([rel] + lines)
    ensures s.included && r.Ok? ==> |r.value| > 0 && r.value[0] == rel
    ensures !s.included && s.diff && |anns| > 0 ==> r.Ok? && StartsWith(r.value, [rel] + AnnotationLines(anns))
  {
    if s.diff && |anns| == 0 then Err(MentatError)
    else if s.included then
      if s.diff then
        match DiffContext.AnnotateFileMessage(lines, anns)
        case Err(e) => Err(AnnotationFailed(e))
        case Ok(annotated) => Ok([rel] + annotated)
      else Ok([rel] + lines)
    else
      var diffPart := if s.diff then [rel] + AnnotationLines(anns) else [];
      var mapPart := if s.codeMap then codeMap(!s.includeSignature) else [];
      Ok(diffPart + mapPart)
  }

  /** With `include` set the code map plays no part: nothing else is added. */
  lemma IncludedIgnoresCodeMap(s: Settings, rel: string, lines: seq<string>, anns: seq<DiffContext.Annotation>,
                               m1: bool -> seq<string>, m2: bool -> seq<string>)
    requires s.included
    ensures FileMessage(s, rel, lines, anns, m1) == FileMessage(s, rel, lines, anns, m2)
  {
  }

  /** Without `include` or `diff`, the message is the code map, split by `include_signature`. */
  lemma CodeMapOnly(s: Settings, rel: string, lines: seq<string>, anns: seq<DiffContext.Annotation>,
                    codeMap: bool -> seq<string>)
    requires !s.included && !s.diff && s.codeMap
    ensures FileMessage(s, rel, lines, anns, codeMap) == Ok(codeMap(!s.includeSignature))
  {
    assert [] + codeMap(!s.includeSignature) == codeMap(!s.includeSignature);
  }

  // ---------------------------------------------------------------- directory nodes

  /**
   * `_has_child_with_setting`: a directory child answers through its own
   * children (its own flag is not consulted), any other child through its flag.
   */
  predicate HasChildWithSetting(n: Node, k: Key)
    decreases n, 1
  {
    AnyChildWithSetting(n.children, k)
  }

  predicate AnyChildWithSetting(cs: seq<Node>, k: Key)
    decreases cs, 0
  {
    |cs| > 0
    && ((if cs[0].kind == Directory then HasChildWithSetting(cs[0], k) else Flag(cs[0].data, k))
        || AnyChildWithSetting(cs[1..], k))
  }

  /** A file visited strictly below the walk's start that carries the flag. */
  predicate FlaggedFile(vs: seq<Visit>, k: Key)
  {
    exists v :: v in vs && v.node.kind == File && Flag(v.node.data, k)
  }

  /** `_has_child_with_setting` holds iff some file below the node has the setting. */
  lemma {:induction false} HasChildWithSettingIff(n: Node, k: Key, at: seq<string>)
    requires WellFormed(n)
    ensures HasChildWithSetting(n, k) <==> FlaggedFile(WalkAll(n.children, at, true, true), k)
    decreases n, 1
  {
    AnyChildWithSettingIff(n, n.children, k, at);
  }

  lemma {:induction false} AnyChildWithSettingIff(n: Node, cs: seq<Node>, k: Key, at: seq<string>)
    requires WellFormed(n)
    requires forall c :: c in cs ==> c in n.children
    ensures AnyChildWithSetting(cs, k) <==> FlaggedFile(WalkAll(cs, at, true, true), k)
    decreases n, 0, |cs|
  {
    if |cs| > 0 {
      var c := cs[0];
      assert c in n.children;
      var i :| 0 <= i < |n.children| && n.children[i] == c;
      assert WellFormed(c);
      var here := Walk(c, at + [c.name], true, true);
      var rest := WalkAll(cs[1..], at, true, true);
      AnyChildWithSettingIff(n, cs[1..], k, at);
      if c.kind == Directory {
        HasChildWithSettingIff(c, k, at + [c.name]);
        assert here == [Visit(at + [c.name], c)] + WalkAll(c.children, at + [c.name], true, true);
      } else {
        assert here == [Visit(at + [c.name], c)];
      }
      assert FlaggedFile(here + rest, k) <==> FlaggedFile(here, k) || FlaggedFile(rest, k);
    }
  }

  /** `display_context`'s guard: the node is included or has an included file below it. */
  predicate Shows(n: Node)
  {
    n.data.included || HasChildWithSetting(n, Include)
  }

  /** A child `display_context` lists: included, or a directory with an included file below. */
  predicate Listed(c: Node)
  {
    c.data.included || (c.kind == Directory && HasChildWithSetting(c, Include))
  }

  /** The children `display_context` lists, in order. */
  function Selected(cs: seq<Node>): (r: seq<Node>)
    ensures forall c :: c in r <==> c in cs && Listed(c)
  {
    if |cs| == 0 then []
    else if Listed(cs[0]) then [cs[0]] + Selected(cs[1..])
    else Selected(cs[1..])
  }

  datatype Color = Blue | Green | Plain

  /** One printed line: the uncoloured prefix and connector, then the coloured label. */
  datatype Line = Line(lead: string, text: string, color: Color)

  /**
   * `display_context(prefix)`: nothing unless the guard holds; else each
   * selected child with `├── ` (`└── ` for the last), a star when this
   * directory's `diff` is set, and a directory child's own listing below it.
   */
  function Display(n: Node, prefix: string): (r: seq<Line>)
    ensures !Shows(n) ==> r == []
    decreases n, 1
  {
    if !Shows(n) then [] else DisplayEach(n, Selected(n.children), prefix)
  }

  function DisplayEach(n: Node, cs: seq<Node>, prefix: string): seq<Line>
    requires forall c :: c in cs ==> c in n.children
    decreases n, 0, |cs|
  {
    if |cs| == 0 then []
    else
      var c := cs[0];
      assert c in n.children;
      var last := |cs| == 1;
      var star := if n.data.diff then "* " else "";
      var color := if c.kind == Directory then Blue else if n.data.diff then Green else Plain;
      [Line(prefix + (if last then "└── " else "├── "), star + c.name, color)]
      + (if c.kind == Directory then Display(c, prefix + (if last then "    " else "│   ")) else [])
      + DisplayEach(n, cs[1..], prefix)
  }

  /** `Joined(a, b)`: `a + b` when both succeed, else the first failure. */
  function Joined(a: Result<seq<string>, Failure>, b: Result<seq<string>, Failure>): Result<seq<string>, Failure>
  {
    match a
    case Err(e) => Err(e)
    case Ok(x) =>
      match b
      case Err(e) => Err(e)
      case Ok(y) => Ok(x + y)
  }

  /**
   * `get_code_message(recursive)` of the node at `at`: a file answers with
   * `fileMessage`; a directory with `"rel/"` iff a file below it is included,
   * then, when recursive, its children's messages in order.
   */
  function Message(n: Node, at: seq<string>, recursive: bool,
                   fileMessage: (Node, seq<string>) -> Result<seq<string>, Failure>): (r: Result<seq<string>, Failure>)
    ensures n.kind == Directory && !recursive ==> r == Ok(if HasChildWithSetting(n, Include) then [Format(Path(false, at)) + "/"] else [])
    ensures n.kind == Directory && HasChildWithSetting(n, Include) && r.Ok? ==> |r.value| > 0 && r.value[0] == Format(Path(false, at)) + "/"
    ensures n.kind == File ==> r == fileMessage(n, at)
    decreases n, 1
  {
    if n.kind == File then fileMessage(n, at)
    else
      var own := if HasChildWithSetting(n, Include) then [Format(Path(false, at)) + "/"] else [];
      if recursive then Joined(Ok(own), MessageAll(n.children, at, fileMessage)) else Ok(own)
  }

  function MessageAll(cs: seq<Node>, at: seq<string>,
                      fileMessage: (Node, seq<string>) -> Result<seq<string>, Failure>): Result<seq<string>, Failure>
    decreases cs, 0
  {
    if |cs| == 0 then Ok([])
    else Joined(Message(cs[0], at + [cs[0].name], true, fileMessage), MessageAll(cs[1..], at, fileMessage))
  }

  /** Each visited node's own (non-recursive) message, joined in walk order. */
  function OwnMessages(vs: seq<Visit>, fileMessage: (Node, seq<string>) -> Result<seq<string>, Failure>): Result<seq<string>, Failure>
  {
    if |vs| == 0 then Ok([])
    else Joined(Message(vs[0].node, vs[0].location, false, fileMessage), OwnMessages(vs[1..], fileMessage))
  }

  lemma JoinedAssociative(a: Result<seq<string>, Failure>, b: Result<seq<string>, Failure>, c: Result<seq<string>, Failure>)
    ensures Joined(Joined(a, b), c) == Joined(a, Joined(b, c))
  {
    if a.Ok? && b.Ok? && c.Ok? {
      assert a.value + b.value + c.value == a.value + (b.value + c.value);
    }
  }

  lemma {:induction false} OwnMessagesAppend(a: seq<Visit>, b: seq<Visit>, fileMessage: (Node, seq<string>) -> Result<seq<string>, Failure>)
    ensures OwnMessages(a + b, fileMessage) == Joined(OwnMessages(a, fileMessage), OwnMessages(b, fileMessage))
  {
    if |a| > 0 {
      OwnMessagesAppend(a[1..], b, fileMessage);
      assert (a + b)[1..] == a[1..] + b;
      JoinedAssociative(Message(a[0].node, a[0].location, false, fileMessage), OwnMessages(a[1..], fileMessage), OwnMessages(b, fileMessage));
    } else {
      assert a + b == b;
      var m := OwnMessages(b, fileMessage);
      if m.Ok? {
        assert [] + m.value == m.value;
      }
    }
  }

  /** The recursive message is every node's own message, in `iter_nodes` order. */
  lemma {:induction false} MessageIsWalkConcat(n: Node, at: seq<string>, fileMessage: (Node, seq<string>) -> Result<seq<string>, Failure>)
    requires WellFormed(n)
    ensures Message(n, at, true, fileMessage) == OwnMessages(Walk(n, at, true, true), fileMessage)
    decreases n, 1
  {
    var self := [Visit(at, n)];
    assert Walk(n, at, true, true) == self + WalkAll(n.children, at, true, true);
    OwnMessagesAppend(self, WalkAll(n.children, at, true, true), fileMessage);
    var m := Message(n, at, false, fileMessage);
    if m.Ok? {
      assert m.value + [] == m.value;
    }
    assert OwnMessages(self, fileMessage) == Joined(m, Ok([]));
    if n.kind == Directory {
      MessageAllIsWalkConcat(n, n.children, at, fileMessage);
    } else {
      assert WalkAll(n.children, at, true, true) == [];
    }
  }

  lemma {:induction false} MessageAllIsWalkConcat(n: Node, cs: seq<Node>, at: seq<string>,
                                                  fileMessage: (Node, seq<string>) -> Result<seq<string>, Failure>)
    requires WellFormed(n)
    requires forall c :: c in cs ==> c in n.children
    ensures MessageAll(cs, at, fileMessage) == OwnMessages(WalkAll(cs, at, true, true), fileMessage)
    decreases n, 0, |cs|
  {
    if |cs| > 0 {
      var c := cs[0];
      assert c in n.children;
      var i :| 0 <= i < |n.children| && n.children[i] == c;
      assert WellFormed(c);
      MessageIsWalkConcat(c, at + [c.name], fileMessage);
      MessageAllIsWalkConcat(n, cs[1..], at, fileMessage);
      OwnMessagesAppend(Walk(c, at + [c.name], true, true), WalkAll(cs[1..], at, true, true), fileMessage);
    }
  }

  // ---------------------------------------------------------------- directory refresh

  /** `Path(listed).parts[0]`; `None` where it raises `IndexError`. */
  function TopPart(listed: string): Option<string>
  {
    var p := Parse(listed);
    if p.absolute then Some("/")
    else if |p.parts| == 0 then None
    else Some(p.parts[0])
  }

  /** `Path(p).parts[0]`, raising `IndexError` for a path without parts. */
  function TopPartOrRaise(p: string): Result<string, Failure>
  {
    match TopPart(p)
    case Some(t) => Ok(t)
    case None => Err(IndexError)
  }

  function TopParts(listed: seq<string>): (r: Result<seq<string>, Failure>)
    ensures r.Ok? <==> forall i :: 0 <= i < |listed| ==> TopPart(listed[i]).Some?
    ensures r.Ok? ==> |r.value| == |listed|
    ensures r.Ok? ==> forall i :: 0 <= i < |listed| ==> TopPart(listed[i]) == Some(r.value[i])
    ensures r.Err? ==> r.error == IndexError && exists i :: 0 <= i < |listed| && TopPart(listed[i]).None?
  {
    var tops := seq(|listed|, i requires 0 <= i < |listed| => TopPartOrRaise(listed[i]));
    assert forall i :: 0 <= i < |listed| ==> tops[i] == TopPartOrRaise(listed[i]);
    Collect(tops)
  }

  /** The active names not among the previous ones. */
  function Fresh(active: seq<string>, before: seq<string>): seq<string>
  {
    if |active| == 0 then []
    else (if active[0] in before then [] else [active[0]]) + Fresh(active[1..], before)
  }

  lemma {:induction false} FreshMembers(active: seq<string>, before: seq<string>)
    ensures forall x :: x in Fresh(active, before) <==> x in active && x !in before
  {
    if |active| > 0 {
      FreshMembers(active[1..], before);
      assert active == [active[0]] + active[1..];
    }
  }

  /** The loop over `paths_added`: skip non-directories that are not text, store the rest. */
  function AddChildren(cs: seq<Node>, added: seq<string>, isDir: string -> bool, isText: string -> bool,
                       make: string -> Node): seq<Node>
    decreases |added|
  {
    if |added| == 0 then cs
    else
      var x := added[0];
      AddChildren(if !isDir(x) && !isText(x) then cs else Put(cs, make(x)), added[1..], isDir, isText, make)
  }

  /** A vanished child goes, unless it is included. */
  predicate Stays(c: Node, before: seq<string>, active: seq<string>)
  {
    !(c.name in before && c.name !in active && !c.data.included)
  }

  /** The loop over `paths_removed`. */
  function Prune(cs: seq<Node>, before: seq<string>, active: seq<string>): seq<Node>
  {
    if |cs| == 0 then []
    else (if Stays(cs[0], before, active) then [cs[0]] else []) + Prune(cs[1..], before, active)
  }

  lemma {:induction false} PruneMembers(cs: seq<Node>, before: seq<string>, active: seq<string>)
    ensures forall c :: c in Prune(cs, before, active) <==> c in cs && Stays(c, before, active)
  {
    if |cs| > 0 {
      PruneMembers(cs[1..], before, active);
      assert cs == [cs[0]] + cs[1..];
    }
  }

  /**
   * `DirectoryNode.refresh`: `tracked` and `untracked` are the lines of the two
   * `git ls-files` listings; `isDir`, `isText` and `make` (`get_node`) stand
   * for the filesystem below this directory.
   */
  function RefreshDirectory(n: Node, tracked: seq<string>, untracked: seq<string>,
                            isDir: string -> bool, isText: string -> bool, make: string -> Node): Result<Node, Failure>
  {
    match TopParts(tracked)
    case Err(e) => Err(e)
    case Ok(t) =>
      match TopParts(untracked)
      case Err(e) => Err(e)
      case Ok(u) =>
        var active := t + u;
        var before := Names(n.children);
        var added := Lexical.SortedSet(Fresh(active, before));
        Ok(n.(children := Prune(AddChildren(n.children, added, isDir, isText, make), before, active)))
  }

  /** `get_node` names the node after the name it was given. */
  ghost predicate NamesKept(make: string -> Node)
  {
    forall x :: make(x).name == x
  }

  /** The new children, in the order they are stored. */
  function Created(added: seq<string>, isDir: string -> bool, isText: string -> bool, make: string -> Node): seq<Node>
  {
    if |added| == 0 then []
    else (if !isDir(added[0]) && !isText(added[0]) then [] else [make(added[0])]) + Created(added[1..], isDir, isText, make)
  }

  lemma {:induction false} CreatedMembers(added: seq<string>, isDir: string -> bool, isText: string -> bool, make: string -> Node)
    ensures forall c :: c in Created(added, isDir, isText, make) ==> exists x :: x in added && c == make(x) && (isDir(x) || isText(x))
    ensures forall x :: x in added && (isDir(x) || isText(x)) ==> make(x) in Created(added, isDir, isText, make)
  {
    if |added| > 0 {
      CreatedMembers(added[1..], isDir, isText, make);
      assert added == [added[0]] + added[1..];
    }
  }

  predicate Distinct(xs: seq<string>)
  {
    forall i, j :: 0 <= i < j < |xs| ==> xs[i] != xs[j]
  }

  lemma AscendingDistinct(xs: seq<string>)
    requires Lexical.Ascending(xs)
    ensures Distinct(xs)
  {
    forall i, j | 0 <= i < j < |xs|
      ensures xs[i] != xs[j]
    {
      Lexical.LessIrreflexive(xs[i]);
    }
  }

  /** Names that are new and distinct are appended, in order. */
  lemma {:induction false} AddChildrenAppends(cs: seq<Node>, added: seq<string>, isDir: string -> bool,
                                             isText: string -> bool, make: string -> Node)
    requires NamesKept(make) && DistinctNames(cs) && Distinct(added)
    requires forall x :: x in added ==> x !in Names(cs)
    ensures AddChildren(cs, added, isDir, isText, make) == cs + Created(added, isDir, isText, make)
    decreases |added|
  {
    if |added| > 0 {
      var x := added[0];
      var rest := added[1..];
      if !isDir(x) && !isText(x) {
        StillFresh(cs, added);
        AddChildrenAppends(cs, rest, isDir, isText, make);
        assert Created(added, isDir, isText, make) == [] + Created(rest, isDir, isText, make);
      } else {
        var node := make(x);
        GrowFresh(cs, added, node);
        AddChildrenAppends(cs + [node], rest, isDir, isText, make);
        assert Created(added, isDir, isText, make) == [node] + Created(rest, isDir, isText, make);
        assert (cs + [node]) + Created(rest, isDir, isText, make) == cs + ([node] + Created(rest, isDir, isText, make));
      }
    }
  }

  /** The names after the first are distinct and still absent from the children. */
  lemma StillFresh(cs: seq<Node>, added: seq<string>)
    requires Distinct(added) && |added| > 0
    requires forall x :: x in added ==> x !in Names(cs)
    ensures Distinct(added[1..])
    ensures forall y :: y in added[1..] ==> y !in Names(cs)
  {
    assert forall i :: 0 <= i < |added[1..]| ==> added[1..][i] == added[i + 1];
  }

  /** Storing the first fresh name's node appends it and leaves the later names fresh. */
  lemma GrowFresh(cs: seq<Node>, added: seq<string>, node: Node)
    requires DistinctNames(cs) && Distinct(added) && |added| > 0 && node.name == added[0]
    requires forall x :: x in added ==> x !in Names(cs)
    ensures Put(cs, node) == cs + [node] && DistinctNames(cs + [node])
    ensures Distinct(added[1..])
    ensures forall y :: y in added[1..] ==> y !in Names(cs + [node])
  {
    StillFresh(cs, added);
    PutNew(cs, node);
    AppendNew(cs, node);
    forall y | y in added[1..]
      ensures y !in Names(cs + [node])
    {
      var j :| 1 <= j < |added| && added[j] == y;
      assert added[0] != added[j];
    }
  }

  lemma {:induction false} PruneAppend(a: seq<Node>, b: seq<Node>, before: seq<string>, active: seq<string>)
    ensures Prune(a + b, before, active) == Prune(a, before, active) + Prune(b, before, active)
  {
    if |a| > 0 {
      PruneAppend(a[1..], b, before, active);
      assert (a + b)[1..] == a[1..] + b;
    } else {
      assert a + b == b;
    }
  }

  lemma {:induction false} PruneKeepsNew(b: seq<Node>, before: seq<string>, active: seq<string>)
    requires forall c :: c in b ==> c.name !in before
    ensures Prune(b, before, active) == b
  {
    if |b| > 0 {
      PruneKeepsNew(b[1..], before, active);
      assert b == [b[0]] + b[1..];
    }
  }

  /**
   * Refresh in closed form: the previous children that stay, in their order,
   * then one new child per newly listed name that is a directory or text,
   * in sorted name order.
   */
  lemma RefreshClosedForm(n: Node, tracked: seq<string>, untracked: seq<string>,
                          isDir: string -> bool, isText: string -> bool, make: string -> Node)
    requires NamesKept(make) && DistinctNames(n.children)
    requires TopParts(tracked).Ok? && TopParts(untracked).Ok?
    ensures var active := TopParts(tracked).value + TopParts(untracked).value;
            var before := Names(n.children);
            RefreshDirectory(n, tracked, untracked, isDir, isText, make)
            == Ok(n.(children := Prune(n.children, before, active)
                                 + Created(Lexical.SortedSet(Fresh(active, before)), isDir, isText, make)))
  {
    var active := TopParts(tracked).value + TopParts(untracked).value;
    var before := Names(n.children);
    var added := Lexical.SortedSet(Fresh(active, before));
    Lexical.SortedSetFacts(Fresh(active, before));
    FreshMembers(active, before);
    AscendingDistinct(added);
    assert forall x :: x in added ==> x !in before by {
      forall x | x in added
        ensures x !in before
      {
        assert x in Lexical.Elements(added);
      }
    }
    AddChildrenAppends(n.children, added, isDir, isText, make);
    var created := Created(added, isDir, isText, make);
    PruneAppend(n.children, created, before, active);
    CreatedNamesNew(added, isDir, isText, make, before);
    PruneKeepsNew(created, before, active);
  }

  lemma CreatedNamesNew(added: seq<string>, isDir: string -> bool, isText: string -> bool,
                        make: string -> Node, before: seq<string>)
    requires NamesKept(make)
    requires forall x :: x in added ==> x !in before
    ensures forall c :: c in Created(added, isDir, isText, make) ==> c.name !in before
  {
    CreatedMembers(added, isDir, isText, make);
  }

  /** A previous child survives a refresh, untouched, iff it is still listed or is included. */
  lemma RefreshKeeps(n: Node, tracked: seq<string>, untracked: seq<string>,
                     isDir: string -> bool, isText: string -> bool, make: string -> Node, c: Node)
    requires NamesKept(make) && DistinctNames(n.children)
    requires TopParts(tracked).Ok? && TopParts(untracked).Ok?
    requires c in n.children
    ensures RefreshDirectory(n, tracked, untracked, isDir, isText, make).Ok?
    ensures c in RefreshDirectory(n, tracked, untracked, isDir, isText, make).value.children
            <==> c.name in TopParts(tracked).value + TopParts(untracked).value || c.data.included
  {
    var active := TopParts(tracked).value + TopParts(untracked).value;
    var before := Names(n.children);
    var newNames := Fresh(active, before);
    var added := Lexical.SortedSet(newNames);
    RefreshClosedForm(n, tracked, untracked, isDir, isText, make);
    Lexical.SortedSetFacts(newNames);
    FreshMembers(active, before);
    PruneMembers(n.children, before, active);
    assert forall x :: x in added ==> x !in before by {
      forall x | x in added
        ensures x !in before
      {
        assert x in Lexical.Elements(added);
      }
    }
    CreatedNamesNew(added, isDir, isText, make, before);
    var i :| 0 <= i < |n.children| && n.children[i] == c;
    assert c.name in before;
  }

  lemma {:induction false} CreatedNames(added: seq<string>, isDir: string -> bool, isText: string -> bool,
                                       make: string -> Node, x: string)
    requires NamesKept(make)
    ensures x in Names(Created(added, isDir, isText, make)) <==> x in added && (isDir(x) || isText(x))
  {
    if |added| > 0 {
      CreatedNames(added[1..], isDir, isText, make, x);
      var head := if !isDir(added[0]) && !isText(added[0]) then [] else [make(added[0])];
      NamesAppend(head, Created(added[1..], isDir, isText, make));
      assert added == [added[0]] + added[1..];
    }
  }

  lemma PrunedNames(cs: seq<Node>, before: seq<string>, active: seq<string>, x: string)
    requires x in Names(Prune(cs, before, active))
    ensures x in Names(cs)
  {
    var r := Prune(cs, before, active);
    PruneMembers(cs, before, active);
    var j :| 0 <= j < |r| && Names(r)[j] == x;
    assert r[j] in cs;
    var i :| 0 <= i < |cs| && cs[i] == r[j];
    assert Names(cs)[i] == x;
  }

  /** A name not seen before gets a child iff it is listed and is a directory or a text file. */
  lemma RefreshAdds(n: Node, tracked: seq<string>, untracked: seq<string>,
                    isDir: string -> bool, isText: string -> bool, make: string -> Node, x: string)
    requires NamesKept(make) && DistinctNames(n.children)
    requires TopParts(tracked).Ok? && TopParts(untracked).Ok?
    requires x !in Names(n.children)
    ensures RefreshDirectory(n, tracked, untracked, isDir, isText, make).Ok?
    ensures x in Names(RefreshDirectory(n, tracked, untracked, isDir, isText, make).value.children)
            <==> x in TopParts(tracked).value + TopParts(untracked).value && (isDir(x) || isText(x))
  {
    var active := TopParts(tracked).value + TopParts(untracked).value;
    var before := Names(n.children);
    var newNames := Fresh(active, before);
    var added := Lexical.SortedSet(newNames);
    RefreshClosedForm(n, tracked, untracked, isDir, isText, make);
    Lexical.SortedSetFacts(newNames);
    FreshMembers(active, before);
    var created := Created(added, isDir, isText, make);
    var kept := Prune(n.children, before, active);
    NamesAppend(kept, created);
    CreatedNames(added, isDir, isText, make, x);
    if x in Names(kept) {
      PrunedNames(n.children, before, active, x);
    }
    assert x in added <==> x in Lexical.Elements(newNames);
  }

  // ---------------------------------------------------------------- the testbed

  function Leaf(name: string): Node
  {
    Tree(name, File, Defaults, [])
  }

  const Calculator: Node := Tree("multifile_calculator", Directory, Defaults,
    [Leaf("__init__.py"), Leaf("calculator.py"), Leaf("operations.py")])

  function IncludedNames(vs: seq<Visit>): seq<string>
  {
    if |vs| == 0 then []
    else (if vs[0].node.data.included then [vs[0].node.name] else []) + IncludedNames(vs[1..])
  }

  lemma {:induction false} VisitNamesAppend(a: seq<Visit>, b: seq<Visit>)
    ensures VisitNames(a + b) == VisitNames(a) + VisitNames(b)
  {
    if |a| > 0 {
      VisitNamesAppend(a[1..], b);
      assert (a + b)[1..] == a[1..] + b;
    } else {
      assert a + b == b;
    }
  }

  lemma {:induction false} IncludedNamesAppend(a: seq<Visit>, b: seq<Visit>)
    ensures IncludedNames(a + b) == IncludedNames(a) + IncludedNames(b)
  {
    if |a| > 0 {
      IncludedNamesAppend(a[1..], b);
      assert (a + b)[1..] == a[1..] + b;
    } else {
      assert a + b == b;
    }
  }

  /** Three leaves with the given settings, as a directory's children. */
  function Leaves(x: string, y: string, z: string, s: Settings): seq<Node>
  {
    [Tree(x, File, s, []), Tree(y, File, s, []), Tree(z, File, s, [])]
  }

  lemma WalkLeaf(n: Node, at: seq<string>, dirs: bool, files: bool)
    requires n.kind == File && n.children == []
    ensures Walk(n, at, dirs, files) == if files then [Visit(at, n)] else []
  {
    assert WalkAll(n.children, at, dirs, files) == [];
  }

  /** A file leaf at the head of a child list contributes itself alone, when files are asked for. */
  lemma WalkLeafFirst(c: Node, rest: seq<Node>, at: seq<string>, dirs: bool, files: bool)
    requires c.kind == File && c.children == []
    ensures WalkAll([c] + rest, at, dirs, files)
            == (if files then [Visit(at + [c.name], c)] else []) + WalkAll(rest, at, dirs, files)
  {
    assert ([c] + rest)[0] == c && ([c] + rest)[1..] == rest;
    WalkLeaf(c, at + [c.name], dirs, files);
  }

  /** Three leaves are visited in order, each at its own location. */
  lemma LeavesWalkShape(x: string, y: string, z: string, s: Settings, at: seq<string>, dirs: bool, files: bool)
    ensures WalkAll(Leaves(x, y, z, s), at, dirs, files)
            == if files then [Visit(at + [x], Tree(x, File, s, [])), Visit(at + [y], Tree(y, File, s, [])),
                              Visit(at + [z], Tree(z, File, s, []))] else []
  {
    var c0, c1, c2 := Tree(x, File, s, []), Tree(y, File, s, []), Tree(z, File, s, []);
    assert Leaves(x, y, z, s) == [c0] + ([c1] + ([c2] + []));
    assert WalkAll([], at, dirs, files) == [];
    WalkLeafFirst(c2, [], at, dirs, files);
    WalkLeafFirst(c1, [c2] + [], at, dirs, files);
    WalkLeafFirst(c0, [c1] + ([c2] + []), at, dirs, files);
  }

  lemma LeavesWalk(x: string, y: string, z: string, s: Settings, at: seq<string>, dirs: bool, files: bool)
    ensures VisitNames(WalkAll(Leaves(x, y, z, s), at, dirs, files)) == (if files then [x, y, z] else [])
    ensures IncludedNames(WalkAll(Leaves(x, y, z, s), at, dirs, files)) == (if files && s.included then [x, y, z] else [])
  {
    LeavesWalkShape(x, y, z, s, at, dirs, files);
    if files {
      var vs := [Visit(at + [x], Tree(x, File, s, [])), Visit(at + [y], Tree(y, File, s, [])),
                 Visit(at + [z], Tree(z, File, s, []))];
      assert vs[1..][1..][1..] == [];
      assert IncludedNames(vs[1..][1..]) == (if s.included then [z] else []);
      assert IncludedNames(vs[1..]) == (if s.included then [y, z] else []);
      assert VisitNames(vs[1..][1..]) == [z];
      assert VisitNames(vs[1..]) == [y, z];
    }
  }

  /** A directory's walk: itself when directories are asked for, then its children's walks. */
  lemma WalkDirectory(n: Node, at: seq<string>, dirs: bool, files: bool)
    requires n.kind == Directory
    ensures Walk(n, at, dirs, files) == (if dirs then [Visit(at, n)] else []) + WalkAll(n.children, at, dirs, files)
  {
    assert (if files && n.kind == File then [Visit(at, n)] else []) == [];
  }

  lemma WalkOnlyChild(c: Node, at: seq<string>, dirs: bool, files: bool)
    ensures WalkAll([c], at, dirs, files) == Walk(c, at + [c.name], dirs, files)
  {
    assert [c][0] == c && [c][1..] == [];
    assert WalkAll([], at, dirs, files) == [];
  }

  /**
   * The walk order the navigation test expects (`testbed`, `multifile_calculator`,
   * then its three files), and its two filtered forms.
   */
  lemma IterNodesExample(top: string, dir: string, x: string, y: string, z: string, dirs: bool, files: bool)
    ensures VisitNames(Walk(Tree(top, Directory, Defaults, [Tree(dir, Directory, Defaults, Leaves(x, y, z, Defaults))]), [], dirs, files))
            == (if dirs then [top, dir] else []) + (if files then [x, y, z] else [])
  {
    var sub := Tree(dir, Directory, Defaults, Leaves(x, y, z, Defaults));
    var root := Tree(top, Directory, Defaults, [sub]);
    var below := WalkAll(sub.children, [dir], dirs, files);
    var first := if dirs then [Visit([], root)] else [];
    var mid := if dirs then [Visit([dir], sub)] else [];
    NestedWalk(root, sub, dirs, files);
    LeavesWalk(x, y, z, Defaults, [dir], dirs, files);
    VisitNamesAppend(first, mid + below);
    VisitNamesAppend(mid, below);
    VisitNamesOptional(dirs, Visit([], root));
    VisitNamesOptional(dirs, Visit([dir], sub));
  }

  lemma VisitNamesOptional(b: bool, v: Visit)
    ensures VisitNames(if b then [v] else []) == if b then [v.node.name] else []
  {
    assert [v][1..] == [];
  }

  /** A directory holding one directory: the outer one, the inner one, then the inner one's children. */
  lemma NestedWalk(root: Node, sub: Node, dirs: bool, files: bool)
    requires root.kind == Directory && sub.kind == Directory && root.children == [sub]
    ensures Walk(root, [], dirs, files)
            == (if dirs then [Visit([], root)] else [])
               + ((if dirs then [Visit([sub.name], sub)] else []) + WalkAll(sub.children, [sub.name], dirs, files))
  {
    assert [] + [sub.name] == [sub.name];
    WalkDirectory(sub, [sub.name], dirs, files);
    WalkOnlyChild(sub, [], dirs, files);
    WalkDirectory(root, [], dirs, files);
  }

  /** Including a directory alone marks only it; recursively, its whole subtree. */
  lemma UpdateExample(recursive: bool)
    ensures IncludedNames(Walk(UpdateSettings(Calculator, [(Include, true)], recursive), [], true, true))
            == ["multifile_calculator"] + (if recursive then ["__init__.py", "calculator.py", "operations.py"] else [])
  {
    var on := Apply(Defaults, [(Include, true)]);
    assert on == Defaults.(included := true);
    var u := UpdateSettings(Calculator, [(Include, true)], recursive);
    var leaves := if recursive then Leaves("__init__.py", "calculator.py", "operations.py", on)
                  else Leaves("__init__.py", "calculator.py", "operations.py", Defaults);
    assert u.children == leaves by {
      var cs := Calculator.children;
      assert cs[1..] == [cs[1], cs[2]] && cs[1..][1..] == [cs[2]] && [cs[2]][1..] == [];
    }
    LeavesWalk("__init__.py", "calculator.py", "operations.py", if recursive then on else Defaults, [], true, true);
    WalkDirectory(u, [], true, true);
    IncludedNamesAppend([Visit([], u)], WalkAll(u.children, [], true, true));
  }

  const Scripts: Node := Tree("scripts", Directory, Defaults,
    [Leaf("calculator.py"), Leaf("echo.py"), Leaf("graph_class.py")])

  function Testbed(scripts: Node): Node
  {
    Tree("testbed", Directory, Defaults, [Leaf(".gitignore"), Leaf("__init__.py"), Calculator, scripts])
  }

  /** Leaves whose settings leave `include` unset do not make their directory shown. */
  lemma LeavesNotIncluded(x: string, y: string, z: string, s: Settings)
    requires !s.included
    ensures !AnyChildWithSetting(Leaves(x, y, z, s), Include)
  {
    var cs := Leaves(x, y, z, s);
    assert cs[1..] == [cs[1], cs[2]] && cs[1..][1..] == [cs[2]] && [cs[2]][1..] == [];
    assert !AnyChildWithSetting([cs[2]], Include);
    assert !AnyChildWithSetting([cs[1], cs[2]], Include);
  }

  /** Nothing is shown until something is included. */
  lemma DisplayNothingExample()
    ensures Display(Testbed(Scripts), "") == []
  {
    var root := Testbed(Scripts);
    var cs := root.children;
    assert Calculator.children == Leaves("__init__.py", "calculator.py", "operations.py", Defaults);
    assert Scripts.children == Leaves("calculator.py", "echo.py", "graph_class.py", Defaults);
    LeavesNotIncluded("__init__.py", "calculator.py", "operations.py", Defaults);
    LeavesNotIncluded("calculator.py", "echo.py", "graph_class.py", Defaults);
    assert cs[1..] == [cs[1], cs[2], cs[3]] && cs[2..] == [cs[2], cs[3]] && cs[3..] == [cs[3]];
    assert cs[1..][1..] == cs[2..] && cs[2..][1..] == cs[3..] && cs[3..][1..] == [];
    assert !AnyChildWithSetting(cs[3..], Include);
    assert !AnyChildWithSetting(cs[2..], Include);
    assert !AnyChildWithSetting(cs, Include);
  }

  lemma SelectedCons(c: Node, rest: seq<Node>)
    ensures Selected([c] + rest) == (if Listed(c) then [c] else []) + Selected(rest)
  {
    assert ([c] + rest)[0] == c && ([c] + rest)[1..] == rest;
  }

  lemma AnyChildCons(c: Node, rest: seq<Node>, k: Key)
    ensures AnyChildWithSetting([c] + rest, k)
            <==> (if c.kind == Directory then HasChildWithSetting(c, k) else Flag(c.data, k)) || AnyChildWithSetting(rest, k)
  {
    assert ([c] + rest)[0] == c && ([c] + rest)[1..] == rest;
  }

  /** A file child in an undecorated directory is one plain line. */
  lemma DisplayFileFirst(n: Node, c: Node, rest: seq<Node>, prefix: string)
    requires c in n.children && forall d :: d in rest ==> d in n.children
    requires c.kind == File && !n.data.diff
    ensures DisplayEach(n, [c] + rest, prefix)
            == [Line(prefix + (if rest == [] then "└── " else "├── "), c.name, Plain)] + DisplayEach(n, rest, prefix)
  {
    assert ([c] + rest)[0] == c && ([c] + rest)[1..] == rest;
    assert "" + c.name == c.name;
  }

  lemma NoPrefix(s: string)
    ensures "" + s == s
  {
  }

  /** A directory listed last in an undecorated directory: its blue line, then its own listing indented. */
  lemma DisplayLastDirectory(n: Node, c: Node, prefix: string)
    requires c in n.children && c.kind == Directory && !n.data.diff
    ensures DisplayEach(n, [c], prefix) == [Line(prefix + "└── ", c.name, Blue)] + Display(c, prefix + "    ")
  {
    assert [c][0] == c && [c][1..] == [];
    assert "" + c.name == c.name;
  }

  /** An included directory of three files lists them with `├── ` and a final `└── `. */
  lemma DisplayLeaves(dir: string, x: string, y: string, z: string, prefix: string)
    ensures var s := Defaults.(included := true);
            Display(Tree(dir, Directory, s, Leaves(x, y, z, s)), prefix) == [
              Line(prefix + "├── ", x, Plain),
              Line(prefix + "├── ", y, Plain),
              Line(prefix + "└── ", z, Plain)
            ]
  {
    var s := Defaults.(included := true);
    var c0, c1, c2 := Tree(x, File, s, []), Tree(y, File, s, []), Tree(z, File, s, []);
    var leaves := Leaves(x, y, z, s);
    var d := Tree(dir, Directory, s, leaves);
    IncludedLeavesSelected(x, y, z, s);
    assert leaves == [c0] + ([c1] + ([c2] + []));
    assert DisplayEach(d, [], prefix) == [];
    DisplayFileFirst(d, c2, [], prefix);
    DisplayFileFirst(d, c1, [c2] + [], prefix);
    DisplayFileFirst(d, c0, [c1] + ([c2] + []), prefix);
  }

  /** Included leaves are all listed. */
  lemma IncludedLeavesSelected(x: string, y: string, z: string, s: Settings)
    requires s.included
    ensures Selected(Leaves(x, y, z, s)) == Leaves(x, y, z, s)
  {
    var c0, c1, c2 := Tree(x, File, s, []), Tree(y, File, s, []), Tree(z, File, s, []);
    assert Leaves(x, y, z, s) == [c0] + ([c1] + ([c2] + []));
    assert Selected([]) == [];
    SelectedCons(c2, []);
    SelectedCons(c1, [c2] + []);
    SelectedCons(c0, [c1] + ([c2] + []));
  }

  /** The testbed's root with `scripts` swapped for an included directory of three files. */
  lemma IncludedRootShows(top: string, g: string, h: string, m: string, a: string, b: string, c: string, included: Node)
    requires included.kind == Directory && HasChildWithSetting(included, Include)
    ensures var cs := [Leaf(g), Leaf(h), Tree(m, Directory, Defaults, Leaves(a, b, c, Defaults)), included];
            Selected(cs) == [included] && AnyChildWithSetting(cs, Include)
  {
    var mid := Tree(m, Directory, Defaults, Leaves(a, b, c, Defaults));
    var cs := [Leaf(g), Leaf(h), mid, included];
    assert cs == [Leaf(g)] + ([Leaf(h)] + ([mid] + ([included] + [])));
    LeavesNotIncluded(a, b, c, Defaults);
    assert !Listed(mid);
    assert Selected([]) == [];
    SelectedCons(included, []);
    SelectedCons(mid, [included] + []);
    SelectedCons(Leaf(h), [mid] + ([included] + []));
    SelectedCons(Leaf(g), [Leaf(h)] + ([mid] + ([included] + [])));
    AnyChildCons(included, [], Include);
    AnyChildCons(mid, [included] + [], Include);
    AnyChildCons(Leaf(h), [mid] + ([included] + []), Include);
    AnyChildCons(Leaf(g), [Leaf(h)] + ([mid] + ([included] + [])), Include);
  }

  /**
   * Once `scripts` and its files are included, only that branch is drawn:
   * `└── scripts`, then its files one level further in.
   */
  lemma DisplayIncludedExample(top: string, g: string, h: string, m: string, a: string, b: string, c: string,
                               dir: string, x: string, y: string, z: string)
    ensures var on := Defaults.(included := true);
            Display(Tree(top, Directory, Defaults,
                      [Leaf(g), Leaf(h), Tree(m, Directory, Defaults, Leaves(a, b, c, Defaults)),
                       Tree(dir, Directory, on, Leaves(x, y, z, on))]), "") == [
              Line("└── ", dir, Blue),
              Line("    " + "├── ", x, Plain),
              Line("    " + "├── ", y, Plain),
              Line("    " + "└── ", z, Plain)
            ]
  {
    var on := Defaults.(included := true);
    var included := Tree(dir, Directory, on, Leaves(x, y, z, on));
    AnyChildCons(Tree(x, File, on, []), Leaves(x, y, z, on)[1..], Include);
    assert Leaves(x, y, z, on) == [Tree(x, File, on, [])] + Leaves(x, y, z, on)[1..];
    assert HasChildWithSetting(included, Include);
    IncludedRootShows(top, g, h, m, a, b, c, included);
    var root := Tree(top, Directory, Defaults,
                     [Leaf(g), Leaf(h), Tree(m, Directory, Defaults, Leaves(a, b, c, Defaults)), included]);
    assert Shows(root);
    assert included in root.children;
    DisplayLastDirectory(root, included, "");
    NoPrefix("    ");
    NoPrefix("└── ");
    DisplayLeaves(dir, x, y, z, "    ");
  }
}

=== FILE: conversation.dfy ===
/**
 * The message list of a conversation (mentat/conversation.py): adding user
 * messages, `amend`, the text of a user message, assembling the messages
 * sent to the model, the context checks, and the token-count report.
 * The code message, the parser's system prompt and token counting are
 * parameters.
 */
module Conversation {
  import opened Wrappers
  import opened PyText

  datatype Role = System | User | Assistant

  datatype Part = TextPart(text: string) | ImagePart(url: string)

  /** Message content: `None`, `""` and `[]` are all `Empty`. */
  datatype Content = Empty | Text(text: string) | Parts(parts: seq<Part>)

  /** A chat message; `parsed` is the parsed response an assistant message may carry. */
  datatype Message = Message(role: Role, content: Content, parsed: Option<string>)

  /** The model-facing messages and the transcript log. */
  datatype State = State(messages: seq<Message>, transcript: seq<Content>)

  function TextContent(s: string): Content
  {
    if s == "" then Empty else Text(s)
  }

  // ---------------------------------------------------------------------------
  // The text of a user message

  /** The text parts of a part list, concatenated. */
  function TextOf(parts: seq<Part>): string
  {
    if parts == [] then ""
    else (if parts[0].TextPart? then parts[0].text else "") + TextOf(parts[1..])
  }

  /** `_get_user_message`. */
  function UserText(c: Content): string
  {
    match c
    case Empty => ""
    case Text(s) => s
    case Parts(ps) => if ps == [] then "" else TextOf(ps)
  }

  /** Text extraction keeps the parts' order and skips images. */
  lemma {:induction false} TextOfAppend(a: seq<Part>, b: seq<Part>)
    ensures TextOf(a + b) == TextOf(a) + TextOf(b)
  {
    if a == [] {
      assert a + b == b;
    } else {
      assert (a + b)[0] == a[0] && (a + b)[1..] == a[1..] + b;
      TextOfAppend(a[1..], b);
    }
  }

  lemma {:induction false} ImagesHaveNoText(parts: seq<Part>)
    requires forall i :: 0 <= i < |parts| ==> parts[i].ImagePart?
    ensures TextOf(parts) == ""
  {
    if parts != [] {
      ImagesHaveNoText(parts[1..]);
    }
  }

  // ---------------------------------------------------------------------------
  // Adding messages

  /** The content `add_user_message` builds: plain text, or text and image when an image is given. */
  function UserContent(message: string, image: Option<string>): Content
  {
    if image.Some? && image.value != "" then Parts([TextPart(message), ImagePart(image.value)])
    else TextContent(message)
  }

  function AddUserMessage(st: State, message: string, image: Option<string>): (r: State)
    ensures |r.messages| == |st.messages| + 1 && r.messages[..|st.messages|] == st.messages
    ensures r.messages[|st.messages|] == Message(User, UserContent(message, image), None)
    ensures |r.transcript| == |st.transcript| + 1 && r.transcript[..|st.transcript|] == st.transcript
  {
    var content := UserContent(message, image);
    State(st.messages + [Message(User, content, None)], st.transcript + [content])
  }

  /** Whatever the image, the user's text reads back unchanged. */
  lemma UserContentText(message: string, image: Option<string>)
    ensures UserText(UserContent(message, image)) == message
    ensures image.Some? && image.value != "" ==> UserContent(message, image).Parts? && |UserContent(message, image).parts| == 2
  {
    if image.Some? && image.value != "" {
      var ps := [TextPart(message), ImagePart(image.value)];
      assert ps[1..] == [ImagePart(image.value)] && ps[1..][1..] == [];
      assert TextOf(ps[1..]) == "" + TextOf([]);
      assert TextOf(ps) == message + "";
    }
  }

  function AddModelMessage(st: State, message: string, parsed: string): (r: State)
    ensures r.messages == st.messages + [Message(Assistant, TextContent(message), Some(parsed))]
    ensures r.transcript == st.transcript + [TextContent(message)]
  {
    State(st.messages + [Message(Assistant, TextContent(message), Some(parsed))], st.transcript + [TextContent(message)])
  }

  /** `clear_messages` empties the model-facing list and keeps the transcript. */
  function ClearMessages(st: State): (r: State)
    ensures r.messages == [] && r.transcript == st.transcript
  {
    st.(messages := [])
  }

  // ---------------------------------------------------------------------------
  // amend

  predicate Amendable(m: Message)
  {
    m.role == User && UserText(m.content) != ""
  }

  /** The index of the last user message with text, scanning `messages[..n]` backwards. */
  function LastAmendable(messages: seq<Message>, n: nat): (r: Option<nat>)
    requires n <= |messages|
    ensures r.Some? ==> (r.value < n && Amendable(messages[r.value])
      && forall j :: r.value < j < n ==> !Amendable(messages[j]))
    ensures r.None? ==> forall j :: 0 <= j < n ==> !Amendable(messages[j])
  {
    if n == 0 then None
    else if Amendable(messages[n - 1]) then Some(n - 1)
    else LastAmendable(messages, n - 1)
  }

  /**
   * `amend`: drop everything from the last user message with text on, and
   * return that text; with no such message, nothing changes.
   */
  function Amend(st: State): (r: (State, Option<string>))
    ensures r.0.transcript == st.transcript
    ensures r.1.None? <==> forall j :: 0 <= j < |st.messages| ==> !Amendable(st.messages[j])
    ensures r.1.None? ==> r.0 == st
    ensures r.1.Some? ==>
      var k := |r.0.messages|;
      && k < |st.messages| && r.0.messages == st.messages[..k]
      && Amendable(st.messages[k]) && r.1.value == UserText(st.messages[k].content)
      && forall j :: k < j < |st.messages| ==> !Amendable(st.messages[j])
  {
    match LastAmendable(st.messages, |st.messages|)
    case None => (st, None)
    case Some(i) => (st.(messages := st.messages[..i]), Some(UserText(st.messages[i].content)))
  }

  /** `amend` undoes adding a user message with text: the list is as before and the text comes back. */
  lemma AmendUndoesAdd(st: State, message: string, image: Option<string>)
    requires message != ""
    ensures var r := Amend(AddUserMessage(st, message, image));
      r.0.messages == st.messages && r.1 == Some(message)
  {
    UserContentText(message, image);
    var added := AddUserMessage(st, message, image);
    assert Amendable(added.messages[|st.messages|]);
    assert added.messages[..|st.messages|] == st.messages;
  }

  // ---------------------------------------------------------------------------
  // get_messages

  /** The configuration `get_messages` reads, with the two system prompts it may use. */
  datatype Settings = Settings(noParserPrompt: bool, twoStep: bool, twoStepPrompt: string, parserPrompt: string)

  function DefaultSystemPrompt(cfg: Settings): seq<Message>
  {
    if cfg.noParserPrompt then []
    else [Message(System, TextContent(if cfg.twoStep then cfg.twoStepPrompt else cfg.parserPrompt), None)]
  }

  /** Assistant messages lose their parsed response unless it is asked for. */
  function Clean(m: Message, includeParsed: bool): Message
  {
    if m.role == Assistant && !includeParsed then Message(Assistant, m.content, None) else m
  }

  /** The prompt handed to the code context: the last message's text, when it is a user message. */
  function LastPrompt(messages: seq<Message>): string
  {
    if messages == [] || messages[|messages| - 1].role != User then ""
    else
      match messages[|messages| - 1].content
      case Empty => ""
      case Text(s) => s
      case Parts(ps) => Join(Texts(ps), ' ')
  }

  /** The texts of the text parts. */
  function Texts(parts: seq<Part>): (r: seq<string>)
    ensures |r| <= |parts|
  {
    if parts == [] then []
    else (if parts[0].TextPart? then [parts[0].text] else []) + Texts(parts[1..])
  }

  /** The code message source: `get_code_message(prompt_tokens, prompt)`. */
  datatype CodeSource = CodeSource(promptTokens: seq<Message> -> int, codeMessage: (int, string) -> string)

  function Cleaned(messages: seq<Message>, includeParsed: bool): (r: seq<Message>)
    ensures |r| == |messages|
  {
    seq(|messages|, i requires 0 <= i < |messages| => Clean(messages[i], includeParsed))
  }

  /** The code message, when it is asked for. */
  function CodePart(messages: seq<Message>, cleaned: seq<Message>, includeCode: bool, code: CodeSource): (r: seq<Message>)
    ensures |r| == if includeCode then 1 else 0
  {
    if includeCode then [Message(System, TextContent(code.codeMessage(code.promptTokens(cleaned), LastPrompt(messages))), None)]
    else []
  }

  function SystemPart(systemPrompt: Option<seq<Message>>, cfg: Settings): seq<Message>
  {
    if systemPrompt.Some? then systemPrompt.value else DefaultSystemPrompt(cfg)
  }

  /**
   * `get_messages`: the system prompt first (none with `no_parser_prompt`),
   * the code message next when asked for, then every conversation message in
   * order with the same role and content, assistant ones without their
   * parsed response unless it is asked for.
   */
  function GetMessages(messages: seq<Message>, systemPrompt: Option<seq<Message>>, includeParsed: bool,
                       includeCode: bool, code: CodeSource, cfg: Settings): (r: seq<Message>)
    ensures var sys := SystemPart(systemPrompt, cfg);
      && |r| == |sys| + (if includeCode then 1 else 0) + |messages|
      && r[..|sys|] == sys
      && (systemPrompt.None? && cfg.noParserPrompt ==> |sys| == 0)
      && (includeCode ==> r[|sys|].role == System)
    ensures var k := |SystemPart(systemPrompt, cfg)| + (if includeCode then 1 else 0);
      forall i :: 0 <= i < |messages| ==>
        r[k + i].role == messages[i].role && r[k + i].content == messages[i].content
        && (r[k + i].parsed == if messages[i].role == Assistant && !includeParsed then None else messages[i].parsed)
  {
    var sys := SystemPart(systemPrompt, cfg);
    var cleaned := Cleaned(messages, includeParsed);
    var codePart := CodePart(messages, cleaned, includeCode, code);
    CleanedAfter(sys, codePart, messages, includeParsed, |sys| + |codePart|);
    var r := sys + (codePart + cleaned);
    assert r[..|sys|] == sys;
    assert includeCode ==> r[|sys|] == codePart[0];
    r
  }

  /** The cleaned conversation placed after `k` leading messages. */
  lemma CleanedAfter(sys: seq<Message>, codePart: seq<Message>, messages: seq<Message>, includeParsed: bool, k: nat)
    requires k == |sys| + |codePart|
    ensures var r := sys + (codePart + Cleaned(messages, includeParsed));
      |r| == k + |messages| &&
      forall i :: 0 <= i < |messages| ==>
        r[k + i].role == messages[i].role && r[k + i].content == messages[i].content
        && (r[k + i].parsed == if messages[i].role == Assistant && !includeParsed then None else messages[i].parsed)
  {
    var cleaned := Cleaned(messages, includeParsed);
    var r := sys + (codePart + cleaned);
    forall i | 0 <= i < |messages| ensures r[k + i] == Clean(messages[i], includeParsed) {
      assert r[k + i] == cleaned[i];
    }
  }

  /** The prompt of a text-and-image message is its text. */
  lemma LastPromptOfImageMessage(messages: seq<Message>, message: string, url: string)
    requires url != ""
    ensures LastPrompt(messages + [Message(User, UserContent(message, Some(url)), None)]) == message
  {
    var ps := [TextPart(message), ImagePart(url)];
    assert ps[1..] == [ImagePart(url)] && ps[1..][1..] == [];
    assert Texts(ps) == [message];
    assert Join([message], ' ') == message;
  }

  // ---------------------------------------------------------------------------
  // Context checks

  /**
   * `can_add_to_context`: `tokens` is the message's count as a full message,
   * `remaining` the context left (`None` when unknown).
   */
  function CanAddToContext(remaining: Option<int>, tokens: int, buffer: int): (r: bool)
    ensures r <==> remaining.Some? && tokens + buffer < remaining.value
  {
    remaining.Some? && remaining.value - tokens - buffer > 0
  }

  /** What fits still fits when it is smaller or there is more room. */
  lemma CanAddMonotone(remaining: int, more: int, tokens: int, fewer: int, buffer: int)
    requires CanAddToContext(Some(remaining), tokens, buffer)
    requires fewer <= tokens && remaining <= more
    ensures CanAddToContext(Some(more), fewer, buffer)
  {
  }

  // ---------------------------------------------------------------------------
  // display_token_count

  datatype Report = Warning(text: string) | Info(text: string)

  /** The four-entry wording table, indexed by (plural, exceeded). */
  function Wording(plural: bool, exceed: bool): (r: string)
    ensures |r| > 0 && (plural <==> r[0] == 's')
    ensures !exceed <==> |r| >= 9 && r[|r| - 9..] == " close to"
  {
    if !plural && !exceed then " is close to"
    else if !plural then " exceeds"
    else if !exceed then "s are close to"
    else "s exceed"
  }

  function TokenReport(tokens: int, buffer: int, contextSize: int, includedFiles: nat): Report
  {
    if tokens + buffer > contextSize then
      Warning("Included file" + (Wording(includedFiles > 1, tokens > contextSize) + (" token limit ("
              + IntToString(tokens) + " / " + IntToString(contextSize) + ").")))
    else
      Info("Prompt and included files token count: " + IntToString(tokens) + " / " + IntToString(contextSize))
  }

  /**
   * A warning exactly when the count plus the buffer exceeds the context; it
   * says "exceed" exactly when the count alone does, in the plural exactly
   * when more than one file is included.
   */
  lemma TokenReportFacts(tokens: int, buffer: int, contextSize: int, includedFiles: nat)
    ensures var r := TokenReport(tokens, buffer, contextSize, includedFiles);
      && (r.Warning? <==> tokens + buffer > contextSize)
      && (r.Warning? ==> StartsWith(r.text, "Included file") && (r.text[13] == 's' <==> includedFiles > 1))
  {
    if tokens + buffer > contextSize {
      var w := Wording(includedFiles > 1, tokens > contextSize);
      var tail := " token limit (" + IntToString(tokens) + " / " + IntToString(contextSize) + ").";
      AfterPrefix("Included file", w + tail);
    }
  }

  lemma AfterPrefix(p: string, x: string)
    requires x != []
    ensures StartsWith(p + x, p) && (p + x)[|p|] == x[0]
  {
    assert (p + x)[..|p|] == p;
  }
}

=== FILE: dicts.dfy ===
// A Python `dict` keyed by strings, as its items in insertion order:
// lookup, and assignment that replaces a value in place or appends a key.

module Dicts {
  import opened Wrappers
  import Lexical

  function Keys<V>(items: seq<(string, V)>): (r: seq<string>)
    ensures |r| == |items|
    ensures forall i :: 0 <= i < |items| ==> r[i] == items[i].0
  {
    if |items| == 0 then [] else [items[0].0] + Keys(items[1..])
  }

  /** `d[key]`, `None` where the dictionary raises `KeyError`. */
  function Get<V>(items: seq<(string, V)>, key: string): (r: Option<V>)
    ensures r.None? <==> key !in Keys(items)
    ensures r.Some? ==> (key, r.value) in items
  {
    if |items| == 0 then None
    else if items[0].0 == key then Some(items[0].1)
    else Get(items[1..], key)
  }

  /** `d[key] = v`. */
  function Assign<V>(items: seq<(string, V)>, key: string, v: V): (r: seq<(string, V)>)
    ensures forall e :: e in r ==> e == (key, v) || e in items
  {
    if |items| == 0 then [(key, v)]
    else if items[0].0 == key then [(key, v)] + items[1..]
    else [items[0]] + Assign(items[1..], key, v)
  }

  /** After `d[key] = v`, `d[key]` is `v` and every other key reads as before. */
  lemma {:induction false} GetAssign<V>(items: seq<(string, V)>, key: string, v: V, other: string)
    ensures Get(Assign(items, key, v), other) == if other == key then Some(v) else Get(items, other)
  {
    if |items| > 0 && items[0].0 != key {
      GetAssign(items[1..], key, v, other);
    }
  }

  /** Assignment adds `key` to the keys and nothing else, and keeps them distinct. */
  lemma {:induction false} AssignKeys<V>(items: seq<(string, V)>, key: string, v: V)
    ensures Lexical.Distinct(Keys(items)) ==> Lexical.Distinct(Keys(Assign(items, key, v)))
    ensures forall k :: k in Keys(Assign(items, key, v)) <==> k in Keys(items) || k == key
  {
    if |items| > 0 && items[0].0 != key {
      AssignKeys(items[1..], key, v);
      assert Keys(Assign(items, key, v)) == [items[0].0] + Keys(Assign(items[1..], key, v));
      if Lexical.Distinct(Keys(items)) {
        assert Lexical.Distinct(Keys(items[1..])) by {
          forall i, j | 0 <= i < j < |items| - 1
            ensures Keys(items[1..])[i] != Keys(items[1..])[j]
          {
            assert Keys(items)[i + 1] == Keys(items[1..])[i];
          }
        }
        assert items[0].0 !in Keys(items[1..]) by {
          forall i | 0 <= i < |items| - 1
            ensures Keys(items[1..])[i] != items[0].0
          {
            assert Keys(items)[i + 1] == Keys(items[1..])[i];
          }
        }
      }
    } else if |items| > 0 {
      assert Keys(Assign(items, key, v)) == [key] + Keys(items[1..]);
    }
  }
}

=== FILE: diff_context.dfy ===
/**
 * Diff annotations: `git diff -U0` hunks parsed into annotations, and the
 * splicing of those annotations into a line-numbered file message
 * (mentat/diff_context.py).
 */
module DiffContext {
  import opened Wrappers
  import opened PyText
  import Sorting

  /** `DiffAnnotation`: the new-file line a hunk starts at, and its `+`/`-` lines. */
  datatype Annotation = Annotation(start: int, message: seq<string>)

  /** The exceptions the diff code raises. */
  datatype Error = InvalidDiff | IndexError | ValueError

  /** `DiffAnnotation.length`: the number of message lines starting with `+`. */
  function Length(a: Annotation): nat
  {
    CountStartingWith(a.message, "+")
  }

  /** A diff line as `_parse_diff` keeps it: starts with `+` or `-`. */
  predicate IsChangeLine(line: string)
  {
    StartsWith(line, "+") || StartsWith(line, "-")
  }

  predicate Skipped(line: string)
  {
    StartsWith(line, "---") || StartsWith(line, "+++") || StartsWith(line, "//")
  }

  // ---------------------------------------------------------------------------
  // Parsing

  /**
   * The new-file start of a `@@ -a,b +c,d @@` header: the third space-separated
   * token without its first character, cut at a comma.
   */
  function HunkStart(line: string): Result<int, Error>
  {
    var tokens := Split(line, ' ');
    if |tokens| < 3 then Err(IndexError)
    else
      var token := tokens[2];
      var number := if ',' in token then Split(SliceFrom(token, 1), ',')[0] else SliceFrom(token, 1);
      match ParseInt(number)
      case None => Err(ValueError)
      case Some(n) => Ok(n)
  }

  function Flush(active: Option<Annotation>): seq<Annotation>
  {
    if active.Some? then [active.value] else []
  }

  /** The body of `_parse_diff`'s loop over the lines after the header. */
  function ParseLines(lines: seq<string>, active: Option<Annotation>, done: seq<Annotation>): Result<seq<Annotation>, Error>
    decreases |lines|
  {
    if lines == [] then Ok(done + Flush(active))
    else
      var line := lines[0];
      if Skipped(line) then ParseLines(lines[1..], active, done)
      else if StartsWith(line, "@@") then
        match HunkStart(line)
        case Err(e) => Err(e)
        case Ok(n) => ParseLines(lines[1..], Some(Annotation(n, [])), done + Flush(active))
      else if IsChangeLine(line) then
        if active.None? then Err(InvalidDiff)
        else ParseLines(lines[1..], Some(active.value.(message := active.value.message + [line])), done)
      else ParseLines(lines[1..], active, done)
  }

  function StartKey(a: Annotation): int
  {
    a.start
  }

  /** `_parse_diff`: skip 4 header lines, collect hunks, sort by start (stably). */
  function ParseDiff(diff: string): Result<seq<Annotation>, Error>
  {
    var found :- ParseLines(SliceFrom(SplitLines(diff), 4), None, []);
    Ok(Sorting.SortAsc(found, StartKey))
  }

  predicate ChangeLinesOnly(anns: seq<Annotation>)
  {
    forall i, j :: 0 <= i < |anns| && 0 <= j < |anns[i].message| ==>
      IsChangeLine(anns[i].message[j]) && !Skipped(anns[i].message[j])
  }

  lemma {:induction false} ParseLinesKeepsChangeLines(lines: seq<string>, active: Option<Annotation>, done: seq<Annotation>)
    requires ChangeLinesOnly(done + Flush(active))
    ensures ParseLines(lines, active, done).Ok? ==> ChangeLinesOnly(ParseLines(lines, active, done).value)
    decreases |lines|
  {
    if lines != [] {
      var line := lines[0];
      if Skipped(line) {
        ParseLinesKeepsChangeLines(lines[1..], active, done);
      } else if StartsWith(line, "@@") {
        if HunkStart(line).Ok? {
          var next := Some(Annotation(HunkStart(line).value, []));
          assert done + Flush(active) + Flush(next) == done + Flush(active) + [next.value];
          ParseLinesKeepsChangeLines(lines[1..], next, done + Flush(active));
        }
      } else if IsChangeLine(line) {
        if active.Some? {
          var a := active.value;
          var next := Some(a.(message := a.message + [line]));
          var all := done + Flush(next);
          assert all[..|done|] == done;
          assert (done + Flush(active))[..|done|] == done;
          assert all[|done|] == next.value;
          assert (done + Flush(active))[|done|] == a;
          ParseLinesKeepsChangeLines(lines[1..], next, done);
        }
      } else {
        ParseLinesKeepsChangeLines(lines[1..], active, done);
      }
    }
  }

  /**
   * The parsed annotations are sorted by start, hold only `+`/`-` lines (never
   * `+++`/`---`), and a `+`/`-` line before the first `@@` is an error.
   */
  lemma ParseDiffFacts(diff: string)
    ensures ParseDiff(diff).Ok? ==> Sorting.Ascending(ParseDiff(diff).value, StartKey)
    ensures ParseDiff(diff).Ok? ==> ChangeLinesOnly(ParseDiff(diff).value)
  {
    var found := ParseLines(SliceFrom(SplitLines(diff), 4), None, []);
    assert [] + Flush(None) == [];
    ParseLinesKeepsChangeLines(SliceFrom(SplitLines(diff), 4), None, []);
    if found.Ok? {
      Sorting.SortAscFacts(found.value, StartKey);
      var sorted := Sorting.SortAsc(found.value, StartKey);
      forall i, j | 0 <= i < |sorted| && 0 <= j < |sorted[i].message|
        ensures IsChangeLine(sorted[i].message[j]) && !Skipped(sorted[i].message[j])
      {
        assert sorted[i] in multiset(found.value);
        var k :| 0 <= k < |found.value| && found.value[k] == sorted[i];
      }
    }
  }

  lemma ChangeLineBeforeHeaderIsInvalid(line: string, rest: seq<string>, done: seq<Annotation>)
    requires IsChangeLine(line) && !Skipped(line)
    ensures ParseLines([line] + rest, None, done) == Err(InvalidDiff)
  {
    NotHunkHeader(line);
    ParseChangeLine([line] + rest, None, done);
  }

  /** A `+`/`-` line does not start with `@@`. */
  lemma NotHunkHeader(line: string)
    requires IsChangeLine(line)
    ensures !StartsWith(line, "@@")
  {
    assert line[..1][0] == line[0];
    assert |line| >= 2 ==> line[..2][0] == line[0];
  }

  lemma ParseChangeLine(lines: seq<string>, active: Option<Annotation>, done: seq<Annotation>)
    requires lines != [] && IsChangeLine(lines[0]) && !Skipped(lines[0]) && !StartsWith(lines[0], "@@")
    ensures active.None? ==> ParseLines(lines, active, done) == Err(InvalidDiff)
  {
  }

  // ---------------------------------------------------------------------------
  // Annotating a file message

  /** A line of the annotated message: `f"{n}:{line}"`. */
  function Label(n: int, line: string): string
  {
    IntToString(n) + ":" + line
  }

  /**
   * A line of the message being built: a code line copied as it is, or a diff
   * line to be written with its number. The text is rendered once, at the end.
   */
  datatype MessageLine = Kept(text: string) | Numbered(n: int, text: string)

  function Render(l: MessageLine): string
  {
    match l
    case Kept(t) => t
    case Numbered(n, t) => Label(n, t)
  }

  function RenderAll(ls: seq<MessageLine>): (r: seq<string>)
    ensures |r| == |ls|
    ensures forall i :: 0 <= i < |ls| ==> r[i] == Render(ls[i])
  {
    seq(|ls|, i requires 0 <= i < |ls| => Render(ls[i]))
  }

  /** Code lines carried over unchanged. */
  function Keep(code: seq<string>): (r: seq<MessageLine>)
    ensures |r| == |code|
    ensures forall i :: 0 <= i < |code| ==> r[i] == Kept(code[i])
  {
    seq(|code|, i requires 0 <= i < |code| => Kept(code[i]))
  }

  /** Rendering a message that starts with kept lines starts with those lines. */
  lemma RenderKeptPrefix(ls: seq<MessageLine>, p: seq<string>)
    requires StartsWith(ls, Keep(p))
    ensures StartsWith(RenderAll(ls), p)
  {
    var r := RenderAll(ls);
    forall i | 0 <= i < |p| ensures r[i] == p[i] {
      assert ls[i] == ls[..|p|][i] == Keep(p)[i];
    }
    assert r[..|p|] == p;
  }

  predicate AllSigned(lines: seq<string>)
  {
    forall j :: 0 <= j < |lines| ==> Signed(lines[j])
  }

  /**
   * The loop over one annotation's lines: `+` lines take consecutive labels
   * from the active index, `-` lines are labelled `start + k` with `k` counting
   * within the current run of removals. Returns the new active index.
   */
  function AnnotateLines(start: int, lines: seq<string>, active: int, minus: Option<int>, out: seq<MessageLine>): Result<(int, seq<MessageLine>), Error>
    decreases |lines|
  {
    if lines == [] then Ok((active, out))
    else
      var line := lines[0];
      if line == [] then Err(IndexError)
      else if line[0] == '+' then
        AnnotateLines(start, lines[1..], active + 1, None, out + [Numbered(active, line)])
      else if line[0] == '-' then
        var k := minus.GetOr(0);
        AnnotateLines(start, lines[1..], active, Some(k + 1), out + [Numbered(start + k, line)])
      else
        AnnotateLines(start, lines[1..], active, minus, out)
  }

  /** The loop of `_annotate_file_message` over the annotations. */
  function AnnotateFrom(code: seq<string>, anns: seq<Annotation>, active: int, out: seq<MessageLine>): Result<seq<MessageLine>, Error>
    decreases |anns|
  {
    if anns == [] then
      Ok(out + if active < |code| then Keep(SliceFrom(code, active)) else [])
    else
      var a := anns[0];
      var filled := if active < a.start then out + Keep(Slice(code, active, a.start)) else out;
      if a.start == 0 && code == [] then Err(IndexError)
      else
        var first := if a.start == 0 then filled + [Kept(code[0])] else filled;
        var firstActive := if a.start == 0 then 1 else a.start;
        match AnnotateLines(a.start, a.message, firstActive, None, first)
        case Err(e) => Err(e)
        case Ok((next, written)) => AnnotateFrom(code, anns[1..], next, written)
  }

  /** `_annotate_file_message`. */
  function AnnotateFileMessage(code: seq<string>, anns: seq<Annotation>): Result<seq<string>, Error>
  {
    match AnnotateFrom(code, anns, 0, [])
    case Err(e) => Err(e)
    case Ok(ls) => Ok(RenderAll(ls))
  }

  /** `DiffContext.annotate_file_message`: unchanged when there are no diff files. */
  function AnnotateWithContext(hasDiffFiles: bool, diff: string, message: seq<string>): (r: Result<seq<string>, Error>)
    ensures !hasDiffFiles ==> r == Ok(message)
  {
    if !hasDiffFiles then Ok(message)
    else
      match ParseDiff(diff)
      case Err(e) => Err(e)
      case Ok(anns) => AnnotateFileMessage(message, anns)
  }

  lemma NoAnnotationsKeepMessage(code: seq<string>)
    ensures AnnotateFileMessage(code, []) == Ok(code)
  {
    assert [] + Keep(SliceFrom(code, 0)) == Keep(code);
    assert RenderAll(Keep(code)) == code;
  }

  function MinusLines(anns: seq<Annotation>): nat
  {
    if anns == [] then 0 else CountStartingWith(anns[0].message, "-") + MinusLines(anns[1..])
  }

  /** A line `_parse_diff` would keep: non-empty, starting with `+` or `-`. */
  predicate Signed(line: string)
  {
    line != [] && (line[0] == '+' || line[0] == '-')
  }

  /** Where the active index stands after an annotation. */
  function After(a: Annotation): int
  {
    (if a.start == 0 then 1 else a.start) + Length(a)
  }

  /**
   * Annotations that fit the file message: each starts at or after the line
   * the previous one ended on, holds only signed lines, and the last one ends
   * within the message.
   */
  predicate Fits(code: seq<string>, anns: seq<Annotation>, active: int)
    decreases |anns|
  {
    if anns == [] then active <= |code|
    else
      var a := anns[0];
      0 <= active <= a.start
      && (a.start == 0 ==> code != [])
      && AllSigned(a.message)
      && Fits(code, anns[1..], After(a))
  }

  lemma AllSignedTail(lines: seq<string>)
    requires lines != [] && AllSigned(lines)
    ensures Signed(lines[0]) && AllSigned(lines[1..])
  {
    assert forall j :: 0 <= j < |lines| - 1 ==> lines[1..][j] == lines[j + 1];
  }

  /** One `+` line: labelled with the active index, which moves on; the removal count resets. */
  lemma AnnotatePlus(start: int, lines: seq<string>, active: int, minus: Option<int>, out: seq<MessageLine>)
    requires lines != [] && lines[0] != [] && lines[0][0] == '+'
    ensures AnnotateLines(start, lines, active, minus, out)
         == AnnotateLines(start, lines[1..], active + 1, None, out + [Numbered(active, lines[0])])
  {
  }

  /** One `-` line: labelled `start + k`, and `k` counts on. */
  lemma AnnotateMinus(start: int, lines: seq<string>, active: int, minus: Option<int>, out: seq<MessageLine>)
    requires lines != [] && lines[0] != [] && lines[0][0] == '-'
    ensures AnnotateLines(start, lines, active, minus, out)
         == AnnotateLines(start, lines[1..], active, Some(minus.GetOr(0) + 1), out + [Numbered(start + minus.GetOr(0), lines[0])])
  {
  }

  lemma CountStep(lines: seq<string>, c: char)
    requires lines != [] && lines[0] != []
    ensures CountStartingWith(lines, [c]) == (if lines[0][0] == c then 1 else 0) + CountStartingWith(lines[1..], [c])
  {
    assert StartsWith(lines[0], [c]) <==> lines[0][..1] == [c];
    assert lines[0][..1] == [lines[0][0]];
  }

  lemma {:induction false} AnnotateLinesCount(start: int, lines: seq<string>, active: int, minus: Option<int>, out: seq<MessageLine>)
    requires AllSigned(lines)
    ensures AnnotateLines(start, lines, active, minus, out).Ok?
    ensures AnnotateLines(start, lines, active, minus, out).value.0 == active + CountStartingWith(lines, "+")
    ensures |AnnotateLines(start, lines, active, minus, out).value.1| == |out| + |lines|
    decreases |lines|
  {
    if lines != [] {
      var line := lines[0];
      AllSignedTail(lines);
      CountStep(lines, '+');
      if line[0] == '+' {
        AnnotatePlus(start, lines, active, minus, out);
        var o := out + [Numbered(active, line)];
        var r := AnnotateLines(start, lines[1..], active + 1, None, o);
        AnnotateLinesCount(start, lines[1..], active + 1, None, o);
        assert AnnotateLines(start, lines, active, minus, out) == r;
        assert r.Ok?;
        assert r.value.0 == active + 1 + CountStartingWith(lines[1..], "+");
        assert |r.value.1| == |o| + |lines[1..]|;
      } else {
        var k := minus.GetOr(0);
        AnnotateMinus(start, lines, active, minus, out);
        var o := out + [Numbered(start + k, line)];
        var r := AnnotateLines(start, lines[1..], active, Some(k + 1), o);
        AnnotateLinesCount(start, lines[1..], active, Some(k + 1), o);
        assert AnnotateLines(start, lines, active, minus, out) == r;
        assert r.Ok?;
        assert r.value.0 == active + CountStartingWith(lines[1..], "+");
        assert |r.value.1| == |o| + |lines[1..]|;
      }
    }
  }

  lemma {:induction false} SignedSplit(lines: seq<string>)
    requires AllSigned(lines)
    ensures CountStartingWith(lines, "+") + CountStartingWith(lines, "-") == |lines|
  {
    if lines != [] {
      AllSignedTail(lines);
      CountStep(lines, '+');
      CountStep(lines, '-');
      SignedSplit(lines[1..]);
    }
  }

  lemma {:induction false} FitsBounded(code: seq<string>, anns: seq<Annotation>, active: int)
    requires Fits(code, anns, active)
    ensures active <= |code|
    decreases |anns|
  {
    if anns != [] {
      FitsBounded(code, anns[1..], After(anns[0]));
    }
  }

  /**
   * For annotations that fit, each `+` line takes the place of exactly one
   * code line and each `-` line is inserted: the annotated message is longer
   * than the code message by the number of `-` lines.
   */
  lemma {:induction false} AnnotateCount(code: seq<string>, anns: seq<Annotation>, active: int, out: seq<MessageLine>)
    requires Fits(code, anns, active)
    requires active >= 0
    ensures AnnotateFrom(code, anns, active, out).Ok?
    ensures |AnnotateFrom(code, anns, active, out).value| == |out| + (|code| - active) + MinusLines(anns)
    decreases |anns|
  {
    if anns != [] {
      var a := anns[0];
      var filled := if active < a.start then out + Keep(Slice(code, active, a.start)) else out;
      var first := if a.start == 0 then filled + [Kept(code[0])] else filled;
      var firstActive := if a.start == 0 then 1 else a.start;
      FitsBounded(code, anns[1..], After(a));
      assert a.start <= |code|;
      assert |filled| == |out| + (a.start - active);
      AnnotateLinesCount(a.start, a.message, firstActive, None, first);
      SignedSplit(a.message);
      var (next, written) := AnnotateLines(a.start, a.message, firstActive, None, first).value;
      assert next == After(a);
      AnnotateCount(code, anns[1..], next, written);
    }
  }

  lemma {:induction false} AnnotateLinesGrows(start: int, lines: seq<string>, active: int, minus: Option<int>, out: seq<MessageLine>)
    ensures AnnotateLines(start, lines, active, minus, out).Ok? ==>
      StartsWith(AnnotateLines(start, lines, active, minus, out).value.1, out)
    decreases |lines|
  {
    if lines != [] && lines[0] != [] {
      var line := lines[0];
      if line[0] == '+' || line[0] == '-' {
        var next, m, written := if line[0] == '+' then active + 1 else active,
          if line[0] == '+' then None else Some(minus.GetOr(0) + 1),
          if line[0] == '+' then Numbered(active, line) else Numbered(start + minus.GetOr(0), line);
        var o := out + [written];
        if line[0] == '+' {
          AnnotatePlus(start, lines, active, minus, out);
        } else {
          AnnotateMinus(start, lines, active, minus, out);
        }
        AnnotateLinesGrows(start, lines[1..], next, m, o);
        StartsWithAppend(out, [written]);
        var r := AnnotateLines(start, lines[1..], next, m, o);
        if r.Ok? {
          StartsWithTrans(r.value.1, o, out);
        }
      } else {
        AnnotateLinesGrows(start, lines[1..], active, minus, out);
      }
    }
  }

  lemma {:induction false} AnnotateFromGrows(code: seq<string>, anns: seq<Annotation>, active: int, out: seq<MessageLine>)
    ensures AnnotateFrom(code, anns, active, out).Ok? ==> StartsWith(AnnotateFrom(code, anns, active, out).value, out)
    decreases |anns|
  {
    if anns != [] {
      var a := anns[0];
      var filled := if active < a.start then out + Keep(Slice(code, active, a.start)) else out;
      if !(a.start == 0 && code == []) {
        var first := if a.start == 0 then filled + [Kept(code[0])] else filled;
        var firstActive := if a.start == 0 then 1 else a.start;
        assert StartsWith(first, out) by {
          assert filled[..|out|] == out;
          assert first[..|out|] == out;
        }
        AnnotateLinesGrows(a.start, a.message, firstActive, None, first);
        var res := AnnotateLines(a.start, a.message, firstActive, None, first);
        if res.Ok? {
          var (next, written) := res.value;
          AnnotateFromGrows(code, anns[1..], next, written);
          assert written[..|out|] == out;
        }
      }
    }
  }

  /** Lines before the first annotation are copied verbatim. */
  lemma PrefixCopied(code: seq<string>, anns: seq<Annotation>)
    requires anns != [] && 1 <= anns[0].start <= |code|
    ensures AnnotateFileMessage(code, anns).Ok? ==>
      StartsWith(AnnotateFileMessage(code, anns).value, code[..anns[0].start])
  {
    var a := anns[0];
    var first := Keep(code[..a.start]);
    assert [] + Keep(Slice(code, 0, a.start)) == first;
    AnnotateLinesGrows(a.start, a.message, a.start, None, first);
    var res := AnnotateLines(a.start, a.message, a.start, None, first);
    if res.Ok? {
      var (next, written) := res.value;
      AnnotateFromGrows(code, anns[1..], next, written);
      var all := AnnotateFrom(code, anns[1..], next, written);
      assert AnnotateFrom(code, anns, 0, []) == all;
      if all.Ok? {
        StartsWithTrans(all.value, written, first);
        RenderKeptPrefix(all.value, code[..a.start]);
      }
    }
  }

  /** An annotation at line 0 keeps the path line first; an empty message cannot take one. */
  lemma PathStaysFirst(code: seq<string>, anns: seq<Annotation>)
    requires anns != [] && anns[0].start == 0
    ensures code == [] ==> AnnotateFileMessage(code, anns) == Err(IndexError)
    ensures code != [] && AnnotateFileMessage(code, anns).Ok? ==>
      |AnnotateFileMessage(code, anns).value| >= 1 && AnnotateFileMessage(code, anns).value[0] == code[0]
  {
    if code != [] {
      var a := anns[0];
      var first := [Kept(code[0])];
      assert [] + [Kept(code[0])] == first;
      AnnotateLinesGrows(a.start, a.message, 1, None, first);
      var res := AnnotateLines(a.start, a.message, 1, None, first);
      if res.Ok? {
        var (next, written) := res.value;
        var all := AnnotateFrom(code, anns[1..], next, written);
        assert AnnotateFrom(code, anns, 0, []) == all;
        AnnotateFromGrows(code, anns[1..], next, written);
        if all.Ok? {
          StartsWithTrans(all.value, written, first);
          assert all.value[0] == all.value[..1][0] == Kept(code[0]);
        }
      }
    }
  }

  /** Lines labelled with consecutive numbers from `first`. */
  function LabelRun(first: int, lines: seq<string>): (r: seq<MessageLine>)
    ensures |r| == |lines|
    decreases |lines|
  {
    if lines == [] then [] else [Numbered(first, lines[0])] + LabelRun(first + 1, lines[1..])
  }

  /** The `k`-th line of a run is labelled `first + k`. */
  lemma {:induction false} LabelRunAt(first: int, lines: seq<string>, k: nat)
    requires k < |lines|
    ensures LabelRun(first, lines)[k] == Numbered(first + k, lines[k])
    decreases k
  {
    if k > 0 {
      var tail := LabelRun(first + 1, lines[1..]);
      assert LabelRun(first, lines) == [Numbered(first, lines[0])] + tail;
      LabelRunAt(first + 1, lines[1..], k - 1);
      assert tail[k - 1] == Numbered(first + k, lines[k]) by {
        assert lines[1..][k - 1] == lines[k];
        assert first + 1 + (k - 1) == first + k;
      }
    }
  }

  /** Labelling the first line, then the rest, writes the whole run. */
  lemma LabelRunCons(out: seq<MessageLine>, first: int, lines: seq<string>)
    requires lines != []
    ensures out + [Numbered(first, lines[0])] + LabelRun(first + 1, lines[1..]) == out + LabelRun(first, lines)
  {
    assert LabelRun(first, lines) == [Numbered(first, lines[0])] + LabelRun(first + 1, lines[1..]);
  }

  predicate AllStartWith(lines: seq<string>, c: char)
  {
    forall j :: 0 <= j < |lines| ==> lines[j] != [] && lines[j][0] == c
  }

  lemma AllStartWithTail(lines: seq<string>, c: char)
    requires lines != [] && AllStartWith(lines, c)
    ensures lines[0] != [] && lines[0][0] == c && AllStartWith(lines[1..], c)
  {
    assert forall j :: 0 <= j < |lines| - 1 ==> lines[1..][j] == lines[j + 1];
  }

  lemma {:induction false} RemovalRun(start: int, removed: seq<string>, rest: seq<string>, k: nat, out: seq<MessageLine>)
    requires AllStartWith(removed, '-')
    ensures AnnotateLines(start, removed + rest, start, if k == 0 then None else Some(k), out)
         == AnnotateLines(start, rest, start, if k + |removed| == 0 then None else Some(k + |removed|), out + LabelRun(start + k, removed))
    decreases |removed|
  {
    if removed != [] {
      var lines := removed + rest;
      AllStartWithTail(removed, '-');
      assert lines[0] == removed[0];
      assert lines[1..] == removed[1..] + rest;
      var m := if k == 0 then None else Some(k);
      var o := out + [Numbered(start + k, removed[0])];
      var after := Some(k + |removed|);
      AnnotateMinus(start, lines, start, m, out);
      assert AnnotateLines(start, lines, start, m, out) == AnnotateLines(start, removed[1..] + rest, start, Some(k + 1), o);
      RemovalRun(start, removed[1..], rest, k + 1, o);
      assert AnnotateLines(start, removed[1..] + rest, start, Some(k + 1), o)
          == AnnotateLines(start, rest, start, after, o + LabelRun(start + (k + 1), removed[1..]));
      LabelRunCons(out, start + k, removed);
    } else {
      assert removed + rest == rest;
      assert out + LabelRun(start + k, removed) == out;
    }
  }

  lemma AdditionRunIgnoresMinus(start: int, lines: seq<string>, active: int, minus: Option<int>, out: seq<MessageLine>)
    requires lines != [] && lines[0] != [] && lines[0][0] == '+'
    ensures AnnotateLines(start, lines, active, minus, out) == AnnotateLines(start, lines, active, None, out)
  {
  }

  lemma {:induction false} AdditionRun(start: int, added: seq<string>, active: int, out: seq<MessageLine>)
    requires AllStartWith(added, '+')
    ensures AnnotateLines(start, added, active, None, out) == Ok((active + |added|, out + LabelRun(active, added)))
    decreases |added|
  {
    if added != [] {
      AllStartWithTail(added, '+');
      AnnotatePlus(start, added, active, None, out);
      var o := out + [Numbered(active, added[0])];
      AdditionRun(start, added[1..], active + 1, o);
      LabelRunCons(out, active, added);
    } else {
      assert out + LabelRun(active, added) == out;
    }
  }

  /**
   * A hunk of removals followed by additions, at a start other than 0: each
   * run is labelled `start, start + 1, ...`, the removals first, and the
   * active line moves past the additions only.
   */
  lemma RemovalsThenAdditions(start: int, removed: seq<string>, added: seq<string>, out: seq<MessageLine>)
    requires start != 0
    requires AllStartWith(removed, '-')
    requires AllStartWith(added, '+')
    ensures AnnotateLines(start, removed + added, start, None, out)
         == Ok((start + |added|, out + LabelRun(start, removed) + LabelRun(start, added)))
  {
    var o := out + LabelRun(start, removed);
    RemovalRun(start, removed, added, 0, out);
    var m := if |removed| == 0 then None else Some(|removed|);
    if added != [] {
      AllStartWithTail(added, '+');
      AdditionRunIgnoresMinus(start, added, start, m, o);
    }
    AdditionRun(start, added, start, o);
  }

  /** A `@@ -a,b +n,c @@` header starts its annotation at new-file line `n`. */
  lemma HunkStartOfHeader(a: nat, b: nat, n: nat, c: nat)
    ensures HunkStart(Header(a, b, n, c)) == Ok(n)
  {
    HeaderTokens(a, b, n, c);
    PlusStart(n, c);
    ParseIntToString(n);
    assert IntToString(n) == NatToString(n);
  }

  /** One side of a hunk header: a sign, the start line, a comma, the line count. */
  function HunkRange(sign: char, start: nat, count: nat): string
  {
    [sign] + NatToString(start) + [','] + NatToString(count)
  }

  /** The hunk header `git diff` writes: `@@ -a,b +n,c @@`. */
  function Header(a: nat, b: nat, n: nat, c: nat): string
  {
    Join(["@@", HunkRange('-', a, b), HunkRange('+', n, c), "@@"], ' ')
  }

  lemma RangeHasNoSpace(sign: char, start: nat, count: nat)
    requires sign != ' '
    ensures ' ' !in HunkRange(sign, start, count)
  {
    DigitsHaveNo(start, ' ');
    DigitsHaveNo(count, ' ');
  }

  lemma HeaderTokens(a: nat, b: nat, n: nat, c: nat)
    ensures Split(Header(a, b, n, c), ' ') == ["@@", HunkRange('-', a, b), HunkRange('+', n, c), "@@"]
  {
    var parts := ["@@", HunkRange('-', a, b), HunkRange('+', n, c), "@@"];
    RangeHasNoSpace('-', a, b);
    RangeHasNoSpace('+', n, c);
    assert forall i :: 0 <= i < |parts| ==> ' ' !in parts[i];
    SplitJoin(parts, ' ');
  }

  /** The `+n,c` token, cut after its sign and at the comma, leaves the digits of `n`. */
  lemma PlusStart(n: nat, c: nat)
    ensures var t := HunkRange('+', n, c); ',' in t && Split(SliceFrom(t, 1), ',')[0] == NatToString(n)
  {
    DigitsHaveNo(n, ',');
    CutAfterSign('+', NatToString(n), NatToString(c));
  }

  lemma CutAfterSign(sign: char, d: string, e: string)
    requires ',' !in d
    ensures var t := [sign] + d + [','] + e; ',' in t && Split(SliceFrom(t, 1), ',')[0] == d
  {
    var t := [sign] + d + [','] + e;
    assert t[1..] == d + [','] + e;
    assert t[1 + |d|] == ',';
    SplitAt(d, ',', e);
  }

  lemma DigitsHaveNo(n: nat, c: char)
    requires !IsDigit(c)
    ensures c !in NatToString(n)
  {
  }
}

=== FILE: display.dfy ===
/**
 * The arithmetic behind showing a proposed change
 * (mentat/parsers/change_display_helper.py and the older
 * mentat/code_change_display.py): the width of the line-number column,
 * trimming of blank context lines, prefixed code lines, the context windows
 * before and after a change, the removed block, and where the delimiter goes.
 * Colours, lexers and the output stream are not modelled; a printed block is
 * a sequence of strings.
 */
module ChangeDisplay {
  import opened PyText

  datatype FileActionType = RenameFile | CreateFile | DeleteFile | UpdateFile

  /** `n * c`: empty for n <= 0. */
  function Repeat(c: char, n: int): (r: string)
    ensures |r| == if n < 0 then 0 else n
    ensures forall i :: 0 <= i < |r| ==> r[i] == c
    decreases n
  {
    if n <= 0 then "" else [c] + Repeat(c, n - 1)
  }

  const ChangeDelimiter: string := Repeat('=', 60)

  function Max(a: int, b: int): int { if a >= b then a else b }

  function Min(a: int, b: int): int { if a <= b then a else b }

  // ---------------------------------------------------------------------------
  // Line-number column

  /** `get_line_number_buffer`: the digits of `len(file_lines) + 1`, plus one. */
  function LineNumberBuffer(fileLines: seq<string>): nat
  {
    |NatToString(|fileLines| + 1)| + 1
  }

  /** `str(n) + ":"`, the label `ljust` pads to the buffer. */
  function Label(n: nat): string
  {
    NatToString(n) + ":"
  }

  /**
   * The column is wide enough: the label of every line number up to one past
   * the end of the file fits in it without being cut or pushing the text.
   */
  lemma LabelsFit(fileLines: seq<string>, n: nat)
    requires n <= |fileLines| + 1
    ensures |Label(n)| <= LineNumberBuffer(fileLines)
  {
    var k := |NatToString(|fileLines| + 1)|;
    NatToStringLength(|fileLines| + 1, k);
    NatToStringLength(n, k);
  }

  /** The column has exactly `k + 1` characters when the file has fewer than `10^k` lines and at least `10^(k-1)`. */
  lemma LineNumberBufferWidth(fileLines: seq<string>, k: nat)
    requires k >= 1 && Pow10(k - 1) <= |fileLines| + 1 < Pow10(k)
    ensures LineNumberBuffer(fileLines) == k + 1
  {
    NatToStringLength(|fileLines| + 1, k);
    if k > 1 {
      NatToStringLength(|fileLines| + 1, k - 1);
    }
  }

  // ---------------------------------------------------------------------------
  // Blank context lines

  predicate AllBlank(lines: seq<string>)
  {
    forall i :: 0 <= i < |lines| ==> IsBlank(lines[i])
  }

  /** Index of the first non-blank line, or the length. */
  function FirstContent(lines: seq<string>): (r: nat)
    ensures r <= |lines|
  {
    if lines == [] || !IsBlank(lines[0]) then 0
    else 1 + FirstContent(lines[1..])
  }

  /** Index of the last non-blank line, or -1. */
  function LastContent(lines: seq<string>): (r: int)
    ensures -1 <= r < |lines|
  {
    if lines == [] then -1
    else if !IsBlank(lines[|lines| - 1]) then |lines| - 1
    else LastContent(lines[..|lines| - 1])
  }

  /** Every line before the first content line is blank, and that line is not. */
  lemma {:induction false} FirstContentFacts(lines: seq<string>)
    ensures var r := FirstContent(lines);
      && (forall i :: 0 <= i < r ==> IsBlank(lines[i]))
      && (r < |lines| ==> !IsBlank(lines[r]))
  {
    if lines != [] && IsBlank(lines[0]) {
      FirstContentFacts(lines[1..]);
      var r := FirstContent(lines);
      forall i | 1 <= i < r ensures IsBlank(lines[i]) {
        assert lines[i] == lines[1..][i - 1];
      }
      if r < |lines| {
        assert lines[r] == lines[1..][r - 1];
      }
    }
  }

  /** Every line after the last content line is blank, and that line is not. */
  lemma {:induction false} LastContentFacts(lines: seq<string>)
    ensures var r := LastContent(lines);
      && (forall i :: r < i < |lines| ==> IsBlank(lines[i]))
      && (r >= 0 ==> !IsBlank(lines[r]))
  {
    if lines != [] && IsBlank(lines[|lines| - 1]) {
      var init := lines[..|lines| - 1];
      LastContentFacts(init);
      var r := LastContent(lines);
      forall i | r < i < |lines| - 1 ensures IsBlank(lines[i]) {
        assert lines[i] == init[i];
      }
      if r >= 0 {
        assert lines[r] == init[r];
      }
    }
  }

  lemma {:induction false} FirstContentUnique(lines: seq<string>, k: nat)
    requires k <= |lines| && (forall i :: 0 <= i < k ==> IsBlank(lines[i])) && (k < |lines| ==> !IsBlank(lines[k]))
    ensures FirstContent(lines) == k
  {
    if k > 0 {
      var tail := lines[1..];
      forall i | 0 <= i < k - 1 ensures IsBlank(tail[i]) {
        assert tail[i] == lines[i + 1];
      }
      if k - 1 < |tail| {
        assert tail[k - 1] == lines[k];
      }
      FirstContentUnique(tail, k - 1);
    }
  }

  lemma {:induction false} LastContentUnique(lines: seq<string>, k: int)
    requires -1 <= k < |lines| && (forall i :: k < i < |lines| ==> IsBlank(lines[i])) && (k >= 0 ==> !IsBlank(lines[k]))
    ensures LastContent(lines) == k
    decreases |lines|
  {
    if k < |lines| - 1 {
      var init := lines[..|lines| - 1];
      forall i | k < i < |init| ensures IsBlank(init[i]) {
        assert init[i] == lines[i];
      }
      if k >= 0 {
        assert init[k] == lines[k];
      }
      LastContentUnique(init, k);
    }
  }

  /** What `_remove_extra_empty_lines` returns, by its definition. */
  function Trimmed(lines: seq<string>): seq<string>
  {
    if lines == [] then []
    else
      var s := FirstContent(lines);
      if s == |lines| then [" "]
      else
        FirstContentFacts(lines);
        LastContentFacts(lines);
        lines[Max(s - 1, 0)..Min(LastContent(lines) + 2, |lines|)]
  }

  /**
   * `_remove_extra_empty_lines`, with its two scanning loops. A line is
   * empty for Python when its `strip()` is empty, that is when it is blank
   * (`StripEmptyIffBlank`).
   */
  method RemoveExtraEmptyLines(lines: seq<string>) returns (r: seq<string>)
    ensures r == Trimmed(lines)
  {
    if lines == [] {
      return [];
    }
    var start := 0;
    while start < |lines| && IsBlank(lines[start])
      invariant 0 <= start <= |lines|
      invariant forall i :: 0 <= i < start ==> IsBlank(lines[i])
    {
      start := start + 1;
    }
    FirstContentUnique(lines, start);
    var end := |lines| - 1;
    while end > start && IsBlank(lines[end])
      invariant -1 <= end < |lines| && (start < |lines| ==> start <= end)
      invariant forall i :: 0 <= i && end < i < |lines| ==> IsBlank(lines[i])
    {
      end := end - 1;
    }
    if start == |lines| {
      return [" "];
    }
    LastContentUnique(lines, end);
    r := lines[Max(start - 1, 0)..Min(end + 2, |lines|)];
  }

  /** Where the run kept by trimming starts: one line before the first content line, if there is one. */
  function TrimStart(lines: seq<string>): nat
  {
    var s := FirstContent(lines);
    if s >= 1 then s - 1 else 0
  }

  /**
   * Trimming keeps a contiguous run, starting at `TrimStart`, with content
   * at or next to each end: at most one blank line before the first and
   * after the last non-blank line.
   */
  lemma TrimmedShape(lines: seq<string>)
    requires !AllBlank(lines)
    ensures var r, lo := Trimmed(lines), TrimStart(lines);
      && lo + |r| <= |lines| && r == lines[lo..lo + |r|]
      && |r| >= 1
      && (!IsBlank(r[0]) || (|r| >= 2 && !IsBlank(r[1])))
      && (!IsBlank(r[|r| - 1]) || (|r| >= 2 && !IsBlank(r[|r| - 2])))
  {
    var s, e := FirstContent(lines), LastContent(lines);
    ContentBoundsOf(lines);
    TrimmedOf(lines, s, e);
    ContentShape(lines, s, e, TrimStart(lines), Min(e + 2, |lines|));
  }

  /** Every non-blank line lies in the run trimming keeps. */
  lemma TrimmedKeepsContent(lines: seq<string>)
    requires !AllBlank(lines)
    ensures var r, lo := Trimmed(lines), TrimStart(lines);
      forall i :: 0 <= i < |lines| && !IsBlank(lines[i]) ==> lo <= i < lo + |r|
  {
    var s, e := FirstContent(lines), LastContent(lines);
    ContentBoundsOf(lines);
    TrimmedOf(lines, s, e);
    ContentWithinRun(lines, s, e, TrimStart(lines), Min(e + 2, |lines|));
  }

  /** Lines that are not all blank have a first and a last content line, in that order. */
  lemma ContentBoundsOf(lines: seq<string>)
    requires !AllBlank(lines)
    ensures FirstContent(lines) <= LastContent(lines)
    ensures ContentBounds(lines, FirstContent(lines), LastContent(lines))
  {
    FirstContentFacts(lines);
    LastContentFacts(lines);
    var s, e := FirstContent(lines), LastContent(lines);
    assert s < |lines|;
    assert s <= e;
  }

  /** The run kept around the content bounds `s <= e` has content at or next to each end. */
  lemma ContentShape(lines: seq<string>, s: nat, e: nat, lo: nat, hi: nat)
    requires ContentBounds(lines, s, e)
    requires lo == (if s >= 1 then s - 1 else 0) && hi == Min(e + 2, |lines|)
    ensures var r := lines[lo..hi];
      && lo + |r| <= |lines| && r == lines[lo..lo + |r|]
      && |r| >= 1
      && (!IsBlank(r[0]) || (|r| >= 2 && !IsBlank(r[1])))
      && (!IsBlank(r[|r| - 1]) || (|r| >= 2 && !IsBlank(r[|r| - 2])))
  {
    var r := lines[lo..hi];
    assert r[s - lo] == lines[s];
    assert r[e - lo] == lines[e];
  }

  /** The run kept around the content bounds `s <= e` holds every non-blank line. */
  lemma ContentWithinRun(lines: seq<string>, s: nat, e: nat, lo: nat, hi: nat)
    requires ContentBounds(lines, s, e)
    requires lo == (if s >= 1 then s - 1 else 0) && hi == Min(e + 2, |lines|)
    ensures forall i :: 0 <= i < |lines| && !IsBlank(lines[i]) ==> lo <= i < hi
  {
  }

  /** The content bounds `s <= e` of a run of lines. */
  predicate ContentBounds(lines: seq<string>, s: nat, e: nat)
  {
    s <= e < |lines|
    && (forall i :: 0 <= i < s ==> IsBlank(lines[i])) && !IsBlank(lines[s])
    && (forall i :: e < i < |lines| ==> IsBlank(lines[i])) && !IsBlank(lines[e])
  }

  /** Trimming, given the first and last non-blank lines. */
  lemma TrimmedOf(lines: seq<string>, s: nat, e: nat)
    requires ContentBounds(lines, s, e)
    ensures Trimmed(lines) == lines[(if s >= 1 then s - 1 else 0)..Min(e + 2, |lines|)]
  {
    FirstContentUnique(lines, s);
    LastContentUnique(lines, e);
  }

  lemma SliceBounds(lines: seq<string>, s: nat, e: nat, lo: nat, hi: nat)
    requires ContentBounds(lines, s, e)
    requires lo <= s && e < hi <= |lines|
    ensures ContentBounds(lines[lo..hi], s - lo, e - lo)
  {
    var r := lines[lo..hi];
    forall i | 0 <= i < s - lo ensures IsBlank(r[i]) {
      assert r[i] == lines[lo + i];
    }
    forall i | e - lo < i < |r| ensures IsBlank(r[i]) {
      assert r[i] == lines[lo + i];
    }
    assert r[s - lo] == lines[s];
    assert r[e - lo] == lines[e];
  }

  /** Trimming twice is trimming once. */
  lemma TrimmedIdempotent(lines: seq<string>)
    ensures Trimmed(Trimmed(lines)) == Trimmed(lines)
  {
    if !AllBlank(lines) {
      ContentBoundsOf(lines);
      TrimContentTwice(lines, FirstContent(lines), LastContent(lines));
    } else if lines != [] {
      FirstContentUnique(lines, |lines|);
      TrimBlankTwice();
    }
  }

  lemma TrimContentTwice(lines: seq<string>, s: nat, e: nat)
    requires ContentBounds(lines, s, e)
    ensures Trimmed(Trimmed(lines)) == Trimmed(lines)
  {
    TrimmedOf(lines, s, e);
    TrimmedRunKept(lines, s, e, if s >= 1 then s - 1 else 0, Min(e + 2, |lines|));
  }

  /** The run trimming keeps has nothing more to trim. */
  lemma TrimmedRunKept(lines: seq<string>, s: nat, e: nat, lo: nat, hi: nat)
    requires ContentBounds(lines, s, e)
    requires lo == (if s >= 1 then s - 1 else 0) && hi == Min(e + 2, |lines|)
    ensures Trimmed(lines[lo..hi]) == lines[lo..hi]
  {
    SliceBounds(lines, s, e, lo, hi);
    var r := lines[lo..hi];
    TrimmedOf(r, s - lo, e - lo);
    assert (if s - lo >= 1 then s - lo - 1 else 0) == 0;
    assert Min(e - lo + 2, |r|) == |r|;
    assert r[0..|r|] == r;
  }

  /** An all-blank run is shown as one `" "`, which trims to itself. */
  lemma TrimBlankTwice()
    ensures Trimmed([" "]) == [" "]
  {
    assert IsBlank(" ") by { assert " "[0] == ' '; }
    assert FirstContent([" "]) == 1;
  }

  /** A window of at most two lines is shown as is, or as `" "` when it is blank. */
  lemma ShortWindowKept(w: seq<string>)
    requires |w| <= 2
    ensures Trimmed(w) == if w != [] && AllBlank(w) then [" "] else w
  {
    FirstContentFacts(w);
    LastContentFacts(w);
    if w != [] && FirstContent(w) < |w| {
      var s := FirstContent(w);
      var e := LastContent(w);
      assert s <= e;
    }
  }

  // ---------------------------------------------------------------------------
  // Prefixed code lines

  /** `line.strip("\n")`. */
  function StripNewlines(s: string): (r: string)
    ensures |r| <= |s|
    ensures r == [] || (r[0] != '\n' && r[|r| - 1] != '\n')
    decreases |s|
  {
    if |s| > 0 && s[0] == '\n' then StripNewlines(s[1..])
    else if |s| > 0 && s[|s| - 1] == '\n' then StripNewlines(s[..|s| - 1])
    else s
  }

  /** One line of `_prefixed_lines`: the prefix, padding up to the column, the line. */
  function PrefixedLine(buffer: int, prefix: string, line: string): string
  {
    prefix + Repeat(' ', buffer - |prefix|) + StripNewlines(line)
  }

  function PrefixedPieces(buffer: int, lines: seq<string>, prefix: string): (r: seq<string>)
    ensures |r| == |lines| && forall i :: 0 <= i < |lines| ==> r[i] == PrefixedLine(buffer, prefix, lines[i])
  {
    seq(|lines|, i requires 0 <= i < |lines| => PrefixedLine(buffer, prefix, lines[i]))
  }

  /** `_prefixed_lines`: the prefixed lines joined by line breaks. */
  function PrefixedLines(buffer: int, lines: seq<string>, prefix: string): string
  {
    Join(PrefixedPieces(buffer, lines, prefix), '\n')
  }

  /**
   * Cutting the printed block at line breaks gives back one line per input
   * line, each starting with the prefix, at least as wide as the column, and
   * ending with the line's text.
   */
  lemma PrefixedLinesSplit(buffer: int, lines: seq<string>, prefix: string)
    requires lines != []
    requires '\n' !in prefix && forall i :: 0 <= i < |lines| ==> '\n' !in StripNewlines(lines[i])
    ensures var out := Split(PrefixedLines(buffer, lines, prefix), '\n');
      && |out| == |lines|
      && forall i :: 0 <= i < |lines| ==>
           StartsWith(out[i], prefix) && |out[i]| >= buffer && |out[i]| >= |StripNewlines(lines[i])|
           && out[i][|out[i]| - |StripNewlines(lines[i])|..] == StripNewlines(lines[i])
  {
    var ps := PrefixedPieces(buffer, lines, prefix);
    forall i | 0 <= i < |ps| ensures '\n' !in ps[i] {
      var sp := Repeat(' ', buffer - |prefix|);
      assert ps[i] == prefix + sp + StripNewlines(lines[i]);
      assert '\n' !in sp;
    }
    SplitJoin(ps, '\n');
    forall i | 0 <= i < |lines|
      ensures StartsWith(ps[i], prefix) && |ps[i]| >= buffer && |ps[i]| >= |StripNewlines(lines[i])|
      ensures ps[i][|ps[i]| - |StripNewlines(lines[i])|..] == StripNewlines(lines[i])
    {
      var sp := Repeat(' ', buffer - |prefix|);
      assert ps[i] == prefix + sp + StripNewlines(lines[i]);
      assert (prefix + sp + StripNewlines(lines[i]))[..|prefix|] == prefix;
    }
  }

  // ---------------------------------------------------------------------------
  // Context windows

  /** `[file_lines[i] for i in range(lo, hi)]` with `0 <= lo`. */
  function Window(fileLines: seq<string>, lo: nat, hi: int): (r: seq<string>)
    ensures |r| == if lo < hi && hi <= |fileLines| then hi - lo else if lo < hi then Max(|fileLines| - lo, 0) else 0
  {
    var h := Min(hi, |fileLines|);
    if lo < h then fileLines[lo..h] else []
  }

  /** Numbered lines, as the pairs `(number, text)` that are rendered as `"n:".ljust(buffer) + text`. */
  datatype Numbered = Numbered(number: int, text: string)

  /** `print_previous_lines`: the `num` lines before the change, counted back from it. */
  function PreviousLines(fileLines: seq<string>, first: int, num: nat): seq<Numbered>
  {
    if first < 0 then []
    else
      var t := Trimmed(Window(fileLines, Max(0, first - num), Min(first, |fileLines|)));
      seq(|t|, i requires 0 <= i < |t| => Numbered(first - |t| + i + 1, t[i]))
  }

  /** `print_later_lines`: the `num` lines after the change, counted on from it. */
  function LaterLines(fileLines: seq<string>, last: int, num: nat): seq<Numbered>
  {
    if last < 0 then []
    else
      var t := Trimmed(Window(fileLines, Max(0, last), Min(last + num, |fileLines|)));
      seq(|t|, i requires 0 <= i < |t| => Numbered(last + 1 + i, t[i]))
  }

  /** A shown line carries the 1-based number of the file line it shows. */
  predicate Truthful(fileLines: seq<string>, n: Numbered)
  {
    1 <= n.number <= |fileLines|
    && (fileLines[n.number - 1] == n.text || (IsBlank(fileLines[n.number - 1]) && n.text == " "))
  }

  /**
   * With the two lines of context the display uses, every line shown before a
   * change that starts inside the file carries its true line number.
   */
  lemma PreviousLinesTruthful(fileLines: seq<string>, first: int)
    requires first <= |fileLines|
    ensures forall k :: 0 <= k < |PreviousLines(fileLines, first, 2)| ==> Truthful(fileLines, PreviousLines(fileLines, first, 2)[k])
  {
    if first >= 0 {
      var w := Window(fileLines, Max(0, first - 2), Min(first, |fileLines|));
      ShortWindowKept(w);
    }
  }

  /** The same for the lines shown after a change. */
  lemma LaterLinesTruthful(fileLines: seq<string>, last: int)
    ensures forall k :: 0 <= k < |LaterLines(fileLines, last, 2)| ==> Truthful(fileLines, LaterLines(fileLines, last, 2)[k])
  {
    if last >= 0 {
      var w := Window(fileLines, Max(0, last), Min(last + 2, |fileLines|));
      ShortWindowKept(w);
    }
  }

  /** Nothing is shown before a change whose first line is negative (a whole-file header). */
  lemma NoContextForHeaders(fileLines: seq<string>, num: nat)
    ensures PreviousLines(fileLines, -1, num) == [] && LaterLines(fileLines, -1, num) == []
  {
  }

  // ---------------------------------------------------------------------------
  // Removed block and delimiters (mentat/code_change_display.py)

  /** The `n` lines of `s` from index `a`. */
  function Run<T>(s: seq<T>, a: int, n: int): seq<T>
    requires 0 <= a && 0 <= n && a + n <= |s|
  {
    s[a..a + n]
  }

  /**
   * The removed lines: the whole file for a deletion, else the 1-based
   * inclusive range. Either way they are consecutive lines of the file.
   */
  function RemovedBlock(action: FileActionType, fileLines: seq<string>, first: int, last: int): (r: seq<string>)
    ensures action == DeleteFile ==> r == fileLines
    ensures exists a :: 0 <= a <= |fileLines| - |r| && r == Run(fileLines, a, |r|)
  {
    if action == DeleteFile then
      assert fileLines == Run(fileLines, 0, |fileLines|);
      fileLines
    else
      var a := SliceIndex(first - 1, |fileLines|);
      var b := SliceIndex(last, |fileLines|);
      var r := Slice(fileLines, first - 1, last);
      if a <= b then
        assert r == Run(fileLines, a, |r|);
        r
      else
        assert r == Run(fileLines, 0, |r|);
        r
  }

  /** For a range inside the file, the removed block is lines `first..last`, counted from 1. */
  lemma RemovedBlockRange(action: FileActionType, fileLines: seq<string>, first: int, last: int)
    requires action != DeleteFile && 1 <= first <= last + 1 <= |fileLines| + 1
    ensures var r := RemovedBlock(action, fileLines, first, last);
      |r| == last - first + 1 && forall k :: 0 <= k < |r| ==> r[k] == fileLines[first - 1 + k]
  {
  }

  /** A first line of 0 makes the Python slice start at the last line of the file. */
  lemma RemovedBlockWraps()
    ensures RemovedBlock(UpdateFile, ["a", "b", "c"], 0, 3) == ["c"]
  {
    assert SliceIndex(-1, 3) == 2;
  }

  /** `print_change`: the delimiter goes before and after, except for a rename. */
  function PrintChange(action: FileActionType, body: seq<string>): (r: seq<string>)
    ensures action == RenameFile ==> r == body
    ensures action != RenameFile ==>
      |r| == |body| + 2 && r[0] == ChangeDelimiter && r[|r| - 1] == ChangeDelimiter && r[1..|r| - 1] == body
  {
    if action == RenameFile then body else [ChangeDelimiter] + body + [ChangeDelimiter]
  }

  /** `print_full_change`: the delimiter goes before and after iff something is added or removed. */
  function PrintFullChange(added: seq<string>, removed: seq<string>, body: seq<string>): (r: seq<string>)
    ensures added == [] && removed == [] ==> r == body
    ensures added != [] || removed != [] ==>
      |r| == |body| + 2 && r[0] == ChangeDelimiter && r[|r| - 1] == ChangeDelimiter && r[1..|r| - 1] == body
  {
    if added != [] || removed != [] then [ChangeDelimiter] + body + [ChangeDelimiter] else body
  }
}

=== FILE: embeddings.dfy ===
/**
 * Embedding bookkeeping (mentat/embeddings.py): First-Fit-Decreasing batching
 * of the texts still to embed, and the score list built from the database of
 * embeddings. The embedding call and the cosine similarity are left abstract:
 * a score names the checksum whose embedding it compares with the prompt's.
 */
module Embeddings {
  import opened Wrappers
  import Sorting

  const EmbeddingMaxTokens := 8192

  // ---------------------------------------------------------------------------
  // First Fit Decreasing

  /** One entry of the `checksum -> tokens` dictionary handed to `_batch_ffd`. */
  datatype Item = Item(key: string, size: nat)

  function Size(x: Item): int { x.size }

  function Total(batch: seq<Item>): nat
  {
    if batch == [] then 0 else batch[0].size + Total(batch[1..])
  }

  lemma {:induction false} TotalAppend(batch: seq<Item>, x: Item)
    ensures Total(batch + [x]) == Total(batch) + x.size
  {
    if batch != [] {
      assert (batch + [x])[1..] == batch[1..] + [x];
      TotalAppend(batch[1..], x);
    }
  }

  function Flatten<T>(bs: seq<seq<T>>): seq<T>
  {
    if bs == [] then [] else bs[0] + Flatten(bs[1..])
  }

  /** The first batch the item fits in, or the number of batches when none does. */
  function FirstFit(batches: seq<seq<Item>>, size: nat, cap: int): (i: nat)
    ensures i <= |batches|
    ensures i < |batches| ==> Total(batches[i]) + size <= cap
    ensures forall j :: 0 <= j < i ==> Total(batches[j]) + size > cap
  {
    if batches == [] then 0
    else if Total(batches[0]) + size <= cap then 0
    else 1 + FirstFit(batches[1..], size, cap)
  }

  /** One step of the loop: the first batch that still has room, else a new batch. */
  function Place(batches: seq<seq<Item>>, x: Item, cap: int): seq<seq<Item>>
  {
    var i := FirstFit(batches, x.size, cap);
    if i < |batches| then batches[i := batches[i] + [x]] else batches + [[x]]
  }

  /**
   * First fit: a new batch is opened exactly when no batch has room; otherwise
   * the item joins the earliest batch with room and no other batch changes.
   */
  lemma PlaceFirstFit(batches: seq<seq<Item>>, x: Item, cap: int) returns (i: nat)
    ensures var r := Place(batches, x, cap);
      && (|r| == |batches| + 1 <==> forall j :: 0 <= j < |batches| ==> Total(batches[j]) + x.size > cap)
      && (|r| == |batches| + 1 ==> r == batches + [[x]])
      && (|r| == |batches| ==>
        (i < |batches| && Total(batches[i]) + x.size <= cap
         && (forall j :: 0 <= j < i ==> Total(batches[j]) + x.size > cap)
         && r == batches[i := batches[i] + [x]]))
  {
    i := FirstFit(batches, x.size, cap);
  }

  function Pack(items: seq<Item>, cap: int, acc: seq<seq<Item>>): seq<seq<Item>>
  {
    if items == [] then acc else Pack(items[1..], cap, Place(acc, items[0], cap))
  }

  function KeysOf(batch: seq<Item>): seq<string>
  {
    seq(|batch|, i requires 0 <= i < |batch| => batch[i].key)
  }

  function BatchKeys(batches: seq<seq<Item>>): seq<seq<string>>
  {
    seq(|batches|, i requires 0 <= i < |batches| => KeysOf(batches[i]))
  }

  /** The items in the order the loop visits them: by size, largest first, ties in dictionary order. */
  function Visit(data: seq<Item>): seq<Item>
  {
    Sorting.SortDesc(data, Size)
  }

  /**
   * `_batch_ffd`: the keys, batch by batch. The batches hold every key of
   * the dictionary, each as often as it occurs there, and nothing else.
   */
  function BatchFfd(data: seq<Item>, cap: int): (r: seq<seq<string>>)
    ensures multiset(Flatten(r)) == multiset(KeysOf(data))
  {
    PackKeys(Visit(data), cap, []);
    VisitKeys(data);
    BatchKeys(Pack(Visit(data), cap, []))
  }

  // ---------------------------------------------------------------------------
  // Every key lands in exactly one batch

  lemma KeysOfAppend(a: seq<Item>, b: seq<Item>)
    ensures KeysOf(a + b) == KeysOf(a) + KeysOf(b)
  {
  }

  lemma {:induction false} InsertKeys(x: Item, s: seq<Item>)
    ensures multiset(KeysOf(Sorting.InsertDesc(x, s, Size))) == multiset{x.key} + multiset(KeysOf(s))
  {
    if s != [] && Size(x) < Size(s[0]) {
      InsertKeys(x, s[1..]);
      KeysOfAppend([s[0]], Sorting.InsertDesc(x, s[1..], Size));
      KeysOfAppend([s[0]], s[1..]);
      assert s == [s[0]] + s[1..];
    } else {
      KeysOfAppend([x], s);
    }
  }

  /** Sorting moves the items, so the keys stay the same multiset. */
  lemma {:induction false} VisitKeys(data: seq<Item>)
    ensures multiset(KeysOf(Visit(data))) == multiset(KeysOf(data))
  {
    if data != [] {
      assert Visit(data) == Sorting.InsertDesc(data[0], Visit(data[1..]), Size);
      VisitKeys(data[1..]);
      InsertKeys(data[0], Visit(data[1..]));
      KeysCons(data);
    }
  }

  lemma {:induction false} FlattenAppend<T>(bs: seq<seq<T>>, b: seq<T>)
    ensures Flatten(bs + [b]) == Flatten(bs) + b
  {
    if bs != [] {
      assert (bs + [b])[1..] == bs[1..] + [b];
      FlattenAppend(bs[1..], b);
    }
  }

  lemma {:induction false} FlattenUpdate<T>(bs: seq<seq<T>>, i: nat, x: T)
    requires i < |bs|
    ensures multiset(Flatten(bs[i := bs[i] + [x]])) == multiset(Flatten(bs)) + multiset{x}
  {
    if i == 0 {
      assert bs[i := bs[i] + [x]][1..] == bs[1..];
    } else {
      assert bs[i := bs[i] + [x]][1..] == bs[1..][i - 1 := bs[i] + [x]];
      FlattenUpdate(bs[1..], i - 1, x);
    }
  }

  /** The keys held by a list of batches, with multiplicity. */
  function KeyBag(batches: seq<seq<Item>>): multiset<string>
  {
    multiset(Flatten(BatchKeys(batches)))
  }

  lemma PlaceKeys(batches: seq<seq<Item>>, x: Item, cap: int)
    ensures KeyBag(Place(batches, x, cap)) == KeyBag(batches) + multiset{x.key}
  {
    var i := FirstFit(batches, x.size, cap);
    if i < |batches| {
      KeysOfAppend(batches[i], [x]);
      assert KeysOf([x]) == [x.key];
      assert BatchKeys(batches[i := batches[i] + [x]]) == BatchKeys(batches)[i := BatchKeys(batches)[i] + [x.key]];
      FlattenUpdate(BatchKeys(batches), i, x.key);
    } else {
      assert KeysOf([x]) == [x.key];
      assert BatchKeys(batches + [[x]]) == BatchKeys(batches) + [[x.key]];
      FlattenAppend(BatchKeys(batches), [x.key]);
    }
  }

  lemma KeysCons(items: seq<Item>)
    requires items != []
    ensures multiset(KeysOf(items)) == multiset{items[0].key} + multiset(KeysOf(items[1..]))
  {
    KeysOfAppend([items[0]], items[1..]);
    assert items == [items[0]] + items[1..];
  }

  lemma {:induction false} PackKeys(items: seq<Item>, cap: int, acc: seq<seq<Item>>)
    ensures KeyBag(Pack(items, cap, acc)) == KeyBag(acc) + multiset(KeysOf(items))
  {
    if items != [] {
      var next := Place(acc, items[0], cap);
      PlaceKeys(acc, items[0], cap);
      PackKeys(items[1..], cap, next);
      KeysCons(items);
    }
  }

  predicate DistinctKeys(data: seq<Item>)
  {
    forall i, j :: 0 <= i < j < |data| ==> data[i].key != data[j].key
  }

  lemma {:induction false} DistinctOnce(data: seq<Item>, k: string)
    requires DistinctKeys(data)
    ensures multiset(KeysOf(data))[k] == if k in KeysOf(data) then 1 else 0
  {
    if data != [] {
      KeysOfAppend([data[0]], data[1..]);
      assert data == [data[0]] + data[1..];
      DistinctOnce(data[1..], k);
      if k == data[0].key {
        assert k !in KeysOf(data[1..]);
      }
    }
  }

  /** With the distinct keys of a dictionary, each key is in exactly one batch, once. */
  lemma EveryKeyOnce(data: seq<Item>, cap: int, k: string)
    requires DistinctKeys(data)
    ensures multiset(Flatten(BatchFfd(data, cap)))[k] == if k in KeysOf(data) then 1 else 0
  {
    DistinctOnce(data, k);
  }

  // ---------------------------------------------------------------------------
  // Capacity and order within batches

  /** Each batch is non-empty and within capacity, unless it holds one oversized item. */
  predicate Fits(batches: seq<seq<Item>>, cap: int)
  {
    forall i :: 0 <= i < |batches| ==> batches[i] != [] && (Total(batches[i]) <= cap || |batches[i]| == 1)
  }

  lemma PlaceFits(batches: seq<seq<Item>>, x: Item, cap: int)
    requires Fits(batches, cap)
    ensures Fits(Place(batches, x, cap), cap)
  {
    var i := FirstFit(batches, x.size, cap);
    if i < |batches| {
      TotalAppend(batches[i], x);
    }
  }

  lemma {:induction false} PackFits(items: seq<Item>, cap: int, acc: seq<seq<Item>>)
    requires Fits(acc, cap)
    ensures Fits(Pack(items, cap, acc), cap)
  {
    if items != [] {
      PlaceFits(acc, items[0], cap);
      PackFits(items[1..], cap, Place(acc, items[0], cap));
    }
  }

  /** Every item already placed is at least as large as `n`. */
  predicate AtLeast(batches: seq<seq<Item>>, n: int)
  {
    forall i, j :: 0 <= i < |batches| && 0 <= j < |batches[i]| ==> batches[i][j].size >= n
  }

  /** Within each batch, sizes never increase. */
  predicate BatchesDescending(batches: seq<seq<Item>>)
  {
    forall i :: 0 <= i < |batches| ==> Sorting.Descending(batches[i], Size)
  }

  lemma PlaceDescending(batches: seq<seq<Item>>, x: Item, cap: int)
    requires BatchesDescending(batches) && AtLeast(batches, x.size)
    ensures BatchesDescending(Place(batches, x, cap)) && AtLeast(Place(batches, x, cap), x.size)
  {
    var i := FirstFit(batches, x.size, cap);
    var r := Place(batches, x, cap);
    if i < |batches| {
      var b := batches[i] + [x];
      forall p, q | 0 <= p < q < |b| ensures Size(b[p]) >= Size(b[q]) {
        if q < |batches[i]| {
          assert b[p] == batches[i][p] && b[q] == batches[i][q];
        } else {
          assert b[p] == batches[i][p];
        }
      }
      assert r[i] == b;
    }
  }

  lemma {:induction false} PackDescending(items: seq<Item>, cap: int, acc: seq<seq<Item>>)
    requires Sorting.Descending(items, Size)
    requires BatchesDescending(acc)
    requires items != [] ==> AtLeast(acc, items[0].size)
    ensures BatchesDescending(Pack(items, cap, acc))
  {
    if items != [] {
      var next := Place(acc, items[0], cap);
      PlaceDescending(acc, items[0], cap);
      if |items| > 1 {
        assert items[1].size <= items[0].size;
      }
      PackDescending(items[1..], cap, next);
    }
  }

  /**
   * The batches `_batch_ffd` builds, in items: none empty, each within
   * `batch_size` unless it holds one oversized item, sizes non-increasing
   * inside each batch because items arrive largest first.
   */
  lemma BatchFfdShape(data: seq<Item>, cap: int)
    ensures Fits(Pack(Visit(data), cap, []), cap)
    ensures BatchesDescending(Pack(Visit(data), cap, []))
    ensures BatchKeys(Pack(Visit(data), cap, [])) == BatchFfd(data, cap)
  {
    PackFits(Visit(data), cap, []);
    Sorting.SortDescFacts(data, Size);
    PackDescending(Visit(data), cap, []);
  }

  lemma VisitExample(a: Item, b: Item, c: Item)
    requires a.size == 4 && b.size == 5 && c.size == 3
    ensures Visit([a, b, c]) == [b, a, c]
  {
    assert [a, b, c][1..] == [b, c] && [b, c][1..] == [c] && [c][1..] == [];
    assert Sorting.SortDesc([c], Size) == [c];
    assert Sorting.SortDesc([b, c], Size) == Sorting.InsertDesc(b, [c], Size) == [b, c];
    assert Sorting.InsertDesc(a, [c], Size) == [a, c];
    assert Sorting.InsertDesc(a, [b, c], Size) == [b] + Sorting.InsertDesc(a, [c], Size);
  }

  lemma PackExample(a: Item, b: Item, c: Item)
    requires a.size == 4 && b.size == 5 && c.size == 3
    ensures Pack([b, a, c], 8, []) == [[b, c], [a]]
  {
    assert Place([], b, 8) == [[b]];
    assert Total([b]) == 5 && Total([a]) == 4;
    assert Place([[b]], a, 8) == [[b], [a]];
    assert FirstFit([[b], [a]], 3, 8) == 0;
    assert [b] + [c] == [b, c];
    assert Place([[b], [a]], c, 8) == [[b], [a]][0 := [b, c]] == [[b, c], [a]];
    assert [b, a, c][1..] == [a, c] && [a, c][1..] == [c] && [c][1..] == [];
    assert Pack([b, a, c], 8, []) == Pack([a, c], 8, [[b]]);
    assert Pack([a, c], 8, [[b]]) == Pack([c], 8, [[b], [a]]);
  }

  /** Three items of 4, 5 and 3 tokens with room for 8: the 3 joins the 5, the 4 opens a batch. */
  lemma FfdExample()
    ensures BatchFfd([Item("a", 4), Item("b", 5), Item("c", 3)], 8) == [["b", "c"], ["a"]]
  {
    var a, b, c := Item("a", 4), Item("b", 5), Item("c", 3);
    VisitExample(a, b, c);
    PackExample(a, b, c);
    assert KeysOf([b, c]) == ["b", "c"];
    assert KeysOf([a]) == ["a"];
  }

  // ---------------------------------------------------------------------------
  // Scores (get_feature_similarity_scores)

  /** A feature as the score computation sees it: its checksum and its token count. */
  datatype Feature = Feature(checksum: string, tokens: nat)

  /** `Zero` is 0.0; `Similarity(c)` is the cosine similarity of the prompt with `c`'s embedding. */
  datatype Score = Zero | Similarity(checksum: string)

  predicate Skip(f: Feature)
  {
    f.tokens > EmbeddingMaxTokens
  }

  /** Dictionary assignment on an insertion-ordered dictionary. */
  function Put(items: seq<Item>, key: string, size: nat): (r: seq<Item>)
    ensures KeysOf(r) == if key in KeysOf(items) then KeysOf(items) else KeysOf(items) + [key]
  {
    if items == [] then [Item(key, size)]
    else if items[0].key == key then
      assert KeysOf(items)[0] == key;
      assert KeysOf([Item(key, size)] + items[1..]) == KeysOf(items);
      [Item(key, size)] + items[1..]
    else
      var rest := Put(items[1..], key, size);
      KeysOfAppend([items[0]], items[1..]);
      KeysOfAppend([items[0]], rest);
      assert items == [items[0]] + items[1..];
      [items[0]] + rest
  }

  function AddFeatures(items: seq<Item>, features: seq<Feature>, database: set<string>): seq<Item>
    decreases |features|
  {
    if features == [] then items
    else
      var f := features[0];
      var next := if Skip(f) || f.checksum in database then items else Put(items, f.checksum, f.tokens);
      AddFeatures(next, features[1..], database)
  }

  /** `items_to_embed_tokens`: the prompt if new, then every new feature that is not skipped. */
  function ToEmbed(promptKey: string, promptTokens: nat, features: seq<Feature>, database: set<string>): seq<Item>
  {
    var start := if promptKey in database then [] else [Item(promptKey, promptTokens)];
    AddFeatures(start, features, database)
  }

  predicate Wanted(f: Feature, database: set<string>)
  {
    !Skip(f) && f.checksum !in database
  }

  lemma {:induction false} AddFeaturesKeys(items: seq<Item>, features: seq<Feature>, database: set<string>, k: string)
    ensures k in KeysOf(AddFeatures(items, features, database))
        <==> k in KeysOf(items) || exists i :: 0 <= i < |features| && Wanted(features[i], database) && features[i].checksum == k
    decreases |features|
  {
    if features != [] {
      var f := features[0];
      var next := if Skip(f) || f.checksum in database then items else Put(items, f.checksum, f.tokens);
      AddFeaturesKeys(next, features[1..], database, k);
      if exists i :: 0 <= i < |features| && Wanted(features[i], database) && features[i].checksum == k {
        var i :| 0 <= i < |features| && Wanted(features[i], database) && features[i].checksum == k;
        if i > 0 {
          assert features[1..][i - 1] == features[i];
        }
      }
      if exists i :: 0 <= i < |features[1..]| && Wanted(features[1..][i], database) && features[1..][i].checksum == k {
        var i :| 0 <= i < |features[1..]| && Wanted(features[1..][i], database) && features[1..][i].checksum == k;
        assert features[i + 1] == features[1..][i];
      }
    }
  }

  /** What is sent for embedding: exactly the new prompt and the new, not oversized features. */
  lemma ToEmbedKeys(promptKey: string, promptTokens: nat, features: seq<Feature>, database: set<string>, k: string)
    ensures k in KeysOf(ToEmbed(promptKey, promptTokens, features, database))
        <==> ((k == promptKey && k !in database)
          || exists i :: 0 <= i < |features| && Wanted(features[i], database) && features[i].checksum == k)
  {
    var start := if promptKey in database then [] else [Item(promptKey, promptTokens)];
    AddFeaturesKeys(start, features, database, k);
    assert KeysOf([Item(promptKey, promptTokens)]) == [promptKey];
  }

  /** Keys of batches that are sent to the embedding call; the source skips singleton batches. */
  function EmbeddedAsWritten(batches: seq<seq<string>>): set<string>
  {
    set i, j | 0 <= i < |batches| && |batches[i]| != 1 && 0 <= j < |batches[i]| :: batches[i][j]
  }

  /** Keys of every batch: each batch is sent. */
  function Embedded(batches: seq<seq<string>>): set<string>
  {
    set i, j | 0 <= i < |batches| && 0 <= j < |batches[i]| :: batches[i][j]
  }

  /** The score loop over an updated database; a missing embedding is a `KeyError`. */
  function ScoreAll(promptKey: string, features: seq<Feature>, database: set<string>): (r: Result<seq<Score>, string>)
  {
    if promptKey !in database then Err(promptKey) else ScoreEach(promptKey, features, database)
  }

  function ScoreEach(promptKey: string, features: seq<Feature>, database: set<string>): Result<seq<Score>, string>
  {
    if features == [] then Ok([])
    else
      var f := features[0];
      if !Skip(f) && f.checksum !in database then Err(f.checksum)
      else
        match ScoreEach(promptKey, features[1..], database)
        case Err(k) => Err(k)
        case Ok(rest) => Ok([if Skip(f) then Zero else Similarity(f.checksum)] + rest)
  }

  /** `get_feature_similarity_scores` as written: singleton batches are never embedded. */
  function ScoresAsWritten(promptKey: string, promptTokens: nat, features: seq<Feature>, database: set<string>): Result<seq<Score>, string>
  {
    var batches := BatchFfd(ToEmbed(promptKey, promptTokens, features, database), EmbeddingMaxTokens);
    ScoreAll(promptKey, features, database + EmbeddedAsWritten(batches))
  }

  /**
   * `get_feature_similarity_scores` with every batch embedded: scoring never
   * fails, and gives one score per feature, 0.0 exactly for the features over
   * the embedding model's token limit.
   */
  function Scores(promptKey: string, promptTokens: nat, features: seq<Feature>, database: set<string>): (r: Result<seq<Score>, string>)
    ensures r.Ok? && |r.value| == |features|
    ensures forall i :: 0 <= i < |features| ==> r.value[i] == if Skip(features[i]) then Zero else Similarity(features[i].checksum)
  {
    var batches := BatchFfd(ToEmbed(promptKey, promptTokens, features, database), EmbeddingMaxTokens);
    EverythingEmbedded(promptKey, promptTokens, features, database);
    ScoreEachFacts(promptKey, features, database + Embedded(batches));
    ScoreAll(promptKey, features, database + Embedded(batches))
  }

  /** A new prompt with no features forms a singleton batch, so its lookup fails as written. */
  lemma SingletonNeverEmbedded(promptKey: string, promptTokens: nat)
    ensures ScoresAsWritten(promptKey, promptTokens, [], {}) == Err(promptKey)
  {
    var items := [Item(promptKey, promptTokens)];
    assert ToEmbed(promptKey, promptTokens, [], {}) == items;
    assert items[1..] == [];
    assert Visit(items) == Sorting.InsertDesc(items[0], Sorting.SortDesc([], Size), Size) == items;
    assert Pack(items, EmbeddingMaxTokens, []) == [items];
    assert KeysOf(items) == [promptKey];
    assert BatchFfd(items, EmbeddingMaxTokens) == [[promptKey]];
    assert EmbeddedAsWritten([[promptKey]]) == {};
  }

  lemma {:induction false} ScoreEachFacts(promptKey: string, features: seq<Feature>, database: set<string>)
    requires forall i :: 0 <= i < |features| && !Skip(features[i]) ==> features[i].checksum in database
    ensures ScoreEach(promptKey, features, database).Ok?
    ensures var s := ScoreEach(promptKey, features, database).value;
      |s| == |features| && forall i :: 0 <= i < |features| ==> s[i] == if Skip(features[i]) then Zero else Similarity(features[i].checksum)
  {
    if features != [] {
      forall i | 0 <= i < |features[1..]| && !Skip(features[1..][i]) ensures features[1..][i].checksum in database {
        assert features[1..][i] == features[i + 1];
      }
      ScoreEachFacts(promptKey, features[1..], database);
    }
  }

  lemma EmbeddedAll(batches: seq<seq<string>>, k: string)
    requires k in multiset(Flatten(batches))
    ensures k in Embedded(batches)
    decreases |batches|
  {
    if batches != [] {
      if k in batches[0] {
        var j :| 0 <= j < |batches[0]| && batches[0][j] == k;
      } else {
        assert k in multiset(Flatten(batches[1..]));
        EmbeddedAll(batches[1..], k);
        var i, j :| 0 <= i < |batches[1..]| && 0 <= j < |batches[1..][i]| && batches[1..][i][j] == k;
        assert batches[i + 1][j] == k;
      }
    }
  }

  /** With every batch sent, the prompt and every feature within the token limit have an embedding. */
  lemma EverythingEmbedded(promptKey: string, promptTokens: nat, features: seq<Feature>, database: set<string>)
    ensures var db := database + Embedded(BatchFfd(ToEmbed(promptKey, promptTokens, features, database), EmbeddingMaxTokens));
      promptKey in db && forall i :: 0 <= i < |features| && !Skip(features[i]) ==> features[i].checksum in db
  {
    var items := ToEmbed(promptKey, promptTokens, features, database);
    var batches := BatchFfd(items, EmbeddingMaxTokens);
    var db := database + Embedded(batches);
    forall k | k in KeysOf(items) ensures k in db {
      assert k in multiset(Flatten(batches));
      EmbeddedAll(batches, k);
    }
    ToEmbedKeys(promptKey, promptTokens, features, database, promptKey);
    forall i | 0 <= i < |features| && !Skip(features[i]) ensures features[i].checksum in db {
      ToEmbedKeys(promptKey, promptTokens, features, database, features[i].checksum);
    }
  }
}

=== FILE: file_edit.dfy ===
/**
 * Replacements and the edits that carry them (mentat/parsers/file_edit.py):
 * the literal `Replacement.__lt__`, the descending sort, `resolve_conflicts`,
 * `get_file_lines` and the return rule of `filter_replacements`.
 *
 * The source sorts with Python's `list.sort(reverse=True)` under a comparison
 * that is not a strict weak order (two non-empty replacements with the same
 * end are each "less" than the other). The model sorts by insertion with the
 * literal comparison; every property below is stated for the order that
 * sort produces: ends non-increasing and, among equal ends, empty ranges
 * first.
 */
module FileEdits {
  import opened Wrappers
  import opened PyText

  /** Lines `start` (inclusive) to `end` (exclusive) become `newLines`. */
  datatype Replacement = Replacement(start: int, end: int, newLines: seq<string>)

  /** The raised `MentatError("Error: Line overlap in Replacements")`. */
  datatype EditError = LineOverlap

  /** The line range a replacement covers: half-open. */
  predicate Covers(r: Replacement, line: int)
  {
    r.start <= line < r.end
  }

  predicate Proper(r: Replacement)
  {
    r.start <= r.end
  }

  predicate AllProper(rs: seq<Replacement>)
  {
    forall i :: 0 <= i < |rs| ==> Proper(rs[i])
  }

  /** `Replacement.__lt__`, literally: on equal ends it compares the start with the OTHER's end. */
  predicate Lt(a: Replacement, b: Replacement)
  {
    a.end < b.end || (a.end == b.end && a.start < b.end)
  }

  /** A range that starts before it ends. */
  predicate Low(r: Replacement)
  {
    r.start < r.end
  }

  /** `a` may precede `b` in the descending order. */
  predicate InOrder(a: Replacement, b: Replacement)
  {
    a.end > b.end || (a.end == b.end && (Low(a) ==> Low(b)))
  }

  predicate Ordered(rs: seq<Replacement>)
  {
    forall i, j :: 0 <= i < j < |rs| ==> InOrder(rs[i], rs[j])
  }

  lemma InOrderTransitive(a: Replacement, b: Replacement, c: Replacement)
    requires InOrder(a, b) && InOrder(b, c)
    ensures InOrder(a, c)
  {
  }

  // ---------------------------------------------------------------------------
  // `sort(reverse=True)`

  /** Put `x` before the first element it is not less than. */
  function InsertLt(x: Replacement, s: seq<Replacement>): seq<Replacement>
  {
    if s == [] || !Lt(x, s[0]) then [x] + s else [s[0]] + InsertLt(x, s[1..])
  }

  function SortLt(s: seq<Replacement>): seq<Replacement>
  {
    if s == [] then [] else InsertLt(s[0], SortLt(s[1..]))
  }

  lemma {:induction false} InsertLtElements(x: Replacement, s: seq<Replacement>)
    ensures multiset(InsertLt(x, s)) == multiset{x} + multiset(s)
    decreases |s|
  {
    if s != [] && Lt(x, s[0]) {
      InsertLtElements(x, s[1..]);
      assert s == [s[0]] + s[1..];
    }
  }

  predicate AllAfter(a: Replacement, s: seq<Replacement>)
  {
    forall i :: 0 <= i < |s| ==> InOrder(a, s[i])
  }

  lemma {:induction false} InsertLtAfter(a: Replacement, x: Replacement, s: seq<Replacement>)
    requires AllAfter(a, s) && InOrder(a, x)
    ensures AllAfter(a, InsertLt(x, s))
    decreases |s|
  {
    if s != [] && Lt(x, s[0]) {
      InsertLtAfter(a, x, s[1..]);
      var r := InsertLt(x, s);
      assert forall i :: 1 <= i < |r| ==> r[i] == InsertLt(x, s[1..])[i - 1];
    }
  }

  lemma {:induction false} InsertLtOrdered(x: Replacement, s: seq<Replacement>)
    requires Ordered(s)
    ensures Ordered(InsertLt(x, s))
    decreases |s|
  {
    if s == [] || !Lt(x, s[0]) {
      var r := [x] + s;
      forall i, j | 0 <= i < j < |r| ensures InOrder(r[i], r[j]) {
        if i == 0 {
          if j > 1 {
            InOrderTransitive(x, s[0], s[j - 1]);
          }
        } else {
          assert r[i] == s[i - 1] && r[j] == s[j - 1];
        }
      }
    } else {
      var t := s[1..];
      var u := InsertLt(x, t);
      assert Ordered(t) by {
        forall i, j | 0 <= i < j < |t| ensures InOrder(t[i], t[j]) {
          assert t[i] == s[i + 1] && t[j] == s[j + 1];
        }
      }
      InsertLtOrdered(x, t);
      assert AllAfter(s[0], t) by {
        forall i | 0 <= i < |t| ensures InOrder(s[0], t[i]) {
          assert t[i] == s[i + 1];
        }
      }
      InsertLtAfter(s[0], x, t);
      var r := [s[0]] + u;
      forall i, j | 0 <= i < j < |r| ensures InOrder(r[i], r[j]) {
        assert r[j] == u[j - 1];
        if i > 0 {
          assert r[i] == u[i - 1];
        }
      }
    }
  }

  /** The sort orders by end, descending, with empty ranges first on equal ends. */
  lemma {:induction false} SortLtFacts(s: seq<Replacement>)
    ensures Ordered(SortLt(s))
    ensures multiset(SortLt(s)) == multiset(s)
    decreases |s|
  {
    if s != [] {
      SortLtFacts(s[1..]);
      InsertLtOrdered(s[0], SortLt(s[1..]));
      InsertLtElements(s[0], SortLt(s[1..]));
      assert s == [s[0]] + s[1..];
    }
  }

  lemma SortLtLength(s: seq<Replacement>)
    ensures |SortLt(s)| == |s|
  {
    SortLtFacts(s);
    assert |multiset(SortLt(s))| == |multiset(s)|;
  }

  // ---------------------------------------------------------------------------
  // `resolve_conflicts`

  /**
   * One iteration of the inner loop: a later replacement overlapping `upper`
   * has its end clipped to `upper`'s start (and its start lowered to stay at
   * or below the end); any other replacement is unchanged.
   */
  function Clip(other: Replacement, upper: Replacement): (r: Replacement)
    ensures r.newLines == other.newLines
    ensures r.end <= other.end && r.start <= other.start
    ensures other.end > upper.start && other.start < upper.end ==> r.end == upper.start && r.start <= r.end
    ensures !(other.end > upper.start && other.start < upper.end) ==> r == other
  {
    if other.end > upper.start && other.start < upper.end then
      var e := upper.start;
      Replacement(if other.start < e then other.start else e, e, other.newLines)
    else other
  }

  function ClipAll(s: seq<Replacement>, upper: Replacement): (r: seq<Replacement>)
    ensures |r| == |s|
    ensures forall k :: 0 <= k < |s| ==> r[k] == Clip(s[k], upper)
  {
    if s == [] then [] else [Clip(s[0], upper)] + ClipAll(s[1..], upper)
  }

  /** The outer loop from index `i` on; earlier replacements are final. */
  function ResolveFrom(s: seq<Replacement>, i: nat): seq<Replacement>
    decreases |s| - i
  {
    if i >= |s| then s else ResolveFrom(s[..i + 1] + ClipAll(s[i + 1..], s[i]), i + 1)
  }

  /** `resolve_conflicts`: sort descending, then clip each against every earlier one. */
  function ResolveConflicts(rs: seq<Replacement>): seq<Replacement>
  {
    ResolveFrom(SortLt(rs), 0)
  }

  /** Two ranges that share no line. An empty range at the other's end counts as disjoint. */
  predicate Disjoint(a: Replacement, b: Replacement)
  {
    a.end <= b.start || b.end <= a.start
  }

  predicate PairwiseDisjoint(s: seq<Replacement>)
  {
    forall i, j :: 0 <= i < j < |s| ==> Disjoint(s[i], s[j])
  }

  lemma ClipDisjoint(other: Replacement, upper: Replacement)
    requires Proper(other)
    ensures Disjoint(upper, Clip(other, upper)) && Proper(Clip(other, upper))
  {
  }

  /** Clipping against a third replacement never breaks an existing disjointness. */
  lemma ClipKeepsDisjoint(x: Replacement, other: Replacement, upper: Replacement)
    requires Proper(upper)
    requires Disjoint(x, other) && Disjoint(x, upper)
    ensures Disjoint(x, Clip(other, upper))
  {
  }

  lemma {:induction false} ResolveFromDisjoint(s: seq<Replacement>, i: nat)
    requires i <= |s|
    requires AllProper(s)
    requires forall a, b :: 0 <= a < i && a < b < |s| ==> Disjoint(s[a], s[b])
    ensures |ResolveFrom(s, i)| == |s|
    ensures AllProper(ResolveFrom(s, i))
    ensures PairwiseDisjoint(ResolveFrom(s, i))
    decreases |s| - i
  {
    if i < |s| {
      var t := s[..i + 1] + ClipAll(s[i + 1..], s[i]);
      ClipStepShape(s, i, t);
      ClipStepFacts(s, i, t);
      ResolveFromDisjoint(t, i + 1);
    }
  }

  /** One outer step keeps replacements up to `i` and clips every later one against `s[i]`. */
  lemma ClipStepShape(s: seq<Replacement>, i: nat, t: seq<Replacement>)
    requires i < |s| && t == s[..i + 1] + ClipAll(s[i + 1..], s[i])
    ensures |t| == |s|
    ensures forall k :: 0 <= k <= i ==> t[k] == s[k]
    ensures forall k :: i < k < |s| ==> t[k] == Clip(s[k], s[i])
  {
    ConcatParts(s[..i + 1], ClipAll(s[i + 1..], s[i]), t);
    ClippedTail(s, i, ClipAll(s[i + 1..], s[i]));
  }

  lemma ConcatParts<T>(a: seq<T>, b: seq<T>, t: seq<T>)
    requires t == a + b
    ensures |t| == |a| + |b|
    ensures forall k :: 0 <= k < |a| ==> t[k] == a[k]
    ensures forall k :: |a| <= k < |t| ==> t[k] == b[k - |a|]
  {
  }

  lemma ClippedTail(s: seq<Replacement>, i: nat, clipped: seq<Replacement>)
    requires i < |s| && clipped == ClipAll(s[i + 1..], s[i])
    ensures |clipped| == |s| - i - 1
    ensures forall k :: i < k < |s| ==> clipped[k - i - 1] == Clip(s[k], s[i])
  {
    forall k | i < k < |s| ensures clipped[k - i - 1] == Clip(s[k], s[i]) {
      assert s[i + 1..][k - i - 1] == s[k];
    }
  }

  /** After one outer step the replacements stay proper and the first `i + 1` are disjoint from all later ones. */
  lemma ClipStepFacts(s: seq<Replacement>, i: nat, t: seq<Replacement>)
    requires i < |s| && |t| == |s| && AllProper(s)
    requires forall a, b :: 0 <= a < i && a < b < |s| ==> Disjoint(s[a], s[b])
    requires forall k :: 0 <= k <= i ==> t[k] == s[k]
    requires forall k :: i < k < |s| ==> t[k] == Clip(s[k], s[i])
    ensures AllProper(t)
    ensures forall a, b :: 0 <= a < i + 1 && a < b < |t| ==> Disjoint(t[a], t[b])
  {
    forall k | 0 <= k < |t| ensures Proper(t[k]) {
      if k > i {
        ClipDisjoint(s[k], s[i]);
      }
    }
    forall a, b | 0 <= a < i + 1 && a < b < |t| ensures Disjoint(t[a], t[b]) {
      if b > i {
        if a == i {
          ClipDisjoint(s[b], s[i]);
        } else {
          ClipKeepsDisjoint(s[a], s[b], s[i]);
        }
      }
    }
  }

  /** After `resolve_conflicts`, proper replacements share no line. */
  lemma ResolvedAreDisjoint(rs: seq<Replacement>)
    requires AllProper(rs)
    ensures AllProper(ResolveConflicts(rs)) && PairwiseDisjoint(ResolveConflicts(rs))
    ensures |ResolveConflicts(rs)| == |rs|
  {
    var s := SortLt(rs);
    SortLtFacts(rs);
    SortLtLength(rs);
    forall i | 0 <= i < |s| ensures Proper(s[i]) {
      assert s[i] in multiset(rs);
    }
    ResolveFromDisjoint(s, 0);
  }

  // ---------------------------------------------------------------------------
  // Sorting keeps replacements disjoint, and disjoint ordered ones apply cleanly

  predicate DisjointFrom(x: Replacement, s: seq<Replacement>)
  {
    forall i :: 0 <= i < |s| ==> Disjoint(x, s[i])
  }

  lemma {:induction false} InsertLtDisjointFrom(a: Replacement, x: Replacement, s: seq<Replacement>)
    requires DisjointFrom(a, s) && Disjoint(a, x)
    ensures DisjointFrom(a, InsertLt(x, s))
    decreases |s|
  {
    if s != [] && Lt(x, s[0]) {
      InsertLtDisjointFrom(a, x, s[1..]);
      var r := InsertLt(x, s);
      assert forall i :: 1 <= i < |r| ==> r[i] == InsertLt(x, s[1..])[i - 1];
    }
  }

  lemma {:induction false} InsertLtDisjoint(x: Replacement, s: seq<Replacement>)
    requires PairwiseDisjoint(s) && DisjointFrom(x, s)
    ensures PairwiseDisjoint(InsertLt(x, s))
    decreases |s|
  {
    if s == [] || !Lt(x, s[0]) {
      var r := [x] + s;
      forall i, j | 0 <= i < j < |r| ensures Disjoint(r[i], r[j]) {
        assert r[j] == s[j - 1];
        if i > 0 {
          assert r[i] == s[i - 1];
        }
      }
    } else {
      var t := s[1..];
      assert PairwiseDisjoint(t) by {
        forall i, j | 0 <= i < j < |t| ensures Disjoint(t[i], t[j]) {
          assert t[i] == s[i + 1] && t[j] == s[j + 1];
        }
      }
      assert DisjointFrom(x, t) by {
        forall i | 0 <= i < |t| ensures Disjoint(x, t[i]) {
          assert t[i] == s[i + 1];
        }
      }
      assert DisjointFrom(s[0], t) by {
        forall i | 0 <= i < |t| ensures Disjoint(s[0], t[i]) {
          assert t[i] == s[i + 1];
        }
      }
      InsertLtDisjoint(x, t);
      InsertLtDisjointFrom(s[0], x, t);
      var u := InsertLt(x, t);
      var r := [s[0]] + u;
      forall i, j | 0 <= i < j < |r| ensures Disjoint(r[i], r[j]) {
        assert r[j] == u[j - 1];
        if i > 0 {
          assert r[i] == u[i - 1];
        }
      }
    }
  }

  lemma {:induction false} SortLtDisjoint(s: seq<Replacement>)
    requires PairwiseDisjoint(s)
    ensures PairwiseDisjoint(SortLt(s))
    decreases |s|
  {
    if s != [] {
      var t := s[1..];
      assert PairwiseDisjoint(t) by {
        forall i, j | 0 <= i < j < |t| ensures Disjoint(t[i], t[j]) {
          assert t[i] == s[i + 1] && t[j] == s[j + 1];
        }
      }
      SortLtDisjoint(t);
      SortLtFacts(t);
      forall i | 0 <= i < |SortLt(t)| ensures Disjoint(s[0], SortLt(t)[i]) {
        assert SortLt(t)[i] in multiset(t);
        var k :| 0 <= k < |t| && t[k] == SortLt(t)[i];
        assert t[k] == s[k + 1];
      }
      InsertLtDisjoint(s[0], SortLt(t));
    }
  }

  /** Each replacement ends at or before the start of every one applied before it. */
  predicate Stacked(s: seq<Replacement>)
  {
    forall i, j :: 0 <= i < j < |s| ==> s[j].end <= s[i].start
  }

  lemma OrderedDisjointStacked(s: seq<Replacement>)
    requires Ordered(s) && PairwiseDisjoint(s) && AllProper(s)
    ensures Stacked(s)
  {
    forall i, j | 0 <= i < j < |s| ensures s[j].end <= s[i].start {
      assert InOrder(s[i], s[j]) && Disjoint(s[i], s[j]);
    }
  }

  // ---------------------------------------------------------------------------
  // `get_file_lines`

  function Blank(n: nat): (r: seq<string>)
    ensures |r| == n && forall k :: 0 <= k < n ==> r[k] == ""
  {
    if n == 0 then [] else [""] + Blank(n - 1)
  }

  /** One replacement: pad with `""` up to its end, then splice. */
  function Splice(lines: seq<string>, r: Replacement): seq<string>
  {
    var padded := if r.end > |lines| then lines + Blank(r.end - |lines|) else lines;
    SliceTo(padded, r.start) + r.newLines + SliceFrom(padded, r.end)
  }

  /** The loop of `get_file_lines`; `earliest` is the start of the previous replacement. */
  function ApplyFrom(rs: seq<Replacement>, lines: seq<string>, earliest: Option<int>): Result<seq<string>, EditError>
    decreases |rs|
  {
    if rs == [] then Ok(lines)
    else if earliest.Some? && rs[0].end > earliest.value then Err(LineOverlap)
    else ApplyFrom(rs[1..], Splice(lines, rs[0]), Some(rs[0].start))
  }

  /** `get_file_lines`: sort descending, then splice each replacement in. */
  function GetFileLines(rs: seq<Replacement>, lines: seq<string>): Result<seq<string>, EditError>
  {
    ApplyFrom(SortLt(rs), lines, None)
  }

  /** Each replacement ends at or before the start of the one applied just before it. */
  predicate ConsecutiveStacked(rs: seq<Replacement>)
  {
    forall k :: 0 <= k < |rs| - 1 ==> rs[k + 1].end <= rs[k].start
  }

  /** The overlap error is raised exactly when some replacement ends after the previous one's start. */
  lemma {:induction false} ApplyOkIff(rs: seq<Replacement>, lines: seq<string>, earliest: Option<int>)
    ensures ApplyFrom(rs, lines, earliest).Ok? <==>
      ConsecutiveStacked(rs) && (rs != [] && earliest.Some? ==> rs[0].end <= earliest.value)
    decreases |rs|
  {
    if rs != [] && !(earliest.Some? && rs[0].end > earliest.value) {
      var t := rs[1..];
      ApplyOkIff(t, Splice(lines, rs[0]), Some(rs[0].start));
      assert forall k :: 0 <= k < |t| ==> t[k] == rs[k + 1];
      if ConsecutiveStacked(t) && (t != [] ==> t[0].end <= rs[0].start) {
        assert ConsecutiveStacked(rs);
      }
    }
  }

  /**
   * The "should never happen" promise of `get_file_lines` holds: after
   * `resolve_conflicts`, proper replacements never raise the overlap error.
   */
  lemma ResolvedNeverOverlap(rs: seq<Replacement>, lines: seq<string>)
    requires AllProper(rs)
    ensures GetFileLines(ResolveConflicts(rs), lines).Ok?
  {
    var resolved := ResolveConflicts(rs);
    ResolvedAreDisjoint(rs);
    var s := SortLt(resolved);
    SortLtFacts(resolved);
    SortLtDisjoint(resolved);
    forall i | 0 <= i < |s| ensures Proper(s[i]) {
      assert s[i] in multiset(resolved);
    }
    OrderedDisjointStacked(s);
    ApplyOkIff(s, lines, None);
  }

  /** A single in-range replacement is `lines[:start] + new_lines + lines[end:]`. */
  lemma SingleReplacement(r: Replacement, lines: seq<string>)
    requires 0 <= r.start <= r.end <= |lines|
    ensures GetFileLines([r], lines) == Ok(lines[..r.start] + r.newLines + lines[r.end..])
  {
    assert SortLt([r]) == [r];
    assert [r][1..] == [];
    assert Splice(lines, r) == lines[..r.start] + r.newLines + lines[r.end..];
    assert ApplyFrom([r], lines, None) == ApplyFrom([], Splice(lines, r), Some(r.start));
  }

  /** A replacement ending past the file first pads it with empty lines. */
  lemma SingleReplacementPadded(r: Replacement, lines: seq<string>)
    requires 0 <= r.start <= r.end && r.end > |lines|
    ensures GetFileLines([r], lines) == Ok((lines + Blank(r.end - |lines|))[..r.start] + r.newLines)
  {
    assert SortLt([r]) == [r];
    assert [r][1..] == [];
    var padded := lines + Blank(r.end - |lines|);
    assert |padded| == r.end;
    assert SliceFrom(padded, r.end) == [];
    assert SliceTo(padded, r.start) == padded[..r.start];
    var spliced := padded[..r.start] + r.newLines;
    assert spliced + [] == spliced;
    assert Splice(lines, r) == spliced;
    assert ApplyFrom([r], lines, None) == ApplyFrom([], spliced, Some(r.start)) == Ok(spliced);
  }

  /**
   * A reversed range escapes `resolve_conflicts`: `(0, 4)` and `(5, 3)` are
   * left as they are and `get_file_lines` raises the overlap error.
   */
  lemma ReversedRangeOverlaps(lines: seq<string>)
    ensures GetFileLines(ResolveConflicts([Replacement(0, 4, []), Replacement(5, 3, [])]), lines) == Err(LineOverlap)
  {
    var a := Replacement(0, 4, []);
    var b := Replacement(5, 3, []);
    assert InsertLt(b, []) == [b];
    assert SortLt([a, b]) == [a, b] by {
      assert [a, b][1..] == [b];
      assert SortLt([b]) == [b];
    }
    var t := [a] + ClipAll([b], a);
    assert ClipAll([b], a) == [b];
    assert t == [a, b];
    assert ResolveFrom([a, b], 0) == ResolveFrom([a, b], 1);
    assert ResolveFrom([a, b], 1) == ResolveFrom([a, b], 2) by {
      assert [a, b][..2] + ClipAll([a, b][2..], b) == [a, b];
    }
    assert ResolveConflicts([a, b]) == [a, b];
    var after := Splice(lines, a);
    assert ApplyFrom([a, b], lines, None) == ApplyFrom([b], after, Some(0));
  }

  // ---------------------------------------------------------------------------
  // `filter_replacements`

  /** A `FileEdit`; paths are kept as strings. */
  datatype FileEdit = FileEdit(path: string, replacements: seq<Replacement>, isCreation: bool, isDeletion: bool, rename: Option<string>)

  /** The replacements whose answer is yes, in order. */
  function Kept(rs: seq<Replacement>, answers: seq<bool>): (r: seq<Replacement>)
    requires |answers| == |rs|
    ensures |r| <= |rs|
    ensures (forall k :: 0 <= k < |answers| ==> answers[k]) ==> r == rs
    ensures (forall k :: 0 <= k < |answers| ==> !answers[k]) ==> r == []
  {
    if rs == [] then [] else (if answers[0] then [rs[0]] else []) + Kept(rs[1..], answers[1..])
  }

  /** One replacement is kept exactly when its answer is yes. */
  lemma KeptSingle(x: Replacement, yes: bool)
    ensures Kept([x], [yes]) == if yes then [x] else []
  {
    assert [x][1..] == [] && [yes][1..] == [];
  }

  /** The answers are taken one replacement at a time, in order: keeping distributes over concatenation. */
  lemma {:induction false} KeptAppend(a: seq<Replacement>, x: seq<bool>, b: seq<Replacement>, y: seq<bool>)
    requires |x| == |a| && |y| == |b|
    ensures Kept(a + b, x + y) == Kept(a, x) + Kept(b, y)
    decreases |a|
  {
    if a != [] {
      assert (a + b)[1..] == a[1..] + b;
      assert (x + y)[1..] == x[1..] + y;
      KeptAppend(a[1..], x[1..], b, y);
    } else {
      assert a + b == b && x + y == y;
    }
  }

  /** Every replacement answered yes is kept, and every kept one was answered yes. */
  lemma {:induction false} KeptMembers(rs: seq<Replacement>, answers: seq<bool>)
    requires |answers| == |rs|
    ensures forall k :: 0 <= k < |rs| && answers[k] ==> rs[k] in Kept(rs, answers)
    ensures forall x :: x in Kept(rs, answers) ==> exists k :: 0 <= k < |rs| && answers[k] && rs[k] == x
    decreases |rs|
  {
    if rs != [] {
      KeptMembers(rs[1..], answers[1..]);
      forall k | 0 <= k < |rs| && answers[k] ensures rs[k] in Kept(rs, answers) {
        if k > 0 { assert rs[k] == rs[1..][k - 1] && answers[k] == answers[1..][k - 1]; }
      }
      forall x | x in Kept(rs, answers) ensures exists k :: 0 <= k < |rs| && answers[k] && rs[k] == x {
        if !(answers[0] && x == rs[0]) {
          assert x in Kept(rs[1..], answers[1..]);
          var k :| 0 <= k < |rs[1..]| && answers[1..][k] && rs[1..][k] == x;
          assert rs[k + 1] == x && answers[k + 1];
        }
      }
    }
  }

  /**
   * `filter_replacements` with the user's answers as inputs: refusing a
   * creation or deletion returns false at once; refusing a rename drops it;
   * each replacement is kept on a yes. The result is whether anything is left.
   */
  function FilterReplacements(e: FileEdit, createOk: bool, deleteOk: bool, renameOk: bool, answers: seq<bool>): (r: (bool, FileEdit))
    requires |answers| == |e.replacements|
    ensures e.isCreation && !createOk ==> r == (false, e)
    ensures !(e.isCreation && !createOk) && e.isDeletion && !deleteOk ==> r == (false, e)
    ensures !(e.isCreation && !createOk) && !(e.isDeletion && !deleteOk) ==>
      (r.0 <==> e.isCreation || e.isDeletion || (e.rename.Some? && renameOk) || |r.1.replacements| > 0)
    ensures !(e.isCreation && !createOk) && !(e.isDeletion && !deleteOk) ==>
      r.1 == e.(rename := if renameOk then e.rename else None, replacements := Kept(e.replacements, answers))
    ensures !(e.isCreation && !createOk) && !(e.isDeletion && !deleteOk) ==>
      (r.0 <==> e.isCreation || e.isDeletion || (e.rename.Some? && renameOk) || exists k :: 0 <= k < |answers| && answers[k])
  {
    KeptMembers(e.replacements, answers);
    if e.isCreation && !createOk then (false, e)
    else if e.isDeletion && !deleteOk then (false, e)
    else
      var rename := if e.rename.Some? && !renameOk then None else e.rename;
      var kept := Kept(e.replacements, answers);
      var e2 := e.(rename := rename, replacements := kept);
      (e2.isCreation || e2.isDeletion || e2.rename.Some? || |kept| > 0, e2)
  }
}

=== FILE: file_nodes.dfy ===
// `mentat/file_node.py`: the `Node` tree of the working directory, with
// navigation, pre-order iteration, refresh and content checksums.

module FileNodes {
  import opened Wrappers
  import opened PyText
  import opened PathParts
  import opened Trees
  import Lexical

  /** A node keeps its file's text; a directory's is unused. */
  type Node = Tree<string>

  datatype Failure = KeyError | ValueError | MentatError

  /** Every dictionary of children has distinct keys, at every level. */
  predicate Keyed(n: Node)
    decreases n
  {
    DistinctNames(n.children) && forall i :: 0 <= i < |n.children| ==> Keyed(n.children[i])
  }

  // ---------------------------------------------------------------- navigation

  /** Following relative parts from `n`: `.` is `n`, a missing child raises `KeyError`. */
  function Descend(n: Node, parts: seq<string>): (r: Result<Node, Failure>)
    ensures r.Ok? <==> Lookup(n, parts).Some?
    ensures r.Ok? ==> Lookup(n, parts) == Some(r.value)
    ensures r.Err? ==> r.error == KeyError
    decreases |parts|
  {
    if |parts| == 0 then Ok(n)
    else match ChildNamed(n.children, parts[0])
      case None => Err(KeyError)
      case Some(c) => if |parts| == 1 then Ok(c) else Descend(c, parts[1..])
  }

  /**
   * `node[path]` as written, on a node below the tree whose root is at
   * `root`: an absolute path is made relative to the ROOT's path, but the
   * parts are then followed from `n` itself. An absolute path outside the
   * root makes `relative_to` raise `ValueError`.
   */
  function GetItemAsWritten(n: Node, root: Path, query: Path): (r: Result<Node, Failure>)
    ensures !query.absolute ==> r == Descend(n, query.parts)
    ensures query.absolute && RelativeTo(query, root).None? ==> r == Err(ValueError)
    ensures query.absolute && RelativeTo(query, root).Some? ==> r == Descend(n, RelativeTo(query, root).value.parts)
    ensures r == Err(ValueError) <==> query.absolute && !(root.absolute && StartsWith(query.parts, root.parts))
  {
    if query.absolute then
      match RelativeTo(query, root)
      case None => Err(ValueError)
      case Some(p) => Descend(n, p.parts)
    else Descend(n, query.parts)
  }

  /**
   * `node[path]` with an absolute path made relative to the node's own path
   * `here`, as `ContextNode.__getitem__` does: the corrected rule. A path
   * outside `here` raises `ValueError`.
   */
  function GetItem(n: Node, here: Path, query: Path): (r: Result<Node, Failure>)
    ensures !query.absolute ==> r == Descend(n, query.parts)
    ensures query.absolute && RelativeTo(query, here).Some? ==> r == Descend(n, RelativeTo(query, here).value.parts)
    ensures r == Err(ValueError) <==> query.absolute && !(here.absolute && StartsWith(query.parts, here.parts))
  {
    if query.absolute then
      match RelativeTo(query, here)
      case None => Err(ValueError)
      case Some(p) => Descend(n, p.parts)
    else Descend(n, query.parts)
  }

  /** With the corrected rule, a node's absolute path below it finds what the relative one finds. */
  lemma GetItemAbsolute(n: Node, here: Path, rest: seq<string>)
    requires here.absolute
    ensures GetItem(n, here, Path(here.absolute, here.parts + rest)) == Descend(n, rest)
  {
    RelativeToJoined(here, rest);
  }

  /** At the root, the code as written and the corrected rule agree. */
  lemma GetItemAgreesAtRoot(n: Node, root: Path, query: Path)
    ensures GetItemAsWritten(n, root, query) == GetItem(n, root, query)
  {
  }

  /**
   * Below the root they differ: for the directory `a` of a tree rooted at
   * `/r`, `a[Path("/r/a/x")]` looks for `a/x` inside `a` and raises
   * `KeyError`, though `a` has the child `x`.
   */
  lemma AbsolutePathBelowRootFails()
    ensures var x: Node := Tree("x", File, "", []);
            var a: Node := Tree("a", Directory, "", [x]);
            && GetItemAsWritten(a, Path(true, ["r"]), Path(true, ["r", "a", "x"])) == Err(KeyError)
            && GetItem(a, Path(true, ["r", "a"]), Path(true, ["r", "a", "x"])) == Ok(x)
  {
    var x: Node := Tree("x", File, "", []);
    var a: Node := Tree("a", Directory, "", [x]);
    var q := Path(true, ["r", "a", "x"]);
    RelativeToJoined(Path(true, ["r"]), ["a", "x"]);
    assert ["r"] + ["a", "x"] == q.parts;
    assert ChildNamed(a.children, "a") == None;
    RelativeToJoined(Path(true, ["r", "a"]), ["x"]);
    assert ["r", "a"] + ["x"] == q.parts;
    assert ChildNamed(a.children, "x") == Some(x);
  }

  // ---------------------------------------------------------------- iteration

  datatype Visit = Visit(location: seq<string>, node: Node)

  /**
   * `iter_nodes(include_dirs, include_files)`: a directory (if asked for)
   * and then its children's subtrees, always traversed; a file only if asked for.
   */
  function Walk(n: Node, at: seq<string>, dirs: bool, files: bool): seq<Visit>
    decreases n, 1
  {
    if n.kind == Directory then
      (if dirs then [Visit(at, n)] else []) + WalkAll(n.children, at, dirs, files)
    else if files then [Visit(at, n)]
    else []
  }

  function WalkAll(cs: seq<Node>, at: seq<string>, dirs: bool, files: bool): seq<Visit>
    decreases cs, 0
  {
    if |cs| == 0 then []
    else Walk(cs[0], at + [cs[0].name], dirs, files) + WalkAll(cs[1..], at, dirs, files)
  }

  function Locations(vs: seq<Visit>): seq<seq<string>>
  {
    seq(|vs|, i requires 0 <= i < |vs| => vs[i].location)
  }

  predicate Wanted(v: Visit, dirs: bool, files: bool)
  {
    if v.node.kind == Directory then dirs else files
  }

  function Keep(vs: seq<Visit>, dirs: bool, files: bool): seq<Visit>
  {
    if |vs| == 0 then []
    else (if Wanted(vs[0], dirs, files) then [vs[0]] else []) + Keep(vs[1..], dirs, files)
  }

  lemma {:induction false} KeepAppend(a: seq<Visit>, b: seq<Visit>, dirs: bool, files: bool)
    ensures Keep(a + b, dirs, files) == Keep(a, dirs, files) + Keep(b, dirs, files)
  {
    if |a| > 0 {
      KeepAppend(a[1..], b, dirs, files);
      assert (a + b)[1..] == a[1..] + b;
    } else {
      assert a + b == b;
    }
  }

  /** The flags only filter: files below an unlisted directory are still reached. */
  lemma {:induction false} WalkFiltered(n: Node, at: seq<string>, dirs: bool, files: bool)
    ensures Walk(n, at, dirs, files) == Keep(Walk(n, at, true, true), dirs, files)
    decreases n, 1
  {
    if n.kind == Directory {
      WalkAllFiltered(n.children, at, dirs, files);
      KeepAppend([Visit(at, n)], WalkAll(n.children, at, true, true), dirs, files);
    }
  }

  lemma {:induction false} WalkAllFiltered(cs: seq<Node>, at: seq<string>, dirs: bool, files: bool)
    ensures WalkAll(cs, at, dirs, files) == Keep(WalkAll(cs, at, true, true), dirs, files)
    decreases cs, 0
  {
    if |cs| > 0 {
      WalkFiltered(cs[0], at + [cs[0].name], dirs, files);
      WalkAllFiltered(cs[1..], at, dirs, files);
      KeepAppend(Walk(cs[0], at + [cs[0].name], true, true), WalkAll(cs[1..], at, true, true), dirs, files);
    }
  }

  lemma {:induction false} InWalkAll(cs: seq<Node>, at: seq<string>, v: Visit)
    requires v in WalkAll(cs, at, true, true)
    ensures exists i :: 0 <= i < |cs| && v in Walk(cs[i], at + [cs[i].name], true, true)
  {
    if v !in Walk(cs[0], at + [cs[0].name], true, true) {
      InWalkAll(cs[1..], at, v);
      var i :| 0 <= i < |cs[1..]| && v in Walk(cs[1..][i], at + [cs[1..][i].name], true, true);
      assert cs[1..][i] == cs[i + 1];
    }
  }

  /** A visit of the full walk is the start node's own or one of its children's. */
  lemma InWalk(n: Node, at: seq<string>, v: Visit)
    requires v in Walk(n, at, true, true)
    ensures v == Visit(at, n) || v in WalkAll(n.children, at, true, true)
  {
    if n.kind == Directory {
      assert Walk(n, at, true, true) == [Visit(at, n)] + WalkAll(n.children, at, true, true);
    }
  }

  /** Every node `iter_nodes` yields is the one indexing by its relative path finds. */
  lemma {:induction false} WalkFound(n: Node, at: seq<string>, v: Visit)
    requires Keyed(n)
    requires v in Walk(n, at, true, true)
    ensures StartsWith(v.location, at)
    ensures Lookup(n, v.location[|at|..]) == Some(v.node)
    ensures Descend(n, v.location[|at|..]) == Ok(v.node)
    decreases n
  {
    InWalk(n, at, v);
    if v == Visit(at, n) {
      assert v.location[|at|..] == [];
    } else {
      InWalkAll(n.children, at, v);
      var i :| 0 <= i < |n.children| && v in Walk(n.children[i], at + [n.children[i].name], true, true);
      var c := n.children[i];
      WalkFound(c, at + [c.name], v);
      FoundBelow(n, i, at, v);
    }
  }

  /** A visit found below child `i` is found from its parent one part further along. */
  lemma FoundBelow(n: Node, i: nat, at: seq<string>, v: Visit)
    requires Keyed(n) && i < |n.children|
    requires StartsWith(v.location, at + [n.children[i].name])
    requires Lookup(n.children[i], v.location[|at + [n.children[i].name]|..]) == Some(v.node)
    ensures StartsWith(v.location, at)
    ensures Lookup(n, v.location[|at|..]) == Some(v.node)
  {
    LocationStep(at, n.children[i].name, v.location);
    LookupStep(n, i, v.location[|at|..]);
  }

  lemma WalkFileFirst(c: Node, rest: seq<Node>, at: seq<string>)
    requires c.kind == File
    ensures WalkAll([c] + rest, at, true, true) == [Visit(at + [c.name], c)] + WalkAll(rest, at, true, true)
  {
    assert ([c] + rest)[0] == c && ([c] + rest)[1..] == rest;
  }

  lemma WalkDirectoryFirst(c: Node, rest: seq<Node>, at: seq<string>)
    requires c.kind == Directory
    ensures WalkAll([c] + rest, at, true, true)
            == [Visit(at + [c.name], c)] + WalkAll(c.children, at + [c.name], true, true) + WalkAll(rest, at, true, true)
  {
    assert ([c] + rest)[0] == c && ([c] + rest)[1..] == rest;
  }

  /** Two files, visited in order below `at`. */
  lemma WalkTwoFiles(a: Node, b: Node, at: seq<string>)
    requires a.kind == File && b.kind == File
    ensures WalkAll([a, b], at, true, true) == [Visit(at + [a.name], a), Visit(at + [b.name], b)]
  {
    assert [a, b] == [a] + ([b] + []);
    assert WalkAll([], at, true, true) == [];
    WalkFileFirst(b, [], at);
    WalkFileFirst(a, [b] + [], at);
  }

  /**
   * The order the initialisation test expects: `.`, the top-level files,
   * then each directory followed by its files.
   */
  lemma IterNodesExample(top: string, g: string, h: string, m: string, a: string, b: string)
    ensures var root: Node := Tree(top, Directory, "",
              [Tree(g, File, "", []), Tree(h, File, "", []),
               Tree(m, Directory, "", [Tree(a, File, "", []), Tree(b, File, "", [])])]);
            Locations(Walk(root, [], true, true)) == [[], [g], [h], [m], [m, a], [m, b]]
  {
    var ma: Node := Tree(a, File, "", []);
    var mb: Node := Tree(b, File, "", []);
    var sub: Node := Tree(m, Directory, "", [ma, mb]);
    var fg: Node := Tree(g, File, "", []);
    var fh: Node := Tree(h, File, "", []);
    var root: Node := Tree(top, Directory, "", [fg, fh, sub]);
    assert [] + [g] == [g] && [] + [h] == [h] && [] + [m] == [m];
    WalkTwoFiles(ma, mb, [m]);
    assert [fg, fh, sub] == [fg] + ([fh] + ([sub] + []));
    assert WalkAll([], [], true, true) == [];
    WalkDirectoryFirst(sub, [], []);
    WalkFileFirst(fh, [sub] + [], []);
    WalkFileFirst(fg, [fh] + ([sub] + []), []);
    var w := [Visit([], root), Visit([g], fg), Visit([h], fh), Visit([m], sub), Visit([m] + [a], ma), Visit([m] + [b], mb)];
    assert Walk(root, [], true, true) == w;
    PyText.PairConcat(m, a);
    PyText.PairConcat(m, b);
  }

  // ---------------------------------------------------------------- refresh

  /**
   * The children every existing child becomes when refreshed, in place; a
   * child's refresh depends only on its own subtree, so refreshing them in
   * sorted-name order or in place gives the same children.
   */
  function RefreshAll(cs: seq<Node>, at: seq<string>, listed: seq<string> -> seq<string>,
                      make: seq<string> -> Node): (r: seq<Node>)
    ensures |r| == |cs|
    ensures Names(r) == Names(cs)
    decreases cs, 0
  {
    if |cs| == 0 then []
    else [Refresh(cs[0], at + [cs[0].name], listed, make)] + RefreshAll(cs[1..], at, listed, make)
  }

  /** One name of the loop: the refreshed child if there was one, else a new child. */
  function Step(cs: seq<Node>, refreshed: seq<Node>, x: string, at: seq<string>, make: seq<string> -> Node): seq<Node>
  {
    match ChildNamed(refreshed, x)
    case Some(c) => Put(cs, c)
    case None => Put(cs, make(at + [x]).(name := x))
  }

  /** Visiting the sorted names: an existing child is refreshed where it is, a new one is created. */
  function Sweep(cs: seq<Node>, refreshed: seq<Node>, names: seq<string>, at: seq<string>,
                 make: seq<string> -> Node): seq<Node>
    decreases |names|
  {
    if |names| == 0 then cs
    else
      Sweep(Step(cs, refreshed, names[0], at, make), refreshed, names[1..], at, make)
  }

  /**
   * `Node.refresh` of the node at `at`: for a directory, `listed(at)` gives the
   * first part of each path `get_non_gitignored_files` lists, and `make(loc)`
   * stands for `Node(path)` at a new location.
   */
  function Refresh(n: Node, at: seq<string>, listed: seq<string> -> seq<string>, make: seq<string> -> Node): (r: Node)
    ensures r.name == n.name && r.kind == n.kind
    decreases n, 1
  {
    if n.kind != Directory then n
    else
      var before := Names(n.children);
      var all := Lexical.SortedSet(listed(at) + before);
      var refreshed := RefreshAll(n.children, at, listed, make);
      n.(children := Sweep(n.children, refreshed, all, at, make))
  }

  /** The children created for names not seen before, in order. */
  function Created(names: seq<string>, before: seq<string>, at: seq<string>, make: seq<string> -> Node): seq<Node>
  {
    if |names| == 0 then []
    else (if names[0] in before then [] else [make(at + [names[0]]).(name := names[0])])
         + Created(names[1..], before, at, make)
  }

  lemma {:induction false} CreatedNames(names: seq<string>, before: seq<string>, at: seq<string>, make: seq<string> -> Node)
    ensures Names(Created(names, before, at, make)) == Fresh(names, before)
  {
    if |names| > 0 {
      CreatedNames(names[1..], before, at, make);
      var head := if names[0] in before then [] else [make(at + [names[0]]).(name := names[0])];
      NamesAppend(head, Created(names[1..], before, at, make));
    }
  }

  function Fresh(names: seq<string>, before: seq<string>): (r: seq<string>)
    ensures forall x :: x in r <==> x in names && x !in before
  {
    if |names| == 0 then []
    else (if names[0] in before then [] else [names[0]]) + Fresh(names[1..], before)
  }

  lemma ReplaceKeepsShape(cs: seq<Node>, c: Node)
    requires c.name in Names(cs)
    ensures Names(Put(cs, c)) == Names(cs)
  {
    if |cs| > 0 && cs[0].name != c.name {
      assert Names(cs) == [cs[0].name] + Names(cs[1..]);
      ReplaceKeepsShape(cs[1..], c);
    }
  }

  lemma StepNames(cs: seq<Node>, refreshed: seq<Node>, x: string, at: seq<string>, make: seq<string> -> Node)
    requires DistinctNames(cs)
    requires x in Names(refreshed) <==> x in Names(cs)
    ensures Names(Step(cs, refreshed, x, at, make)) == Names(cs) + (if x in Names(cs) then [] else [x])
    ensures DistinctNames(Step(cs, refreshed, x, at, make))
  {
    match ChildNamed(refreshed, x)
    case Some(c) =>
      PutFacts(cs, c);
      ReplaceKeepsShape(cs, c);
    case None =>
      var node := make(at + [x]).(name := x);
      PutNew(cs, node);
      AppendNew(cs, node);
  }

  /**
   * The loop in closed form, stated on names: each previous child keeps its
   * place, and the names not seen before follow in the order visited.
   */
  lemma DistinctTail(names: seq<string>)
    requires |names| > 0 && Lexical.Distinct(names)
    ensures Lexical.Distinct(names[1..]) && names[0] !in names[1..]
  {
    forall j | 0 <= j < |names| - 1
      ensures names[1..][j] != names[0]
    {
      assert names[1..][j] == names[j + 1];
    }
  }

  lemma {:induction false} SweepNames(cs: seq<Node>, refreshed: seq<Node>, names: seq<string>, at: seq<string>,
                                      make: seq<string> -> Node)
    requires DistinctNames(cs) && Lexical.Distinct(names)
    requires forall x :: x in names ==> (x in Names(refreshed) <==> x in Names(cs))
    ensures Names(Sweep(cs, refreshed, names, at, make)) == Names(cs) + Fresh(names, Names(cs))
    ensures DistinctNames(Sweep(cs, refreshed, names, at, make))
    decreases |names|
  {
    if |names| > 0 {
      var x := names[0];
      var rest := names[1..];
      var next := Step(cs, refreshed, x, at, make);
      StepNames(cs, refreshed, x, at, make);
      DistinctTail(names);
      assert Lexical.Distinct(rest);
      assert forall y :: y in rest ==> (y in Names(refreshed) <==> y in Names(next));
      SweepNames(next, refreshed, rest, at, make);
      assert Sweep(cs, refreshed, names, at, make) == Sweep(next, refreshed, rest, at, make);
      FreshStep(names, Names(cs), Names(next));
    }
  }

  /** One name further: the names so far plus the fresh ones still to come are unchanged. */
  lemma FreshStep(names: seq<string>, before: seq<string>, after: seq<string>)
    requires |names| > 0 && names[0] !in names[1..]
    requires after == before + (if names[0] in before then [] else [names[0]])
    ensures after + Fresh(names[1..], after) == before + Fresh(names, before)
  {
    FreshSame(names[1..], after, before);
    assert Fresh(names, before) == (if names[0] in before then [] else [names[0]]) + Fresh(names[1..], before);
  }

  lemma {:induction false} FreshSame(names: seq<string>, a: seq<string>, b: seq<string>)
    requires forall y :: y in names ==> (y in a <==> y in b)
    ensures Fresh(names, a) == Fresh(names, b)
  {
    if |names| > 0 {
      FreshSame(names[1..], a, b);
    }
  }

  /**
   * Refresh keeps every child it had, manually added ones included, in
   * place, and appends one child per newly listed name in sorted order.
   */
  lemma RefreshKeepsChildren(n: Node, at: seq<string>, listed: seq<string> -> seq<string>, make: seq<string> -> Node)
    requires n.kind == Directory && DistinctNames(n.children)
    ensures var before := Names(n.children);
            Names(Refresh(n, at, listed, make).children)
            == before + Fresh(Lexical.SortedSet(listed(at) + before), before)
    ensures DistinctNames(Refresh(n, at, listed, make).children)
  {
    var before := Names(n.children);
    var all := Lexical.SortedSet(listed(at) + before);
    Lexical.SortedSetFacts(listed(at) + before);
    forall i, j | 0 <= i < j < |all|
      ensures all[i] != all[j]
    {
      Lexical.LessIrreflexive(all[i]);
    }
    SweepNames(n.children, RefreshAll(n.children, at, listed, make), all, at, make);
  }

  /** So the names after a refresh are exactly the previous names and the listed ones. */
  lemma RefreshNames(n: Node, at: seq<string>, listed: seq<string> -> seq<string>, make: seq<string> -> Node, x: string)
    requires n.kind == Directory && DistinctNames(n.children)
    ensures x in Names(Refresh(n, at, listed, make).children) <==> x in Names(n.children) || x in listed(at)
  {
    RefreshKeepsChildren(n, at, listed, make);
    var before := Names(n.children);
    Lexical.SortedSetFacts(listed(at) + before);
    assert x in Lexical.SortedSet(listed(at) + before) <==> x in Lexical.Elements(listed(at) + before);
  }

  // ---------------------------------------------------------------- text and checksums

  /** `read_text`: a directory raises `MentatError`. */
  function ReadText(n: Node): (r: Result<string, Failure>)
    ensures r.Err? <==> n.kind == Directory
    ensures r.Ok? ==> r.value == n.data
  {
    if n.kind == Directory then Err(MentatError) else Ok(n.data)
  }

  /** `node[parts].write_text(text)` on the tree `n`; a directory raises `MentatError`. */
  function WriteText(n: Node, parts: seq<string>, text: string): (r: Result<Node, Failure>)
    ensures r.Ok? ==> r.value.name == n.name
    decreases |parts|
  {
    if |parts| == 0 then
      if n.kind == Directory then Err(MentatError) else Ok(n.(data := text))
    else
      match ChildNamed(n.children, parts[0])
      case None => Err(KeyError)
      case Some(c) =>
        match WriteText(c, parts[1..], text)
        case Err(e) => Err(e)
        case Ok(c2) => Ok(n.(children := Put(n.children, c2)))
  }

  lemma {:induction false} ChildNamedPut(cs: seq<Node>, node: Node, x: string)
    requires x != node.name
    ensures ChildNamed(Put(cs, node), x) == ChildNamed(cs, x)
  {
    if |cs| > 0 && cs[0].name != node.name {
      ChildNamedPut(cs[1..], node, x);
    }
  }

  /** Writing a file leaves every subtree that does not contain it as it was. */
  lemma {:induction false} WriteElsewhere(n: Node, parts: seq<string>, text: string, other: seq<string>)
    requires WriteText(n, parts, text).Ok?
    requires !StartsWith(parts, other)
    ensures Lookup(WriteText(n, parts, text).value, other) == Lookup(n, other)
    decreases |parts|
  {
    assert |other| > 0 by {
      assert parts[..0] == [];
    }
    if |parts| == 0 {
      return;
    }
    var c := ChildNamed(n.children, parts[0]).value;
    var c2 := WriteText(c, parts[1..], text).value;
    var n2 := WriteText(n, parts, text).value;
    assert c2.name == parts[0];
    if other[0] != parts[0] {
      ChildNamedPut(n.children, c2, other[0]);
    } else {
      assert ChildNamed(n2.children, other[0]) == Some(c2) by {
        PutFinds(n.children, c2);
      }
      StartsWithStep(parts, other);
      WriteElsewhere(c, parts[1..], text, other[1..]);
    }
  }

  lemma {:induction false} PutFinds(cs: seq<Node>, node: Node)
    ensures ChildNamed(Put(cs, node), node.name) == Some(node)
  {
    if |cs| > 0 && cs[0].name != node.name {
      PutFinds(cs[1..], node);
    }
  }

  /**
   * `str(dict)` of name/checksum pairs, as `{'a': 'x', 'b': 'y'}`. Each key
   * and value is put between single quotes as it is: the escaping `repr`
   * applies to a name holding `'` or a backslash (and its switch to double quotes)
   * is not modelled. Hex checksums never need it; such names would hash
   * different text here than in Python.
   */
  function DictText(pairs: seq<(string, string)>): string
  {
    "{" + Entries(pairs) + "}"
  }

  function Entries(pairs: seq<(string, string)>): string
  {
    if |pairs| == 0 then ""
    else
      var e := "'" + pairs[0].0 + "': '" + pairs[0].1 + "'";
      if |pairs| == 1 then e else e + ", " + Entries(pairs[1..])
  }

  /** `get_checksum` with `sha` for `sha256`: a file hashes its text, a directory its children's checksums by sorted name. */
  function Checksum(n: Node, sha: string -> string): string
    decreases n, 1
  {
    if n.kind == Directory then sha(DictText(ChildSums(n, Lexical.SortedSet(Names(n.children)), sha)))
    else sha(n.data)
  }

  /** The `_checksums` dictionary, filled in the order of `names`. */
  function ChildSums(n: Node, names: seq<string>, sha: string -> string): seq<(string, string)>
    decreases n, 0, |names|
  {
    if |names| == 0 then []
    else match ChildNamed(n.children, names[0])
      case None => ChildSums(n, names[1..], sha)
      case Some(c) =>
        assert c in n.children;
        [(names[0], Checksum(c, sha))] + ChildSums(n, names[1..], sha)
  }

  lemma {:induction false} ChildSumsSame(n: Node, m: Node, names: seq<string>, sha: string -> string)
    requires forall x :: x in names ==> ChildNamed(n.children, x) == ChildNamed(m.children, x)
    ensures ChildSums(n, names, sha) == ChildSums(m, names, sha)
    decreases |names|
  {
    if |names| > 0 {
      ChildSumsSame(n, m, names[1..], sha);
    }
  }

  lemma ChildNamedByMembership(cs: seq<Node>, ds: seq<Node>, x: string)
    requires DistinctNames(cs) && DistinctNames(ds)
    requires forall c :: c in cs <==> c in ds
    ensures ChildNamed(cs, x) == ChildNamed(ds, x)
  {
    NamesByMembership(cs, ds);
    assert x in Names(cs) <==> x in Names(ds) by {
      assert x in Lexical.Elements(Names(cs)) <==> x in Lexical.Elements(Names(ds));
    }
    if x in Names(cs) {
      var r := ChildNamed(cs, x).value;
      var i :| 0 <= i < |cs| && cs[i] == r;
      ChildNamedUnique(cs, i);
      var j :| 0 <= j < |ds| && ds[j] == r;
      ChildNamedUnique(ds, j);
    }
  }

  lemma NamesByMembership(cs: seq<Node>, ds: seq<Node>)
    requires forall c :: c in cs <==> c in ds
    ensures Lexical.Elements(Names(cs)) == Lexical.Elements(Names(ds))
  {
    forall x | x in Names(cs)
      ensures x in Names(ds)
    {
      var i :| 0 <= i < |cs| && Names(cs)[i] == x;
      assert cs[i] in ds;
      var j :| 0 <= j < |ds| && ds[j] == cs[i];
      assert Names(ds)[j] == x;
    }
    forall x | x in Names(ds)
      ensures x in Names(cs)
    {
      var i :| 0 <= i < |ds| && Names(ds)[i] == x;
      assert ds[i] in cs;
      var j :| 0 <= j < |cs| && cs[j] == ds[i];
      assert Names(cs)[j] == x;
    }
  }

  /**
   * A directory's checksum does not depend on the order its children were
   * added in: the same children in any order give the same checksum.
   */
  lemma ChecksumIgnoresOrder(n: Node, m: Node, sha: string -> string)
    requires n.kind == Directory && m.kind == Directory
    requires DistinctNames(n.children) && DistinctNames(m.children)
    requires forall c :: c in n.children <==> c in m.children
    ensures Checksum(n, sha) == Checksum(m, sha)
  {
    NamesByMembership(n.children, m.children);
    Lexical.SortedSetFacts(Names(n.children));
    Lexical.SortedSetFacts(Names(m.children));
    Lexical.AscendingUnique(Lexical.SortedSet(Names(n.children)), Lexical.SortedSet(Names(m.children)));
    var names := Lexical.SortedSet(Names(n.children));
    forall x | x in names
      ensures ChildNamed(n.children, x) == ChildNamed(m.children, x)
    {
      ChildNamedByMembership(n.children, m.children, x);
    }
    ChildSumsSame(n, m, names, sha);
  }

  /** Writing a file leaves the checksum of every subtree that does not contain it unchanged. */
  lemma WriteKeepsOtherChecksums(n: Node, parts: seq<string>, text: string, other: seq<string>, sha: string -> string)
    requires WriteText(n, parts, text).Ok?
    requires Lookup(n, other).Some?
    requires !StartsWith(parts, other)
    ensures Lookup(WriteText(n, parts, text).value, other).Some?
    ensures Checksum(Lookup(WriteText(n, parts, text).value, other).value, sha) == Checksum(Lookup(n, other).value, sha)
  {
    WriteElsewhere(n, parts, text, other);
  }
}

=== FILE: history.dfy ===
// `mentat/terminal/history_suggester.py`: the submitted-input history and
// the newest-first prefix suggestion drawn from it.

module History {
  import opened Wrappers
  import opened PyText

  /** The suggestions in submission order, and whether matching respects case. */
  datatype Suggester = Suggester(suggestions: seq<string>, caseSensitive: bool)

  /** The history file's contents, one entry per `\n`-separated piece. */
  function Load(fileText: string, caseSensitive: bool): (h: Suggester)
    ensures |h.suggestions| >= 1 && h.caseSensitive == caseSensitive
    ensures forall i :: 0 <= i < |h.suggestions| ==> '\n' !in h.suggestions[i]
  {
    Suggester(Split(fileText, '\n'), caseSensitive)
  }

  /** `append_to_history`: the submission becomes the newest suggestion. */
  function AppendToHistory(h: Suggester, submission: string): (r: Suggester)
    ensures |r.suggestions| == |h.suggestions| + 1 && r.suggestions[|h.suggestions|] == submission
    ensures r.suggestions[..|h.suggestions|] == h.suggestions && r.caseSensitive == h.caseSensitive
  {
    h.(suggestions := h.suggestions + [submission])
  }

  /** `casefold` in case-insensitive mode, the text itself otherwise. */
  function Fold(caseSensitive: bool, s: string): string
  {
    if caseSensitive then s else Lower(s)
  }

  /** A suggestion offered for `value`: it starts with the value, both folded alike. */
  predicate Matches(caseSensitive: bool, suggestion: string, value: string)
  {
    StartsWith(Fold(caseSensitive, suggestion), Fold(caseSensitive, value))
  }

  /** Entry `i` matches and no newer entry does. */
  predicate NewestMatch(caseSensitive: bool, suggestions: seq<string>, value: string, i: int)
    requires 0 <= i < |suggestions|
  {
    && Matches(caseSensitive, suggestions[i], value)
    && forall j :: i < j < |suggestions| ==> !Matches(caseSensitive, suggestions[j], value)
  }

  /**
   * The loop of `get_suggestion` over `reversed(suggestions)`: in
   * case-insensitive mode both the entry and the running `value` are
   * casefolded on every round.
   */
  function Search(suggestions: seq<string>, value: string, caseSensitive: bool): (r: Option<string>)
    ensures r.None? <==> forall i :: 0 <= i < |suggestions| ==> !Matches(caseSensitive, suggestions[i], value)
    ensures r.Some? ==> exists i :: 0 <= i < |suggestions| && NewestMatch(caseSensitive, suggestions, value, i)
                                   && r.value == Fold(caseSensitive, suggestions[i])
    decreases |suggestions|
  {
    if |suggestions| == 0 then None
    else
      var n := |suggestions| - 1;
      var s := Fold(caseSensitive, suggestions[n]);
      var v := Fold(caseSensitive, value);
      if StartsWith(s, v) then Some(s)
      else
        var r := Search(suggestions[..n], v, caseSensitive);
        OlderMatches(suggestions, value, caseSensitive, r);
        r
  }

  /** With the newest entry not matching, what the older entries give is the answer for all of them. */
  lemma OlderMatches(suggestions: seq<string>, value: string, caseSensitive: bool, r: Option<string>)
    requires |suggestions| > 0
    requires !Matches(caseSensitive, suggestions[|suggestions| - 1], value)
    requires var n := |suggestions| - 1;
             var v := Fold(caseSensitive, value);
             && (r.None? <==> forall i :: 0 <= i < n ==> !Matches(caseSensitive, suggestions[..n][i], v))
             && (r.Some? ==> exists i :: 0 <= i < n && NewestMatch(caseSensitive, suggestions[..n], v, i)
                                        && r.value == Fold(caseSensitive, suggestions[..n][i]))
    ensures r.None? <==> forall i :: 0 <= i < |suggestions| ==> !Matches(caseSensitive, suggestions[i], value)
    ensures r.Some? ==> exists i :: 0 <= i < |suggestions| && NewestMatch(caseSensitive, suggestions, value, i)
                                   && r.value == Fold(caseSensitive, suggestions[i])
  {
    var n := |suggestions| - 1;
    var v := Fold(caseSensitive, value);
    if r.Some? {
      var i :| 0 <= i < n && NewestMatch(caseSensitive, suggestions[..n], v, i) && r.value == Fold(caseSensitive, suggestions[..n][i]);
      OlderNewest(suggestions, value, caseSensitive, i);
    } else {
      OlderNone(suggestions, value, caseSensitive);
    }
  }

  /** The newest match among the older entries is the newest of all when the newest entry does not match. */
  lemma OlderNewest(suggestions: seq<string>, value: string, caseSensitive: bool, i: nat)
    requires i < |suggestions| - 1
    requires !Matches(caseSensitive, suggestions[|suggestions| - 1], value)
    requires NewestMatch(caseSensitive, suggestions[..|suggestions| - 1], Fold(caseSensitive, value), i)
    ensures NewestMatch(caseSensitive, suggestions, value, i)
  {
    var n := |suggestions| - 1;
    var v := Fold(caseSensitive, value);
    var init := suggestions[..n];
    FoldTwice(caseSensitive, value);
    assert init[i] == suggestions[i];
    assert Matches(caseSensitive, suggestions[i], v);
    forall j | i < j < |suggestions| ensures !Matches(caseSensitive, suggestions[j], value) {
      if j < n {
        assert init[j] == suggestions[j];
        assert !Matches(caseSensitive, suggestions[j], v);
      }
    }
  }

  /** No older entry matching and the newest not matching: nothing matches. */
  lemma OlderNone(suggestions: seq<string>, value: string, caseSensitive: bool)
    requires |suggestions| > 0
    requires var init := suggestions[..|suggestions| - 1];
      forall i :: 0 <= i < |init| ==> !Matches(caseSensitive, init[i], Fold(caseSensitive, value))
    requires !Matches(caseSensitive, suggestions[|suggestions| - 1], value)
    ensures forall i :: 0 <= i < |suggestions| ==> !Matches(caseSensitive, suggestions[i], value)
  {
    var n := |suggestions| - 1;
    var v := Fold(caseSensitive, value);
    var init := suggestions[..n];
    FoldTwice(caseSensitive, value);
    forall i | 0 <= i < |suggestions| ensures !Matches(caseSensitive, suggestions[i], value) {
      if i < n {
        assert init[i] == suggestions[i];
        assert !Matches(caseSensitive, suggestions[i], v);
      }
    }
  }

  /** Folding is idempotent, so folding the running value again changes nothing. */
  lemma FoldTwice(caseSensitive: bool, value: string)
    ensures Fold(caseSensitive, Fold(caseSensitive, value)) == Fold(caseSensitive, value)
  {
    if !caseSensitive {
      LowerIdempotent(value);
    }
  }

  /** `get_suggestion`: the newest matching entry, folded; `None` when nothing matches. */
  function GetSuggestion(h: Suggester, value: string): (r: Option<string>)
    ensures r.None? <==> forall i :: 0 <= i < |h.suggestions| ==> !Matches(h.caseSensitive, h.suggestions[i], value)
    ensures r.Some? ==> exists i :: 0 <= i < |h.suggestions| && NewestMatch(h.caseSensitive, h.suggestions, value, i)
                                   && r.value == Fold(h.caseSensitive, h.suggestions[i])
  {
    Search(h.suggestions, value, h.caseSensitive)
  }

  /** A submission that matches is what gets suggested right after it is appended. */
  lemma NewestWins(h: Suggester, submission: string, value: string)
    requires Matches(h.caseSensitive, submission, value)
    ensures GetSuggestion(AppendToHistory(h, submission), value) == Some(Fold(h.caseSensitive, submission))
  {
    var h' := AppendToHistory(h, submission);
    var r := GetSuggestion(h', value);
    assert Matches(h.caseSensitive, h'.suggestions[|h.suggestions|], value);
    var i :| 0 <= i < |h'.suggestions| && NewestMatch(h.caseSensitive, h'.suggestions, value, i)
             && r.value == Fold(h.caseSensitive, h'.suggestions[i]);
    assert i == |h.suggestions|;
  }

  /** Appending a submission that does not match leaves the suggestion as it was. */
  lemma NonMatchingAppend(h: Suggester, submission: string, value: string)
    requires !Matches(h.caseSensitive, submission, value)
    ensures GetSuggestion(AppendToHistory(h, submission), value) == GetSuggestion(h, value)
  {
    var n := |h.suggestions|;
    var s := Fold(h.caseSensitive, submission);
    var v := Fold(h.caseSensitive, value);
    LowerIdempotent(value);
    SearchFolded(h.suggestions, value, h.caseSensitive);
    assert (h.suggestions + [submission])[..n] == h.suggestions;
  }

  /** Searching for the folded value is searching for the value. */
  lemma SearchFolded(suggestions: seq<string>, value: string, caseSensitive: bool)
    ensures Search(suggestions, Fold(caseSensitive, value), caseSensitive) == Search(suggestions, value, caseSensitive)
  {
    LowerIdempotent(value);
    SearchSameMatches(suggestions, Fold(caseSensitive, value), value, caseSensitive);
  }

  /** The search depends on the value only through which entries it matches. */
  lemma {:induction false} SearchSameMatches(suggestions: seq<string>, v: string, w: string, caseSensitive: bool)
    requires Fold(caseSensitive, v) == Fold(caseSensitive, w)
    ensures Search(suggestions, v, caseSensitive) == Search(suggestions, w, caseSensitive)
    decreases |suggestions|
  {
    if |suggestions| > 0 {
      var n := |suggestions| - 1;
      LowerIdempotent(v);
      LowerIdempotent(w);
      SearchSameMatches(suggestions[..n], Fold(caseSensitive, v), Fold(caseSensitive, w), caseSensitive);
    }
  }

  /** In case-insensitive mode the suggestion comes back casefolded. */
  lemma InsensitiveExample(h: Suggester, value: string)
    requires h.suggestions == ["Yes"] && !h.caseSensitive && value == "Y"
    ensures GetSuggestion(h, value) == Some("yes")
  {
    assert Lower("Yes") == "yes";
    assert Lower(value) == "y";
    assert StartsWith("yes", "y");
  }
}

=== FILE: include_files.dfy ===
// `mentat/include_files.py`: matching paths against patterns, validating a
// (possibly interval) path, and the tree of included files printed after
// each change.

module IncludeFiles {
  import opened Wrappers
  import opened PyText
  import opened PathParts
  import Lexical
  import Dicts

  /**
   * What the filesystem answers about a path, keyed by its string; `resolve`
   * (making a path absolute and following links) is assumed to have been
   * applied by the caller.
   */
  datatype Disk = Disk(present: string -> bool, isFile: string -> bool, isDir: string -> bool, isText: string -> bool)

  /** Why a `PathValidationException` was raised. */
  datatype Failure = Missing | Unreadable | NotDirectory | NotAbsolute | Unrecognised

  // ---------------------------------------------------------------- patterns

  /** `path.parts`: pathlib lists the anchor `/` of an absolute path as a part. */
  function PyParts(p: Path): (r: seq<string>)
    ensures |r| == |p.parts| + (if p.absolute then 1 else 0)
  {
    (if p.absolute then ["/"] else []) + p.parts
  }

  /** One pattern matches the whole path string or one of its parts. */
  ghost predicate PatternMatches(p: Path, pattern: string, fnmatch: (string, string) -> bool)
  {
    fnmatch(Format(p), pattern) || exists j :: 0 <= j < |PyParts(p)| && fnmatch(PyParts(p)[j], pattern)
  }

  function AnyPart(parts: seq<string>, pattern: string, fnmatch: (string, string) -> bool): (r: bool)
    ensures r <==> exists j :: 0 <= j < |parts| && fnmatch(parts[j], pattern)
  {
    if |parts| == 0 then false
    else
      assert forall j :: 1 <= j < |parts| ==> parts[j] == parts[1..][j - 1];
      fnmatch(parts[0], pattern) || AnyPart(parts[1..], pattern, fnmatch)
  }

  /**
   * `match_path_with_patterns`, `fnmatch` left uninterpreted. The patterns
   * are a set; the answer does not depend on the order they are tried in.
   */
  function MatchPath(p: Path, patterns: seq<string>, fnmatch: (string, string) -> bool): (r: bool)
    ensures r <==> exists i :: 0 <= i < |patterns| && PatternMatches(p, patterns[i], fnmatch)
  {
    if |patterns| == 0 then false
    else
      var here := fnmatch(Format(p), patterns[0]) || AnyPart(PyParts(p), patterns[0], fnmatch);
      var rest := MatchPath(p, patterns[1..], fnmatch);
      assert forall i :: 1 <= i < |patterns| ==> patterns[i] == patterns[1..][i - 1];
      here || rest
  }

  // ---------------------------------------------------------------- validation

  /** The file a path names: the part before the first `:` of an interval path. */
  function FilePart(s: string): (r: string)
    ensures ':' !in s ==> r == s
    ensures ':' in s ==> ':' !in r && StartsWith(s, r + ":")
  {
    var pieces := SplitOnce(s, ':');
    if |pieces| == 2 then
      assert s[..|pieces[0]| + 1] == pieces[0] + ":";
      pieces[0]
    else s
  }

  /** `validate_path`: the file (of an interval, its file part) must exist and, if asked, be text. */
  function ValidatePath(s: string, disk: Disk, checkForText: bool): (r: Result<(), Failure>)
    ensures var f := Format(Parse(FilePart(s)));
            r.Ok? <==> disk.present(f) && (!checkForText || disk.isText(f))
    ensures r.Err? ==> r.error == Missing || r.error == Unreadable
  {
    var f := Format(Parse(FilePart(s)));
    if !disk.present(f) then Err(Missing)
    else if checkForText && !disk.isText(f) then Err(Unreadable)
    else Ok(())
  }

  /** An interval path is valid exactly when its file is: the interval itself is not checked. */
  lemma ValidateInterval(file: string, interval: string, disk: Disk, checkForText: bool)
    requires ':' !in file
    ensures ValidatePath(file + ":" + interval, disk, checkForText) == ValidatePath(file, disk, checkForText)
  {
    SplitOnceAt(file, ':', interval);
    assert file + ":" + interval == file + [':'] + interval;
  }

  // ---------------------------------------------------------------- the path tree

  /** A nested dictionary of path parts; a file is an empty dictionary. */
  datatype Dict = Dict(entries: seq<(string, Dict)>)

  function Keys(d: Dict): seq<string>
  {
    Dicts.Keys(d.entries)
  }

  function Get(d: Dict, key: string): Option<Dict>
  {
    Dicts.Get(d.entries, key)
  }

  function Set(d: Dict, key: string, v: Dict): Dict
  {
    Dict(Dicts.Assign(d.entries, key, v))
  }

  /** The parts of one file, each level created on first use. */
  function AddChain(d: Dict, parts: seq<string>): Dict
    decreases |parts|
  {
    if |parts| == 0 then d
    else
      var sub := match Get(d, parts[0]) case Some(s) => s case None => Dict([]);
      Set(d, parts[0], AddChain(sub, parts[1..]))
  }

  /**
   * `build_path_tree` over each file's relative parts, in the order given:
   * every level of the tree has distinct keys, as a dictionary does.
   */
  function BuildPathTree(files: seq<seq<string>>): (r: Dict)
    ensures Proper(r)
  {
    if |files| == 0 then Dict([])
    else
      var init := BuildPathTree(files[..|files| - 1]);
      AddChainProper(init, files[|files| - 1]);
      AddChain(init, files[|files| - 1])
  }

  /** The chain `parts` exists in the tree. */
  predicate Has(d: Dict, parts: seq<string>)
    decreases |parts|
  {
    |parts| == 0 || (Get(d, parts[0]).Some? && Has(Get(d, parts[0]).value, parts[1..]))
  }

  lemma HasEmpty(parts: seq<string>)
    ensures Has(Dict([]), parts) <==> |parts| == 0
  {
  }

  /** Adding a file's chain adds exactly that chain's prefixes. */
  lemma {:induction false} AddChainHas(d: Dict, f: seq<string>, p: seq<string>)
    ensures Has(AddChain(d, f), p) <==> Has(d, p) || StartsWith(f, p)
    decreases |f|
  {
    if |p| > 0 && |f| > 0 {
      var sub := match Get(d, f[0]) case Some(s) => s case None => Dict([]);
      Dicts.GetAssign(d.entries, f[0], AddChain(sub, f[1..]), p[0]);
      if p[0] == f[0] {
        AddChainHas(sub, f[1..], p[1..]);
        StartsWithStep(f, p);
        HasEmpty(p[1..]);
      } else {
        assert !StartsWith(f, p) by {
          if |p| <= |f| {
            assert f[..|p|][0] != p[0];
          }
        }
      }
    } else if |p| > 0 {
      assert !StartsWith(f, p);
    }
  }

  /**
   * Every file's parts become a chain from the root, and the tree holds
   * nothing else: a chain exists iff it leads to some listed file.
   */
  lemma {:induction false} BuildPathTreeHas(files: seq<seq<string>>, p: seq<string>)
    ensures Has(BuildPathTree(files), p) <==> |p| == 0 || exists i :: 0 <= i < |files| && StartsWith(files[i], p)
  {
    if |files| > 0 {
      var init := files[..|files| - 1];
      BuildPathTreeHas(init, p);
      AddChainHas(BuildPathTree(init), files[|files| - 1], p);
      if exists i :: 0 <= i < |init| && StartsWith(init[i], p) {
        var i :| 0 <= i < |init| && StartsWith(init[i], p);
        assert files[i] == init[i];
      }
      if exists i :: 0 <= i < |files| - 1 && StartsWith(files[i], p) {
        var i :| 0 <= i < |files| - 1 && StartsWith(files[i], p);
        assert init[i] == files[i];
      }
    } else {
      HasEmpty(p);
    }
  }

  /** The sub-dictionary a chain of keys leads to, if the chain exists. */
  function Lookup(d: Dict, p: seq<string>): (r: Option<Dict>)
    ensures r.Some? <==> Has(d, p)
    decreases |p|
  {
    if |p| == 0 then Some(d)
    else match Get(d, p[0]) case None => None case Some(s) => Lookup(s, p[1..])
  }

  /** A chain through `p` exists iff `p` does and the rest continues below it. */
  lemma {:induction false} HasThrough(d: Dict, p: seq<string>, q: seq<string>)
    ensures Has(d, p + q) <==> Lookup(d, p).Some? && Has(Lookup(d, p).value, q)
    decreases |p|
  {
    if |p| > 0 {
      assert (p + q)[0] == p[0];
      assert (p + q)[1..] == p[1..] + q;
      match Get(d, p[0]) {
        case None =>
        case Some(s) => HasThrough(s, p[1..], q);
      }
    } else {
      assert p + q == q;
    }
  }

  /** A level with an entry leads one step down through its first key. */
  lemma FirstKeyHas(d: Dict)
    requires |d.entries| > 0
    ensures Has(d, [d.entries[0].0])
  {
    var x := d.entries[0].0;
    assert Keys(d)[0] == x;
    assert [x][1..] == [];
  }

  /** A level that leads one step down has an entry. */
  lemma HasKeyNonEmpty(d: Dict, x: string)
    requires Has(d, [x])
    ensures |d.entries| > 0
  {
    assert x in Keys(d);
  }

  /** The chain `c` reaches strictly below `p + [key]`. */
  predicate Below(c: seq<string>, p: seq<string>, key: string)
  {
    |c| > |p| + 1 && StartsWith(c, p + [key])
  }

  /** The level below `key` at chain `p`, empty when there is no such key. */
  function SubAt(s: Dict, key: string): Dict
  {
    match Get(s, key) case Some(t) => t case None => Dict([])
  }

  /** A file below `p + [key]` passes through some child `x` of `key`, and conversely. */
  lemma BelowThrough(c: seq<string>, p: seq<string>, key: string, x: string)
    ensures StartsWith(c, p + [key, x]) ==> Below(c, p, key)
    ensures Below(c, p, key) && x == c[|p| + 1] ==> StartsWith(c, p + [key, x])
  {
    if StartsWith(c, p + [key, x]) {
      assert c[..|p| + 1] == (p + [key, x])[..|p| + 1] == p + [key];
    }
    if Below(c, p, key) && x == c[|p| + 1] {
      assert c[..|p| + 2] == c[..|p| + 1] + [x];
    }
  }

  /** Two steps down from `s`: `key`, then `x` below it. */
  lemma HasTwo(s: Dict, key: string, x: string)
    ensures Has(s, [key, x]) <==> Has(SubAt(s, key), [x])
  {
    assert [key, x][1..] == [x];
    assert [x][1..] == [];
    HasEmpty([x]);
  }

  /** Two steps below the level at `p`: the chain `p + [key, x]`. */
  lemma HasTwoBelow(d: Dict, p: seq<string>, key: string, x: string)
    requires Lookup(d, p).Some?
    ensures Has(SubAt(Lookup(d, p).value, key), [x]) <==> Has(d, p + [key, x])
  {
    HasThrough(d, p, [key, x]);
    HasTwo(Lookup(d, p).value, key, x);
  }

  /** The chain `c` is in `d` iff it leads toward one of `files`, as in a built tree. */
  predicate Mirrors(d: Dict, files: seq<seq<string>>, c: seq<string>)
  {
    Has(d, c) <==> |c| == 0 || exists i :: 0 <= i < |files| && StartsWith(files[i], c)
  }

  lemma BuiltMirrors(files: seq<seq<string>>)
    ensures forall c :: Mirrors(BuildPathTree(files), files, c)
  {
    forall c
      ensures Mirrors(BuildPathTree(files), files, c)
    {
      BuildPathTreeHas(files, c);
    }
  }

  lemma DirectoryHasFileBelow(d: Dict, files: seq<seq<string>>, p: seq<string>, key: string)
    requires forall c :: Mirrors(d, files, c)
    requires Lookup(d, p).Some? && |SubAt(Lookup(d, p).value, key).entries| > 0
    ensures exists i :: 0 <= i < |files| && Below(files[i], p, key)
  {
    var sub := SubAt(Lookup(d, p).value, key);
    var x := sub.entries[0].0;
    FirstKeyHas(sub);
    HasTwoBelow(d, p, key, x);
    ChildHasFileBelow(d, files, p, key, x);
  }

  lemma ChildHasFileBelow(d: Dict, files: seq<seq<string>>, p: seq<string>, key: string, x: string)
    requires Mirrors(d, files, p + [key, x]) && Has(d, p + [key, x])
    ensures exists i :: 0 <= i < |files| && Below(files[i], p, key)
  {
    assert |p + [key, x]| != 0;
    var i :| 0 <= i < |files| && StartsWith(files[i], p + [key, x]);
    BelowThrough(files[i], p, key, x);
  }

  lemma FileBelowIsDirectory(d: Dict, files: seq<seq<string>>, p: seq<string>, key: string, i: int)
    requires forall c :: Mirrors(d, files, c)
    requires Lookup(d, p).Some?
    requires 0 <= i < |files| && Below(files[i], p, key)
    ensures |SubAt(Lookup(d, p).value, key).entries| > 0
  {
    var x := files[i][|p| + 1];
    BelowThrough(files[i], p, key, x);
    assert Mirrors(d, files, p + [key, x]);
    HasTwoBelow(d, p, key, x);
    HasKeyNonEmpty(SubAt(Lookup(d, p).value, key), x);
  }

  /** In a tree that mirrors `files`, the entry `key` at chain `p` has a level below it iff a listed file does. */
  lemma DirectoryIffFileBelow(d: Dict, files: seq<seq<string>>, p: seq<string>, key: string)
    requires forall c :: Mirrors(d, files, c)
    requires Lookup(d, p).Some?
    ensures |SubAt(Lookup(d, p).value, key).entries| > 0 <==> exists i :: 0 <= i < |files| && Below(files[i], p, key)
  {
    if |SubAt(Lookup(d, p).value, key).entries| > 0 {
      DirectoryHasFileBelow(d, files, p, key);
    }
    if exists i :: 0 <= i < |files| && Below(files[i], p, key) {
      var i :| 0 <= i < |files| && Below(files[i], p, key);
      FileBelowIsDirectory(d, files, p, key, i);
    }
  }

  /** Every level of the tree has distinct keys, as a dictionary does. */
  predicate Proper(d: Dict)
    decreases d
  {
    Lexical.Distinct(Keys(d)) && forall e :: e in d.entries ==> Proper(e.1)
  }

  lemma {:induction false} AddChainProper(d: Dict, parts: seq<string>)
    requires Proper(d)
    ensures Proper(AddChain(d, parts))
    decreases |parts|
  {
    if |parts| > 0 {
      var sub := match Get(d, parts[0]) case Some(s) => s case None => Dict([]);
      AddChainProper(sub, parts[1..]);
      Dicts.AssignKeys(d.entries, parts[0], AddChain(sub, parts[1..]));
    }
  }

  // ---------------------------------------------------------------- printing

  /** One `stream.send` pair: the branch drawn before the entry, the entry, its colour. */
  datatype Line = Line(lead: string, text: string, color: Option<string>)

  const Tee := "├── "
  const Corner := "└── "
  const Bar := "│   "
  const Gap := "    "

  /**
   * `print_path_tree`: the keys in sorted order, a directory's entries below
   * it. Every line of a (sub)tree is drawn below its prefix.
   */
  function PrintPathTree(d: Dict, changed: set<Path>, cur: Path, prefix: string): (r: seq<Line>)
    ensures forall l :: l in r ==> StartsWith(l.lead, prefix)
    decreases d, 2
  {
    PrintKeys(d, Lexical.SortedSet(Keys(d)), 0, changed, cur, prefix)
  }

  function PrintKeys(d: Dict, keys: seq<string>, i: nat, changed: set<Path>, cur: Path, prefix: string): (r: seq<Line>)
    ensures forall l :: l in r ==> StartsWith(l.lead, prefix)
    decreases d, 1, |keys| - i
  {
    if i >= |keys| then []
    else Block(d, keys[i], i < |Keys(d)| - 1, changed, cur, prefix) + PrintKeys(d, keys, i + 1, changed, cur, prefix)
  }

  /** A line drawn at `prefix` followed by lines drawn deeper stay below `prefix`. */
  lemma BelowPrefix(first: Line, rest: seq<Line>, prefix: string, branch: string, inner: string)
    requires first.lead == prefix + branch && inner == prefix + (if branch == Tee then Bar else Gap)
    requires forall l :: l in rest ==> StartsWith(l.lead, inner)
    ensures forall l :: l in [first] + rest ==> StartsWith(l.lead, prefix)
  {
    assert first.lead[..|prefix|] == prefix;
    forall l | l in rest ensures StartsWith(l.lead, prefix) {
      assert l.lead[..|inner|] == inner;
      assert inner[..|prefix|] == prefix;
    }
  }

  /** The colour of an entry: blue for a directory, green for a changed file. */
  function Color(isDirectory: bool, starred: bool): (r: Option<string>)
    ensures r == Some("blue") <==> isDirectory
    ensures r == Some("green") <==> !isDirectory && starred
    ensures r.None? <==> !isDirectory && !starred
  {
    if isDirectory then Some("blue") else if starred then Some("green") else None
  }

  /** The lines for one key: the entry itself, then its subtree one level deeper. */
  function Block(d: Dict, key: string, more: bool, changed: set<Path>, cur: Path, prefix: string): (r: seq<Line>)
    ensures |r| > 0
    ensures forall l :: l in r ==> StartsWith(l.lead, prefix)
    decreases d, 0
  {
    var sub := SubAt(d, key);
    var here := Child(cur, key);
    var star := if here in changed then "* " else "";
    var branch := if more then Tee else Corner;
    var inner := prefix + (if more then Bar else Gap);
    var line := Line(prefix + branch, star + key, Color(|sub.entries| > 0, star != ""));
    if |sub.entries| > 0 then
      assert (key, sub) in d.entries;
      var below := PrintPathTree(sub, changed, here, inner);
      BelowPrefix(line, below, prefix, branch, inner);
      [line] + below
    else
      BelowPrefix(line, [], prefix, branch, inner);
      assert [line] + [] == [line];
      [line]
  }

  /**
   * In a tree built from files, the line drawn for `key` at chain `p` is blue
   * exactly when some listed file lies below it, and green exactly when none
   * does and its path is among the changed files.
   */
  lemma BlockColor(files: seq<seq<string>>, p: seq<string>, key: string, more: bool, changed: set<Path>, cur: Path, prefix: string)
    requires Lookup(BuildPathTree(files), p).Some?
    ensures var line := Block(Lookup(BuildPathTree(files), p).value, key, more, changed, cur, prefix)[0];
            && (line.color == Some("blue") <==> exists i :: 0 <= i < |files| && Below(files[i], p, key))
            && (line.color == Some("green") <==> (forall i :: 0 <= i < |files| ==> !Below(files[i], p, key)) && Child(cur, key) in changed)
  {
    BuiltMirrors(files);
    DirectoryIffFileBelow(BuildPathTree(files), files, p, key);
  }

  /**
   * A key's first line carries the corner only if it is the last key; every
   * line below it continues the bar, or leaves a gap after the last key.
   */
  lemma {:induction false} BlockShape(d: Dict, key: string, more: bool, changed: set<Path>, cur: Path, prefix: string)
    ensures var r := Block(d, key, more, changed, cur, prefix);
            && r[0].lead == prefix + (if more then Tee else Corner)
            && (forall j :: 1 <= j < |r| ==> StartsWith(r[j].lead, prefix + (if more then Bar else Gap)))
    decreases d, 0
  {
    var sub := match Get(d, key) case Some(s) => s case None => Dict([]);
    var r := Block(d, key, more, changed, cur, prefix);
    var inner := prefix + (if more then Bar else Gap);
    if |sub.entries| > 0 {
      assert (key, sub) in d.entries;
      forall j | 1 <= j < |r|
        ensures StartsWith(r[j].lead, inner)
      {
        assert r[j] in PrintPathTree(sub, changed, Child(cur, key), inner);
      }
    }
  }

  /** The number of lines whose branch is exactly `lead`. */
  function CountLead(ls: seq<Line>, lead: string): nat
  {
    if |ls| == 0 then 0 else (if ls[0].lead == lead then 1 else 0) + CountLead(ls[1..], lead)
  }

  lemma {:induction false} CountLeadAppend(a: seq<Line>, b: seq<Line>, lead: string)
    ensures CountLead(a + b, lead) == CountLead(a, lead) + CountLead(b, lead)
  {
    if |a| > 0 {
      CountLeadAppend(a[1..], b, lead);
      assert (a + b)[1..] == a[1..] + b;
    } else {
      assert a + b == b;
    }
  }

  lemma {:induction false} CountLeadNone(ls: seq<Line>, lead: string)
    requires forall j :: 0 <= j < |ls| ==> ls[j].lead != lead
    ensures CountLead(ls, lead) == 0
  {
    if |ls| > 0 {
      CountLeadNone(ls[1..], lead);
    }
  }

  /** A key's block carries the corner at this level once if it is the last key, else never. */
  lemma BlockCorners(d: Dict, key: string, more: bool, changed: set<Path>, cur: Path, prefix: string)
    ensures CountLead(Block(d, key, more, changed, cur, prefix), prefix + Corner) == if more then 0 else 1
  {
    var r := Block(d, key, more, changed, cur, prefix);
    BlockShape(d, key, more, changed, cur, prefix);
    var inner := prefix + (if more then Bar else Gap);
    forall j | 0 <= j < |r[1..]|
      ensures r[1..][j].lead != prefix + Corner
    {
      assert StartsWith(r[j + 1].lead, inner);
      assert r[j + 1].lead[|prefix|] == inner[|prefix|];
      assert (prefix + Corner)[|prefix|] == '└';
    }
    CountLeadNone(r[1..], prefix + Corner);
    assert r == [r[0]] + r[1..];
    CountLeadAppend([r[0]], r[1..], prefix + Corner);
    if more {
      assert r[0].lead[|prefix|] == '├';
    }
  }

  lemma {:induction false} PrintKeysCorners(d: Dict, keys: seq<string>, i: nat, changed: set<Path>, cur: Path, prefix: string)
    requires |keys| == |Keys(d)|
    ensures CountLead(PrintKeys(d, keys, i, changed, cur, prefix), prefix + Corner) == if i < |keys| then 1 else 0
    decreases |keys| - i
  {
    if i < |keys| {
      BlockCorners(d, keys[i], i < |Keys(d)| - 1, changed, cur, prefix);
      PrintKeysCorners(d, keys, i + 1, changed, cur, prefix);
      CountLeadAppend(Block(d, keys[i], i < |Keys(d)| - 1, changed, cur, prefix),
                      PrintKeys(d, keys, i + 1, changed, cur, prefix), prefix + Corner);
    }
  }

  /** Each non-empty level of a tree built from files is closed by exactly one corner. */
  lemma PrintPathTreeCorner(d: Dict, changed: set<Path>, cur: Path, prefix: string)
    requires Proper(d)
    ensures CountLead(PrintPathTree(d, changed, cur, prefix), prefix + Corner) == if |d.entries| > 0 then 1 else 0
  {
    Lexical.SortedSetLength(Keys(d));
    PrintKeysCorners(d, Lexical.SortedSet(Keys(d)), 0, changed, cur, prefix);
  }
}

=== FILE: intervals.dfy ===
/**
 * Inclusive line intervals and the `"1,3-5"` interval syntax. The same class
 * and parser appear three times in the source (mentat/interval.py,
 * mentat/code_feature.py, mentat/code_file.py) with identical bodies; they are
 * modelled once here.
 */
module Intervals {
  import opened Wrappers
  import opened PyText

  /** An interval end: a line number, or `math.inf` for a whole-file feature. */
  datatype Bound = Finite(n: int) | Infinity

  datatype Interval = Interval(start: int, end: Bound)

  /** `n <= b` with `math.inf` above every integer. */
  predicate AtMost(n: int, b: Bound)
  {
    b.Infinity? || n <= b.n
  }

  /** `b < n`; never true for `math.inf`. */
  predicate Below(b: Bound, n: int)
  {
    b.Finite? && b.n < n
  }

  /** `Interval.contains`: inclusive at both ends. */
  predicate Contains(iv: Interval, line: int)
  {
    iv.start <= line && AtMost(line, iv.end)
  }

  /** `Interval.intersects`: neither interval ends before the other starts. */
  predicate Intersects(a: Interval, b: Interval)
  {
    !(Below(b.end, a.start) || Below(a.end, b.start))
  }

  /** The interval a whole-file feature gets: `Interval(0, math.inf)`. */
  const WholeFile: seq<Interval> := [Interval(0, Infinity)]

  /** `contains_line`: some interval of the feature contains the line. */
  function ContainsLine(ivs: seq<Interval>, line: int): (r: bool)
    ensures r <==> exists i :: 0 <= i < |ivs| && Contains(ivs[i], line)
  {
    if ivs == [] then false
    else
      var rest := ContainsLine(ivs[1..], line);
      assert rest <==> exists i :: 1 <= i < |ivs| && Contains(ivs[i], line) by {
        if rest {
          var i :| 0 <= i < |ivs[1..]| && Contains(ivs[1..][i], line);
          assert Contains(ivs[i + 1], line);
        }
        if exists i :: 1 <= i < |ivs| && Contains(ivs[i], line) {
          var i :| 1 <= i < |ivs| && Contains(ivs[i], line);
          assert Contains(ivs[1..][i - 1], line);
        }
      }
      Contains(ivs[0], line) || rest
  }

  // ---------------------------------------------------------------------------
  // Properties of the interval predicates

  /** A non-empty interval: its start is not past its end. */
  predicate Proper(iv: Interval)
  {
    AtMost(iv.start, iv.end)
  }

  /** Two non-empty intervals intersect exactly when some line lies in both. */
  lemma IntersectsIffCommonLine(a: Interval, b: Interval)
    requires Proper(a) && Proper(b)
    ensures Intersects(a, b) <==> exists line :: Contains(a, line) && Contains(b, line)
  {
    if Intersects(a, b) {
      var m := if a.start < b.start then b.start else a.start;
      assert Contains(a, m) && Contains(b, m);
    }
  }

  lemma IntersectsSymmetric(a: Interval, b: Interval)
    ensures Intersects(a, b) <==> Intersects(b, a)
  {
  }

  /** A reversed interval such as `"5-3"` contains no line yet can intersect. */
  lemma ReversedIntervalIntersects()
    ensures Intersects(Interval(5, Finite(3)), Interval(2, Finite(6)))
    ensures forall line :: !Contains(Interval(5, Finite(3)), line)
  {
  }

  lemma WholeFileContainsEveryLine(line: int)
    requires line >= 0
    ensures ContainsLine(WholeFile, line)
  {
    assert Contains(WholeFile[0], line);
  }

  // ---------------------------------------------------------------------------
  // Parsing

  /** One comma-separated piece: `"n"` or `"a-b"`, split at the first `-`. */
  function ParsePiece(piece: string): (r: Option<Interval>)
    ensures r.Some? ==> r.value.end.Finite?
  {
    var parts := SplitOnce(piece, '-');
    if |parts| == 1 then
      match ParseInt(parts[0])
      case None => None
      case Some(n) => Some(Interval(n, Finite(n)))
    else
      match (ParseInt(parts[0]), ParseInt(parts[1]))
      case (Some(a), Some(b)) => Some(Interval(a, Finite(b)))
      case _ => None
  }

  /** `parse_intervals`: one interval per comma piece, or `[]` if any piece is bad. */
  function ParseIntervals(text: string): seq<Interval>
  {
    match Traverse(Split(text, ','), ParsePiece)
    case None => []
    case Some(ivs) => ivs
  }

  /** Renders an interval the way `"a-b"` is written. */
  function FormatInterval(iv: Interval): string
    requires iv.end.Finite?
  {
    IntToString(iv.start) + "-" + IntToString(iv.end.n)
  }

  function FormatPieces(ivs: seq<Interval>): (r: seq<string>)
    requires forall i :: 0 <= i < |ivs| ==> ivs[i].end.Finite?
    ensures |r| == |ivs|
    ensures forall i :: 0 <= i < |ivs| ==> r[i] == FormatInterval(ivs[i])
  {
    if ivs == [] then [] else [FormatInterval(ivs[0])] + FormatPieces(ivs[1..])
  }

  lemma NoSeparatorInNumber(n: nat, c: char)
    requires !IsDigit(c)
    ensures c !in NatToString(n)
  {
  }

  /** `"n"` parses to `[Interval(n, n)]`. */
  lemma ParseSingle(n: nat)
    ensures ParseIntervals(NatToString(n)) == [Interval(n, Finite(n))]
  {
    var s := NatToString(n);
    NoSeparatorInNumber(n, ',');
    NoSeparatorInNumber(n, '-');
    assert IndexOf(s, ',') == -1;
    assert Split(s, ',') == [s];
    ParseIntToString(n);
    assert ParsePiece(s) == Some(Interval(n, Finite(n)));
  }

  /** `"a-b"` parses to `[Interval(a, b)]`; the end may be negative. */
  lemma ParseRange(a: nat, b: int)
    ensures ParseIntervals(FormatInterval(Interval(a, Finite(b)))) == [Interval(a, Finite(b))]
  {
    var iv := Interval(a, Finite(b));
    RoundTrip([iv]);
    assert FormatPieces([iv]) == [FormatInterval(iv)];
  }

  lemma ParsePieceRoundTrip(iv: Interval)
    requires iv.start >= 0 && iv.end.Finite?
    ensures ParsePiece(FormatInterval(iv)) == Some(iv)
    ensures ',' !in FormatInterval(iv)
  {
    var a := NatToString(iv.start);
    var b := IntToString(iv.end.n);
    NoSeparatorInNumber(iv.start, '-');
    NoSeparatorInNumber(iv.start, ',');
    if iv.end.n >= 0 {
      NoSeparatorInNumber(iv.end.n, ',');
    } else {
      NoSeparatorInNumber(-iv.end.n, ',');
      assert b == "-" + NatToString(-iv.end.n);
    }
    assert FormatInterval(iv) == a + ['-'] + b;
    SplitOnceAt(a, '-', b);
    ParseIntToString(iv.start);
    ParseIntToString(iv.end.n);
  }

  /**
   * Writing non-empty intervals with non-negative starts as `"a-b,c-d"` and
   * parsing the text back gives the same intervals.
   */
  lemma RoundTrip(ivs: seq<Interval>)
    requires |ivs| >= 1
    requires forall i :: 0 <= i < |ivs| ==> ivs[i].start >= 0 && ivs[i].end.Finite?
    ensures ParseIntervals(Join(FormatPieces(ivs), ',')) == ivs
  {
    var pieces := FormatPieces(ivs);
    forall i | 0 <= i < |ivs| ensures ParsePiece(pieces[i]) == Some(ivs[i]) && ',' !in pieces[i] {
      ParsePieceRoundTrip(ivs[i]);
    }
    SplitJoin(pieces, ',');
    TraverseAllSome(pieces, ParsePiece, ivs);
  }

  /** A bad component anywhere (`"3-"`, `"x"`, a leading `-`) empties the result. */
  lemma BadPieceEmptiesResult(text: string, i: nat)
    requires i < |Split(text, ',')| && ParsePiece(Split(text, ',')[i]).None?
    ensures ParseIntervals(text) == []
  {
  }

  lemma ParseExamples()
    ensures ParseIntervals("3-") == []
    ensures ParseIntervals("x") == []
    ensures ParseIntervals("-3") == []
  {
    SplitOnceAt("3", '-', "");
    assert "3" + ['-'] + "" == "3-";
    SplitWithoutSeparator("3-", ',');
    assert ParsePiece("3-") == None;
    SplitWithoutSeparator("x", ',');
    SplitWithoutSeparator("x", '-');
    assert ParsePiece("x") == None;
    SplitOnceAt("", '-', "3");
    assert "" + ['-'] + "3" == "-3";
    SplitWithoutSeparator("-3", ',');
    assert ParsePiece("-3") == None;
  }
}

=== FILE: lexical.dfy ===
// Code-point order on strings, as Python compares `str` (and single-part
// `Path` values), and `sorted(set_of_names)` on top of it.

module Lexical {

  /** `a < b` in Python: a proper prefix is smaller, otherwise the first
      differing character decides. */
  predicate Less(a: string, b: string)
  {
    if |a| == 0 then |b| > 0
    else if |b| == 0 then false
    else a[0] < b[0] || (a[0] == b[0] && Less(a[1..], b[1..]))
  }

  lemma {:induction false} LessIrreflexive(a: string)
    ensures !Less(a, a)
  {
    if |a| > 0 {
      LessIrreflexive(a[1..]);
    }
  }

  lemma {:induction false} LessTransitive(a: string, b: string, c: string)
    requires Less(a, b) && Less(b, c)
    ensures Less(a, c)
  {
    if |a| > 0 && |b| > 0 && |c| > 0 && a[0] == b[0] && b[0] == c[0] {
      LessTransitive(a[1..], b[1..], c[1..]);
    }
  }

  lemma {:induction false} LessTotal(a: string, b: string)
    ensures a == b || Less(a, b) || Less(b, a)
  {
    if |a| > 0 && |b| > 0 && a[0] == b[0] {
      LessTotal(a[1..], b[1..]);
      if a[1..] == b[1..] {
        assert a == [a[0]] + a[1..] && b == [b[0]] + b[1..];
      }
    }
  }

  lemma LessAsymmetric(a: string, b: string)
    requires Less(a, b)
    ensures !Less(b, a)
  {
    if Less(b, a) {
      LessTransitive(a, b, a);
      LessIrreflexive(a);
    }
  }

  function Elements(s: seq<string>): (r: set<string>)
    ensures forall e :: e in r <==> e in s
  {
    set e | e in s
  }

  /** Strictly ascending: sorted and free of duplicates, as a sorted set is. */
  predicate Ascending(s: seq<string>)
  {
    forall i, j :: 0 <= i < j < |s| ==> Less(s[i], s[j])
  }

  function Insert(x: string, s: seq<string>): seq<string>
  {
    if |s| == 0 then [x]
    else if x == s[0] then s
    else if Less(x, s[0]) then [x] + s
    else [s[0]] + Insert(x, s[1..])
  }

  /** `sorted(set(s))`: the distinct elements of `s` in ascending order. */
  function SortedSet(s: seq<string>): seq<string>
  {
    if |s| == 0 then [] else Insert(s[0], SortedSet(s[1..]))
  }

  lemma {:induction false} InsertFacts(x: string, s: seq<string>)
    requires Ascending(s)
    ensures Ascending(Insert(x, s))
    ensures Elements(Insert(x, s)) == Elements(s) + {x}
  {
    if |s| > 0 && x != s[0] && !Less(x, s[0]) {
      InsertFacts(x, s[1..]);
      LessTotal(x, s[0]);
      var r := Insert(x, s[1..]);
      assert Insert(x, s) == [s[0]] + r;
      forall e | e in r
        ensures Less(s[0], e)
      {
        if e != x {
          assert e in s[1..];
        }
      }
      forall i, j | 0 <= i < j < |[s[0]] + r|
        ensures Less(([s[0]] + r)[i], ([s[0]] + r)[j])
      {
        if i == 0 {
          assert ([s[0]] + r)[j] == r[j - 1];
        }
      }
    } else if |s| > 0 && x != s[0] {
      forall j | 0 < j < |s|
        ensures Less(x, s[j])
      {
        LessTransitive(x, s[0], s[j]);
      }
    }
  }

  lemma {:induction false} SortedSetFacts(s: seq<string>)
    ensures Ascending(SortedSet(s))
    ensures Elements(SortedSet(s)) == Elements(s)
  {
    if |s| > 0 {
      SortedSetFacts(s[1..]);
      InsertFacts(s[0], SortedSet(s[1..]));
      assert s == [s[0]] + s[1..];
    }
  }

  lemma FirstIsLeast(s: seq<string>, e: string)
    requires Ascending(s) && e in s
    ensures |s| > 0 && !Less(e, s[0])
  {
    var j :| 0 <= j < |s| && s[j] == e;
    if j > 0 {
      LessAsymmetric(s[0], e);
    } else {
      LessIrreflexive(e);
    }
  }

  /** No element occurs twice, as for the keys of a dictionary. */
  predicate Distinct(xs: seq<string>)
  {
    forall i, j :: 0 <= i < j < |xs| ==> xs[i] != xs[j]
  }

  lemma {:induction false} InsertLength(x: string, s: seq<string>)
    requires x !in s
    ensures |Insert(x, s)| == |s| + 1
  {
    if |s| > 0 && !Less(x, s[0]) {
      InsertLength(x, s[1..]);
    }
  }

  /** Sorting a duplicate-free sequence keeps every element: `len(sorted(keys)) == len(keys)`. */
  lemma {:induction false} SortedSetLength(s: seq<string>)
    requires Distinct(s)
    ensures |SortedSet(s)| == |s|
  {
    if |s| > 0 {
      assert Distinct(s[1..]) by {
        forall i, j | 0 <= i < j < |s[1..]|
          ensures s[1..][i] != s[1..][j]
        {
          assert s[1..][i] == s[i + 1] && s[1..][j] == s[j + 1];
        }
      }
      SortedSetLength(s[1..]);
      SortedSetFacts(s[1..]);
      assert s[0] !in SortedSet(s[1..]) by {
        forall j | 0 <= j < |s[1..]|
          ensures s[1..][j] != s[0]
        {
          assert s[1..][j] == s[j + 1];
        }
        assert s[0] !in Elements(s[1..]);
      }
      InsertLength(s[0], SortedSet(s[1..]));
    }
  }

  /** Two ascending sequences with the same elements are equal: the sorted
      order of a set does not depend on how the set was listed. */
  lemma {:induction false} AscendingUnique(s: seq<string>, t: seq<string>)
    requires Ascending(s) && Ascending(t)
    requires Elements(s) == Elements(t)
    ensures s == t
  {
    assert |s| == 0 <==> |t| == 0 by {
      if |s| > 0 {
        assert s[0] in Elements(t);
      }
      if |t| > 0 {
        assert t[0] in Elements(s);
      }
    }
    if |s| > 0 {
      assert s[0] in Elements(t) && t[0] in Elements(s);
      FirstIsLeast(s, t[0]);
      FirstIsLeast(t, s[0]);
      LessTotal(s[0], t[0]);
      forall e | e in s[1..]
        ensures e in t[1..]
      {
        assert Less(s[0], e);
        LessIrreflexive(e);
        assert e in Elements(t);
      }
      forall e | e in t[1..]
        ensures e in s[1..]
      {
        assert Less(t[0], e);
        LessIrreflexive(e);
        assert e in Elements(s);
      }
      assert Elements(s[1..]) == Elements(t[1..]);
      AscendingUnique(s[1..], t[1..]);
      assert s == [s[0]] + s[1..] && t == [t[0]] + t[1..];
    }
  }
}

=== FILE: llm_api.dfy ===
// `mentat/llm_api.py` and `mentat/llm_api_handler.py`: the guard against
// model calls from tests, the choice between the 8k and 32k models, and the
// integer token accounting around a prompt. The tokenizer is a parameter.

module LlmApi {
  import opened Wrappers
  import opened PyText

  datatype Failure = KeyError | UserError | MentatError | AssertionError

  // ---------------------------------------------------------------- test guard

  /** What the guards read: whether pytest runs a test, the command line, and `MENTAT_BENCHMARKS_RUNNING`. */
  datatype Environment = Environment(pytestRunning: bool, argv: seq<string>, benchmarksRunning: Option<string>)

  /** Python's truth value of an optional string: set and non-empty. */
  predicate Truthy(v: Option<string>)
  {
    v.Some? && v.value != ""
  }

  /**
   * `is_test_environment`: a pytest run that is not a benchmark run, that is,
   * `--benchmark` is not on the command line and the benchmark flag is unset,
   * empty, or exactly `false`.
   */
  predicate IsTestEnvironment(env: Environment): (r: bool)
    ensures r <==> env.pytestRunning && "--benchmark" !in env.argv
                   && (env.benchmarksRunning.None? || env.benchmarksRunning.value in {"", "false"})
  {
    && env.pytestRunning
    && "--benchmark" !in env.argv
    && (!Truthy(env.benchmarksRunning) || env.benchmarksRunning == Some("false"))
  }

  /** The decorator `api_guard`: a call from a non-benchmark test fails its assertion. */
  function ApiGuard(env: Environment): (r: Result<(), Failure>)
    ensures r.Err? <==> env.pytestRunning && "--benchmark" !in env.argv
                         && (env.benchmarksRunning.None? || env.benchmarksRunning.value in {"", "false"})
    ensures r.Err? ==> r.error == AssertionError
  {
    if IsTestEnvironment(env) then Err(AssertionError) else Ok(())
  }

  /**
   * The guard at the top of `call_llm_api` as written: it fires only when
   * the benchmark flag is set to exactly `false`.
   */
  function CallGuardAsWritten(env: Environment): (r: Result<(), Failure>)
    ensures r.Err? <==> env.pytestRunning && "--benchmark" !in env.argv && env.benchmarksRunning == Some("false")
    ensures r.Err? ==> r.error == MentatError
  {
    if env.pytestRunning && "--benchmark" !in env.argv && env.benchmarksRunning == Some("false") then Err(MentatError)
    else Ok(())
  }

  /** Whatever the written guard stops, the test-environment check stops too. */
  lemma GuardAsWrittenWeaker(env: Environment)
    ensures CallGuardAsWritten(env).Err? ==> ApiGuard(env).Err?
  {
  }

  /** A plain pytest run, with the benchmark flag unset, passes the written guard. */
  lemma UnsetFlagSlipsThrough(env: Environment)
    requires env.pytestRunning && env.argv == ["pytest"] && env.benchmarksRunning.None?
    ensures CallGuardAsWritten(env).Ok?
    ensures IsTestEnvironment(env)
  {
  }

  /** The guard `call_llm_api` evidently means: the same test-environment check as `api_guard`. */
  function CallGuard(env: Environment): (r: Result<(), Failure>)
    ensures r.Err? <==> IsTestEnvironment(env)
    ensures CallGuardAsWritten(env).Err? ==> r == CallGuardAsWritten(env)
    ensures r.Err? ==> r.error == MentatError
  {
    if IsTestEnvironment(env) then Err(MentatError) else Ok(())
  }

  // ---------------------------------------------------------------- model choice

  const Gpt4: string := "gpt-4-0314"
  const Gpt4With32k: string := "gpt-4-32k-0314"
  /** Tokens kept free for the reply. */
  const TokenBuffer: int := 500

  /** The summed token count of every message's `content`; a message without one raises `KeyError`. */
  function ContentTokens(messages: seq<map<string, string>>, countTokens: string -> nat): (r: Result<nat, Failure>)
    ensures r.Err? <==> exists i :: 0 <= i < |messages| && "content" !in messages[i]
    ensures r.Err? ==> r.error == KeyError
    ensures r.Ok? && |messages| > 0 ==> r.value >= countTokens(messages[0]["content"])
  {
    if |messages| == 0 then Ok(0)
    else
      assert forall i :: 1 <= i < |messages| ==> messages[i] == messages[1..][i - 1];
      if "content" !in messages[0] then Err(KeyError)
      else
        match ContentTokens(messages[1..], countTokens)
        case Err(e) => Err(e)
        case Ok(rest) => Ok(countTokens(messages[0]["content"]) + rest)
  }

  /** Counting two conversations' messages together adds their counts. */
  lemma {:induction false} ContentTokensAppend(a: seq<map<string, string>>, b: seq<map<string, string>>, countTokens: string -> nat)
    requires ContentTokens(a, countTokens).Ok? && ContentTokens(b, countTokens).Ok?
    ensures ContentTokens(a + b, countTokens) == Ok(ContentTokens(a, countTokens).value + ContentTokens(b, countTokens).value)
  {
    if |a| == 0 {
      assert a + b == b;
    } else {
      assert (a + b)[1..] == a[1..] + b;
      assert (a + b)[0] == a[0];
      assert ContentTokens(a[1..], countTokens).Ok?;
      ContentTokensAppend(a[1..], b, countTokens);
    }
  }

  /** The model for a prompt of `count` tokens. */
  function ModelFor(count: int, allow32k: bool): (model: string)
    ensures model == Gpt4 || model == Gpt4With32k
    ensures model == Gpt4With32k <==> allow32k && count + TokenBuffer > 8192
  {
    if count > 8192 - TokenBuffer && allow32k then Gpt4With32k else Gpt4
  }

  /** `choose_model`: the model and the token count, as a pair. */
  function ChooseModel(messages: seq<map<string, string>>, allow32k: bool, countTokens: string -> nat): (r: Result<(string, nat), Failure>)
    ensures r.Err? <==> exists i :: 0 <= i < |messages| && "content" !in messages[i]
    ensures r.Ok? ==> Ok(r.value.1) == ContentTokens(messages, countTokens)
    ensures r.Ok? ==> (r.value.0 == Gpt4With32k <==> allow32k && r.value.1 > 7692)
    ensures r.Ok? && !allow32k ==> r.value.0 == Gpt4
  {
    var count :- ContentTokens(messages, countTokens);
    Ok((ModelFor(count, allow32k), count))
  }

  /** More messages never move the choice back from the 32k model. */
  lemma LongerConversationKeeps32k(a: seq<map<string, string>>, b: seq<map<string, string>>, countTokens: string -> nat)
    requires ChooseModel(a, true, countTokens).Ok? && ChooseModel(a, true, countTokens).value.0 == Gpt4With32k
    requires ContentTokens(b, countTokens).Ok?
    ensures ChooseModel(a + b, true, countTokens).Ok?
    ensures ChooseModel(a + b, true, countTokens).value.0 == Gpt4With32k
  {
    ContentTokensAppend(a, b, countTokens);
  }

  /**
   * `check_model_availability`: `allow32k` survives only when the 32k model
   * is available; without it the 8k model must be.
   */
  function CheckModelAvailability(allow32k: bool, available: seq<string>): (r: Result<bool, Failure>)
    ensures r.Ok? ==> r.value == (allow32k && Gpt4With32k in available)
    ensures r.Err? <==> Gpt4 !in available && !(allow32k && Gpt4With32k in available)
    ensures r.Err? ==> r.error == UserError
  {
    var allowed := allow32k && Gpt4With32k in available;
    if !allowed && Gpt4 !in available then Err(UserError) else Ok(allowed)
  }

  /**
   * After a successful check the chosen model is one the key can use,
   * except for a short prompt when only the 32k model is available.
   */
  lemma ChosenModelAvailable(allow32k: bool, available: seq<string>, count: int)
    requires CheckModelAvailability(allow32k, available).Ok?
    ensures var allowed := CheckModelAvailability(allow32k, available).value;
            ModelFor(count, allowed) in available || (allowed && count <= 8192 - TokenBuffer && Gpt4 !in available)
  {
  }

  // ---------------------------------------------------------------- handler accounting

  /** `chunk_to_lines`: the first choice's delta content, cut after each line break. */
  function ChunkToLines(choices: seq<Option<string>>): (r: seq<string>)
    ensures |choices| == 0 || choices[0].None? ==> r == []
    ensures Concat(r) == if |choices| > 0 && choices[0].Some? then choices[0].value else ""
    ensures forall i :: 0 <= i < |r| ==> IsLinePiece(r[i])
  {
    var content := if |choices| > 0 && choices[0].Some? then choices[0].value else "";
    SplitLinesKeepEndsConcat(content);
    SplitLinesKeepEndsPieces(content);
    SplitLinesKeepEnds(content)
  }

  /**
   * Each piece but the last ends in a line break, so it is one whole line,
   * and a `\r\n` pair always stays within one piece.
   */
  lemma ChunkLinesEndInBreaks(choices: seq<Option<string>>)
    ensures var r := ChunkToLines(choices);
            forall i :: 0 <= i < |r| - 1 ==> EndsWithBreak(r[i]) && !SplitsCrLf(r[i], r[i + 1])
  {
    var content := if |choices| > 0 && choices[0].Some? then choices[0].value else "";
    SplitLinesKeepEndsPieces(content);
  }

  /** A lone carriage return ends a line just as a line feed does. */
  lemma CarriageReturnEndsLine()
    ensures ChunkToLines([Some("a\rb")]) == ["a\r", "b"]
  {
    var s := "a\rb";
    assert FirstBreak(s) == 1 by {
      assert !IsLineBreak(s[0]) && IsLineBreak(s[1]);
    }
    assert BreakEnd(s, 1) == 2;
    var t := s[2..];
    assert t == "b";
    assert FirstBreak(t) == 1;
    assert SplitLinesKeepEnds(t) == [t];
    assert s[..2] == "a\r";
  }

  function Min(a: int, b: int): int { if a <= b then a else b }

  /** The fallback window when neither the model nor the configuration gives one. */
  const DefaultMaximumContext: int := 4096

  /**
   * `get_max_tokens`: the tighter of the model's context size and the
   * configured maximum, whichever is known, else 4096, which is then written
   * into the configuration. Returns the limit and the configured maximum after.
   */
  function GetMaxTokens(contextSize: Option<int>, maximumContext: Option<int>): (r: (int, Option<int>))
    ensures contextSize.Some? ==> r.0 <= contextSize.value
    ensures maximumContext.Some? ==> r.0 <= maximumContext.value
    ensures r.0 == DefaultMaximumContext || (contextSize.Some? && r.0 == contextSize.value) || (maximumContext.Some? && r.0 == maximumContext.value)
    ensures contextSize.None? && maximumContext.None? <==> r.1 != maximumContext
    ensures contextSize.None? ==> r.1 == Some(r.0)
  {
    match (contextSize, maximumContext)
    case (Some(c), Some(m)) => (Min(c, m), maximumContext)
    case (Some(c), None) => (c, maximumContext)
    case (None, Some(m)) => (m, maximumContext)
    case (None, None) => (DefaultMaximumContext, Some(DefaultMaximumContext))
  }

  /** Once the default is written back, asking again gives the same limit and changes nothing. */
  lemma GetMaxTokensStable(contextSize: Option<int>, maximumContext: Option<int>)
    ensures var (limit, after) := GetMaxTokens(contextSize, maximumContext);
            GetMaxTokens(contextSize, after) == (limit, after)
  {
  }

  /**
   * `is_context_sufficient`: the prompt fits when the token buffer still
   * fits beside it. Returns the verdict and the configured maximum after.
   */
  function IsContextSufficient(tokens: int, tokenBuffer: int, contextSize: Option<int>, maximumContext: Option<int>): (r: (bool, Option<int>))
    ensures r.0 <==> tokens + tokenBuffer <= GetMaxTokens(contextSize, maximumContext).0
    ensures r.1 == GetMaxTokens(contextSize, maximumContext).1
  {
    var (maxTokens, after) := GetMaxTokens(contextSize, maximumContext);
    (!(maxTokens - tokens < tokenBuffer), after)
  }

  /** A smaller prompt still fits when a larger one does. */
  lemma SufficientDownward(tokens: int, fewer: int, tokenBuffer: int, contextSize: Option<int>, maximumContext: Option<int>)
    requires fewer <= tokens
    requires IsContextSufficient(tokens, tokenBuffer, contextSize, maximumContext).0
    ensures IsContextSufficient(fewer, tokenBuffer, contextSize, maximumContext).0
  {
  }

  /** `_open_ai_count_tokens`: the encoded length, plus the 4 framing tokens of a whole message. */
  function OpenAiCountTokens(message: string, fullMessage: bool, encode: string -> nat): (r: nat)
    ensures r >= encode(message)
    ensures r - encode(message) == if fullMessage then 4 else 0
  {
    encode(message) + if fullMessage then 4 else 0
  }

  /** One part of a list `content`. */
  datatype Part = TextPart(text: string) | ImagePart(url: string) | UntypedPart | OtherPart

  /** A message field's value: a string, a list of parts, or anything else. */
  datatype Field = StrField(s: string) | PartsField(parts: seq<Part>) | OtherField

  /** A message as its `items()`, in order. */
  type Message = seq<(string, Field)>

  /** The parts of a list `content`; a part without `type` raises `KeyError`. */
  function PartsTokens(parts: seq<Part>, encode: string -> nat, imageTokens: string -> nat): (r: Result<nat, Failure>)
    ensures r.Err? <==> UntypedPart in parts
    ensures r.Err? ==> r.error == KeyError
  {
    if |parts| == 0 then Ok(0)
    else
      assert forall p :: p in parts[1..] ==> p in parts;
      assert parts == [parts[0]] + parts[1..];
      var rest :- PartsTokens(parts[1..], encode, imageTokens);
      match parts[0]
      case TextPart(t) => Ok(encode(t) + rest)
      case ImagePart(u) => Ok(imageTokens(u) + rest)
      case UntypedPart => Err(KeyError)
      case OtherPart => Ok(rest)
  }

  /** One field: strings are encoded, a list counts only under `content`, and a `name` replaces the role token. */
  function FieldTokens(key: string, value: Field, encode: string -> nat, imageTokens: string -> nat): (r: Result<int, Failure>)
    ensures value.StrField? ==> r == Ok(encode(value.s) - (if key == "name" then 1 else 0))
    ensures value.OtherField? || (value.PartsField? && key != "content") ==> r == Ok(if key == "name" then -1 else 0)
  {
    var counted: int :- if key == "content" && value.PartsField? then PartsTokens(value.parts, encode, imageTokens)
                   else if value.StrField? then Ok(encode(value.s))
                   else Ok(0);
    Ok(counted - if key == "name" then 1 else 0)
  }

  /** The fields of one message, after its 4 framing tokens. */
  function FieldsTokens(fields: Message, encode: string -> nat, imageTokens: string -> nat): (r: Result<int, Failure>)
  {
    if |fields| == 0 then Ok(0)
    else
      var here :- FieldTokens(fields[0].0, fields[0].1, encode, imageTokens);
      var rest :- FieldsTokens(fields[1..], encode, imageTokens);
      Ok(here + rest)
  }

  /** The messages' count before the reply's 2 priming tokens. */
  function MessagesTokens(messages: seq<Message>, encode: string -> nat, imageTokens: string -> nat): (r: Result<int, Failure>)
    ensures |messages| == 0 ==> r == Ok(0)
  {
    if |messages| == 0 then Ok(0)
    else
      var here :- FieldsTokens(messages[0], encode, imageTokens);
      var rest :- MessagesTokens(messages[1..], encode, imageTokens);
      Ok(4 + here + rest)
  }

  /** `_open_ai_prompt_tokens` with image sizes given by `imageTokens`. */
  function PromptTokens(messages: seq<Message>, encode: string -> nat, imageTokens: string -> nat): (r: Result<int, Failure>)
    ensures MessagesTokens(messages, encode, imageTokens).Ok? <==> r.Ok?
    ensures r.Ok? ==> r.value == MessagesTokens(messages, encode, imageTokens).value + 2
    ensures |messages| == 0 ==> r == Ok(2)
  {
    var n :- MessagesTokens(messages, encode, imageTokens);
    Ok(n + 2)
  }

  /** Counting a prompt in two pieces counts the priming tokens once too many. */
  lemma {:induction false} PromptTokensAppend(a: seq<Message>, b: seq<Message>, encode: string -> nat, imageTokens: string -> nat)
    requires PromptTokens(a, encode, imageTokens).Ok? && PromptTokens(b, encode, imageTokens).Ok?
    ensures PromptTokens(a + b, encode, imageTokens)
            == Ok(PromptTokens(a, encode, imageTokens).value + PromptTokens(b, encode, imageTokens).value - 2)
  {
    MessagesTokensAppend(a, b, encode, imageTokens);
  }

  lemma {:induction false} MessagesTokensAppend(a: seq<Message>, b: seq<Message>, encode: string -> nat, imageTokens: string -> nat)
    requires MessagesTokens(a, encode, imageTokens).Ok? && MessagesTokens(b, encode, imageTokens).Ok?
    ensures MessagesTokens(a + b, encode, imageTokens)
            == Ok(MessagesTokens(a, encode, imageTokens).value + MessagesTokens(b, encode, imageTokens).value)
  {
    if |a| == 0 {
      assert a + b == b;
    } else {
      assert (a + b)[1..] == a[1..] + b;
      assert (a + b)[0] == a[0];
      assert MessagesTokens(a[1..], encode, imageTokens).Ok?;
      MessagesTokensAppend(a[1..], b, encode, imageTokens);
    }
  }

  /**
   * A plain `role` and `content` message costs what `_open_ai_count_tokens`
   * gives its content as a full message, plus the role and the priming tokens.
   */
  lemma SingleMessage(role: string, content: string, encode: string -> nat, imageTokens: string -> nat)
    ensures PromptTokens([[("role", StrField(role)), ("content", StrField(content))]], encode, imageTokens)
            == Ok(OpenAiCountTokens(content, true, encode) + encode(role) + 2)
  {
    var fields: Message := [("role", StrField(role)), ("content", StrField(content))];
    assert fields[1..][1..] == [];
    assert FieldsTokens(fields[1..], encode, imageTokens) == Ok(encode(content));
    assert FieldsTokens(fields, encode, imageTokens) == Ok(encode(role) + encode(content));
    var ms := [fields];
    assert ms[1..] == [];
    assert MessagesTokens(ms, encode, imageTokens) == Ok(4 + encode(role) + encode(content));
  }

  /** A `name` field costs its encoding less the role token it stands in for. */
  lemma NameField(fields: Message, name: string, encode: string -> nat, imageTokens: string -> nat)
    requires FieldsTokens(fields, encode, imageTokens).Ok?
    ensures FieldsTokens([("name", StrField(name))] + fields, encode, imageTokens)
            == Ok(FieldsTokens(fields, encode, imageTokens).value + encode(name) - 1)
  {
    assert ([("name", StrField(name))] + fields)[1..] == fields;
  }
}

=== FILE: lsp_settings.dfy ===
// `vscode/bundled/tool/lsp_server.py`: the import-path update, the choice of
// bundled tokenizer wheel, and the per-workspace settings table with its
// nearest-ancestor lookup.

module LspSettings {
  import opened Wrappers
  import opened PyText
  import opened PathParts
  import opened Values
  import Dicts

  datatype Failure = KeyError | IndexError | ValueError

  /** One settings dictionary, as the editor sends it. */
  type Settings = map<string, Value>

  /** `WORKSPACE_SETTINGS`: settings by workspace key, in insertion order. */
  type Workspaces = seq<(string, Settings)>

  // ---------------------------------------------------------------- sys.path

  /**
   * `update_sys_path`: a directory not yet on the path is put in front for
   * `useBundled` and at the end for `fromEnvironment`; nothing else changes.
   */
  function UpdateSysPath(sysPath: seq<string>, p: string, strategy: string, isDir: bool): (r: seq<string>)
    ensures p in r <==> p in sysPath || (isDir && (strategy == "useBundled" || strategy == "fromEnvironment"))
    ensures forall x :: x != p ==> (x in r <==> x in sysPath)
    ensures p in sysPath || !isDir ==> r == sysPath
    ensures p !in sysPath && p in r ==> |r| == |sysPath| + 1
    ensures p !in sysPath && p in r && strategy == "useBundled" ==> r[0] == p && r[1..] == sysPath
    ensures p !in sysPath && p in r && strategy != "useBundled" ==> r[..|sysPath|] == sysPath && r[|sysPath|] == p
  {
    if p !in sysPath && isDir then
      if strategy == "useBundled" then [p] + sysPath
      else if strategy == "fromEnvironment" then sysPath + [p]
      else sysPath
    else sysPath
  }

  /** Adding the same directory twice is the same as adding it once. */
  lemma UpdateSysPathIdempotent(sysPath: seq<string>, p: string, strategy: string, isDir: bool)
    ensures var once := UpdateSysPath(sysPath, p, strategy, isDir);
            UpdateSysPath(once, p, strategy, isDir) == once
  {
  }

  // ---------------------------------------------------------------- wheels

  /** `int(name.split('-')[2][2:])`: the interpreter tag of a wheel file name, `cp311` read as 311. */
  function WheelTag(name: string): (r: Result<int, Failure>)
    ensures r == Err(IndexError) <==> |Split(name, '-')| < 3
    ensures r.Err? ==> r.error == IndexError || r.error == ValueError
  {
    var pieces := Split(name, '-');
    if |pieces| < 3 then Err(IndexError)
    else
      match ParseInt(SliceFrom(pieces[2], 2))
      case None => Err(ValueError)
      case Some(v) => Ok(v)
  }

  /** The third `-`-separated piece of a name, when the first two and it hold no `-`. */
  lemma ThirdPiece(dist: string, version: string, t: string, rest: string)
    requires '-' !in dist && '-' !in version && '-' !in t
    requires rest == [] || rest[0] == '-'
    ensures var pieces := Split(dist + "-" + version + "-" + t + rest, '-');
            |pieces| >= 3 && pieces[2] == t
  {
    var pieces := TailPieces(t, rest);
    var name := dist + "-" + version + "-" + t + rest;
    assert Split(name, '-') == [dist] + ([version] + pieces) by {
      Regroup(dist, version, t, rest);
      SplitAt(version, '-', t + rest);
      SplitAt(dist, '-', version + ['-'] + (t + rest));
    }
  }

  lemma Regroup(dist: string, version: string, t: string, rest: string)
    ensures dist + "-" + version + "-" + t + rest == dist + ['-'] + (version + ['-'] + (t + rest))
  {
  }

  lemma TailPieces(t: string, rest: string) returns (pieces: seq<string>)
    requires '-' !in t
    requires rest == [] || rest[0] == '-'
    ensures pieces == Split(t + rest, '-') && pieces[0] == t
  {
    pieces := Split(t + rest, '-');
    if rest == [] {
      assert t + rest == t;
      SplitWithoutSeparator(t, '-');
    } else {
      assert t + rest == t + ['-'] + rest[1..];
      SplitAt(t, '-', rest[1..]);
    }
  }

  /** A wheel named `dist-version-cpNN...` carries the tag NN. */
  lemma WheelTagOf(dist: string, version: string, tag: nat, rest: string)
    requires '-' !in dist && '-' !in version
    requires rest == [] || rest[0] == '-'
    ensures WheelTag(dist + "-" + version + "-cp" + NatToString(tag) + rest) == Ok(tag)
  {
    var digits := NatToString(tag);
    DigitsHaveNoDash(tag);
    CpPiece(dist, version, digits, rest);
    ThirdPiece(dist, version, "cp" + digits, rest);
    assert IntToString(tag) == digits;
    ParseIntToString(tag);
  }

  lemma DigitsHaveNoDash(n: nat)
    ensures '-' !in NatToString(n)
  {
  }

  /** The `cp` tag piece: no `-` in it, and the digits follow its two letters. */
  lemma CpPiece(dist: string, version: string, digits: string, rest: string)
    requires '-' !in digits
    ensures dist + "-" + version + "-cp" + digits + rest == dist + "-" + version + "-" + ("cp" + digits) + rest
    ensures '-' !in "cp" + digits
    ensures SliceFrom("cp" + digits, 2) == digits
  {
    var t := "cp" + digits;
    assert t[2..] == digits;
    forall i | 0 <= i < |t| ensures t[i] != '-' {
      if i >= 2 { assert t[i] == digits[i - 2]; }
    }
  }

  /** The tags of all wheels, in listing order; the first bad name raises. */
  function WheelTags(names: seq<string>): (r: Result<seq<int>, Failure>)
    ensures r.Ok? <==> forall i :: 0 <= i < |names| ==> WheelTag(names[i]).Ok?
    ensures r.Ok? ==> |r.value| == |names| && forall i :: 0 <= i < |names| ==> WheelTag(names[i]) == Ok(r.value[i])
    ensures r.Err? ==> exists k :: 0 <= k < |names| && WheelTag(names[k]) == Err(r.error)
                         && forall j :: 0 <= j < k ==> WheelTag(names[j]).Ok?
  {
    var tags := seq(|names|, i requires 0 <= i < |names| => WheelTag(names[i]));
    assert forall i :: 0 <= i < |names| ==> tags[i] == WheelTag(names[i]);
    Collect(tags)
  }

  function Max(xs: seq<int>): (m: int)
    requires |xs| > 0
    ensures m in xs && forall i :: 0 <= i < |xs| ==> xs[i] <= m
  {
    if |xs| == 1 then xs[0]
    else
      var rest := Max(xs[1..]);
      assert forall i :: 1 <= i < |xs| ==> xs[i] == xs[1..][i - 1];
      if xs[0] >= rest then xs[0] else rest
  }

  /**
   * The interpreter's version as the wheels write it, `int(f'{major}{minor}')`:
   * Python 3.11 gives 311, the minor number's digits following the major's.
   */
  function UserVersion(major: nat, minor: nat): (r: nat)
    ensures r == Shifted(major, |NatToString(minor)|) + minor
  {
    var a, b := NatToString(major), NatToString(minor);
    NatToStringValue(major);
    NatToStringValue(minor);
    DigitsValueConcat(a, b);
    DigitsValue(a + b)
  }

  /** The text `f'{major}{minor}'` is read by `int()` without error, as `UserVersion`. */
  lemma UserVersionParses(major: nat, minor: nat)
    ensures ParseInt(NatToString(major) + NatToString(minor)) == Some(UserVersion(major, minor))
  {
    var a, b := NatToString(major), NatToString(minor);
    ParseDigitRun(a + b);
  }

  /** A non-empty run of digits is read by `int()` as its digits' value. */
  lemma ParseDigitRun(s: string)
    requires s != [] && AllDigits(s)
    ensures ParseInt(s) == Some(DigitsValue(s) as int)
  {
    StripUnpadded(s);
  }

  /**
   * The wheel version picked: the newest bundled tag, unless the running
   * interpreter is older, in which case its own version. An empty listing
   * raises `ValueError` from `max`.
   */
  function ChooseWheelVersion(names: seq<string>, major: nat, minor: nat): (r: Result<int, Failure>)
    ensures names == [] ==> r == Err(ValueError)
    ensures r.Ok? <==> names != [] && WheelTags(names).Ok?
    ensures r.Ok? ==> var tags := WheelTags(names).value;
            && r.value <= UserVersion(major, minor)
            && (exists i :: 0 <= i < |tags| && r.value <= tags[i])
            && (r.value == UserVersion(major, minor) || forall i :: 0 <= i < |tags| ==> tags[i] <= r.value)
  {
    match WheelTags(names)
    case Err(e) => Err(e)
    case Ok(tags) =>
      if |tags| == 0 then Err(ValueError)
      else
        var newest := Max(tags);
        var user := UserVersion(major, minor);
        Ok(if newest <= user then newest else user)
  }

  // ---------------------------------------------------------------- defaults

  const DefaultKeys: set<string> := {"path", "interpreter", "args", "importStrategy", "showNotifications"}

  /** The value a default key takes when the global settings do not name it. */
  function Fallback(key: string, executable: string): Value
  {
    if key == "interpreter" then StrList([executable])
    else if key == "importStrategy" then Str("useBundled")
    else if key == "showNotifications" then Str("off")
    else StrList([])
  }

  /** `d.get(key, default)`. */
  function GetOr(d: Settings, key: string, default: Value): Value
  {
    if key in d then d[key] else default
  }

  /** `_get_global_defaults`: the five defaulted keys, each from the global settings when present. */
  function GlobalDefaults(global: Settings, executable: string): (r: Settings)
    ensures r.Keys == DefaultKeys
    ensures forall k :: k in r ==> (k in global ==> r[k] == global[k])
    ensures forall k :: k in r && k !in global ==> r[k] == Fallback(k, executable)
  {
    map[
      "path" := GetOr(global, "path", StrList([])),
      "interpreter" := GetOr(global, "interpreter", StrList([executable])),
      "args" := GetOr(global, "args", StrList([])),
      "importStrategy" := GetOr(global, "importStrategy", Str("useBundled")),
      "showNotifications" := GetOr(global, "showNotifications", Str("off"))
    ]
  }

  /** The settings made up for a directory no workspace names: itself as cwd and workspace, plus the defaults. */
  function Synthesised(dir: string, global: Settings, executable: string, fromFs: string -> string): (r: Settings)
    ensures r.Keys == {"cwd", "workspaceFS", "workspace"} + DefaultKeys
    ensures r["cwd"] == Str(dir) && r["workspaceFS"] == Str(dir) && r["workspace"] == Str(fromFs(dir))
    ensures forall k :: k in DefaultKeys ==> r[k] == GlobalDefaults(global, executable)[k]
  {
    map["cwd" := Str(dir), "workspaceFS" := Str(dir), "workspace" := Str(fromFs(dir))]
      + GlobalDefaults(global, executable)
  }

  // ---------------------------------------------------------------- workspace settings

  /** Every entry records its own key as `workspaceFS`. */
  predicate KeysMatch(ws: Workspaces)
  {
    forall e :: e in ws ==> "workspaceFS" in e.1 && e.1["workspaceFS"] == Str(e.0)
  }

  /** A setting from the editor filed under its workspace's filesystem path. */
  function Filed(setting: Settings, toFs: Value -> string): (e: (string, Settings))
    requires "workspace" in setting
    ensures e.0 == toFs(setting["workspace"])
    ensures e.1.Keys == setting.Keys + {"workspaceFS"} && e.1["workspaceFS"] == Str(e.0)
    ensures forall k :: k in setting && k != "workspaceFS" ==> e.1[k] == setting[k]
  {
    var key := toFs(setting["workspace"]);
    (key, setting["workspaceFS" := Str(key)])
  }

  /** The outcome of an update: the table afterwards, and the exception raised part way, if any. */
  datatype Updated = Updated(workspaces: Workspaces, failure: Option<Failure>)

  /**
   * The loop over the editor's settings: each is filed in turn, and one
   * without a `workspace` key raises `KeyError`, leaving the earlier ones filed.
   */
  function FileAll(ws: Workspaces, settings: seq<Settings>, toFs: Value -> string): (r: Updated)
    ensures r.failure.Some? <==> exists i :: 0 <= i < |settings| && "workspace" !in settings[i]
    ensures r.failure.Some? ==> r.failure == Some(KeyError)
    decreases |settings|
  {
    if |settings| == 0 then Updated(ws, None)
    else
      var n := |settings| - 1;
      var before := FileAll(ws, settings[..n], toFs);
      assert forall i :: 0 <= i < n ==> settings[..n][i] == settings[i];
      if before.failure.Some? then before
      else if "workspace" !in settings[n] then Updated(before.workspaces, Some(KeyError))
      else
        var e := Filed(settings[n], toFs);
        Updated(Dicts.Assign(before.workspaces, e.0, e.1), None)
  }

  /**
   * `_update_workspace_settings`: with no settings from the editor, the
   * current directory is filed with the defaults and nothing else changes;
   * otherwise each setting is filed, and the update raises `KeyError` exactly
   * when one lacks a `workspace` key.
   */
  function UpdateWorkspaceSettings(ws: Workspaces, settings: seq<Settings>, cwd: string, global: Settings,
                                   executable: string, fromFs: string -> string, toFs: Value -> string): (r: Updated)
    ensures r.failure.Some? <==> exists i :: 0 <= i < |settings| && "workspace" !in settings[i]
    ensures r.failure.Some? ==> r.failure == Some(KeyError)
    ensures |settings| == 0 ==> forall key ::
      Dicts.Get(r.workspaces, key) == if key == cwd then Some(Synthesised(cwd, global, executable, fromFs)) else Dicts.Get(ws, key)
  {
    if |settings| == 0 then
      var v := Synthesised(cwd, global, executable, fromFs);
      GetAssignEvery(ws, cwd, v);
      Updated(Dicts.Assign(ws, cwd, v), None)
    else FileAll(ws, settings, toFs)
  }

  lemma GetAssignEvery(ws: Workspaces, key: string, v: Settings)
    ensures forall other :: Dicts.Get(Dicts.Assign(ws, key, v), other) == if other == key then Some(v) else Dicts.Get(ws, other)
  {
    forall other {
      Dicts.GetAssign(ws, key, v, other);
    }
  }

  /** The last setting filed under `key`: a reference reading of "later settings win". */
  function LatestFor(settings: seq<Settings>, toFs: Value -> string, key: string): Option<Settings>
    requires forall i :: 0 <= i < |settings| ==> "workspace" in settings[i]
  {
    if |settings| == 0 then None
    else
      var e := Filed(settings[|settings| - 1], toFs);
      if e.0 == key then Some(e.1) else LatestFor(settings[..|settings| - 1], toFs, key)
  }

  /** After filing, a key reads as the last setting filed under it, and any other key as before. */
  lemma {:induction false} FileAllGet(ws: Workspaces, settings: seq<Settings>, toFs: Value -> string, key: string)
    requires forall i :: 0 <= i < |settings| ==> "workspace" in settings[i]
    ensures FileAll(ws, settings, toFs).failure.None?
    ensures Dicts.Get(FileAll(ws, settings, toFs).workspaces, key)
            == match LatestFor(settings, toFs, key) case Some(s) => Some(s) case None => Dicts.Get(ws, key)
    decreases |settings|
  {
    if |settings| > 0 {
      var n := |settings| - 1;
      var init := settings[..n];
      assert forall i :: 0 <= i < n ==> init[i] == settings[i];
      FileAllGet(ws, init, toFs, key);
      var before := FileAll(ws, init, toFs);
      var e := Filed(settings[n], toFs);
      assert FileAll(ws, settings, toFs) == Updated(Dicts.Assign(before.workspaces, e.0, e.1), None);
      assert LatestFor(settings, toFs, key) == if e.0 == key then Some(e.1) else LatestFor(init, toFs, key);
      Dicts.GetAssign(before.workspaces, e.0, e.1, key);
    }
  }

  /** An update keeps every entry filed under its own `workspaceFS`. */
  lemma UpdateKeepsKeysMatch(ws: Workspaces, settings: seq<Settings>, cwd: string, global: Settings,
                             executable: string, fromFs: string -> string, toFs: Value -> string)
    requires KeysMatch(ws)
    ensures KeysMatch(UpdateWorkspaceSettings(ws, settings, cwd, global, executable, fromFs, toFs).workspaces)
  {
    if |settings| > 0 {
      FileAllKeysMatch(ws, settings, toFs);
    }
  }

  lemma {:induction false} FileAllKeysMatch(ws: Workspaces, settings: seq<Settings>, toFs: Value -> string)
    requires KeysMatch(ws)
    ensures KeysMatch(FileAll(ws, settings, toFs).workspaces)
    decreases |settings|
  {
    if |settings| > 0 {
      var n := |settings| - 1;
      FileAllKeysMatch(ws, settings[..n], toFs);
    }
  }

  // ---------------------------------------------------------------- lookup

  /** `p.parent`: the bare root and the empty relative path are their own parents. */
  function Parent(p: Path): (r: Path)
    ensures r.absolute == p.absolute
    ensures r == p <==> |p.parts| == 0
  {
    if |p.parts| == 0 then p else Path(p.absolute, p.parts[..|p.parts| - 1])
  }

  /** The paths `while p != p.parent` visits: `p`, then each parent, stopping before the root. */
  function Ancestors(p: Path): (r: seq<Path>)
    ensures |r| == |p.parts|
    ensures forall i :: 0 <= i < |r| ==> r[i] == Path(p.absolute, p.parts[..|p.parts| - i])
    decreases |p.parts|
  {
    if Parent(p) == p then []
    else
      var rest := Ancestors(Parent(p));
      forall i | 0 <= i < |rest|
        ensures rest[i] == Path(p.absolute, p.parts[..|p.parts| - (i + 1)])
      {
        assert p.parts[..|p.parts| - 1][..|p.parts| - 1 - i] == p.parts[..|p.parts| - (i + 1)];
      }
      [p] + rest
  }

  /** `{s["workspaceFS"] for s in WORKSPACE_SETTINGS.values()}`. */
  function WorkspaceValues(ws: Workspaces): (r: Result<set<Value>, Failure>)
    ensures r.Ok? <==> forall e :: e in ws ==> "workspaceFS" in e.1
    ensures r.Ok? ==> forall e :: e in ws ==> e.1["workspaceFS"] in r.value
    ensures r.Ok? ==> forall v :: v in r.value ==> exists e :: e in ws && e.1["workspaceFS"] == v
    ensures r.Err? ==> r.error == KeyError
  {
    if forall e :: e in ws ==> "workspaceFS" in e.1 then
      Ok(set e | e in ws :: e.1["workspaceFS"])
    else Err(KeyError)
  }

  /** The first of the candidates whose rendering is among the workspace values. */
  function FirstIn(cands: seq<Path>, values: set<Value>): (r: Option<nat>)
    ensures r.Some? ==> r.value < |cands| && Str(Format(cands[r.value])) in values
    ensures r.Some? ==> forall j :: 0 <= j < r.value ==> Str(Format(cands[j])) !in values
    ensures r.None? ==> forall j :: 0 <= j < |cands| ==> Str(Format(cands[j])) !in values
  {
    if |cands| == 0 then None
    else if Str(Format(cands[0])) in values then Some(0)
    else
      assert forall j :: 1 <= j < |cands| ==> cands[j] == cands[1..][j - 1];
      match FirstIn(cands[1..], values)
      case None => None
      case Some(i) => Some(i + 1)
  }

  /** `_get_settings_by_path`: the nearest workspace at or above `p`, else the first entry. */
  function SettingsByPath(ws: Workspaces, p: Path): (r: Result<Settings, Failure>)
    ensures r.Err? ==> r.error == KeyError || (r.error == IndexError && |ws| == 0)
  {
    match WorkspaceValues(ws)
    case Err(e) => Err(e)
    case Ok(values) =>
      var cands := Ancestors(p);
      match FirstIn(cands, values)
      case Some(i) =>
        (match Dicts.Get(ws, Format(cands[i]))
         case None => Err(KeyError)
         case Some(s) => Ok(s))
      case None => if |ws| == 0 then Err(IndexError) else Ok(ws[0].1)
  }

  /** When every entry records its key, the workspace values are exactly the keys. */
  lemma ValuesAreKeys(ws: Workspaces, x: string)
    requires KeysMatch(ws)
    ensures WorkspaceValues(ws).Ok?
    ensures Str(x) in WorkspaceValues(ws).value <==> x in Dicts.Keys(ws)
  {
    var values := WorkspaceValues(ws).value;
    if Str(x) in values {
      var e :| e in ws && e.1["workspaceFS"] == Str(x);
      var i :| 0 <= i < |ws| && ws[i] == e;
      assert Dicts.Keys(ws)[i] == x;
    }
    if x in Dicts.Keys(ws) {
      var i :| 0 <= i < |ws| && Dicts.Keys(ws)[i] == x;
      assert ws[i] in ws;
    }
  }

  /** `p` with its last `k` parts removed: the `k`-th path the ancestor walk tests. */
  function Up(p: Path, k: nat): Path
    requires k <= |p.parts|
  {
    Path(p.absolute, p.parts[..|p.parts| - k])
  }

  /** On a consistent table, the ancestor walk tests `Up(p, k)` against the keys. */
  lemma CandidatesAreKeys(ws: Workspaces, p: Path)
    requires KeysMatch(ws)
    ensures WorkspaceValues(ws).Ok?
    ensures forall k :: 0 <= k < |p.parts| ==>
              (Str(Format(Ancestors(p)[k])) in WorkspaceValues(ws).value <==> Format(Up(p, k)) in Dicts.Keys(ws))
  {
    ValuesAreKeys(ws, "");
    var cands := Ancestors(p);
    forall k | 0 <= k < |p.parts|
      ensures Str(Format(cands[k])) in WorkspaceValues(ws).value <==> Format(Up(p, k)) in Dicts.Keys(ws)
    {
      assert cands[k] == Up(p, k);
      ValuesAreKeys(ws, Format(cands[k]));
    }
  }

  /**
   * On a consistent table, a path gets the settings of the nearest workspace
   * at or above it: the `k`-th ancestor when it is a workspace and no nearer one is.
   */
  lemma NearestWorkspace(ws: Workspaces, p: Path, k: nat)
    requires KeysMatch(ws)
    requires k < |p.parts| && Format(Up(p, k)) in Dicts.Keys(ws)
    requires forall j :: 0 <= j < k ==> Format(Up(p, j)) !in Dicts.Keys(ws)
    ensures SettingsByPath(ws, p).Ok?
    ensures Dicts.Get(ws, Format(Up(p, k))) == Some(SettingsByPath(ws, p).value)
  {
    CandidatesAreKeys(ws, p);
    var values := WorkspaceValues(ws).value;
    var cands := Ancestors(p);
    var found := FirstIn(cands, values);
    assert found == Some(k);
    assert cands[k] == Up(p, k);
  }

  /**
   * A path below no workspace (the filesystem root never being tested) gets
   * the first entry, and `IndexError` on an empty table.
   */
  lemma NoWorkspaceAbove(ws: Workspaces, p: Path)
    requires KeysMatch(ws)
    requires forall k :: 0 <= k < |p.parts| ==> Format(Up(p, k)) !in Dicts.Keys(ws)
    ensures SettingsByPath(ws, p) == if |ws| == 0 then Err(IndexError) else Ok(ws[0].1)
  {
    CandidatesAreKeys(ws, p);
    assert FirstIn(Ancestors(p), WorkspaceValues(ws).value).None?;
  }

  /** `_get_document_key`: the nearest workspace key at or above the document, or `None`. */
  function DocumentKey(ws: Workspaces, p: Path): (r: Result<Option<string>, Failure>)
    ensures |ws| == 0 ==> r == Ok(None)
    ensures r.Ok? && r.value.Some? ==> exists k :: 0 <= k < |p.parts| && r.value.value == Format(Up(p, k))
  {
    if |ws| == 0 then Ok(None)
    else
      match WorkspaceValues(ws)
      case Err(e) => Err(e)
      case Ok(values) =>
        var cands := Ancestors(p);
        match FirstIn(cands, values)
        case Some(i) =>
          assert cands[i] == Up(p, i);
          Ok(Some(Format(cands[i])))
        case None => Ok(None)
  }

  /**
   * `_get_settings_by_document`: the first entry without a document, the
   * entry of its workspace, or settings made up for its directory.
   */
  function SettingsByDocument(ws: Workspaces, doc: Option<Path>, global: Settings, executable: string,
                              fromFs: string -> string): (r: Result<Settings, Failure>)
    ensures doc.None? ==> r == if |ws| == 0 then Err(IndexError) else Ok(ws[0].1)
  {
    match doc
    case None => if |ws| == 0 then Err(IndexError) else Ok(ws[0].1)
    case Some(p) =>
      match DocumentKey(ws, p)
      case Err(e) => Err(e)
      case Ok(None) => Ok(Synthesised(Format(Parent(p)), global, executable, fromFs))
      case Ok(Some(key)) =>
        match Dicts.Get(ws, key)
        case None => Err(KeyError)
        case Some(s) => Ok(s)
  }

  /** Inside a workspace, a document gets exactly the settings its path does. */
  lemma DocumentInWorkspace(ws: Workspaces, p: Path, global: Settings, executable: string, fromFs: string -> string)
    requires DocumentKey(ws, p).Ok? && DocumentKey(ws, p).value.Some?
    ensures SettingsByDocument(ws, Some(p), global, executable, fromFs) == SettingsByPath(ws, p)
  {
  }

  /**
   * On a consistent table, a document below no workspace gets settings made
   * up for its parent directory, with that directory as its workspace.
   */
  lemma DocumentOutsideWorkspaces(ws: Workspaces, p: Path, global: Settings, executable: string,
                                  fromFs: string -> string)
    requires KeysMatch(ws)
    requires forall k :: 0 <= k < |p.parts| ==> Format(Up(p, k)) !in Dicts.Keys(ws)
    ensures var r := SettingsByDocument(ws, Some(p), global, executable, fromFs);
            r == Ok(Synthesised(Format(Parent(p)), global, executable, fromFs))
            && r.value["workspaceFS"] == Str(Format(Parent(p)))
  {
    CandidatesAreKeys(ws, p);
    if |ws| > 0 {
      assert FirstIn(Ancestors(p), WorkspaceValues(ws).value).None?;
    }
  }
}

=== FILE: output.dfy ===
// `mentat/terminal/output.py`: how a colour name is turned into a
// prompt_toolkit style, and which `end` and `color` a stream message asks for.

module Output {
  import opened Wrappers
  import opened PyText
  import opened Values

  /** `color.replace("_", "").replace("light", "bright")`. */
  function Normalise(color: string): (r: string)
    ensures '_' !in r
  {
    ReplaceCharDeletes(color, '_');
    assert "_" == ['_'];
    ReplaceAll(ReplaceAll(color, "_", ""), "light", "bright")
  }

  /**
   * The style both printing functions build: no colour is the empty style;
   * otherwise the normalised name, given the `ansi` prefix when ANSI names
   * are wanted and it does not carry one yet.
   */
  function FormatColor(color: Option<string>, useAnsi: bool): (r: string)
    ensures color.None? ==> r == ""
    ensures '_' !in r
    ensures r == "" <==> color.None? || Normalise(color.value) == ""
    ensures useAnsi && r != "" ==> StartsWith(r, "ansi")
    ensures !useAnsi ==> r == if color.None? then "" else Normalise(color.value)
    ensures color.Some? && StartsWith(Normalise(color.value), "ansi") ==> r == Normalise(color.value)
  {
    var formatted := Normalise(if color.Some? then color.value else "");
    if formatted != "" && useAnsi && !StartsWith(formatted, "ansi") then "ansi" + formatted else formatted
  }

  /** `light_red`, the colour of the context-size warning, prints as `ansibrightred`. */
  lemma LightRed(color: string)
    requires color == "light_red"
    ensures FormatColor(Some(color), true) == "ansibrightred"
    ensures FormatColor(Some(color), false) == "brightred"
  {
    NormaliseLightRed(color);
    var n := Normalise(color);
    assert !StartsWith(n, "ansi") by {
      assert n[0] == 'b';
    }
  }

  lemma NormaliseLightRed(color: string)
    requires color == "light_red"
    ensures Normalise(color) == "brightred"
  {
    var s := "light" + "_" + "red";
    assert s == color;
    forall j | 0 <= j < 5 ensures !OccursAt(s, "_", j) {
      assert s[j] == "light"[j] && s[j] != '_';
    }
    ReplaceFirst("light", "_", "", "red");
    ReplaceAbsent("red", "_", "");
    var t := "" + "light" + "red";
    assert t == "lightred";
    ReplaceFirst("", "light", "bright", "red");
    assert ReplaceAll("red", "light", "bright") == "red";
    assert "" + "bright" + "red" == "brightred";
  }

  /** `end` and `color` of a stream message: each taken from `extra` only when it holds a string. */
  function StreamOptions(extra: map<string, Value>): (r: (string, Option<string>))
    ensures IsStr(extra, "end") ==> r.0 == extra["end"].s
    ensures !IsStr(extra, "end") ==> r.0 == "\n"
    ensures r.1.Some? <==> IsStr(extra, "color")
    ensures r.1.Some? ==> r.1.value == extra["color"].s
  {
    var end := if IsStr(extra, "end") then extra["end"].s else "\n";
    var color := if IsStr(extra, "color") then Some(extra["color"].s) else None;
    (end, color)
  }

  /** Keys other than `end` and `color` do not change how a message prints. */
  lemma OtherKeysIgnored(extra: map<string, Value>, key: string, v: Value, useAnsi: bool)
    requires key != "end" && key != "color"
    ensures StreamOptions(extra[key := v]) == StreamOptions(extra)
    ensures FormatColor(StreamOptions(extra[key := v]).1, useAnsi) == FormatColor(StreamOptions(extra).1, useAnsi)
  {
    assert IsStr(extra[key := v], "end") == IsStr(extra, "end");
    assert IsStr(extra[key := v], "color") == IsStr(extra, "color");
  }

  /** A colour that is not a string leaves the message unstyled. */
  lemma NonStringColour(extra: map<string, Value>, useAnsi: bool)
    requires "color" in extra && !extra["color"].Str?
    ensures FormatColor(StreamOptions(extra).1, useAnsi) == ""
  {
  }
}

=== FILE: parser.dfy ===
/**
 * The format-independent half of `Parser.stream_and_parse_llm_response`
 * (mentat/parsers/parser.py): the streamed response is cut into lines, each
 * line is classified by the format's predicates, header blocks become
 * `FileEdit`s that are merged per path, renames are remembered, and code
 * blocks are handed to the format. Printing is left out; what remains is the
 * returned message and list of edits.
 *
 * A format is a record of the callbacks the concrete parsers override
 * (`UnifiedDiff.Callbacks`, `ReplacementFormat.Callbacks`).
 */
module Parsing {
  import opened Wrappers
  import opened PyText
  import FileEdits

  /** What `_special_block` returns: the display information the loop reads, and the new edit. */
  datatype Header = Header(
    fileName: string,
    newName: Option<string>,
    edit: FileEdits.FileEdit,
    hasCode: bool,
    first: int,
    last: int)

  /** Exceptions a header block can raise; only `ModelError` is caught by the loop. */
  datatype BlockError = ModelError | ValueError | IndexError

  /**
   * The callbacks of one edit format. `addCode` receives the rename map, the
   * header block, the code block and the header, and returns the replacements
   * to append to the current edit.
   */
  datatype Format = Format(
    startsSpecial: string -> bool,
    endsSpecial: string -> bool,
    endsCode: string -> bool,
    special: string -> Result<Header, BlockError>,
    addCode: (map<string, string>, string, string, Header) -> seq<FileEdits.Replacement>)

  /** How the loop ends early: `ModelError` returns what was collected, anything else propagates. */
  datatype Outcome = Done(message: string, edits: seq<FileEdits.FileEdit>) | Raised(error: BlockError)

  datatype State = State(
    message: string,
    curLine: string,
    curBlock: string,
    prevBlock: string,
    inSpecial: bool,
    inCode: bool,
    header: Option<Header>,
    current: Option<nat>,
    edits: seq<FileEdits.FileEdit>,
    renames: map<string, string>)

  const Start := State("", "", "", "", false, false, None, None, [], map[])

  /** The loop's invariant: the current edit exists, and edit paths are distinct. */
  predicate Valid(st: State)
  {
    (st.current.Some? <==> st.header.Some?) &&
    (st.current.Some? ==> st.current.value < |st.edits|) &&
    DistinctPaths(st.edits)
  }

  predicate DistinctPaths(edits: seq<FileEdits.FileEdit>)
  {
    forall i, j :: 0 <= i < j < |edits| ==> edits[i].path != edits[j].path
  }

  function Paths(edits: seq<FileEdits.FileEdit>): (r: seq<string>)
    ensures |r| == |edits| && forall i :: 0 <= i < |edits| ==> r[i] == edits[i].path
  {
    if edits == [] then [] else [edits[0].path] + Paths(edits[1..])
  }

  // ---------------------------------------------------------------------------
  // Merging edits per path

  function PathIndex(edits: seq<FileEdits.FileEdit>, path: string): (r: int)
    ensures -1 <= r < |edits|
    ensures r >= 0 ==> edits[r].path == path
    ensures r < 0 <==> forall i :: 0 <= i < |edits| ==> edits[i].path != path
  {
    if edits == [] then -1
    else if edits[0].path == path then 0
    else
      var k := PathIndex(edits[1..], path);
      assert forall i :: 1 <= i < |edits| ==> edits[i] == edits[1..][i - 1];
      if k < 0 then -1 else k + 1
  }

  /** An edit for a path seen before: OR the flags, and take the rename only if the new one has one. */
  function Absorb(stored: FileEdits.FileEdit, e: FileEdits.FileEdit): FileEdits.FileEdit
  {
    stored.(isCreation := stored.isCreation || e.isCreation,
         isDeletion := stored.isDeletion || e.isDeletion,
         rename := if e.rename.Some? then e.rename else stored.rename)
  }

  /** `file_edits[path] = file_edit`, or merging into the stored one; returns where the edit lives. */
  function Merge(edits: seq<FileEdits.FileEdit>, e: FileEdits.FileEdit): (seq<FileEdits.FileEdit>, nat)
  {
    var i := PathIndex(edits, e.path);
    if i < 0 then (edits + [e], |edits|) else (edits[i := Absorb(edits[i], e)], i)
  }

  /**
   * Merging keeps one edit per path in first-seen order: a new path is
   * appended, a known path is updated in place, and the returned index holds
   * the edit for that path.
   */
  lemma MergeFacts(edits: seq<FileEdits.FileEdit>, e: FileEdits.FileEdit)
    requires DistinctPaths(edits)
    ensures var (r, i) := Merge(edits, e);
      DistinctPaths(r) && i < |r| && r[i].path == e.path &&
      StartsWith(Paths(r), Paths(edits)) &&
      (e.path in Paths(edits) ==> Paths(r) == Paths(edits) && r[i] == Absorb(edits[i], e)) &&
      (e.path !in Paths(edits) ==> Paths(r) == Paths(edits) + [e.path] && r[i] == e)
  {
    var (r, i) := Merge(edits, e);
    if PathIndex(edits, e.path) < 0 {
      assert e.path !in Paths(edits);
      assert Paths(r) == Paths(edits) + [e.path];
    } else {
      assert e.path in Paths(edits);
      assert Paths(r) == Paths(edits);
    }
  }

  /** The merged flags are the OR of both, and a `None` rename never erases a stored one. */
  lemma AbsorbFacts(stored: FileEdits.FileEdit, e: FileEdits.FileEdit)
    ensures var m := Absorb(stored, e);
      m.path == stored.path && m.replacements == stored.replacements &&
      (m.isCreation <==> stored.isCreation || e.isCreation) &&
      (m.isDeletion <==> stored.isDeletion || e.isDeletion) &&
      (e.rename.None? ==> m.rename == stored.rename) &&
      (e.rename.Some? ==> m.rename == e.rename)
  {
  }

  // ---------------------------------------------------------------------------
  // File lines through the rename map

  /** `_get_file_lines`: look the path up through the rename map; a missing file has no lines. */
  function FileLinesFor(files: map<string, seq<string>>, renames: map<string, string>, rel: string): (r: seq<string>)
    ensures rel in renames && renames[rel] in files ==> r == files[renames[rel]]
    ensures rel !in renames && rel in files ==> r == files[rel]
    ensures (if rel in renames then renames[rel] else rel) !in files ==> r == []
  {
    var path := if rel in renames then renames[rel] else rel;
    if path in files then files[path] else []
  }

  // ---------------------------------------------------------------------------
  // The loop

  /** Appends replacements to the current edit, if there is one. */
  function AddCode(f: Format, st: State, codeBlock: string): seq<FileEdits.FileEdit>
    requires Valid(st)
  {
    if st.header.Some? && st.current.Some? then
      var i := st.current.value;
      var added := f.addCode(st.renames, st.prevBlock, codeBlock, st.header.value);
      st.edits[i := st.edits[i].(replacements := st.edits[i].replacements + added)]
    else st.edits
  }

  /** A finished header block: parse it, record a rename, retarget, merge. */
  function EndSpecial(f: Format, st: State, block: string): Result<State, Outcome>
    requires Valid(st)
  {
    match f.special(block)
    case Err(ModelError) => Err(Done(st.message, st.edits))
    case Err(e) => Err(Raised(e))
    case Ok(h) =>
      var renames := if h.newName.Some? then st.renames[h.newName.value := h.fileName] else st.renames;
      var edit := if h.fileName in renames then h.edit.(path := renames[h.fileName]) else h.edit;
      MergeFacts(st.edits, edit);
      var (edits, i) := Merge(st.edits, edit);
      Ok(st.(curLine := "", curBlock := "", prevBlock := block, inSpecial := false, inCode := h.hasCode,
             header := Some(h), current := Some(i), edits := edits, renames := renames))
  }

  /** The work done when the current line contains a line break. */
  function EndLine(f: Format, st: State, line: string): Result<State, Outcome>
    requires Valid(st)
  {
    var s := Strip(line);
    var inSpecial := st.inSpecial || f.startsSpecial(s);
    var block := if inSpecial || st.inCode then st.curBlock + line else st.curBlock;
    if inSpecial && f.endsSpecial(s) then
      EndSpecial(f, st, block)
    else if st.inCode && f.endsCode(s) then
      Ok(st.(curLine := "", curBlock := "", prevBlock := block, inSpecial := inSpecial, inCode := false,
             edits := AddCode(f, st, block)))
    else
      Ok(st.(curLine := "", curBlock := block, inSpecial := inSpecial))
  }

  /** One piece of streamed content; empty pieces are skipped. */
  function Consume(f: Format, st: State, content: string): (r: Result<State, Outcome>)
    requires Valid(st)
  {
    if content == "" then Ok(st)
    else
      var line := st.curLine + content;
      var st1 := st.(message := st.message + content, curLine := line);
      if '\n' !in line then Ok(st1) else EndLine(f, st1, line)
  }

  /** Appending code changes no path. */
  lemma AddCodePaths(f: Format, st: State, codeBlock: string)
    requires Valid(st)
    ensures Paths(AddCode(f, st, codeBlock)) == Paths(st.edits)
  {
  }

  lemma EndSpecialValid(f: Format, st: State, block: string)
    requires Valid(st)
    ensures EndSpecial(f, st, block).Ok? ==> Valid(EndSpecial(f, st, block).value)
  {
    if f.special(block).Ok? {
      var h := f.special(block).value;
      var renames := if h.newName.Some? then st.renames[h.newName.value := h.fileName] else st.renames;
      var edit := if h.fileName in renames then h.edit.(path := renames[h.fileName]) else h.edit;
      MergeFacts(st.edits, edit);
    }
  }

  lemma EndLineValid(f: Format, st: State, line: string)
    requires Valid(st)
    ensures EndLine(f, st, line).Ok? ==> Valid(EndLine(f, st, line).value)
    ensures EndLine(f, st, line).Ok? ==> EndLine(f, st, line).value.message == st.message
  {
    var s := Strip(line);
    var inSpecial := st.inSpecial || f.startsSpecial(s);
    var block := if inSpecial || st.inCode then st.curBlock + line else st.curBlock;
    if inSpecial && f.endsSpecial(s) {
      EndSpecialValid(f, st, block);
    } else if st.inCode && f.endsCode(s) {
      AddCodePaths(f, st, block);
      var edits := AddCode(f, st, block);
      assert forall i :: 0 <= i < |edits| ==> edits[i].path == Paths(edits)[i];
    }
  }

  /** Every step keeps the loop invariant and appends the piece to the message. */
  lemma ConsumeValid(f: Format, st: State, content: string)
    requires Valid(st)
    ensures Consume(f, st, content).Ok? ==> Valid(Consume(f, st, content).value)
    ensures Consume(f, st, content).Ok? ==> Consume(f, st, content).value.message == st.message + content
  {
    if content != "" {
      var line := st.curLine + content;
      var st1 := st.(message := st.message + content, curLine := line);
      EndLineValid(f, st1, line);
    }
  }

  /**
   * The loop over the content pieces: it keeps the invariant, the message
   * is everything that streamed in, in order, and an early `Done` carries
   * edits with distinct paths.
   */
  function Feed(f: Format, st: State, pieces: seq<string>): (r: Result<State, Outcome>)
    requires Valid(st)
    ensures r.Ok? ==> Valid(r.value)
    ensures r.Ok? ==> r.value.message == st.message + Concat(pieces)
    ensures r.Err? && r.error.Done? ==> DistinctPaths(r.error.edits)
    decreases |pieces|
  {
    if pieces == [] then
      assert st.message + Concat(pieces) == st.message;
      Ok(st)
    else
      ConsumeValid(f, st, pieces[0]);
      match Consume(f, st, pieces[0])
      case Err(e) => Err(e)
      case Ok(next) =>
        MessageStep(st.message, pieces);
        Feed(f, next, pieces[1..])
  }

  lemma MessageStep(m: string, pieces: seq<string>)
    requires pieces != []
    ensures m + pieces[0] + Concat(pieces[1..]) == m + Concat(pieces)
  {
    ConcatCons(pieces[0], pieces[1..]);
    assert [pieces[0]] + pieces[1..] == pieces;
  }

  /**
   * After the last chunk: unless interrupted, an open code block is closed as
   * if its end line had arrived.
   */
  function Finish(f: Format, st: State, interrupted: bool): Outcome
    requires Valid(st)
  {
    if interrupted then Done(st.message, st.edits)
    else if st.inCode then Done(st.message, AddCode(f, st, st.curBlock))
    else Done(st.message, st.edits)
  }

  /**
   * `stream_and_parse_llm_response` on the content pieces received before
   * the stream ended: each path gets one edit in the result, however often
   * the response names it, and a stream read to the end returns all of it
   * as the message.
   */
  function Parse(f: Format, pieces: seq<string>, interrupted: bool): (r: Outcome)
    ensures r.Done? ==> DistinctPaths(r.edits)
    ensures Feed(f, Start, pieces).Ok? ==> r.Done? && r.message == Concat(pieces)
    ensures Feed(f, Start, pieces).Err? ==> r == Feed(f, Start, pieces).error
  {
    match Feed(f, Start, pieces)
    case Err(early) => early
    case Ok(st) =>
      if !interrupted && st.inCode then
        assert Paths(AddCode(f, st, st.curBlock)) == Paths(st.edits);
        Finish(f, st, interrupted)
      else
        Finish(f, st, interrupted)
  }

  // ---------------------------------------------------------------------------
  // Properties of the loop

  /** A header line that completes a block the format rejects with `ModelError`: stop, keep what was collected. */
  lemma ModelErrorKeepsEdits(f: Format, st: State, content: string)
    requires Valid(st) && content != ""
    requires var line := st.curLine + content;
      '\n' in line &&
      (st.inSpecial || f.startsSpecial(Strip(line))) && f.endsSpecial(Strip(line)) &&
      f.special(st.curBlock + line) == Err(ModelError)
    ensures Consume(f, st, content) == Err(Done(st.message + content, st.edits))
  {
  }

  /** A rename header records `new name -> old name`, and a later header for the new name edits the old path. */
  lemma RenameRetargets(f: Format, st: State, block: string)
    requires Valid(st) && f.special(block).Ok?
    ensures var h := f.special(block).value;
      var r := EndSpecial(f, st, block);
      r.Ok? &&
      (h.newName.Some? ==> r.value.renames == st.renames[h.newName.value := h.fileName]) &&
      (h.newName.None? ==> r.value.renames == st.renames) &&
      (h.fileName in r.value.renames ==> r.value.edits[r.value.current.value].path == r.value.renames[h.fileName]) &&
      (h.fileName !in r.value.renames ==> r.value.edits[r.value.current.value].path == h.edit.path)
  {
    var h := f.special(block).value;
    var renames := if h.newName.Some? then st.renames[h.newName.value := h.fileName] else st.renames;
    var edit := if h.fileName in renames then h.edit.(path := renames[h.fileName]) else h.edit;
    MergeFacts(st.edits, edit);
  }

  /** When the stream ends inside a code block, the block is still handed to the format. */
  lemma UnclosedBlockIsAdded(f: Format, st: State)
    requires Valid(st) && st.inCode && st.current.Some?
    ensures var i := st.current.value;
      var added := f.addCode(st.renames, st.prevBlock, st.curBlock, st.header.value);
      Finish(f, st, false) == Done(st.message, st.edits[i := st.edits[i].(replacements := st.edits[i].replacements + added)])
  {
  }

  /** On an interrupt nothing more is added: an open code block is dropped. */
  lemma InterruptDropsOpenBlock(f: Format, pieces: seq<string>)
    ensures Feed(f, Start, pieces).Ok? ==>
      Parse(f, pieces, true) == Done(Feed(f, Start, pieces).value.message, Feed(f, Start, pieces).value.edits)
  {
  }
}

=== FILE: path_parts.dfy ===
// The part of `pathlib.PurePosixPath` the context trees rely on: parsing a
// string into parts, rendering with `as_posix`, joining, and `relative_to`.

module PathParts {
  import opened Wrappers
  import opened PyText

  /** A path as pathlib holds it: whether it is anchored at `/`, and its parts. */
  datatype Path = Path(absolute: bool, parts: seq<string>)

  /** A part pathlib keeps: not empty, not `.`, free of `/`. */
  predicate IsPart(c: string)
  {
    c != "" && c != "." && '/' !in c
  }

  predicate WellFormed(p: Path)
  {
    forall i :: 0 <= i < |p.parts| ==> IsPart(p.parts[i])
  }

  /** pathlib drops empty pieces (from `//` or a trailing `/`) and `.` pieces. */
  function Parts(pieces: seq<string>): (r: seq<string>)
    ensures forall i :: 0 <= i < |r| ==> r[i] in pieces
  {
    if |pieces| == 0 then []
    else if pieces[0] == "" || pieces[0] == "." then Parts(pieces[1..])
    else [pieces[0]] + Parts(pieces[1..])
  }

  lemma {:induction false} PartsWellFormed(pieces: seq<string>)
    requires forall i :: 0 <= i < |pieces| ==> '/' !in pieces[i]
    ensures WellFormed(Path(false, Parts(pieces)))
  {
    if |pieces| > 0 {
      PartsWellFormed(pieces[1..]);
    }
  }

  lemma {:induction false} PartsKeepsParts(pieces: seq<string>)
    requires WellFormed(Path(false, pieces))
    ensures Parts(pieces) == pieces
  {
    if |pieces| > 0 {
      PartsKeepsParts(pieces[1..]);
      assert pieces == [pieces[0]] + pieces[1..];
    }
  }

  /** `Path(s)` for a POSIX string `s`. */
  function Parse(s: string): (r: Path)
    ensures r.absolute <==> |s| > 0 && s[0] == '/'
    ensures WellFormed(r)
  {
    var pieces := Split(s, '/');
    PartsWellFormed(pieces);
    Path(|s| > 0 && s[0] == '/', Parts(pieces))
  }

  /** `p.as_posix()`: `.` for the empty relative path, `/` for the bare root. */
  function Format(p: Path): string
  {
    if p.absolute then "/" + Join(p.parts, '/')
    else if |p.parts| == 0 then "."
    else Join(p.parts, '/')
  }

  lemma SplitAfterSlash(x: string)
    ensures Split("/" + x, '/') == [""] + Split(x, '/')
  {
    assert ("/" + x)[1..] == x;
  }

  /** Rendering a well-formed path and parsing it back gives the same path. */
  lemma ParseFormat(p: Path)
    requires WellFormed(p)
    ensures Parse(Format(p)) == p
  {
    if |p.parts| > 0 {
      SplitJoin(p.parts, '/');
      PartsKeepsParts(p.parts);
      if p.absolute {
        SplitAfterSlash(Join(p.parts, '/'));
        assert Parts([""] + p.parts) == Parts(p.parts);
      } else {
        assert Format(p)[0] != '/' by {
          assert Format(p)[..|p.parts[0]|] == p.parts[0] by {
            JoinFirst(p.parts);
          }
          assert p.parts[0][0] != '/';
        }
      }
    } else if p.absolute {
      SplitAfterSlash("");
    } else {
      assert Split(".", '/') == ["."];
    }
  }

  lemma {:induction false} JoinFirst(parts: seq<string>)
    requires |parts| > 0
    ensures |Join(parts, '/')| >= |parts[0]|
    ensures Join(parts, '/')[..|parts[0]|] == parts[0]
  {
  }

  /** `base / name`, for a name that is a single part. */
  function Child(base: Path, name: string): (r: Path)
    ensures r.absolute == base.absolute && r.parts == base.parts + [name]
  {
    Path(base.absolute, base.parts + [name])
  }

  /** `base.joinpath(p)`: an absolute `p` replaces the base. */
  function JoinPath(base: Path, p: Path): (r: Path)
    ensures p.absolute ==> r == p
    ensures base.absolute ==> r.absolute
    ensures !p.absolute ==> r.parts == base.parts + p.parts
  {
    if p.absolute then p else Path(base.absolute, base.parts + p.parts)
  }

  /** `p.relative_to(base)`: `None` where pathlib raises `ValueError`. */
  function RelativeTo(p: Path, base: Path): (r: Option<Path>)
    ensures r.Some? <==> p.absolute == base.absolute && StartsWith(p.parts, base.parts)
    ensures r.Some? ==> !r.value.absolute && base.parts + r.value.parts == p.parts
  {
    if p.absolute == base.absolute && StartsWith(p.parts, base.parts) then
      assert p.parts == base.parts + p.parts[|base.parts|..];
      Some(Path(false, p.parts[|base.parts|..]))
    else None
  }

  /** `relative_to` undoes joining parts onto a base. */
  lemma RelativeToJoined(base: Path, rest: seq<string>)
    ensures RelativeTo(Path(base.absolute, base.parts + rest), base) == Some(Path(false, rest))
  {
    assert (base.parts + rest)[..|base.parts|] == base.parts;
    assert (base.parts + rest)[|base.parts|..] == rest;
  }
}

=== FILE: path_utils.dfy ===
// `mentat/utils/path.py`: making a user path absolute and classifying it,
// pattern matching on absolute paths, and the checks and filter of the
// directory listing.

module PathUtils {
  import opened Wrappers
  import opened PyText
  import opened PathParts
  import IncludeFiles

  type Disk = IncludeFiles.Disk
  type Failure = IncludeFiles.Failure

  /** A relative path made absolute is recovered by `relative_to(cwd)`. */
  lemma AbsoluteRelative(path: Path, cwd: Path)
    requires !path.absolute
    ensures RelativeTo(JoinPath(cwd, path), cwd) == Some(path)
  {
    RelativeToJoined(cwd, path.parts);
  }

  /** `re.search(r"[\*\?\[\]]", s)`: a glob metacharacter occurs. */
  predicate HasGlobChar(s: string)
  {
    exists i :: 0 <= i < |s| && s[i] in "*?[]"
  }

  /**
   * `validate_and_format_path`: a file, an interval `file:spec`, a
   * directory or a glob pattern; anything else is rejected. The path is
   * returned made absolute (an interval rebuilt from its file part).
   */
  function ValidateAndFormat(path: Path, cwd: Path, disk: Disk, checkForText: bool): (r: Result<Path, Failure>)
    ensures var s := Format(JoinPath(cwd, path));
            r == Err(IncludeFiles.Unrecognised)
            <==> !disk.isFile(s) && ':' !in s && !disk.isDir(s) && !HasGlobChar(Format(path))
    ensures var s := Format(JoinPath(cwd, path));
            r.Ok? && (disk.isFile(s) || ':' !in s) ==> r.value == JoinPath(cwd, path)
    ensures r.Err? ==> r.error != IncludeFiles.NotAbsolute && r.error != IncludeFiles.NotDirectory
  {
    var abs := JoinPath(cwd, path);
    var s := Format(abs);
    if disk.isFile(s) then
      if !disk.present(s) then Err(IncludeFiles.Missing)
      else if checkForText && !disk.isText(s) then Err(IncludeFiles.Unreadable)
      else Ok(abs)
    else if ':' in s then
      var pieces := SplitOnce(s, ':');
      var file := Format(Parse(pieces[0]));
      if !disk.present(file) then Err(IncludeFiles.Missing)
      else if checkForText && !disk.isText(file) then Err(IncludeFiles.Unreadable)
      else Ok(Parse(file + ":" + pieces[1]))
    else if disk.isDir(s) then
      if !disk.present(s) then Err(IncludeFiles.Missing) else Ok(abs)
    else if HasGlobChar(Format(path)) then Ok(abs)
    else Err(IncludeFiles.Unrecognised)
  }

  /** A glob pattern is accepted without looking at what exists on disk. */
  lemma GlobNeedsNoFile(path: Path, cwd: Path, disk: Disk, checkForText: bool)
    requires var s := Format(JoinPath(cwd, path));
             !disk.isFile(s) && ':' !in s && !disk.isDir(s)
    requires HasGlobChar(Format(path))
    ensures ValidateAndFormat(path, cwd, disk, checkForText) == Ok(JoinPath(cwd, path))
  {
  }

  /**
   * An interval is accepted exactly when its file part exists (and reads as
   * text when asked), whatever the interval text after the first `:`.
   */
  lemma IntervalChecksFilePart(path: Path, cwd: Path, disk: Disk, checkForText: bool, file: string, spec: string)
    requires Format(JoinPath(cwd, path)) == file + ":" + spec && ':' !in file
    requires !disk.isFile(file + ":" + spec)
    ensures var f := Format(Parse(file));
            ValidateAndFormat(path, cwd, disk, checkForText).Ok?
            <==> disk.present(f) && (!checkForText || disk.isText(f))
    ensures ValidateAndFormat(path, cwd, disk, checkForText).Ok? ==>
            ValidateAndFormat(path, cwd, disk, checkForText).value == Parse(Format(Parse(file)) + ":" + spec)
  {
    SplitOnceAt(file, ':', spec);
    assert file + ":" + spec == file + [':'] + spec;
    assert ':' in file + ":" + spec by {
      assert (file + ":" + spec)[|file|] == ':';
    }
  }

  // ---------------------------------------------------------------- patterns

  /** `Path(pattern).is_absolute()`. */
  predicate AbsolutePattern(pattern: string)
  {
    |pattern| > 0 && pattern[0] == '/'
  }

  /** `str(Path("**").joinpath(pattern))` for a relative pattern. */
  function AnyDepth(pattern: string): string
  {
    Format(Path(false, ["**"] + Parse(pattern).parts))
  }

  /** One pattern, with a relative pattern not starting `**` also tried below any directory (`**` joined with it). */
  ghost predicate PatternMatches(p: Path, pattern: string, fnmatch: (string, string) -> bool)
  {
    (!AbsolutePattern(pattern) && !StartsWith(pattern, "**") && fnmatch(Format(p), AnyDepth(pattern)))
    || IncludeFiles.PatternMatches(p, pattern, fnmatch)
  }

  function MatchAny(p: Path, patterns: seq<string>, fnmatch: (string, string) -> bool): (r: bool)
    ensures r <==> exists i :: 0 <= i < |patterns| && PatternMatches(p, patterns[i], fnmatch)
  {
    if |patterns| == 0 then false
    else
      var pattern := patterns[0];
      var here := (!AbsolutePattern(pattern) && !StartsWith(pattern, "**") && fnmatch(Format(p), AnyDepth(pattern)))
                  || fnmatch(Format(p), pattern)
                  || IncludeFiles.AnyPart(IncludeFiles.PyParts(p), pattern, fnmatch);
      assert forall i :: 1 <= i < |patterns| ==> patterns[i] == patterns[1..][i - 1];
      here || MatchAny(p, patterns[1..], fnmatch)
  }

  /** `match_path_with_patterns`: a relative path raises; otherwise some pattern matches. */
  function MatchPathWithPatterns(p: Path, patterns: seq<string>, fnmatch: (string, string) -> bool): (r: Result<bool, Failure>)
    ensures r.Err? <==> !p.absolute
    ensures r.Err? ==> r.error == IncludeFiles.NotAbsolute
    ensures r.Ok? ==> (r.value <==> exists i :: 0 <= i < |patterns| && PatternMatches(p, patterns[i], fnmatch))
  {
    if !p.absolute then Err(IncludeFiles.NotAbsolute) else Ok(MatchAny(p, patterns, fnmatch))
  }

  /** On absolute paths this matcher accepts everything the older one in `include_files.py` does. */
  lemma MatchesMoreThanIncludeFiles(p: Path, patterns: seq<string>, fnmatch: (string, string) -> bool)
    requires p.absolute && IncludeFiles.MatchPath(p, patterns, fnmatch)
    ensures MatchPathWithPatterns(p, patterns, fnmatch) == Ok(true)
  {
    var i :| 0 <= i < |patterns| && IncludeFiles.PatternMatches(p, patterns[i], fnmatch);
    assert PatternMatches(p, patterns[i], fnmatch);
  }

  // ---------------------------------------------------------------- directory listing

  /** The checks `get_paths_for_directory` makes before listing. */
  function CheckDirectory(path: Path, disk: Disk): (r: Result<(), Failure>)
    ensures r.Ok? <==> disk.present(Format(path)) && disk.isDir(Format(path)) && path.absolute
    ensures r == Err(IncludeFiles.Missing) <==> !disk.present(Format(path))
  {
    var s := Format(path);
    if !disk.present(s) then Err(IncludeFiles.Missing)
    else if !disk.isDir(s) then Err(IncludeFiles.NotDirectory)
    else if !path.absolute then Err(IncludeFiles.NotAbsolute)
    else Ok(())
  }

  /** `any(patterns)`: some pattern string is non-empty. */
  predicate AnyPattern(patterns: seq<string>)
  {
    exists i :: 0 <= i < |patterns| && patterns[i] != ""
  }

  /** `git_path.parent != Path(".")`: the listed path is below a subdirectory. */
  predicate Nested(rel: Path)
  {
    rel.absolute || |rel.parts| > 1
  }

  /** Whether one path `git ls-files` lists is kept: the loop body for a git repository. */
  function KeepGitPath(root: Path, rel: Path, includes: seq<string>, ignores: seq<string>, recursive: bool,
                       fnmatch: (string, string) -> bool): (r: Result<bool, Failure>)
    ensures r.Err? ==> !JoinPath(root, rel).absolute
    ensures r == Ok(true) <==>
      && (recursive || !Nested(rel))
      && (!AnyPattern(includes) || MatchPathWithPatterns(JoinPath(root, rel), includes, fnmatch) == Ok(true))
      && (!AnyPattern(ignores) || MatchPathWithPatterns(JoinPath(root, rel), ignores, fnmatch) == Ok(false))
  {
    var abs := JoinPath(root, rel);
    if !recursive && Nested(rel) then Ok(false)
    else
      var included := if AnyPattern(includes) then MatchPathWithPatterns(abs, includes, fnmatch) else Ok(true);
      match included
      case Err(e) => Err(e)
      case Ok(false) => Ok(false)
      case Ok(true) =>
        var ignored := if AnyPattern(ignores) then MatchPathWithPatterns(abs, ignores, fnmatch) else Ok(false);
        match ignored
        case Err(e) => Err(e)
        case Ok(b) => Ok(!b)
  }

  /**
   * The paths collected from one repository listing; the first raising path
   * aborts. It raises exactly when the check of some listed path raises, and
   * otherwise collects every listed path that is kept.
   */
  function FilterGitPaths(root: Path, listed: seq<Path>, includes: seq<string>, ignores: seq<string>, recursive: bool,
                          fnmatch: (string, string) -> bool): (r: Result<set<Path>, Failure>)
    ensures r.Err? <==> exists i :: 0 <= i < |listed| && KeepGitPath(root, listed[i], includes, ignores, recursive, fnmatch).Err?
    ensures r.Ok? ==> forall i :: 0 <= i < |listed| && KeepGitPath(root, listed[i], includes, ignores, recursive, fnmatch) == Ok(true)
                                  ==> JoinPath(root, listed[i]) in r.value
  {
    if |listed| == 0 then Ok({})
    else
      assert forall i :: 1 <= i < |listed| ==> listed[i] == listed[1..][i - 1];
      match KeepGitPath(root, listed[0], includes, ignores, recursive, fnmatch)
      case Err(e) => Err(e)
      case Ok(keep) =>
        match FilterGitPaths(root, listed[1..], includes, ignores, recursive, fnmatch)
        case Err(e) => Err(e)
        case Ok(rest) => Ok(if keep then {JoinPath(root, listed[0])} + rest else rest)
  }

  /**
   * Under an absolute root nothing raises, and a path is collected exactly
   * when some listed path it joins from is kept.
   */
  lemma {:induction false} FilterGitPathsContents(root: Path, listed: seq<Path>, includes: seq<string>, ignores: seq<string>,
                                                  recursive: bool, fnmatch: (string, string) -> bool, x: Path)
    requires root.absolute
    ensures FilterGitPaths(root, listed, includes, ignores, recursive, fnmatch).Ok?
    ensures x in FilterGitPaths(root, listed, includes, ignores, recursive, fnmatch).value
            <==> exists i :: 0 <= i < |listed| && JoinPath(root, listed[i]) == x
                             && KeepGitPath(root, listed[i], includes, ignores, recursive, fnmatch) == Ok(true)
  {
    if |listed| > 0 {
      FilterGitPathsContents(root, listed[1..], includes, ignores, recursive, fnmatch, x);
      assert forall i :: 1 <= i < |listed| ==> listed[i] == listed[1..][i - 1];
      assert KeepGitPath(root, listed[0], includes, ignores, recursive, fnmatch).Ok?;
    }
  }
}

=== FILE: prompt_input.dfy ===
// `mentat/terminal/prompt_session.py`: which submissions reach the history
// file, when history suggestions are offered, and the continuation prompt.

module PromptInput {
  import opened Wrappers
  import opened PyText

  /** One-letter answers to yes/no questions and the like, kept out of the history. */
  const Excluded: seq<string> := ["y", "n", "i", "q"]

  /** `FilteredFileHistory.append_string`: blank submissions and the excluded answers are dropped. */
  function AppendString(history: seq<string>, s: string): (r: seq<string>)
    ensures r == history || r == history + [s]
    ensures r == history + [s] <==> !IsBlank(s) && Lower(Strip(s)) !in Excluded
  {
    StripEmptyIffBlank(s);
    if Lower(Strip(s)) !in Excluded && Strip(s) != "" then history + [s] else history
  }

  /** The excluded answers are matched whatever their case: `Q` is dropped like `q`. */
  lemma UpperCaseAnswerDropped(history: seq<string>, answer: string)
    requires |answer| == 1 && answer[0] == 'Q'
    ensures AppendString(history, answer) == history
  {
    StripUnpadded(answer);
    LowerSingleQ(answer);
    assert Excluded[3] == "q";
  }

  lemma LowerSingleQ(a: string)
    requires |a| == 1 && a[0] == 'Q'
    ensures Lower(a) == "q"
  {
    assert Lower(a) == [LowerChar(a[0])];
  }

  /** Anything longer than one character once stripped, such as `yes`, is kept. */
  lemma LongerWordKept(history: seq<string>, word: string)
    requires |Strip(word)| > 1
    ensures AppendString(history, word) == history + [word]
  {
    StripEmptyIffBlank(word);
    assert |Lower(Strip(word))| > 1;
  }

  datatype Failure = IndexError

  /**
   * `FilteredHistorySuggestions.get_suggestion`: a command buffer gets no
   * suggestion, leaving it to the completer; `inner` is what prompt_toolkit's
   * history suggester would offer. An empty buffer raises on `text[0]`.
   */
  function FilteredSuggestion<S>(text: string, inner: Option<S>): (r: Result<Option<S>, Failure>)
    ensures r.Err? <==> text == ""
    ensures r.Ok? && text[0] == '/' ==> r.value.None?
    ensures r.Ok? && text[0] != '/' ==> r.value == inner
  {
    if |text| == 0 then Err(IndexError)
    else if text[0] == '/' then Ok(None)
    else Ok(inner)
  }

  /**
   * The result depends on what the history offers exactly when the buffer is
   * not a command: a command buffer gets no suggestion whatever the history
   * holds, any other buffer tells two different offers apart.
   */
  lemma SuggestionDependsOnHistory<S>(text: string, a: Option<S>, b: Option<S>)
    requires text != ""
    ensures FilteredSuggestion(text, a) == FilteredSuggestion(text, b) <==> text[0] == '/' || a == b
  {
  }

  /**
   * Only an empty buffer raises; otherwise the filter never invents a
   * suggestion, and applying it twice changes nothing.
   */
  lemma SuggestionFilterIdempotent<S>(text: string, inner: Option<S>)
    ensures var r := FilteredSuggestion(text, inner);
            && (r.Err? <==> text == "")
            && (r.Ok? && r.value.Some? ==> r.value == inner)
            && (r.Ok? ==> FilteredSuggestion(text, r.value) == r)
  {
  }

  /** Python's `" " * n`: empty for a negative count. */
  function Spaces(n: int): (r: string)
    ensures |r| == if n < 0 then 0 else n
    ensures forall i :: 0 <= i < |r| ==> r[i] == ' '
    decreases n
  {
    if n <= 0 then "" else " " + Spaces(n - 1)
  }

  /**
   * `prompt_continuation`: nothing on a soft wrap; otherwise `> ` right-aligned
   * under the `>>> ` prompt so the line is exactly `width` wide.
   */
  function PromptContinuation(width: int, isSoftWrap: int): (r: string)
    ensures isSoftWrap != 0 ==> r == ""
    ensures isSoftWrap == 0 ==> |r| == (if width < 2 then 2 else width) && r[|r| - 2..] == "> "
    ensures isSoftWrap == 0 ==> forall i :: 0 <= i < |r| - 2 ==> r[i] == ' '
  {
    if isSoftWrap != 0 then "" else Spaces(width - 2) + "> "
  }
}

=== FILE: pytext.dfy ===
/**
 * The slice of Python's `str`, `int()` and list-slicing semantics the modelled
 * code relies on: whitespace stripping, prefix tests, splitting and joining on
 * a separator, decimal rendering and parsing, and clamped slices.
 */
module PyText {
  import opened Wrappers

  /**
   * The characters `str.isspace` accepts and `str.strip()` removes: tab, line
   * feed, vertical tab, form feed, carriage return, the separators
   * `\x1c`-`\x1f`, space, next line, no-break space, and the Unicode spaces,
   * line separator and paragraph separator.
   */
  predicate IsSpace(c: char)
  {
    c == ' ' || '\t' <= c <= '\r' || '\U{001C}' <= c <= '\U{001F}'
    || c == '\U{0085}' || c == '\U{00A0}' || c == '\U{1680}'
    || '\U{2000}' <= c <= '\U{200A}' || c == '\U{2028}' || c == '\U{2029}'
    || c == '\U{202F}' || c == '\U{205F}' || c == '\U{3000}'
  }

  /** Empty or made of whitespace only. */
  predicate IsBlank(s: string)
  {
    forall i :: 0 <= i < |s| ==> IsSpace(s[i])
  }

  lemma TakeDrop<T>(s: seq<T>, i: nat)
    requires i <= |s|
    ensures s[..i] + s[i..] == s
  {
  }

  predicate StartsWith<T(==)>(s: seq<T>, prefix: seq<T>)
  {
    |prefix| <= |s| && s[..|prefix|] == prefix
  }

  lemma PairConcat<T>(x: T, y: T)
    ensures [x] + [y] == [x, y]
  {
  }

  lemma StartsWithAppend<T>(a: seq<T>, b: seq<T>)
    ensures StartsWith(a + b, a)
  {
    assert (a + b)[..|a|] == a;
  }

  lemma StartsWithTrans<T>(a: seq<T>, b: seq<T>, c: seq<T>)
    requires StartsWith(a, b) && StartsWith(b, c)
    ensures StartsWith(a, c)
  {
    assert a[..|c|] == a[..|b|][..|c|];
  }

  /** Sequences agreeing on their first element share a prefix exactly when their tails do. */
  lemma StartsWithStep<T>(a: seq<T>, b: seq<T>)
    requires |a| > 0 && |b| > 0 && a[0] == b[0]
    ensures StartsWith(a, b) <==> StartsWith(a[1..], b[1..])
  {
    if StartsWith(a[1..], b[1..]) {
      assert a[..|b|] == [a[0]] + a[1..][..|b| - 1];
      assert b == [b[0]] + b[1..];
    }
    if StartsWith(a, b) {
      assert a[1..][..|b| - 1] == a[..|b|][1..];
    }
  }

  /** The number of lines that start with `prefix`. */
  function CountStartingWith(lines: seq<string>, prefix: string): (r: nat)
    ensures r <= |lines|
  {
    if lines == [] then 0
    else (if StartsWith(lines[0], prefix) then 1 else 0) + CountStartingWith(lines[1..], prefix)
  }

  // ---------------------------------------------------------------------------
  // Stripping

  function LStrip(s: string): (r: string)
    ensures |r| <= |s| && r == s[|s| - |r|..]
    ensures r == [] || !IsSpace(r[0])
  {
    if |s| > 0 && IsSpace(s[0]) then LStrip(s[1..]) else s
  }

  /** Only whitespace is removed from the left. */
  lemma {:induction false} LStripBlank(s: string)
    ensures IsBlank(s[..|s| - |LStrip(s)|])
    decreases |s|
  {
    if |s| > 0 && IsSpace(s[0]) {
      var t := s[1..];
      var r := LStrip(t);
      assert LStrip(s) == r;
      var k := |t| - |r|;
      LStripBlank(t);
      BlankCons(s[0], t[..k]);
      assert s[..|s| - |r|] == [s[0]] + t[..k];
    }
  }

  lemma BlankCons(c: char, t: string)
    requires IsSpace(c) && IsBlank(t)
    ensures IsBlank([c] + t)
  {
    forall i | 0 <= i < |[c] + t| ensures IsSpace(([c] + t)[i]) {
      if i > 0 { assert ([c] + t)[i] == t[i - 1]; }
    }
  }

  function RStrip(s: string): (r: string)
    ensures |r| <= |s| && r == s[..|r|]
    ensures r == [] || !IsSpace(r[|r| - 1])
  {
    if |s| > 0 && IsSpace(s[|s| - 1]) then RStrip(s[..|s| - 1]) else s
  }

  /** Only whitespace is removed from the right. */
  lemma {:induction false} RStripBlank(s: string)
    ensures IsBlank(s[|RStrip(s)|..])
    decreases |s|
  {
    if |s| > 0 && IsSpace(s[|s| - 1]) {
      var r := RStrip(s[..|s| - 1]);
      RStripBlank(s[..|s| - 1]);
      var t := s[..|s| - 1][|r|..];
      assert s[|r|..] == t + [s[|s| - 1]];
      forall i | 0 <= i < |s[|r|..]| ensures IsSpace(s[|r|..][i]) {
        if i < |t| { assert s[|r|..][i] == t[i]; }
      }
    }
  }

  /** Text starting with a non-space keeps that character when stripped on the right. */
  lemma {:induction false} RStripKeepsFirst(s: string)
    requires s != [] && !IsSpace(s[0])
    ensures RStrip(s) != [] && RStrip(s)[0] == s[0]
    decreases |s|
  {
    if IsSpace(s[|s| - 1]) {
      RStripKeepsFirst(s[..|s| - 1]);
    }
  }

  /** Python's `s.strip()`. */
  function Strip(s: string): (r: string)
    ensures |r| <= |s|
    ensures r == [] || (!IsSpace(r[0]) && !IsSpace(r[|r| - 1]))
  {
    var l := LStrip(s);
    var r := RStrip(l);
    assert r != [] ==> r[0] == l[0];
    r
  }

  lemma StripEmptyIffBlank(s: string)
    ensures Strip(s) == [] <==> IsBlank(s)
  {
    var l := LStrip(s);
    LStripBlank(s);
    assert s == s[..|s| - |l|] + l;
    if l != [] {
      assert l[0] == s[|s| - |l|];
      RStripKeepsFirst(l);
    }
  }

  lemma StripUnpadded(s: string)
    requires s == [] || (!IsSpace(s[0]) && !IsSpace(s[|s| - 1]))
    ensures Strip(s) == s
  {
  }

  lemma {:induction false} LStripPrefix(l: string, k: nat)
    requires k <= |l|
    ensures StartsWith(LStrip(l), LStrip(l[..k]))
  {
    if k > 0 && IsSpace(l[0]) {
      assert l[..k][1..] == l[1..][..k - 1];
      LStripPrefix(l[1..], k - 1);
    }
  }

  lemma {:induction false} RStripPrefix(s: string, t: string)
    requires StartsWith(s, t)
    ensures StartsWith(RStrip(s), RStrip(t))
    decreases |s|
  {
    if |s| == |t| {
      assert s == t;
    } else if IsSpace(s[|s| - 1]) {
      assert s[..|s| - 1][..|t|] == t;
      RStripPrefix(s[..|s| - 1], t);
    } else {
      assert RStrip(t) == t[..|RStrip(t)|] == s[..|RStrip(t)|];
    }
  }

  /** Stripping a prefix of a line gives a prefix of the stripped line. */
  lemma StripPrefix(l: string, k: nat)
    requires k <= |l|
    ensures StartsWith(Strip(l), Strip(l[..k]))
  {
    LStripPrefix(l, k);
    RStripPrefix(LStrip(l), LStrip(l[..k]));
  }

  // ---------------------------------------------------------------------------
  // Case mapping (ASCII letters only; other letters are left as they are)

  function LowerChar(c: char): char
  {
    if 'A' <= c <= 'Z' then (c as int + 32) as char else c
  }

  /** Python's `s.lower()` / `s.casefold()` restricted to ASCII letters. */
  function Lower(s: string): (r: string)
    ensures |r| == |s|
    ensures forall i :: 0 <= i < |s| ==> r[i] == LowerChar(s[i])
  {
    if s == [] then [] else [LowerChar(s[0])] + Lower(s[1..])
  }

  /** Lower-casing twice is lower-casing once. */
  lemma LowerIdempotent(s: string)
    ensures Lower(Lower(s)) == Lower(s)
  {
  }

  // ---------------------------------------------------------------------------
  // Searching, splitting and joining

  /** Index of the first `x` in `s`, or -1. */
  function IndexOf<T(==)>(s: seq<T>, x: T): (r: int)
    ensures -1 <= r < |s|
    ensures r == -1 <==> x !in s
    ensures 0 <= r ==> s[r] == x && x !in s[..r]
  {
    if |s| == 0 then -1
    else if s[0] == x then 0
    else
      var k := IndexOf(s[1..], x);
      if k < 0 then -1
      else
        assert s[..k + 1] == [s[0]] + s[1..][..k];
        k + 1
  }

  /** Index of the last `x` in `s`, or -1. */
  function LastIndexOf<T(==)>(s: seq<T>, x: T): (r: int)
    ensures -1 <= r < |s|
    ensures r == -1 <==> x !in s
    ensures 0 <= r ==> s[r] == x && x !in s[r + 1..]
  {
    if |s| == 0 then -1
    else if s[|s| - 1] == x then |s| - 1
    else
      var init := s[..|s| - 1];
      var k := LastIndexOf(init, x);
      assert s == init + [s[|s| - 1]];
      assert x in s <==> x in init;
      if k >= 0 then
        assert s[k + 1..] == init[k + 1..] + [s[|s| - 1]];
        k
      else
        -1
  }

  /** Python's `s.split(sep)` for a one-character separator. */
  function Split(s: string, sep: char): (r: seq<string>)
    ensures |r| >= 1
    ensures forall i :: 0 <= i < |r| ==> sep !in r[i]
    decreases |s|
  {
    var k := IndexOf(s, sep);
    if k < 0 then [s] else [s[..k]] + Split(s[k + 1..], sep)
  }

  /** Python's `sep.join(parts)` for a one-character separator. */
  function Join(parts: seq<string>, sep: char): string
  {
    if |parts| == 0 then ""
    else if |parts| == 1 then parts[0]
    else parts[0] + [sep] + Join(parts[1..], sep)
  }

  /** Python's `"".join(parts)`. */
  function Concat(parts: seq<string>): string
  {
    if |parts| == 0 then "" else parts[0] + Concat(parts[1..])
  }

  lemma JoinCons(parts: seq<string>, sep: char)
    requires |parts| > 1
    ensures Join(parts, sep) == parts[0] + [sep] + Join(parts[1..], sep)
  {
  }

  lemma {:induction false} JoinSplit(s: string, sep: char)
    ensures Join(Split(s, sep), sep) == s
    decreases |s|
  {
    var k := IndexOf(s, sep);
    if k >= 0 {
      var a, tail := s[..k], s[k + 1..];
      assert s == a + [sep] + tail;
      var rest := Split(tail, sep);
      JoinSplit(tail, sep);
      SplitAt(a, sep, tail);
      var parts := [a] + rest;
      assert parts[1..] == rest;
      JoinCons(parts, sep);
    }
  }

  lemma {:induction false} SplitJoin(parts: seq<string>, sep: char)
    requires |parts| >= 1
    requires forall i :: 0 <= i < |parts| ==> sep !in parts[i]
    ensures Split(Join(parts, sep), sep) == parts
    decreases |parts|
  {
    if |parts| > 1 {
      var tail := parts[1..];
      assert forall i :: 0 <= i < |tail| ==> sep !in tail[i] by {
        forall i | 0 <= i < |tail| ensures sep !in tail[i] {
          assert tail[i] == parts[i + 1];
        }
      }
      JoinCons(parts, sep);
      SplitAt(parts[0], sep, Join(tail, sep));
      SplitJoin(tail, sep);
      assert parts == [parts[0]] + tail;
    }
  }

  /** Python's `s.split(sep, 1)`: at most two pieces, cut at the first `sep`. */
  function SplitOnce(s: string, sep: char): (r: seq<string>)
    ensures 1 <= |r| <= 2
    ensures |r| == 1 <==> sep !in s
    ensures |r| == 1 ==> r[0] == s
    ensures |r| == 2 ==> sep !in r[0] && s == r[0] + [sep] + r[1]
  {
    var k := IndexOf(s, sep);
    if k < 0 then [s]
    else
      assert s == s[..k] + [sep] + s[k + 1..];
      [s[..k], s[k + 1..]]
  }

  lemma {:induction false} IndexOfAfter(a: string, x: char, b: string)
    requires x !in a
    ensures IndexOf(a + [x] + b, x) == |a|
    decreases |a|
  {
    if a != [] {
      assert (a + [x] + b)[1..] == a[1..] + [x] + b;
      IndexOfAfter(a[1..], x, b);
    }
  }

  /** Cutting `a + sep + b` at its first separator gives back `a` and `b`. */
  lemma SplitOnceAt(a: string, sep: char, b: string)
    requires sep !in a
    ensures SplitOnce(a + [sep] + b, sep) == [a, b]
  {
    var s := a + [sep] + b;
    IndexOfAfter(a, sep, b);
    assert s[..|a|] == a;
    assert s[|a| + 1..] == b;
  }

  /** Splitting after a separator-free first piece peels that piece off. */
  lemma SplitAt(a: string, sep: char, b: string)
    requires sep !in a
    ensures Split(a + [sep] + b, sep) == [a] + Split(b, sep)
  {
    var s := a + [sep] + b;
    IndexOfAfter(a, sep, b);
    assert s[..|a|] == a;
    assert s[|a| + 1..] == b;
  }

  lemma SplitWithoutSeparator(s: string, sep: char)
    requires sep !in s
    ensures Split(s, sep) == [s]
    ensures SplitOnce(s, sep) == [s]
  {
  }

  /** Python's `s.rsplit(sep, 1)`: at most two pieces, cut at the last `sep`. */
  function RSplitOnce(s: string, sep: char): (r: seq<string>)
    ensures 1 <= |r| <= 2
    ensures |r| == 1 <==> sep !in s
    ensures |r| == 1 ==> r[0] == s
    ensures |r| == 2 ==> sep !in r[1] && s == r[0] + [sep] + r[1]
  {
    var k := LastIndexOf(s, sep);
    if k < 0 then [s]
    else
      assert s == s[..k] + [sep] + s[k + 1..];
      [s[..k], s[k + 1..]]
  }

  /** Cutting `a + sep + b` at its last separator gives back `a` and `b`. */
  lemma RSplitOnceAt(a: string, sep: char, b: string)
    requires sep !in b
    ensures RSplitOnce(a + [sep] + b, sep) == [a, b]
  {
    var s := a + [sep] + b;
    var r := LastIndexOf(s, sep);
    assert s[|a|] == sep;
    assert s[|a| + 1..] == b;
    assert r == |a|;
    assert s[..|a|] == a;
    assert s[|a| + 1..] == b;
  }

  predicate OccursAt<T(==)>(s: seq<T>, pat: seq<T>, i: int)
  {
    0 <= i && i + |pat| <= |s| && s[i..i + |pat|] == pat
  }

  /** Index of the first occurrence of `pat` in `s` at or after `from`. */
  function FindFrom<T(==)>(s: seq<T>, pat: seq<T>, from: nat): (r: Option<nat>)
    ensures r.Some? ==> from <= r.value && OccursAt(s, pat, r.value)
    ensures r.Some? ==> forall j :: from <= j < r.value ==> !OccursAt(s, pat, j)
    ensures r.None? ==> forall j :: from <= j ==> !OccursAt(s, pat, j)
    decreases |s| - from
  {
    if from + |pat| > |s| then None
    else if s[from..from + |pat|] == pat then Some(from)
    else FindFrom(s, pat, from + 1)
  }

  /** Python's `pat in s` for a substring. */
  predicate Contains<T(==)>(s: seq<T>, pat: seq<T>)
  {
    FindFrom(s, pat, 0).Some?
  }

  /**
   * Python's `s.replace(pat, rep)` for a non-empty pattern: every occurrence,
   * scanning left to right, without overlaps.
   */
  function ReplaceAll(s: string, pat: string, rep: string): (r: string)
    requires |pat| > 0
    ensures forall c :: c in r ==> c in s || c in rep
    decreases |s|
  {
    if |s| < |pat| then s
    else if s[..|pat|] == pat then rep + ReplaceAll(s[|pat|..], pat, rep)
    else [s[0]] + ReplaceAll(s[1..], pat, rep)
  }

  /** Text without the pattern is left alone. */
  lemma {:induction false} ReplaceAbsent(s: string, pat: string, rep: string)
    requires |pat| > 0
    requires forall j :: 0 <= j < |s| ==> !OccursAt(s, pat, j)
    ensures ReplaceAll(s, pat, rep) == s
    decreases |s|
  {
    if |s| >= |pat| {
      assert !OccursAt(s, pat, 0);
      AbsentAfterFirst(s, pat, |s|);
      ReplaceAbsent(s[1..], pat, rep);
    }
  }

  /** No occurrence before `n` in `s` means none before `n - 1` in `s[1..]`. */
  lemma AbsentAfterFirst<T>(s: seq<T>, pat: seq<T>, n: nat)
    requires |s| > 0
    requires forall j :: 0 <= j < n ==> !OccursAt(s, pat, j)
    ensures forall j :: 0 <= j < n - 1 ==> !OccursAt(s[1..], pat, j)
  {
    forall j | 0 <= j < n - 1 ensures !OccursAt(s[1..], pat, j) {
      assert !OccursAt(s, pat, j + 1);
      if j + |pat| <= |s| - 1 {
        assert s[1..][j..j + |pat|] == s[j + 1..j + 1 + |pat|];
      }
    }
  }

  /** The first occurrence is replaced and scanning resumes after it. */
  lemma {:induction false} ReplaceFirst(a: string, pat: string, rep: string, b: string)
    requires |pat| > 0
    requires forall j :: 0 <= j < |a| ==> !OccursAt(a + pat + b, pat, j)
    ensures ReplaceAll(a + pat + b, pat, rep) == a + rep + ReplaceAll(b, pat, rep)
    decreases |a|
  {
    var s := a + pat + b;
    if |a| == 0 {
      assert s == pat + b;
      assert s[..|pat|] == pat;
      assert s[|pat|..] == b;
    } else {
      assert !OccursAt(s, pat, 0);
      assert s[1..] == a[1..] + pat + b;
      AbsentAfterFirst(s, pat, |a|);
      ReplaceFirst(a[1..], pat, rep, b);
      assert s[0] == a[0];
      assert [a[0]] + (a[1..] + rep + ReplaceAll(b, pat, rep)) == a + rep + ReplaceAll(b, pat, rep);
    }
  }

  /** `s` with every `c` dropped. */
  function Without(s: string, c: char): (r: string)
    ensures forall x :: x in r <==> x in s && x != c
  {
    if s == [] then [] else (if s[0] == c then [] else [s[0]]) + Without(s[1..], c)
  }

  /** Replacing a single character by nothing deletes it. */
  lemma {:induction false} ReplaceCharDeletes(s: string, c: char)
    ensures ReplaceAll(s, [c], "") == Without(s, c)
    decreases |s|
  {
    if s != [] {
      ReplaceCharDeletes(s[1..], c);
      if s[0] == c {
        assert s[..1] == [c];
      } else {
        assert s[..1] != [c];
      }
    }
  }

  /** Python's `s.split(pat)[0]`: everything before the first occurrence of `pat`. */
  function BeforeFirst<T(==)>(s: seq<T>, pat: seq<T>): (r: seq<T>)
    ensures StartsWith(s, r)
    ensures !Contains(s, pat) ==> r == s
  {
    match FindFrom(s, pat, 0)
    case None => s
    case Some(i) => s[..i]
  }

  /**
   * The line boundaries of Python's `str.splitlines`: line feed, vertical tab,
   * form feed, carriage return, the separators `\x1c`-`\x1e`, next line, and
   * the Unicode line and paragraph separators. A `\r\n` pair is one boundary.
   */
  predicate IsLineBreak(c: char)
  {
    '\n' <= c <= '\r' || '\U{001C}' <= c <= '\U{001E}'
    || c == '\U{0085}' || c == '\U{2028}' || c == '\U{2029}'
  }

  predicate NoBreak(s: string)
  {
    forall i :: 0 <= i < |s| ==> !IsLineBreak(s[i])
  }

  /** Index of the first line break, or `|s|` when there is none. */
  function FirstBreak(s: string): (k: nat)
    ensures k <= |s|
    ensures forall i :: 0 <= i < k ==> !IsLineBreak(s[i])
    ensures k < |s| ==> IsLineBreak(s[k])
  {
    if s == [] || IsLineBreak(s[0]) then 0
    else
      var k := FirstBreak(s[1..]);
      assert forall i :: 1 <= i < k + 1 ==> s[i] == s[1..][i - 1];
      k + 1
  }

  lemma BeforeFirstBreak(s: string)
    ensures NoBreak(s[..FirstBreak(s)])
  {
    var k := FirstBreak(s);
    forall i | 0 <= i < k ensures !IsLineBreak(s[..k][i]) {
      assert s[..k][i] == s[i];
    }
  }

  /** Where the break at `k` ends: after `\r\n`, or after the one character. */
  function BreakEnd(s: string, k: nat): (e: nat)
    requires k < |s|
    ensures k < e <= |s|
  {
    if s[k] == '\r' && k + 1 < |s| && s[k + 1] == '\n' then k + 2 else k + 1
  }

  /** Python's `s.splitlines()`: the lines without their breaks, none for a final break. */
  function SplitLines(s: string): (r: seq<string>)
    ensures forall i :: 0 <= i < |r| ==> NoBreak(r[i])
    ensures s == [] <==> r == []
    decreases |s|
  {
    if s == [] then []
    else
      var k := FirstBreak(s);
      BeforeFirstBreak(s);
      if k == |s| then
        assert s[..k] == s;
        [s]
      else [s[..k]] + SplitLines(s[BreakEnd(s, k)..])
  }

  /** Python's `s.splitlines(keepends=True)`: every piece keeps its break. */
  function SplitLinesKeepEnds(s: string): seq<string>
    decreases |s|
  {
    if s == [] then []
    else
      var k := FirstBreak(s);
      if k == |s| then [s] else [s[..BreakEnd(s, k)]] + SplitLinesKeepEnds(s[BreakEnd(s, k)..])
  }

  /** The length of the break a piece ends with: 2 for `\r\n`, 1 for one break character, else 0. */
  function BreakLength(p: string): (n: nat)
    ensures n <= |p|
  {
    if |p| >= 2 && p[|p| - 2] == '\r' && p[|p| - 1] == '\n' then 2
    else if p != [] && IsLineBreak(p[|p| - 1]) then 1
    else 0
  }

  /** The break a piece ends with: `\r\n`, one break character, or nothing. */
  function Terminator(p: string): string
  {
    p[|p| - BreakLength(p)..]
  }

  /** A piece without its break. */
  function LineContent(p: string): string
  {
    p[..|p| - BreakLength(p)]
  }

  /** One piece of `splitlines(keepends=True)`: non-empty, a break only at its end. */
  predicate IsLinePiece(p: string)
  {
    p != [] && NoBreak(LineContent(p))
  }

  predicate EndsWithBreak(p: string)
  {
    BreakLength(p) > 0
  }

  lemma ConcatCons(x: string, r: seq<string>)
    ensures Concat([x] + r) == x + Concat(r)
  {
    assert ([x] + r)[1..] == r;
  }

  /** The first piece, through the first break, is a whole line piece. */
  lemma FirstPiece(s: string)
    requires FirstBreak(s) < |s|
    ensures var p := s[..BreakEnd(s, FirstBreak(s))]; IsLinePiece(p) && EndsWithBreak(p)
  {
    FirstPieceParts(s);
  }

  /** The first piece splits into the text before the first break and that break. */
  lemma FirstPieceParts(s: string)
    requires FirstBreak(s) < |s|
    ensures var k := FirstBreak(s); var p := s[..BreakEnd(s, k)];
      BreakLength(p) == BreakEnd(s, k) - k && LineContent(p) == s[..k] && Terminator(p) == s[k..BreakEnd(s, k)]
  {
    var k := FirstBreak(s);
    var e := BreakEnd(s, k);
    var p := s[..e];
    BeforeFirstBreak(s);
    BreakAt(s, k, e);
    assert |p| - BreakLength(p) == k;
    assert LineContent(p) == p[..k] == s[..k];
    assert Terminator(p) == p[k..] == s[k..e];
  }

  /** A piece through the first break at `k` ends in a break of length `e - k`. */
  lemma BreakAt(s: string, k: nat, e: nat)
    requires k < |s| && NoBreak(s[..k]) && IsLineBreak(s[k])
    requires e == BreakEnd(s, k)
    ensures BreakLength(s[..e]) == e - k
  {
    var p := s[..e];
    if e == k + 2 {
      assert p[|p| - 2] == '\r' && p[|p| - 1] == '\n';
    } else {
      assert p[k] == s[k];
      if k > 0 {
        assert p[k - 1] == s[..k][k - 1];
      }
    }
  }

  /** Text without a break is one piece, its own line. */
  lemma LastPiece(s: string)
    requires s != [] && NoBreak(s)
    ensures Terminator(s) == [] && LineContent(s) == s && IsLinePiece(s)
  {
    assert !IsLineBreak(s[|s| - 1]);
  }

  /** The pieces concatenate back to the text. */
  lemma {:induction false} SplitLinesKeepEndsConcat(s: string)
    ensures Concat(SplitLinesKeepEnds(s)) == s
    decreases |s|
  {
    if s != [] {
      var k := FirstBreak(s);
      if k == |s| {
        assert SplitLinesKeepEnds(s) == [s];
        ConcatCons(s, []);
      } else {
        var e := BreakEnd(s, k);
        var head, tail := s[..e], s[e..];
        SplitLinesKeepEndsConcat(tail);
        ConcatCons(head, SplitLinesKeepEnds(tail));
        TakeDrop(s, e);
      }
    }
  }

  /**
   * Each piece is a line followed by at most one break; all but the last end
   * in a break, and a `\r\n` pair is never split between two pieces.
   */
  lemma {:induction false} SplitLinesKeepEndsPieces(s: string)
    ensures forall i :: 0 <= i < |SplitLinesKeepEnds(s)| ==> IsLinePiece(SplitLinesKeepEnds(s)[i])
    ensures forall i :: 0 <= i < |SplitLinesKeepEnds(s)| - 1 ==> EndsWithBreak(SplitLinesKeepEnds(s)[i])
    ensures forall i :: 0 <= i < |SplitLinesKeepEnds(s)| - 1 ==> !SplitsCrLf(SplitLinesKeepEnds(s)[i], SplitLinesKeepEnds(s)[i + 1])
    decreases |s|
  {
    if s != [] {
      var k := FirstBreak(s);
      if k == |s| {
        assert SplitLinesKeepEnds(s) == [s];
        LastPiece(s);
      } else {
        var e := BreakEnd(s, k);
        var tail := s[e..];
        var rest := SplitLinesKeepEnds(tail);
        SplitLinesKeepEndsPieces(tail);
        FirstPiece(s);
        if rest != [] {
          KeepEndsHead(tail);
          CrLfKept(s);
          assert rest[0][0] == s[e] && s[..e][e - 1] == s[e - 1];
        }
        PiecesCons(s[..e], rest);
      }
    }
  }

  /** The first break never ends between the `\r` and `\n` of a pair. */
  lemma CrLfKept(s: string)
    requires FirstBreak(s) < |s| && BreakEnd(s, FirstBreak(s)) < |s|
    ensures var e := BreakEnd(s, FirstBreak(s)); !(s[e - 1] == '\r' && s[e] == '\n')
  {
  }

  /** A piece ending in `\r` followed by one starting with `\n`. */
  predicate SplitsCrLf(p: string, q: string)
  {
    p != [] && q != [] && p[|p| - 1] == '\r' && q[0] == '\n'
  }

  /** The first piece of non-empty text starts with the text's first character. */
  lemma KeepEndsHead(s: string)
    requires s != []
    ensures SplitLinesKeepEnds(s) != [] && SplitLinesKeepEnds(s)[0] != []
    ensures SplitLinesKeepEnds(s)[0][0] == s[0]
  {
  }

  lemma PiecesCons(x: string, rest: seq<string>)
    requires IsLinePiece(x) && EndsWithBreak(x)
    requires rest != [] ==> !SplitsCrLf(x, rest[0])
    requires forall i :: 0 <= i < |rest| ==> IsLinePiece(rest[i])
    requires forall i :: 0 <= i < |rest| - 1 ==> EndsWithBreak(rest[i])
    requires forall i :: 0 <= i < |rest| - 1 ==> !SplitsCrLf(rest[i], rest[i + 1])
    ensures var r := [x] + rest;
      (forall i :: 0 <= i < |r| ==> IsLinePiece(r[i]))
      && (forall i :: 0 <= i < |r| - 1 ==> EndsWithBreak(r[i]))
      && (forall i :: 0 <= i < |r| - 1 ==> !SplitsCrLf(r[i], r[i + 1]))
  {
    var r := [x] + rest;
    forall i | 0 <= i < |r|
      ensures IsLinePiece(r[i]) && (i < |r| - 1 ==> EndsWithBreak(r[i]) && !SplitsCrLf(r[i], r[i + 1]))
    {
      if i > 0 {
        assert r[i] == rest[i - 1];
      }
      if i < |r| - 1 {
        assert r[i + 1] == rest[i];
      }
    }
  }

  /** `splitlines()` gives each `keepends=True` piece without its break. */
  lemma {:induction false} SplitLinesContent(s: string)
    ensures |SplitLines(s)| == |SplitLinesKeepEnds(s)|
    ensures forall i :: 0 <= i < |SplitLines(s)| ==>
      SplitLinesKeepEnds(s)[i] == SplitLines(s)[i] + Terminator(SplitLinesKeepEnds(s)[i])
    decreases |s|
  {
    if s != [] {
      var k := FirstBreak(s);
      if k == |s| {
        LastPiece(s);
      } else {
        var e := BreakEnd(s, k);
        SplitLinesContent(s[e..]);
        FirstPieceParts(s);
        assert s[..e] == s[..k] + s[k..e];
        WithBreaksCons(s[..k], s[..e], SplitLines(s[e..]), SplitLinesKeepEnds(s[e..]));
      }
    }
  }

  /** Lines paired with pieces, one more pair in front. */
  lemma WithBreaksCons(a: string, p: string, l: seq<string>, q: seq<string>)
    requires p == a + Terminator(p)
    requires |l| == |q| && forall i :: 0 <= i < |l| ==> q[i] == l[i] + Terminator(q[i])
    ensures var l', q' := [a] + l, [p] + q;
      |l'| == |q'| && forall i :: 0 <= i < |l'| ==> q'[i] == l'[i] + Terminator(q'[i])
  {
    var l', q' := [a] + l, [p] + q;
    forall i | 0 <= i < |l'| ensures q'[i] == l'[i] + Terminator(q'[i]) {
      if i > 0 {
        assert q'[i] == q[i - 1] && l'[i] == l[i - 1];
      }
    }
  }

  /** Text whose only line break is `\n`. */
  predicate OnlyNewlines(s: string)
  {
    forall i :: 0 <= i < |s| ==> IsLineBreak(s[i]) ==> s[i] == '\n'
  }

  /** In such text the first break is a lone `\n`, and the rest is such text too. */
  lemma NewlineStep(s: string)
    requires OnlyNewlines(s) && FirstBreak(s) < |s|
    ensures var k := FirstBreak(s); s[k] == '\n' && BreakEnd(s, k) == k + 1
    ensures OnlyNewlines(s[FirstBreak(s) + 1..])
  {
    var k := FirstBreak(s);
    var rest := s[k + 1..];
    forall i | 0 <= i < |rest| ensures IsLineBreak(rest[i]) ==> rest[i] == '\n' {
      assert rest[i] == s[k + 1 + i];
    }
  }

  /**
   * On text whose only line break is `\n`, joining the lines with `\n` and
   * restoring a final break gives back the text.
   */
  lemma {:induction false} SplitLinesJoin(s: string)
    requires OnlyNewlines(s)
    ensures s != [] && s[|s| - 1] == '\n' ==> Join(SplitLines(s), '\n') + "\n" == s
    ensures s != [] && s[|s| - 1] != '\n' ==> Join(SplitLines(s), '\n') == s
    decreases |s|
  {
    if s != [] {
      var k := FirstBreak(s);
      if k == |s| {
        assert SplitLines(s) == [s];
        assert !IsLineBreak(s[|s| - 1]);
      } else {
        NewlineStep(s);
        var head, rest := s[..k], s[k + 1..];
        assert s == head + "\n" + rest;
        if rest == [] {
          assert SplitLines(s) == [head];
        } else {
          SplitLinesJoin(rest);
          JoinStep(head, SplitLines(rest));
          assert SplitLines(s) == [head] + SplitLines(rest);
          assert s[|s| - 1] == rest[|rest| - 1];
        }
      }
    }
  }

  lemma JoinStep(head: string, l: seq<string>)
    requires l != []
    ensures Join([head] + l, '\n') == head + "\n" + Join(l, '\n')
  {
    assert ([head] + l)[1..] == l;
  }

  // ---------------------------------------------------------------------------
  // Decimal numbers

  predicate IsDigit(c: char)
  {
    '0' <= c <= '9'
  }

  predicate AllDigits(s: string)
  {
    forall i :: 0 <= i < |s| ==> IsDigit(s[i])
  }

  function DigitValue(c: char): nat
    requires IsDigit(c)
  {
    c as int - '0' as int
  }

  function DigitChar(d: nat): (c: char)
    requires d < 10
    ensures IsDigit(c) && DigitValue(c) == d
  {
    ('0' as int + d) as char
  }

  /** The value of a run of decimal digits, most significant first. */
  function DigitsValue(s: string): nat
    requires AllDigits(s)
  {
    if s == [] then 0 else DigitsValue(s[..|s| - 1]) * 10 + DigitValue(s[|s| - 1])
  }

  /** Digits written one after another: the first run shifted left by the second's length. */
  lemma {:induction false} DigitsValueConcat(a: string, b: string)
    requires AllDigits(a) && AllDigits(b)
    ensures AllDigits(a + b)
    ensures DigitsValue(a + b) == Shifted(DigitsValue(a), |b|) + DigitsValue(b)
    decreases |b|
  {
    assert AllDigits(a + b) by {
      forall i | 0 <= i < |a + b| ensures IsDigit((a + b)[i]) {
        if i >= |a| { assert (a + b)[i] == b[i - |a|]; }
      }
    }
    if b != [] {
      var b' := b[..|b| - 1];
      var d := DigitValue(b[|b| - 1]);
      assert (a + b)[..|a + b| - 1] == a + b';
      assert (a + b)[|a + b| - 1] == b[|b| - 1];
      DigitsValueConcat(a, b');
      assert DigitsValue(a + b) == DigitsValue(a + b') * 10 + d;
    } else {
      assert a + b == a;
    }
  }

  /** Python's `str(n)` for a natural number. */
  function NatToString(n: nat): (r: string)
    ensures |r| >= 1 && AllDigits(r)
    ensures |r| > 1 ==> r[0] != '0'
  {
    if n < 10 then [DigitChar(n)]
    else NatToString(n / 10) + [DigitChar(n % 10)]
  }

  /** The digits written for `n` read back as `n`. */
  lemma {:induction false} NatToStringValue(n: nat)
    ensures DigitsValue(NatToString(n)) == n
    decreases n
  {
    if n >= 10 {
      var p := NatToString(n / 10);
      var r := NatToString(n);
      NatToStringValue(n / 10);
      assert r[..|r| - 1] == p;
    }
  }

  /** Python's `str(i)` for an integer. */
  function IntToString(i: int): string
  {
    if i < 0 then "-" + NatToString(-i) else NatToString(i)
  }

  /** `str(i)` is never empty and carries no surrounding whitespace. */
  lemma IntToStringUnpadded(i: int)
    ensures var r := IntToString(i); r != [] && !IsSpace(r[0]) && !IsSpace(r[|r| - 1])
  {
    var d := NatToString(if i < 0 then -i else i);
    assert IsDigit(d[0]) && IsDigit(d[|d| - 1]);
  }

  /** The number of decimal digits of `n`, as `len(str(n))`. */
  lemma {:induction false} NatToStringLength(n: nat, k: nat)
    requires k >= 1
    ensures |NatToString(n)| <= k <==> n < Pow10(k)
    decreases n
  {
    if n >= 10 && k > 1 {
      NatToStringLength(n / 10, k - 1);
    }
  }

  function Pow10(k: nat): (r: nat)
    ensures r >= 1
  {
    if k == 0 then 1 else 10 * Pow10(k - 1)
  }

  /** `x` followed by `k` zero digits, built one digit at a time so each step stays linear. */
  function Shifted(x: nat, k: nat): nat
  {
    if k == 0 then x else 10 * Shifted(x, k - 1)
  }

  /** Appending `k` zero digits multiplies by ten to the `k`. */
  lemma {:induction false} ShiftedIsProduct(x: nat, k: nat)
    ensures Shifted(x, k) == x * Pow10(k)
  {
    if k > 0 {
      ShiftedIsProduct(x, k - 1);
    }
  }

  /** A non-empty run of ASCII digits, read as a decimal number. */
  function ParseDigits(t: string): (r: Option<nat>)
    ensures r.Some? <==> t != [] && AllDigits(t)
  {
    if t != [] && AllDigits(t) then Some(DigitsValue(t)) else None
  }

  /**
   * Python's `int(s)` on text, restricted to ASCII: surrounding whitespace,
   * an optional sign, then one or more ASCII digits; anything else is the
   * `ValueError` (None). Python also reads other Unicode decimal digits
   * (`"١٢"`, `"１２"`) and `_` between digits; this model rejects those.
   */
  function ParseInt(s: string): (r: Option<int>)
    ensures r.Some? ==> Strip(s) != []
  {
    var t := Strip(s);
    if t != [] && (t[0] == '-' || t[0] == '+') then
      match ParseDigits(t[1..])
      case None => None
      case Some(v) =>
        var n: int := if t[0] == '-' then -(v as int) else v as int;
        Some(n)
    else
      match ParseDigits(t)
      case None => None
      case Some(v) => Some(v)
  }

  /** `int(str(i)) == i`: rendering and parsing are inverse. */
  lemma ParseIntToString(i: int)
    ensures ParseInt(IntToString(i)) == Some(i)
  {
    if i < 0 { ParseNegative(i); } else { ParseNonNegative(i); }
  }

  lemma ParseNonNegative(i: int)
    requires i >= 0
    ensures ParseInt(IntToString(i)) == Some(i)
  {
    var s := NatToString(i);
    NatToStringValue(i);
    assert IntToString(i) == s;
    IntToStringUnpadded(i);
    StripUnpadded(s);
    assert Strip(s) == s;
    assert IsDigit(s[0]);
    assert s[0] != '-' && s[0] != '+';
    assert ParseDigits(s) == Some(i);
    assert ParseInt(s) == Some(i);
  }

  lemma ParseNegative(i: int)
    requires i < 0
    ensures ParseInt(IntToString(i)) == Some(i)
  {
    var s := IntToString(i);
    var d := NatToString(-i);
    assert s == "-" + d;
    IntToStringUnpadded(i);
    StripUnpadded(s);
    NatToStringValue(-i);
    assert s[1..] == d;
    assert ParseDigits(d) == Some(-i);
    ParseMinus(s, -i);
    SomeInt(ParseInt(s), i);
  }

  /** Stripped text `-` followed by the digits of `v` parses as `-v`. */
  lemma ParseMinus(s: string, v: nat)
    requires Strip(s) == s && s != [] && s[0] == '-'
    requires ParseDigits(s[1..]) == Some(v)
    ensures ParseInt(s).Some? && ParseInt(s).value == -(v as int)
  {
  }

  lemma SomeInt(r: Option<int>, x: int)
    requires r.Some? && r.value == x
    ensures r == Some(x)
  {
  }

  lemma ParseIntRejectsEmpty()
    ensures ParseInt("") == None
    ensures ParseInt("-") == None
  {
  }

  // ---------------------------------------------------------------------------
  // Python slicing

  /** Where a Python slice bound lands in a sequence of length `n`. */
  function SliceIndex(i: int, n: nat): (r: nat)
    ensures r <= n
    ensures 0 <= i <= n ==> r == i
    ensures i > n ==> r == n
    ensures i < 0 ==> r == if i + n < 0 then 0 else i + n
  {
    if i < 0 then (if i + n < 0 then 0 else i + n)
    else if i > n then n
    else i
  }

  /** Python's `s[i:j]`, including negative and out-of-range bounds. */
  function Slice<T>(s: seq<T>, i: int, j: int): (r: seq<T>)
    ensures 0 <= i <= j <= |s| ==> r == s[i..j]
    ensures |r| <= |s|
  {
    var a := SliceIndex(i, |s|);
    var b := SliceIndex(j, |s|);
    if a <= b then s[a..b] else []
  }

  /** A negative bound counts back from the end: `-k` lands `k` before it. */
  lemma SliceIndexFromEnd(k: int, n: nat)
    requires 0 < k <= n
    ensures SliceIndex(-k, n) == n - k
    ensures SliceIndex(-k, n) == SliceIndex(n - k, n)
  {
  }

  /** Bounds of the same sign keep their order once they land. */
  lemma SliceIndexMonotone(i: int, j: int, n: nat)
    requires i <= j && (i < 0 <==> j < 0)
    ensures SliceIndex(i, n) <= SliceIndex(j, n)
  {
  }

  /** Across signs they need not: in a sequence of two or more, `-1` lands after `0`. */
  lemma SliceIndexAcrossSigns(n: nat)
    requires n > 1
    ensures SliceIndex(-1, n) == n - 1 > SliceIndex(0, n) == 0
  {
  }

  /** A slice between two negative bounds is the subsequence counted from the end. */
  lemma SliceNegative<T>(s: seq<T>, i: int, j: int)
    requires -|s| <= i <= j < 0
    ensures Slice(s, i, j) == s[|s| + i..|s| + j]
    ensures |Slice(s, i, j)| == j - i
  {
  }

  /** Slicing at a middle bound and joining the pieces gives back the whole slice. */
  lemma SliceSplit<T>(s: seq<T>, i: int, j: int, k: int)
    requires SliceIndex(i, |s|) <= SliceIndex(j, |s|) <= SliceIndex(k, |s|)
    ensures Slice(s, i, j) + Slice(s, j, k) == Slice(s, i, k)
  {
    var a, b, c := SliceIndex(i, |s|), SliceIndex(j, |s|), SliceIndex(k, |s|);
    assert s[a..b] + s[b..c] == s[a..c];
  }

  /** Python's `s[i:]`. */
  function SliceFrom<T>(s: seq<T>, i: int): (r: seq<T>)
    ensures 0 <= i <= |s| ==> r == s[i..]
    ensures i >= |s| ==> r == []
  {
    Slice(s, i, |s|)
  }

  /** Python's `s[:j]`. */
  function SliceTo<T>(s: seq<T>, j: int): (r: seq<T>)
    ensures 0 <= j <= |s| ==> r == s[..j]
    ensures j >= |s| ==> r == s
  {
    Slice(s, 0, j)
  }
}

=== FILE: replacement_format.dfy ===
/**
 * The replacement edit format (mentat/parsers/replacement_parser.py): a
 * header line `@ file start end` opens a block of new lines closed by a lone
 * `@`; `@ file +`, `@ file -` and `@ file new` create, delete and rename.
 */
module ReplacementFormat {
  import opened Wrappers
  import opened PyText
  import FileEdits
  import Parsing
  import ChangeDisplay

  // ---------------------------------------------------------------------------
  // Line predicates

  predicate CouldBeSpecial(curLine: string)
  {
    StartsWith(curLine, "@")
  }

  /** A header starts with `@` and has more than the `@`. */
  predicate StartsSpecial(line: string)
  {
    StartsWith(line, "@") && |Strip(line)| > 1
  }

  predicate EndsSpecial(line: string)
  {
    StartsWith(line, "@")
  }

  predicate EndsCode(line: string)
  {
    Strip(line) == "@"
  }

  /** A header line is a header block by itself: it starts and ends the block. */
  lemma HeaderIsOneLine(line: string)
    requires StartsSpecial(line)
    ensures EndsSpecial(line) && CouldBeSpecial(line)
  {
  }

  // ---------------------------------------------------------------------------
  // Header

  /** The space-separated words after the `@`. */
  function Info(block: string): seq<string>
  {
    SliceFrom(Split(Strip(block), ' '), 1)
  }

  function HeaderFor(fileName: string, action: ChangeDisplay.FileActionType, first: int, last: int, newName: Option<string>): Parsing.Header
  {
    Parsing.Header(
      fileName, newName,
      FileEdits.FileEdit(fileName, [], action == ChangeDisplay.CreateFile, action == ChangeDisplay.DeleteFile, newName),
      action == ChangeDisplay.UpdateFile, first, last)
  }

  /** Exactly one of: creation, deletion, rename, code to follow. */
  predicate OneAction(h: Parsing.Header)
  {
    (if h.edit.isCreation then 1 else 0) + (if h.edit.isDeletion then 1 else 0)
    + (if h.edit.rename.Some? then 1 else 0) + (if h.hasCode then 1 else 0) == 1
  }

  /** `_special_block`: two words for create/delete/rename, three for a line range. */
  function SpecialBlock(block: string): (r: Result<Parsing.Header, Parsing.BlockError>)
    ensures |Info(block)| == 0 || |Info(block)| == 1 || |Info(block)| > 3 ==> r == Err(Parsing.ValueError)
    ensures r.Ok? ==> r.value.fileName == Info(block)[0] && r.value.edit.path == r.value.fileName
    ensures r.Ok? ==> r.value.edit.replacements == [] && r.value.edit.rename == r.value.newName
    ensures r.Ok? ==> OneAction(r.value)
    ensures r.Ok? && !r.value.hasCode ==> r.value.first == 0 && r.value.last == 0
  {
    FromInfo(Info(block))
  }

  /** The header for the words after the `@`. */
  function FromInfo(info: seq<string>): (r: Result<Parsing.Header, Parsing.BlockError>)
    ensures |info| == 0 || |info| == 1 || |info| > 3 ==> r == Err(Parsing.ValueError)
    ensures r.Ok? ==> r.value.fileName == info[0] && r.value.edit.path == r.value.fileName
    ensures r.Ok? ==> r.value.edit.replacements == [] && r.value.edit.rename == r.value.newName
    ensures r.Ok? ==> OneAction(r.value)
    ensures r.Ok? && !r.value.hasCode ==> r.value.first == 0 && r.value.last == 0
  {
    if |info| == 0 then Err(Parsing.ValueError)
    else if |info| == 2 then
      if info[1] == "+" then Ok(HeaderFor(info[0], ChangeDisplay.CreateFile, 0, 0, None))
      else if info[1] == "-" then Ok(HeaderFor(info[0], ChangeDisplay.DeleteFile, 0, 0, None))
      else Ok(HeaderFor(info[0], ChangeDisplay.RenameFile, 0, 0, Some(info[1])))
    else if |info| == 3 then
      match (ParseInt(info[1]), ParseInt(info[2]))
      case (Some(s), Some(e)) => Ok(HeaderFor(info[0], ChangeDisplay.UpdateFile, s - 1, e - 1, None))
      case _ => Err(Parsing.ValueError)
    else Err(Parsing.ValueError)
  }

  /** A word the model writes in a header: no spaces, not padded. */
  predicate Word(w: string)
  {
    w != [] && ' ' !in w && !IsSpace(w[0]) && !IsSpace(w[|w| - 1])
  }

  lemma StripLine(x: string)
    requires x != [] && !IsSpace(x[0]) && !IsSpace(x[|x| - 1])
    ensures Strip(x + "\n") == x
  {
    var s := x + "\n";
    assert LStrip(s) == s;
    assert s[..|s| - 1] == x;
    assert RStrip(x) == x;
  }

  /** The words of a header line written as `@ w1 w2 ...`. */
  lemma InfoOf(words: seq<string>)
    requires forall i :: 0 <= i < |words| ==> Word(words[i])
    ensures Info(Join(["@"] + words, ' ') + "\n") == words
  {
    var parts := ["@"] + words;
    HeaderParts(words);
    InfoOfParts(parts);
    assert parts[1..] == words;
  }

  lemma InfoOfParts(parts: seq<string>)
    requires |parts| >= 1 && parts[0] == "@"
    requires forall i :: 0 <= i < |parts| ==> parts[i] != [] && ' ' !in parts[i]
    requires !IsSpace(parts[|parts| - 1][|parts[|parts| - 1]| - 1])
    ensures Info(Join(parts, ' ') + "\n") == parts[1..]
  {
    var x := Join(parts, ' ');
    JoinFirst(parts);
    JoinLast(parts);
    StripLine(x);
    SplitJoin(parts, ' ');
    assert Split(Strip(x + "\n"), ' ') == parts;
  }

  lemma HeaderParts(words: seq<string>)
    requires forall i :: 0 <= i < |words| ==> Word(words[i])
    ensures var parts := ["@"] + words;
      forall i :: 0 <= i < |parts| ==> parts[i] != [] && ' ' !in parts[i]
    ensures var parts := ["@"] + words;
      !IsSpace(parts[|parts| - 1][|parts[|parts| - 1]| - 1])
  {
    var parts := ["@"] + words;
    forall i | 0 <= i < |parts| ensures parts[i] != [] && ' ' !in parts[i] {
      if i > 0 { assert parts[i] == words[i - 1]; }
    }
    if words != [] {
      assert parts[|parts| - 1] == words[|words| - 1];
    }
  }

  lemma JoinFirst(parts: seq<string>)
    requires |parts| >= 1 && parts[0] != []
    ensures var x := Join(parts, ' '); x != [] && x[0] == parts[0][0]
  {
  }

  lemma {:induction false} JoinLast(parts: seq<string>)
    requires |parts| >= 1 && forall i :: 0 <= i < |parts| ==> parts[i] != []
    ensures var x := Join(parts, ' '); x != [] && x[|x| - 1] == parts[|parts| - 1][|parts[|parts| - 1]| - 1]
  {
    if |parts| > 1 {
      JoinLast(parts[1..]);
    }
  }

  /** `@ f s e` updates lines `s..e` counted from 1: the 0-based half-open range `[s-1, e-1)`. */
  lemma UpdateHeader(f: string, s: nat, e: nat)
    requires Word(f)
    ensures SpecialBlock(Join(["@", f, NatToString(s), NatToString(e)], ' ') + "\n")
         == Ok(HeaderFor(f, ChangeDisplay.UpdateFile, s - 1, e - 1, None))
  {
    var S, E := NatToString(s), NatToString(e);
    DigitsHaveNoSpace(s);
    DigitsHaveNoSpace(e);
    ThreeWords(f, S, E);
    ParseIntToString(s);
    ParseIntToString(e);
    UpdateBlock(f, S, E, s, e);
    var block := Join(["@", f, S, E], ' ') + "\n";
    assert SpecialBlock(block) == FromInfo([f, S, E]);
  }

  lemma ThreeWords(f: string, S: string, E: string)
    requires Word(f) && Word(S) && Word(E)
    ensures Info(Join(["@", f, S, E], ' ') + "\n") == [f, S, E]
  {
    assert ["@", f, S, E] == ["@"] + [f, S, E];
    InfoOf([f, S, E]);
  }

  /** The words `f s e` with `s` and `e` parsing as numbers make an update header. */
  lemma UpdateBlock(f: string, S: string, E: string, s: int, e: int)
    requires ParseInt(S) == Some(s) && ParseInt(E) == Some(e)
    ensures FromInfo([f, S, E]) == Ok(HeaderFor(f, ChangeDisplay.UpdateFile, s - 1, e - 1, None))
  {
    var info := [f, S, E];
    assert info[1] == S && info[2] == E;
  }

  lemma DigitsHaveNoSpace(n: nat)
    ensures Word(NatToString(n))
  {
    var d := NatToString(n);
    assert forall i :: 0 <= i < |d| ==> IsDigit(d[i]);
  }

  /** `@ f +` creates, `@ f -` deletes, and `@ f g` renames `f` to `g`; no code follows. */
  lemma ActionHeader(f: string, t: string)
    requires Word(f) && Word(t)
    ensures var r := SpecialBlock(Join(["@", f, t], ' ') + "\n");
      && r.Ok? && r.value.fileName == f && !r.value.hasCode
      && (r.value.edit.isCreation <==> t == "+")
      && (r.value.edit.isDeletion <==> t == "-")
      && (r.value.newName.Some? <==> t != "+" && t != "-")
      && (r.value.newName.Some? ==> r.value.newName.value == t)
  {
    assert ["@", f, t] == ["@"] + [f, t];
    InfoOf([f, t]);
  }

  // ---------------------------------------------------------------------------
  // Code block

  /** `_add_code_block` as written: the code block's pieces minus the last two. */
  function CodeLinesAsWritten(codeBlock: string): seq<string>
  {
    SliceTo(Split(codeBlock, '\n'), -2)
  }

  /**
   * The intended code lines: drop the text after the last line break, then
   * the closing `@` line if the block has one.
   */
  function CodeLines(codeBlock: string): (r: seq<string>)
    ensures var pieces := Split(codeBlock, '\n');
      |pieces| - 2 <= |r| < |pieces| && r == pieces[..|r|]
    ensures forall i :: 0 <= i < |r| ==> '\n' !in r[i]
  {
    var pieces := Split(codeBlock, '\n');
    var body := pieces[..|pieces| - 1];
    if body != [] && Strip(body[|body| - 1]) == "@" then body[..|body| - 1] else body
  }

  /** Lines of code: no line breaks inside, none that would close the block. */
  predicate CodeText(lines: seq<string>)
  {
    forall i :: 0 <= i < |lines| ==> '\n' !in lines[i] && Strip(lines[i]) != "@"
  }

  /** The block the loop hands over: each line followed by its line break. */
  function Block(lines: seq<string>): string
  {
    Join(lines + [""], '\n')
  }

  lemma SplitBlock(lines: seq<string>)
    requires forall i :: 0 <= i < |lines| ==> '\n' !in lines[i]
    ensures Split(Block(lines), '\n') == lines + [""]
  {
    var parts := lines + [""];
    forall i | 0 <= i < |parts| ensures '\n' !in parts[i] {
      if i < |lines| { assert parts[i] == lines[i]; }
    }
    SplitJoin(parts, '\n');
  }

  /** A block closed by `@` gives back exactly its code lines, as written and as intended. */
  lemma ClosedBlock(lines: seq<string>)
    requires CodeText(lines)
    ensures CodeLinesAsWritten(Block(lines + ["@"])) == lines
    ensures CodeLines(Block(lines + ["@"])) == lines
  {
    SplitClosed(lines);
    ClosedPieces(lines, lines + ["@", ""]);
  }

  lemma SplitClosed(lines: seq<string>)
    requires CodeText(lines)
    ensures Split(Block(lines + ["@"]), '\n') == lines + ["@", ""]
  {
    var all := lines + ["@"];
    forall i | 0 <= i < |all| ensures '\n' !in all[i] {
      if i < |lines| { assert all[i] == lines[i]; }
    }
    SplitBlock(all);
    assert all + [""] == lines + ["@", ""];
  }

  lemma ClosedPieces(lines: seq<string>, pieces: seq<string>)
    requires pieces == lines + ["@", ""]
    ensures SliceTo(pieces, -2) == lines
    ensures var body := pieces[..|pieces| - 1];
      body != [] && Strip(body[|body| - 1]) == "@" && body[..|body| - 1] == lines
  {
    assert pieces[..|pieces| - 2] == lines;
    StripUnpadded("@");
  }

  /**
   * A block left open at the end of the stream loses its last code line as
   * written: `x` then `y`, unclosed, gives only `x`.
   */
  lemma UnclosedBlockAsWritten(lines: seq<string>)
    requires lines != [] && CodeText(lines)
    ensures CodeLinesAsWritten(Block(lines)) == lines[..|lines| - 1]
  {
    SplitBlock(lines);
    var pieces := lines + [""];
    assert pieces[..|pieces| - 2] == lines[..|lines| - 1];
  }

  /** The intended reading keeps every line of an unclosed block. */
  lemma UnclosedBlock(lines: seq<string>)
    requires CodeText(lines)
    ensures CodeLines(Block(lines)) == lines
  {
    SplitBlock(lines);
    var pieces := lines + [""];
    assert pieces[..|pieces| - 1] == lines;
    if lines != [] {
      assert Strip(lines[|lines| - 1]) != "@";
    }
  }

  lemma ClosedAndUnclosedBlocks()
    ensures forall lines :: CodeText(lines) ==> CodeLines(Block(lines + ["@"])) == lines
    ensures forall lines :: CodeText(lines) ==> CodeLines(Block(lines)) == lines
  {
    forall lines | CodeText(lines) ensures CodeLines(Block(lines + ["@"])) == lines && CodeLines(Block(lines)) == lines {
      ClosedBlock(lines);
      UnclosedBlock(lines);
    }
  }

  /**
   * The callbacks this format gives the streaming parser. A code block,
   * closed by `@` or left open at the end of the stream, becomes one
   * replacement over the header's range holding exactly its code lines.
   */
  function Callbacks(): (r: Parsing.Format)
    ensures forall renames, special, lines, h :: CodeText(lines) ==>
      r.addCode(renames, special, Block(lines + ["@"]), h) == [FileEdits.Replacement(h.first, h.last, lines)]
    ensures forall renames, special, lines, h :: CodeText(lines) ==>
      r.addCode(renames, special, Block(lines), h) == [FileEdits.Replacement(h.first, h.last, lines)]
  {
    ClosedAndUnclosedBlocks();
    Parsing.Format(
      StartsSpecial,
      EndsSpecial,
      EndsCode,
      SpecialBlock,
      (renames: map<string, string>, special: string, code: string, h: Parsing.Header) =>
        [FileEdits.Replacement(h.first, h.last, CodeLines(code))])
  }

  /** A code block appends exactly one replacement, over the header's range, to the current edit. */
  lemma AddCodeAppendsOne(st: Parsing.State, code: string)
    requires Parsing.Valid(st) && st.header.Some?
    ensures var i := st.current.value; var h := st.header.value;
      Parsing.AddCode(Callbacks(), st, code)
      == st.edits[i := st.edits[i].(replacements := st.edits[i].replacements + [FileEdits.Replacement(h.first, h.last, CodeLines(code))])]
  {
  }
}

=== FILE: sampler.dfy ===
// `mentat/sampler/sampler.py` and `mentat/sample.py`: reading the text of a
// chat message, choosing which messages a sample records, and when a
// sample stops counting as the parent of the next one.

module Sampler {
  import opened Wrappers
  import opened PyText
  import opened Values

  /** A message's `content`: text, a list of parts (dictionaries), or anything else including none. */
  datatype Content = Text(text: string) | Parts(parts: seq<map<string, Value>>) | Other

  /** A chat message; `role` is absent when the dictionary has no `role` key. */
  datatype Message = Message(role: Option<string>, content: Content)

  /** The first part's `text` when it is a string, else nothing. */
  function FirstPartText(parts: seq<map<string, Value>>): (r: string)
    ensures r != "" ==> |parts| > 0 && IsStr(parts[0], "text") && r == parts[0]["text"].s
  {
    if |parts| > 0 && IsStr(parts[0], "text") then parts[0]["text"].s else ""
  }

  /** `parse_message` of `sample.py`. */
  function ParseMessage(m: Message): (r: string)
    ensures m.content.Text? ==> r == m.content.text
    ensures m.content.Other? ==> r == ""
    ensures m.content.Parts? ==> r == FirstPartText(m.content.parts)
  {
    match m.content
    case Text(t) => t
    case Parts(ps) => FirstPartText(ps)
    case Other => ""
  }

  /**
   * `parse_message` of `sampler.py`: as above, except that an assistant
   * message holding an edit block keeps only the text before `@@start\n`.
   */
  function ParseSamplerMessage(m: Message): (r: string)
    ensures StartsWith(ParseMessage(m), r)
    ensures !(m.role == Some("assistant") && m.content.Text? && Contains(m.content.text, "\n@@start\n"))
            ==> r == ParseMessage(m)
  {
    match m.content
    case Text(t) =>
      if m.role == Some("assistant") && Contains(t, "\n@@start\n") then BeforeFirst(t, "@@start\n") else t
    case Parts(ps) => FirstPartText(ps)
    case Other => ""
  }

  /** The cut text ends with the line break before the edit block. */
  lemma SamplerCutsBeforeBlock(before: string, block: string)
    requires !Contains(before + "\n", "@@start\n")
    ensures ParseSamplerMessage(Message(Some("assistant"), Text(before + "\n@@start\n" + block))) == before + "\n"
  {
    var t := before + "\n@@start\n" + block;
    var head := before + "\n";
    assert t == head + "@@start\n" + block;
    MarkerInText(before, block);
    MarkerAfterHead(head, block);
    assert t[..|head|] == head;
  }

  /** The text holds `\n@@start\n` where `before` ends. */
  lemma MarkerInText(before: string, block: string)
    ensures Contains(before + "\n@@start\n" + block, "\n@@start\n")
  {
    var t := before + "\n@@start\n" + block;
    assert t[|before|..|before| + 9] == "\n@@start\n";
    NoEarlierThan(t, "\n@@start\n", |before|);
  }

  /** The first `@@start\n` after a line-ending `head` without one is the one right after it. */
  lemma MarkerAfterHead(head: string, block: string)
    requires !Contains(head, "@@start\n") && |head| > 0 && head[|head| - 1] == '\n'
    ensures FindFrom(head + "@@start\n" + block, "@@start\n", 0) == Some(|head|)
  {
    var t := head + ("@@start\n" + block);
    assert head + "@@start\n" + block == t;
    assert t[|head|..|head| + 8] == "@@start\n";
    forall j | 0 <= j < |head| ensures !OccursAt(t, "@@start\n", j) {
      NotInHead(head, "@@start\n" + block, "@@start\n", j);
    }
    NoEarlierThan(t, "@@start\n", |head|);
  }

  /** A search from the start finds something when there is an occurrence at `i`. */
  lemma NoEarlierThan(s: string, pat: string, i: nat)
    requires OccursAt(s, pat, i)
    ensures FindFrom(s, pat, 0).Some? && FindFrom(s, pat, 0).value <= i
    ensures (forall j :: 0 <= j < i ==> !OccursAt(s, pat, j)) ==> FindFrom(s, pat, 0) == Some(i)
  {
  }

  /**
   * No `@@start\n` starts inside a line-ending `head` that does not hold one:
   * one straddling the end would need the line break inside the marker.
   */
  lemma NotInHead(head: string, tail: string, pat: string, j: nat)
    requires pat == "@@start\n"
    requires !Contains(head, pat) && j < |head| && head[|head| - 1] == '\n'
    ensures !OccursAt(head + tail, pat, j)
  {
    var t := head + tail;
    if j + |pat| <= |head| {
      assert t[j..j + |pat|] == head[j..j + |pat|];
      assert !OccursAt(head, pat, j);
    } else if j + |pat| <= |t| {
      var k := |head| - 1 - j;
      assert 0 <= k < 7;
      assert t[j..j + |pat|][k] == '\n';
      assert pat[k] != '\n';
    }
  }

  datatype Failure = KeyError

  /** One recorded message: its role and parsed content. */
  datatype Kept = Kept(role: string, content: string)

  /** The roles a sample records. */
  predicate Recorded(role: string)
  {
    role == "user" || role == "assistant"
  }

  /**
   * The message filter of `add_sample` and `from_context`: messages with
   * non-empty parsed text and a user or assistant role, in order. A message
   * with text and no `role` key raises `KeyError`.
   */
  function KeepMessages(messages: seq<Message>, parse: Message -> string): (r: Result<seq<Kept>, Failure>)
    ensures r.Err? <==> exists i :: 0 <= i < |messages| && parse(messages[i]) != "" && messages[i].role.None?
    ensures r.Ok? ==> forall k :: k in r.value ==> k.content != "" && Recorded(k.role)
    ensures r.Ok? ==> |r.value| <= |messages|
  {
    if |messages| == 0 then Ok([])
    else
      var m := messages[0];
      var parsed := parse(m);
      assert forall i :: 1 <= i < |messages| ==> messages[i] == messages[1..][i - 1];
      if parsed != "" && m.role.None? then Err(KeyError)
      else
        match KeepMessages(messages[1..], parse)
        case Err(e) => Err(e)
        case Ok(rest) =>
          if parsed != "" && Recorded(m.role.value) then Ok([Kept(m.role.value, parsed)] + rest) else Ok(rest)
  }

  /**
   * One message: kept as role and parsed text when the text is non-empty and
   * the role is user or assistant, skipped otherwise; text without a role raises.
   */
  lemma KeepMessagesSingle(m: Message, parse: Message -> string)
    ensures KeepMessages([m], parse)
      == if parse(m) != "" && m.role.None? then Err(KeyError)
         else if parse(m) != "" && Recorded(m.role.value) then Ok([Kept(m.role.value, parse(m))])
         else Ok([])
  {
    assert [m][1..] == [];
    assert KeepMessages([], parse) == Ok([]);
    if parse(m) != "" && m.role.Some? && Recorded(m.role.value) {
      assert [Kept(m.role.value, parse(m))] + [] == [Kept(m.role.value, parse(m))];
    }
  }

  /** Filtering a conversation in two pieces is filtering it whole. */
  lemma {:induction false} KeepMessagesAppend(a: seq<Message>, b: seq<Message>, parse: Message -> string)
    requires KeepMessages(a, parse).Ok? && KeepMessages(b, parse).Ok?
    ensures KeepMessages(a + b, parse) == Ok(KeepMessages(a, parse).value + KeepMessages(b, parse).value)
  {
    if |a| > 0 {
      var m := a[0];
      assert (a + b)[1..] == a[1..] + b;
      assert (a + b)[0] == m;
      assert !(parse(m) != "" && m.role.None?);
      assert KeepMessages(a[1..], parse).Ok?;
      KeepMessagesAppend(a[1..], b, parse);
      var rest := KeepMessages(a[1..], parse).value;
      var bs := KeepMessages(b, parse).value;
      if parse(m) != "" && Recorded(m.role.value) {
        assert KeepMessages(a, parse).value == [Kept(m.role.value, parse(m))] + rest;
        assert [Kept(m.role.value, parse(m))] + (rest + bs) == [Kept(m.role.value, parse(m))] + rest + bs;
      } else {
        assert KeepMessages(a, parse).value == rest;
      }
    } else {
      assert a == [] && a + b == b;
      assert KeepMessages(a, parse) == Ok([]);
      assert [] + KeepMessages(b, parse).value == KeepMessages(b, parse).value;
    }
  }

  /** A kept message read back as a text message. */
  function AsMessage(k: Kept): Message
  {
    Message(Some(k.role), Text(k.content))
  }

  /** Recording a sample's own messages again keeps every one of them unchanged. */
  lemma {:induction false} KeepMessagesIdempotent(kept: seq<Kept>)
    requires forall k :: k in kept ==> k.content != "" && Recorded(k.role)
    ensures KeepMessages(Seq(kept), ParseMessage) == Ok(kept)
  {
    if |kept| > 0 {
      assert Seq(kept)[1..] == Seq(kept[1..]);
      KeepMessagesIdempotent(kept[1..]);
      assert kept == [kept[0]] + kept[1..];
    }
  }

  function Seq(kept: seq<Kept>): (r: seq<Message>)
    ensures |r| == |kept| && forall i :: 0 <= i < |kept| ==> r[i] == AsMessage(kept[i])
  {
    if |kept| == 0 then [] else [AsMessage(kept[0])] + Seq(kept[1..])
  }

  // ---------------------------------------------------------------- parent sample

  /** What the sampler remembers between samples. */
  datatype Tracker = Tracker(commitActive: Option<string>, lastSampleId: Option<string>, lastSampleHexsha: Option<string>)

  /** The remembered sample is dropped as parent: a commit was stored, and the work tree's commit moved. */
  predicate Stale(t: Tracker, activeHexsha: string)
  {
    t.lastSampleHexsha.Some? && t.lastSampleHexsha.value != "" && t.lastSampleHexsha.value != activeHexsha
  }

  /**
   * `set_active_diff`: outside a repository nothing happens; inside, the
   * active snapshot is recorded and a stale parent forgotten.
   */
  function SetActiveDiff(t: Tracker, inRepo: bool, snapshot: Option<string>, activeHexsha: string): (r: Tracker)
    ensures !inRepo ==> r == t
    ensures inRepo ==> r.commitActive == snapshot
    ensures inRepo && Stale(t, activeHexsha) ==> r.lastSampleId.None? && r.lastSampleHexsha.None?
    ensures !(inRepo && Stale(t, activeHexsha)) ==> r.lastSampleId == t.lastSampleId && r.lastSampleHexsha == t.lastSampleHexsha
  {
    if !inRepo then t
    else
      var t' := t.(commitActive := snapshot);
      if t'.lastSampleHexsha.None? || t'.lastSampleHexsha.value == "" then t'
      else if t'.lastSampleHexsha.value != activeHexsha then t'.(lastSampleId := None, lastSampleHexsha := None)
      else t'
  }

  /** Running it twice in the same state is running it once. */
  lemma SetActiveDiffIdempotent(t: Tracker, inRepo: bool, snapshot: Option<string>, activeHexsha: string)
    ensures var once := SetActiveDiff(t, inRepo, snapshot, activeHexsha);
            SetActiveDiff(once, inRepo, snapshot, activeHexsha) == once
  {
  }

  /** The end of `add_sample`: the new sample is remembered with the commit it was taken at. */
  function RecordSample(t: Tracker, id: string, hexsha: string): (r: Tracker)
    ensures r.lastSampleId == Some(id) && r.lastSampleHexsha == Some(hexsha) && r.commitActive.None?
  {
    Tracker(None, Some(id), Some(hexsha))
  }

  /** A sample stays the parent while the work tree's commit is unchanged, and is dropped once it moves. */
  lemma ParentKeptUntilCommitMoves(t: Tracker, id: string, hexsha: string, snapshot: Option<string>, now: string)
    requires hexsha != ""
    ensures SetActiveDiff(RecordSample(t, id, hexsha), true, snapshot, now).lastSampleId
            == if now == hexsha then Some(id) else None
  {
  }
}

=== FILE: selection.dfy ===
/**
 * Choosing features and their levels under a token budget
 * (mentat/feature_filters/truncate_filter.py, mentat/auto_context.py).
 * Features are generic: `Ops` says how to read and set a feature's level,
 * count its tokens at its current level, and whether the user included it.
 */
module Selection {
  import opened Wrappers
  import opened CodeFeatures
  import opened Intervals

  datatype Ops<!T> = Ops(level: T -> Level, withLevel: (T, Level) -> T, tokens: T -> int, userIncluded: T -> bool)

  // ---------------------------------------------------------------------------
  // Candidate levels

  predicate StrictlyAscending(ls: seq<Level>)
  {
    forall i, j :: 0 <= i < j < |ls| ==> Rank(ls[i]) < Rank(ls[j])
  }

  /** The members of `all` that are among `levels` or equal `own`, in the order of `all`. */
  function Keep(all: seq<Level>, levels: seq<Level>, own: Level): seq<Level>
  {
    if all == [] then []
    else (if all[0] in levels || all[0] == own then [all[0]] else []) + Keep(all[1..], levels, own)
  }

  lemma {:induction false} KeepFacts(all: seq<Level>, levels: seq<Level>, own: Level)
    requires StrictlyAscending(all)
    ensures forall l :: l in Keep(all, levels, own) <==> l in all && (l in levels || l == own)
    ensures StrictlyAscending(Keep(all, levels, own))
  {
    if all != [] {
      KeepFacts(all[1..], levels, own);
      var rest := Keep(all[1..], levels, own);
      assert forall i :: 0 <= i < |rest| ==> rest[i] in all[1..];
    }
  }

  lemma LevelsAscending()
    ensures StrictlyAscending(Levels)
    ensures forall l: Level :: l in Levels
  {
    RanksAscend();
    forall l: Level ensures l in Levels {
      assert LevelOfRank(Rank(l)) == Some(l);
      assert Levels[Rank(l) - 1] == l;
    }
  }

  /** `sorted(set(levels) | {feature.level}, key=rank)`: most detailed first, no repeats. */
  function Candidates(levels: seq<Level>, own: Level): (r: seq<Level>)
    ensures r != []
  {
    LevelsAscending();
    KeepFacts(Levels, levels, own);
    assert own in Keep(Levels, levels, own);
    Keep(Levels, levels, own)
  }

  /** The candidates are exactly the configured levels and the feature's own, by ascending rank. */
  lemma CandidatesFacts(levels: seq<Level>, own: Level)
    ensures forall l :: l in Candidates(levels, own) <==> l in levels || l == own
    ensures StrictlyAscending(Candidates(levels, own))
  {
    LevelsAscending();
    KeepFacts(Levels, levels, own);
  }

  // ---------------------------------------------------------------------------
  // Greedy selection

  /**
   * The inner loop: the index of the first candidate level at which the
   * feature fits the remaining budget, or the first candidate when the
   * feature is forced in.
   */
  function Choose<T>(ops: Ops<T>, f: T, cands: seq<Level>, remaining: int, forced: bool): (r: Option<nat>)
    ensures r.Some? ==> r.value < |cands|
    decreases |cands|
  {
    if cands == [] then None
    else if forced || ops.tokens(ops.withLevel(f, cands[0])) <= remaining then Some(0)
    else match Choose(ops, f, cands[1..], remaining, forced)
      case None => None
      case Some(j) => Some(j + 1)
  }

  lemma {:induction false} ChooseFacts<T>(ops: Ops<T>, f: T, cands: seq<Level>, remaining: int, forced: bool)
    ensures var r := Choose(ops, f, cands, remaining, forced);
      && (r.Some? ==> forced || ops.tokens(ops.withLevel(f, cands[r.value])) <= remaining)
      && (r.Some? ==> forall j :: 0 <= j < r.value ==> !forced && ops.tokens(ops.withLevel(f, cands[j])) > remaining)
      && (r.None? <==> forall j :: 0 <= j < |cands| ==> !forced && ops.tokens(ops.withLevel(f, cands[j])) > remaining)
      && (forced && cands != [] ==> r == Some(0))
    decreases |cands|
  {
    if cands != [] && !forced && ops.tokens(ops.withLevel(f, cands[0])) > remaining {
      ChooseFacts(ops, f, cands[1..], remaining, forced);
      forall j | 1 <= j < |cands| ensures cands[j] == cands[1..][j - 1] { }
    }
  }

  /**
   * The outer loop shared by `TruncateFilter.filter` and
   * `GreedyFeatureSelector.select`: each feature at its first fitting level,
   * the budget shrinking by what it costs; a feature that fits nowhere is
   * dropped. With `respect`, a user-included feature is always taken.
   */
  function Select<T>(ops: Ops<T>, features: seq<T>, remaining: int, levels: seq<Level>, respect: bool): (r: seq<T>)
    ensures |r| <= |features|
    ensures PickedFrom(ops, r, features, levels)
    decreases |features|
  {
    if features == [] then []
    else
      StepFacts(ops, features[0], remaining, levels, respect);
      match Step(ops, features[0], remaining, levels, respect)
      case None =>
        var rest := Select(ops, features[1..], remaining, levels, respect);
        PickedSkip(ops, rest, features, levels);
        rest
      case Some(g) =>
        var rest := Select(ops, features[1..], remaining - ops.tokens(g), levels, respect);
        assert ([g] + rest)[1..] == rest;
        [g] + rest
  }

  /** One turn of the outer loop: the feature at its chosen level, if any. */
  function Step<T>(ops: Ops<T>, f: T, remaining: int, levels: seq<Level>, respect: bool): Option<T>
  {
    var cands := Candidates(levels, ops.level(f));
    match Choose(ops, f, cands, remaining, respect && ops.userIncluded(f))
    case None => None
    case Some(j) => Some(ops.withLevel(f, cands[j]))
  }

  function Sum<T>(ops: Ops<T>, fs: seq<T>): int
  {
    if fs == [] then 0 else ops.tokens(fs[0]) + Sum(ops, fs[1..])
  }

  /** No feature is forced in by the user-include rule. */
  predicate NoneForced<T>(ops: Ops<T>, features: seq<T>, respect: bool)
  {
    forall i :: 0 <= i < |features| ==> !(respect && ops.userIncluded(features[i]))
  }

  /**
   * A taken feature is the input at one of its candidate levels, and it fits
   * the budget unless it was forced in; a forced feature is always taken, at
   * its most detailed candidate level.
   */
  lemma StepFacts<T>(ops: Ops<T>, f: T, remaining: int, levels: seq<Level>, respect: bool)
    ensures var cands := Candidates(levels, ops.level(f));
      var r := Step(ops, f, remaining, levels, respect);
      && (r.Some? ==> (exists l :: l in cands && r.value == ops.withLevel(f, l))
                      && ((respect && ops.userIncluded(f)) || ops.tokens(r.value) <= remaining))
      && (respect && ops.userIncluded(f) ==> r == Some(ops.withLevel(f, cands[0])))
  {
    var cands := Candidates(levels, ops.level(f));
    var c := Choose(ops, f, cands, remaining, respect && ops.userIncluded(f));
    ChooseFacts(ops, f, cands, remaining, respect && ops.userIncluded(f));
    if c.Some? {
      assert cands[c.value] in cands;
    }
  }

  lemma StepFits<T>(ops: Ops<T>, f: T, remaining: int, levels: seq<Level>, respect: bool)
    requires !(respect && ops.userIncluded(f))
    ensures var r := Step(ops, f, remaining, levels, respect);
      r.Some? ==> ops.tokens(r.value) <= remaining
  {
    var cands := Candidates(levels, ops.level(f));
    ChooseFacts(ops, f, cands, remaining, false);
  }

  /** Unless something is forced in, the selection fits the budget. */
  lemma {:induction false} SelectWithinBudget<T>(ops: Ops<T>, features: seq<T>, remaining: int, levels: seq<Level>, respect: bool)
    requires NoneForced(ops, features, respect)
    ensures var r := Select(ops, features, remaining, levels, respect);
      r == [] || Sum(ops, r) <= remaining
    decreases |features|
  {
    if features != [] {
      NoneForcedTail(ops, features, respect);
      StepFits(ops, features[0], remaining, levels, respect);
      var tail := features[1..];
      match Step(ops, features[0], remaining, levels, respect)
      case None =>
        SelectWithinBudget(ops, tail, remaining, levels, respect);
        assert Select(ops, features, remaining, levels, respect) == Select(ops, tail, remaining, levels, respect);
      case Some(g) =>
        SelectWithinBudget(ops, tail, remaining - ops.tokens(g), levels, respect);
        var rest := Select(ops, tail, remaining - ops.tokens(g), levels, respect);
        assert Select(ops, features, remaining, levels, respect) == [g] + rest;
        SumCons(ops, g, rest);
    }
  }

  lemma NoneForcedTail<T>(ops: Ops<T>, features: seq<T>, respect: bool)
    requires features != [] && NoneForced(ops, features, respect)
    ensures NoneForced(ops, features[1..], respect)
  {
    forall i | 0 <= i < |features[1..]| ensures !(respect && ops.userIncluded(features[1..][i])) {
      assert features[1..][i] == features[i + 1];
    }
  }

  lemma SumCons<T>(ops: Ops<T>, g: T, rest: seq<T>)
    ensures Sum(ops, [g] + rest) == ops.tokens(g) + Sum(ops, rest)
  {
    assert ([g] + rest)[0] == g && ([g] + rest)[1..] == rest;
  }

  /**
   * The output is a subsequence of the input, each kept feature set to one of
   * its candidate levels.
   */
  ghost predicate PickedFrom<T>(ops: Ops<T>, r: seq<T>, features: seq<T>, levels: seq<Level>)
    decreases |features|
  {
    if r == [] then true
    else if features == [] then false
    else
      (exists l :: l in Candidates(levels, ops.level(features[0])) && r[0] == ops.withLevel(features[0], l)
         && PickedFrom(ops, r[1..], features[1..], levels))
      || PickedFrom(ops, r, features[1..], levels)
  }

  lemma PickedSkip<T>(ops: Ops<T>, r: seq<T>, features: seq<T>, levels: seq<Level>)
    requires features != [] && PickedFrom(ops, r, features[1..], levels)
    ensures PickedFrom(ops, r, features, levels)
  {
  }

  /**
   * With `respect`, a user-included feature is taken at its most detailed
   * candidate level whatever it costs, and the budget may go negative.
   */
  lemma UserIncludedAlwaysKept<T>(ops: Ops<T>, f: T, rest: seq<T>, remaining: int, levels: seq<Level>)
    requires ops.userIncluded(f)
    ensures var g := ops.withLevel(f, Candidates(levels, ops.level(f))[0]);
      Select(ops, [f] + rest, remaining, levels, true)
        == [g] + Select(ops, rest, remaining - ops.tokens(g), levels, true)
  {
    assert ([f] + rest)[0] == f && ([f] + rest)[1..] == rest;
    StepFacts(ops, f, remaining, levels, true);
  }

  /**
   * A feature that is not forced is taken at the most detailed candidate
   * level that fits, and dropped when none fits.
   */
  lemma FirstFittingLevel<T>(ops: Ops<T>, f: T, remaining: int, levels: seq<Level>, respect: bool)
    requires !(respect && ops.userIncluded(f))
    ensures var cands := Candidates(levels, ops.level(f));
      var r := Step(ops, f, remaining, levels, respect);
      && (r.None? <==> forall l :: l in cands ==> ops.tokens(ops.withLevel(f, l)) > remaining)
      && (r.Some? ==> exists m :: (m in cands && r.value == ops.withLevel(f, m) && ops.tokens(r.value) <= remaining
            && forall k :: k in cands && Rank(k) < Rank(m) ==> ops.tokens(ops.withLevel(f, k)) > remaining))
  {
    var cands := Candidates(levels, ops.level(f));
    var c := Choose(ops, f, cands, remaining, false);
    ChooseFacts(ops, f, cands, remaining, false);
    CandidatesFacts(levels, ops.level(f));
    if c.None? {
      forall l | l in cands ensures ops.tokens(ops.withLevel(f, l)) > remaining {
        var i :| 0 <= i < |cands| && cands[i] == l;
      }
    } else {
      var m := cands[c.value];
      assert m in cands;
      forall k | k in cands && Rank(k) < Rank(m) ensures ops.tokens(ops.withLevel(f, k)) > remaining {
        var p :| 0 <= p < |cands| && cands[p] == k;
        assert p < c.value;
      }
    }
  }

  // ---------------------------------------------------------------------------
  // The two callers

  /** The extra levels `TruncateFilter` offers: the file name, and the code maps if enabled. */
  function TruncateLevels(codeMap: bool): seq<Level>
  {
    if codeMap then [CmapFull, Cmap, FileName] else [FileName]
  }

  /**
   * `TruncateFilter.filter`: a subsequence of the input, each feature at one
   * of its candidate levels, within `max_tokens` unless a user-included
   * feature was forced in.
   */
  function TruncateFilter<T>(ops: Ops<T>, features: seq<T>, maxTokens: int, codeMap: bool, respect: bool): (r: seq<T>)
    ensures PickedFrom(ops, r, features, TruncateLevels(codeMap))
    ensures NoneForced(ops, features, respect) ==> r == [] || Sum(ops, r) <= maxTokens
  {
    if NoneForced(ops, features, respect) then
      SelectWithinBudget(ops, features, maxTokens, TruncateLevels(codeMap), respect);
      Select(ops, features, maxTokens, TruncateLevels(codeMap), respect)
    else
      Select(ops, features, maxTokens, TruncateLevels(codeMap), respect)
  }

  /** `GreedyFeatureSelector.select`: the same loop without the user-include rule. */
  function GreedySelect<T>(ops: Ops<T>, features: seq<T>, maxTokens: int, levels: seq<Level>): (r: seq<T>)
    ensures r == [] || Sum(ops, r) <= maxTokens
    ensures PickedFrom(ops, r, features, levels)
  {
    SelectWithinBudget(ops, features, maxTokens, levels, false);
    Select(ops, features, maxTokens, levels, false)
  }

  /** The truncate filter only ever falls back to coarser levels it was told about, or the feature's own. */
  lemma TruncateLevelsUsed<T>(ops: Ops<T>, f: T, codeMap: bool, l: Level)
    ensures l in Candidates(TruncateLevels(codeMap), ops.level(f))
        <==> l == ops.level(f) || l == FileName || (codeMap && (l == CmapFull || l == Cmap))
  {
    CandidatesFacts(TruncateLevels(codeMap), ops.level(f));
  }

  /** A full-code feature offered the file-name level tries full code, then the name. */
  lemma CandidatesWithName()
    ensures Candidates([FileName], Code) == [Code, FileName]
  {
    LevelsAscending();
    var l4, l3, l2, l1 := [FileName], [Cmap, FileName], [CmapFull, Cmap, FileName], [IntervalLevel, CmapFull, Cmap, FileName];
    assert Levels[1..] == l1 && l1[1..] == l2 && l2[1..] == l3 && l3[1..] == l4 && l4[1..] == [];
    assert Keep(l4, [FileName], Code) == [FileName];
    assert Keep(l3, [FileName], Code) == [FileName];
    assert Keep(l2, [FileName], Code) == [FileName];
    assert Keep(l1, [FileName], Code) == [FileName];
  }

  /** Offered no other level, a full-code feature has only full code. */
  lemma CandidatesAlone()
    ensures Candidates([], Code) == [Code]
  {
    LevelsAscending();
    var l4, l3, l2, l1 := [FileName], [Cmap, FileName], [CmapFull, Cmap, FileName], [IntervalLevel, CmapFull, Cmap, FileName];
    assert Levels[1..] == l1 && l1[1..] == l2 && l2[1..] == l3 && l3[1..] == l4 && l4[1..] == [];
    assert Keep(l4, [], Code) == [];
    assert Keep(l3, [], Code) == [];
    assert Keep(l2, [], Code) == [];
    assert Keep(l1, [], Code) == [];
  }

  /** One step with two candidate levels and nothing forced. */
  lemma StepTwo<T>(ops: Ops<T>, f: T, remaining: int, levels: seq<Level>, respect: bool, a: Level, b: Level)
    requires Candidates(levels, ops.level(f)) == [a, b] && !(respect && ops.userIncluded(f))
    ensures Step(ops, f, remaining, levels, respect)
         == if ops.tokens(ops.withLevel(f, a)) <= remaining then Some(ops.withLevel(f, a))
            else if ops.tokens(ops.withLevel(f, b)) <= remaining then Some(ops.withLevel(f, b))
            else None
  {
    var c0 := ops.tokens(ops.withLevel(f, a)) <= remaining;
    var c1 := ops.tokens(ops.withLevel(f, b)) <= remaining;
    assert [a, b][1..] == [b] && [b][1..] == [];
    assert Choose(ops, f, [], remaining, false) == None;
    assert Choose(ops, f, [b], remaining, false) == if c1 then Some(0) else None;
    assert Choose(ops, f, [a, b], remaining, false) == if c0 then Some(0) else if c1 then Some(1) else None;
  }

  /** One step with a single candidate level and nothing forced. */
  lemma StepOne<T>(ops: Ops<T>, f: T, remaining: int, levels: seq<Level>, respect: bool, a: Level)
    requires Candidates(levels, ops.level(f)) == [a] && !(respect && ops.userIncluded(f))
    ensures Step(ops, f, remaining, levels, respect)
         == if ops.tokens(ops.withLevel(f, a)) <= remaining then Some(ops.withLevel(f, a)) else None
  {
    assert [a][1..] == [];
  }

  /** `Select` on one feature. */
  lemma SelectOne<T>(ops: Ops<T>, y: T, remaining: int, levels: seq<Level>, respect: bool)
    ensures var g := Step(ops, y, remaining, levels, respect);
      Select(ops, [y], remaining, levels, respect) == if g.Some? then [g.value] else []
  {
    assert [y][0] == y && [y][1..] == [];
    assert Select(ops, [], remaining, levels, respect) == [];
  }

  /** `Select` on two features, one step at a time. */
  lemma SelectTwo<T>(ops: Ops<T>, x: T, y: T, remaining: int, levels: seq<Level>, respect: bool)
    ensures var f := Step(ops, x, remaining, levels, respect);
      Select(ops, [x, y], remaining, levels, respect)
        == if f.Some? then [f.value] + Select(ops, [y], remaining - ops.tokens(f.value), levels, respect)
           else Select(ops, [y], remaining, levels, respect)
  {
    var xs := [x, y];
    assert xs[0] == x && xs[1..] == [y];
  }

  /** Both features taken. */
  lemma BothTaken<T>(ops: Ops<T>, x: T, y: T, remaining: int, levels: seq<Level>, respect: bool, gx: T, gy: T)
    requires Step(ops, x, remaining, levels, respect) == Some(gx)
    requires Step(ops, y, remaining - ops.tokens(gx), levels, respect) == Some(gy)
    ensures Select(ops, [x, y], remaining, levels, respect) == [gx, gy]
  {
    SelectOne(ops, y, remaining - ops.tokens(gx), levels, respect);
    SelectTwo(ops, x, y, remaining, levels, respect);
    assert [gx] + [gy] == [gx, gy];
  }

  /**
   * The test fixture: two files costing 188 and 87 tokens in full and a few
   * tokens by name, neither included by the user.
   */
  ghost predicate TwoFiles<T>(ops: Ops<T>, calculator: T, opsFile: T, nameCost: int)
  {
    && ops.level(calculator) == Code && ops.level(opsFile) == Code
    && ops.withLevel(calculator, Code) == calculator && ops.withLevel(opsFile, Code) == opsFile
    && !ops.userIncluded(calculator) && !ops.userIncluded(opsFile)
    && ops.tokens(calculator) == 188 && ops.tokens(opsFile) == 87
    && 0 < nameCost <= 12
    && ops.tokens(ops.withLevel(calculator, FileName)) == nameCost
    && ops.tokens(ops.withLevel(opsFile, FileName)) == nameCost
  }

  /** Under 100 the truncate filter keeps the first file by name and the second in full. */
  lemma TruncateUnder100<T>(ops: Ops<T>, calculator: T, opsFile: T, nameCost: int)
    requires TwoFiles(ops, calculator, opsFile, nameCost)
    ensures TruncateFilter(ops, [calculator, opsFile], 100, false, true) == [ops.withLevel(calculator, FileName), opsFile]
  {
    CandidatesWithName();
    var fl := [FileName];
    var byName := ops.withLevel(calculator, FileName);
    StepTwo(ops, calculator, 100, fl, true, Code, FileName);
    StepTwo(ops, opsFile, 100 - nameCost, fl, true, Code, FileName);
    BothTaken(ops, calculator, opsFile, 100, fl, true, byName, opsFile);
  }

  /** Under 200 it keeps the first file in full and the second by name. */
  lemma TruncateUnder200<T>(ops: Ops<T>, calculator: T, opsFile: T, nameCost: int)
    requires TwoFiles(ops, calculator, opsFile, nameCost)
    ensures TruncateFilter(ops, [calculator, opsFile], 200, false, true) == [calculator, ops.withLevel(opsFile, FileName)]
  {
    CandidatesWithName();
    var fl := [FileName];
    var byName := ops.withLevel(opsFile, FileName);
    StepTwo(ops, calculator, 200, fl, true, Code, FileName);
    StepTwo(ops, opsFile, 200 - ops.tokens(calculator), fl, true, Code, FileName);
    BothTaken(ops, calculator, opsFile, 200, fl, true, calculator, byName);
  }

  /** Under 188 the first file uses the whole budget and the second is dropped. */
  lemma TruncateUnder188<T>(ops: Ops<T>, calculator: T, opsFile: T, nameCost: int)
    requires TwoFiles(ops, calculator, opsFile, nameCost)
    ensures TruncateFilter(ops, [calculator, opsFile], 188, false, true) == [calculator]
  {
    CandidatesWithName();
    var fl := [FileName];
    StepTwo(ops, calculator, 188, fl, true, Code, FileName);
    assert Step(ops, calculator, 188, fl, true) == Some(calculator);
    StepTwo(ops, opsFile, 0, fl, true, Code, FileName);
    SelectOne(ops, opsFile, 0, fl, true);
    SelectTwo(ops, calculator, opsFile, 188, fl, true);
  }

  /** With no extra levels the greedy selector is take-it-or-leave-it: 100 keeps only the second file. */
  lemma GreedyUnder100<T>(ops: Ops<T>, calculator: T, opsFile: T, nameCost: int)
    requires TwoFiles(ops, calculator, opsFile, nameCost)
    ensures GreedySelect(ops, [calculator, opsFile], 100, []) == [opsFile]
  {
    CandidatesAlone();
    StepOne(ops, calculator, 100, [], false, Code);
    StepOne(ops, opsFile, 100, [], false, Code);
    SelectOne(ops, opsFile, 100, [], false);
    SelectTwo(ops, calculator, opsFile, 100, [], false);
  }

  /** And 200 keeps only the first. */
  lemma GreedyUnder200<T>(ops: Ops<T>, calculator: T, opsFile: T, nameCost: int)
    requires TwoFiles(ops, calculator, opsFile, nameCost)
    ensures GreedySelect(ops, [calculator, opsFile], 200, []) == [calculator]
  {
    CandidatesAlone();
    StepOne(ops, calculator, 200, [], false, Code);
    assert Step(ops, calculator, 200, [], false) == Some(calculator);
    StepOne(ops, opsFile, 12, [], false, Code);
    SelectOne(ops, opsFile, 12, [], false);
    SelectTwo(ops, calculator, opsFile, 200, [], false);
  }

  /** With the file-name level, 100 keeps the first file by name and the second in full. */
  lemma GreedyByName<T>(ops: Ops<T>, calculator: T, opsFile: T, nameCost: int)
    requires TwoFiles(ops, calculator, opsFile, nameCost)
    ensures GreedySelect(ops, [calculator, opsFile], 100, [FileName]) == [ops.withLevel(calculator, FileName), opsFile]
  {
    CandidatesWithName();
    var fl := [FileName];
    var byName := ops.withLevel(calculator, FileName);
    StepTwo(ops, calculator, 100, fl, false, Code, FileName);
    StepTwo(ops, opsFile, 100 - nameCost, fl, false, Code, FileName);
    BothTaken(ops, calculator, opsFile, 100, fl, false, byName, opsFile);
  }

  // ---------------------------------------------------------------------------
  // get_feature_selector

  datatype SelectorKind = GreedySelector | LlmSelector

  function GetFeatureSelector(useLlm: bool): (r: SelectorKind)
    ensures r == LlmSelector <==> useLlm
  {
    if useLlm then LlmSelector else GreedySelector
  }

  // ---------------------------------------------------------------------------
  // The LLM selector's output matching

  /**
   * A feature as `LLMFeatureSelector` handles it: one interval, and the
   * metadata copied from the inputs it matches.
   */
  datatype Pick = Pick(path: string, interval: Interval, level: Level, userIncluded: bool, diff: Option<string>, name: Option<string>)

  /** Python truthiness of an optional string. */
  predicate Truthy(s: Option<string>)
  {
    s.Some? && s.value != ""
  }

  predicate Matches(input: Pick, out: Pick)
  {
    input.path == out.path && Intersects(input.interval, out.interval)
  }

  function Matching(inputs: seq<Pick>, out: Pick): (r: seq<Pick>)
    ensures forall p :: p in r <==> p in inputs && Matches(p, out)
  {
    if inputs == [] then []
    else (if Matches(inputs[0], out) then [inputs[0]] else []) + Matching(inputs[1..], out)
  }

  /** `next(x for x in values if x)`, when there is one. */
  function FirstTruthy(values: seq<Option<string>>): Option<string>
  {
    if values == [] then None
    else if Truthy(values[0]) then values[0]
    else FirstTruthy(values[1..])
  }

  lemma {:induction false} FirstTruthyFacts(values: seq<Option<string>>)
    ensures FirstTruthy(values).Some? <==> exists i :: 0 <= i < |values| && Truthy(values[i])
    ensures FirstTruthy(values).Some? ==> exists i :: (0 <= i < |values| && values[i] == FirstTruthy(values)
      && Truthy(values[i]) && forall j :: 0 <= j < i ==> !Truthy(values[j]))
  {
    if values != [] && !Truthy(values[0]) {
      FirstTruthyFacts(values[1..]);
      var r := FirstTruthy(values[1..]);
      if r.Some? {
        var i :| 0 <= i < |values[1..]| && values[1..][i] == r && Truthy(values[1..][i])
          && forall j :: 0 <= j < i ==> !Truthy(values[1..][j]);
        assert values[i + 1] == r;
        forall j | 1 <= j < i + 1 ensures !Truthy(values[j]) {
          assert values[j] == values[1..][j - 1];
        }
      }
      if exists i :: 0 <= i < |values| && Truthy(values[i]) {
        var i :| 0 <= i < |values| && Truthy(values[i]);
        assert values[1..][i - 1] == values[i];
      }
    }
  }

  /** The copied field: a pick's diff when `ofDiff`, its name otherwise. */
  function Meta(p: Pick, ofDiff: bool): Option<string>
  {
    if ofDiff then p.diff else p.name
  }

  function Metas(ps: seq<Pick>, ofDiff: bool): seq<Option<string>>
  {
    seq(|ps|, i requires 0 <= i < |ps| => Meta(ps[i], ofDiff))
  }

  /**
   * Match one selected feature with its inputs and copy their metadata: no
   * matching input is a `ValueError`; otherwise the result carries the
   * matches' metadata.
   */
  function CopyMetadata(inputs: seq<Pick>, out: Pick): (r: Result<Pick, string>)
    ensures r.Ok? <==> exists p :: p in inputs && Matches(p, out)
    ensures r.Ok? ==> CopiedFrom(inputs, out, r.value)
  {
    var ms := Matching(inputs, out);
    if ms == [] then Err("ValueError")
    else
      assert ms[0] in ms;
      FirstTruthyOfMatching(inputs, out, true);
      FirstTruthyOfMatching(inputs, out, false);
      var diff := FirstTruthy(Metas(ms, true));
      var name := FirstTruthy(Metas(ms, false));
      Ok(out.(userIncluded := exists m :: m in ms && m.userIncluded,
              diff := if diff.Some? then diff else out.diff,
              name := if name.Some? then name else out.name))
  }

  /**
   * Every selected feature matched in turn; the first that matches nothing
   * raises. So the selection fails exactly when some selected feature shares
   * no input's path and interval, and each kept feature carries the metadata
   * of the inputs it matches.
   */
  function PostSelect(inputs: seq<Pick>, outs: seq<Pick>): (r: Result<seq<Pick>, string>)
    ensures r.Ok? <==> forall i :: 0 <= i < |outs| ==> CopyMetadata(inputs, outs[i]).Ok?
    ensures r.Ok? ==> |r.value| == |outs| && forall i :: 0 <= i < |outs| ==> CopyMetadata(inputs, outs[i]) == Ok(r.value[i])
    ensures r.Ok? <==> forall i :: 0 <= i < |outs| ==> exists p :: p in inputs && Matches(p, outs[i])
    ensures r.Ok? ==> forall i :: 0 <= i < |outs| ==> CopiedFrom(inputs, outs[i], r.value[i])
  {
    var copies := seq(|outs|, i requires 0 <= i < |outs| => CopyMetadata(inputs, outs[i]));
    assert forall i :: 0 <= i < |outs| ==> copies[i] == CopyMetadata(inputs, outs[i]);
    Collect(copies)
  }

  /**
   * `inputs[i]` is the first input, in input order, that matches `o` and
   * has a truthy diff (`ofDiff`) or name: the one `next(...)` returns.
   */
  ghost predicate FirstTruthyMatch(inputs: seq<Pick>, o: Pick, ofDiff: bool, i: int)
  {
    && 0 <= i < |inputs| && Matches(inputs[i], o) && Truthy(Meta(inputs[i], ofDiff))
    && forall j :: 0 <= j < i ==> !(Matches(inputs[j], o) && Truthy(Meta(inputs[j], ofDiff)))
  }

  /**
   * `p` is `o` with the metadata of the inputs `o` matches: same path,
   * interval and level; user-included iff a matching input is; the diff and
   * name of the first matching input where they are truthy, or `o`'s own
   * when none is truthy.
   */
  ghost predicate CopiedFrom(inputs: seq<Pick>, o: Pick, p: Pick)
  {
    && p.path == o.path && p.interval == o.interval && p.level == o.level
    && (p.userIncluded <==> exists q :: q in inputs && Matches(q, o) && q.userIncluded)
    && ((exists q :: q in inputs && Matches(q, o) && Truthy(q.diff))
        ==> exists i :: FirstTruthyMatch(inputs, o, true, i) && p.diff == inputs[i].diff)
    && ((forall q :: q in inputs && Matches(q, o) ==> !Truthy(q.diff)) ==> p.diff == o.diff)
    && ((exists q :: q in inputs && Matches(q, o) && Truthy(q.name))
        ==> exists i :: FirstTruthyMatch(inputs, o, false, i) && p.name == inputs[i].name)
    && ((forall q :: q in inputs && Matches(q, o) ==> !Truthy(q.name)) ==> p.name == o.name)
  }

  /**
   * The first truthy value among the matches, taken in the order of
   * `matching_inputs`, is the value of the first input in input order that
   * both matches and has a truthy value; there is one exactly when some
   * matching input has a truthy value.
   */
  lemma {:induction false} FirstTruthyOfMatching(inputs: seq<Pick>, o: Pick, ofDiff: bool)
    ensures var f := FirstTruthy(Metas(Matching(inputs, o), ofDiff));
      && (f.Some? <==> exists q :: q in inputs && Matches(q, o) && Truthy(Meta(q, ofDiff)))
      && (f.Some? ==> exists i :: FirstTruthyMatch(inputs, o, ofDiff, i) && f == Meta(inputs[i], ofDiff))
    decreases |inputs|
  {
    if inputs != [] {
      var rest := inputs[1..];
      FirstTruthyOfMatching(rest, o, ofDiff);
      FirstTruthyMatchingStep(inputs, o, ofDiff);
      if !(Matches(inputs[0], o) && Truthy(Meta(inputs[0], ofDiff))) {
        var fr := FirstTruthy(Metas(Matching(rest, o), ofDiff));
        if fr.Some? {
          var k :| FirstTruthyMatch(rest, o, ofDiff, k) && fr == Meta(rest[k], ofDiff);
          FirstTruthyMatchShift(inputs, o, ofDiff, k);
        }
        if exists q :: q in inputs && Matches(q, o) && Truthy(Meta(q, ofDiff)) {
          var q :| q in inputs && Matches(q, o) && Truthy(Meta(q, ofDiff));
          assert q in rest;
        }
      } else {
        assert FirstTruthyMatch(inputs, o, ofDiff, 0);
      }
    }
  }

  /** One step of `FirstTruthy` over the matches: the first input decides, or the rest do. */
  lemma FirstTruthyMatchingStep(inputs: seq<Pick>, o: Pick, ofDiff: bool)
    requires inputs != []
    ensures FirstTruthy(Metas(Matching(inputs, o), ofDiff))
      == if Matches(inputs[0], o) && Truthy(Meta(inputs[0], ofDiff)) then Meta(inputs[0], ofDiff)
         else FirstTruthy(Metas(Matching(inputs[1..], o), ofDiff))
  {
    var ms := Matching(inputs, o);
    var mr := Matching(inputs[1..], o);
    if Matches(inputs[0], o) {
      assert ms == [inputs[0]] + mr;
      MetasCons(inputs[0], mr, ofDiff);
    } else {
      assert ms == mr;
    }
  }

  lemma MetasCons(p: Pick, ps: seq<Pick>, ofDiff: bool)
    ensures Metas([p] + ps, ofDiff) == [Meta(p, ofDiff)] + Metas(ps, ofDiff)
  {
    var l := Metas([p] + ps, ofDiff);
    var r := [Meta(p, ofDiff)] + Metas(ps, ofDiff);
    assert |l| == |r|;
    forall i | 0 <= i < |l| ensures l[i] == r[i] {
      if i > 0 { assert ([p] + ps)[i] == ps[i - 1]; }
    }
  }

  /** The first truthy match of the tail is the first of the whole list when the head is not one. */
  lemma FirstTruthyMatchShift(inputs: seq<Pick>, o: Pick, ofDiff: bool, k: int)
    requires inputs != [] && !(Matches(inputs[0], o) && Truthy(Meta(inputs[0], ofDiff)))
    requires FirstTruthyMatch(inputs[1..], o, ofDiff, k)
    ensures FirstTruthyMatch(inputs, o, ofDiff, k + 1) && inputs[k + 1] == inputs[1..][k]
  {
    forall j | 0 <= j < k + 1
      ensures !(Matches(inputs[j], o) && Truthy(Meta(inputs[j], ofDiff)))
    {
      if j > 0 { assert inputs[j] == inputs[1..][j - 1]; }
    }
  }

  /**
   * `LLMFeatureSelector.select` after the model has answered: match the
   * answer with the inputs, then re-run the greedy selector to enforce the
   * budget.
   */
  function LlmSelect(ops: Ops<Pick>, inputs: seq<Pick>, outs: seq<Pick>, maxTokens: int): (r: Result<seq<Pick>, string>)
    ensures r.Ok? <==> PostSelect(inputs, outs).Ok?
    ensures r.Ok? ==> r.value == [] || Sum(ops, r.value) <= maxTokens
    ensures r.Ok? ==> PickedFrom(ops, r.value, PostSelect(inputs, outs).value, [])
  {
    match PostSelect(inputs, outs)
    case Err(e) => Err(e)
    case Ok(picks) => Ok(GreedySelect(ops, picks, maxTokens, []))
  }
}

=== FILE: session_input.dfy ===
/**
 * Reading the user's replies (mentat/session_input.py). The stream of input
 * responses is a sequence; running out of it means the session is still
 * waiting. `shlex.split` is a parameter (`None` for the `ValueError` it raises
 * on an unbalanced quote), and running a command is left to the caller: the
 * model records which commands were issued, with which arguments.
 */
module SessionInput {
  import opened Wrappers
  import opened PyText

  /** The data of an input response: a string, or anything else. */
  datatype Data = Str(text: string) | NotText

  /** Why reading stopped without an answer. */
  datatype Stop = SessionExit | AttributeError

  /** `collect_user_input`: a reply that strips to `q` ends the session. */
  function CollectUserInput(data: Data): (r: Result<Data, Stop>)
    ensures r.Err? <==> data.Str? && Strip(data.text) == "q"
    ensures r.Err? ==> r.error == SessionExit
    ensures r.Ok? ==> r.value == data
  {
    if data.Str? && Strip(data.text) == "q" then Err(SessionExit) else Ok(data)
  }

  /** `q` quits. */
  lemma LowerQQuits()
    ensures CollectUserInput(Str("q")) == Err(SessionExit)
  {
    StripUnpadded("q");
  }

  /** `Q` does not quit: the quit test does not lower-case. */
  lemma UpperQDoesNotQuit()
    ensures CollectUserInput(Str("Q")) == Ok(Str("Q"))
  {
    StripUnpadded("Q");
    assert Strip("Q") != "q";
  }

  // ---------------------------------------------------------------------------
  // Reading replies until one settles

  /**
   * The loop shared by `ask_yes_no` and `collect_input_with_commands`: each
   * reply either settles the reading (`Some`) or is consumed and the next one
   * is read. The result is how it settled and how many replies were read, or
   * `None` while the replies run out first.
   */
  function Settle<V>(round: Data -> Option<V>, replies: seq<Data>): Option<(V, nat)>
    decreases |replies|
  {
    if replies == [] then None
    else
      match round(replies[0])
      case Some(v) => Some((v, 1))
      case None =>
        match Settle(round, replies[1..])
        case None => None
        case Some((v, n)) => Some((v, n + 1))
  }

  /** Reading settles at the first reply that settles it, and never if none does. */
  lemma {:induction false} SettleFacts<V>(round: Data -> Option<V>, replies: seq<Data>)
    ensures var r := Settle(round, replies);
      && (r.None? <==> forall i :: 0 <= i < |replies| ==> round(replies[i]).None?)
      && (r.Some? ==>
            && 1 <= r.value.1 <= |replies|
            && (forall i :: 0 <= i < r.value.1 - 1 ==> round(replies[i]).None?)
            && round(replies[r.value.1 - 1]) == Some(r.value.0))
    decreases |replies|
  {
    if replies != [] {
      var rest := replies[1..];
      SettleFacts(round, rest);
      if round(replies[0]).None? {
        forall i | 0 <= i < |rest| ensures replies[i + 1] == rest[i] { }
        if (forall i :: 0 <= i < |rest| ==> round(rest[i]).None?) {
          forall i | 0 <= i < |replies| ensures round(replies[i]).None? {
            if i > 0 { assert replies[i] == rest[i - 1]; }
          }
        }
      }
    }
  }

  // ---------------------------------------------------------------------------
  // `ask_yes_no`

  /** The prompt sent before each reply. */
  function YesNoPrompt(defaultYes: bool): (r: string)
    ensures |r| == 5 && r[0] == '(' && r[4] == ')'
    ensures r[1] == 'Y' <==> defaultYes
    ensures r[3] == 'N' <==> !defaultYes
  {
    if defaultYes then "(Y/n)" else "(y/N)"
  }

  /** The reply as compared: stripped and lower-cased. */
  function Normalised(s: string): string
  {
    Lower(Strip(s))
  }

  predicate Accepted(content: string)
  {
    content == "y" || content == "n" || content == ""
  }

  /** What a reply settles: an answer, or the end of the reading. */
  datatype Verdict = Answered(yes: bool) | Stopped(why: Stop)

  /** One round of `ask_yes_no`: `None` means the reply is rejected and the question asked again. */
  function Round(defaultYes: bool, d: Data): Option<Verdict>
  {
    match CollectUserInput(d)
    case Err(e) => Some(Stopped(e))
    case Ok(_) =>
      if d.NotText? then Some(Stopped(AttributeError))
      else
        var content := Normalised(d.text);
        if Accepted(content) then Some(Answered(content == "y" || (content != "n" && defaultYes)))
        else None
  }

  /**
   * A reply is rejected iff it is a string that is neither `q` nor, once
   * normalised, `y`, `n` or empty. An accepted reply answers yes for `y`, no
   * for `n` and the default for an empty one; `q` ends the session; a reply
   * that is not a string raises.
   */
  lemma RoundFacts(defaultYes: bool, d: Data)
    ensures Round(defaultYes, d).None? <==> d.Str? && Strip(d.text) != "q" && !Accepted(Normalised(d.text))
    ensures Round(defaultYes, d) == Some(Stopped(SessionExit)) <==> d.Str? && Strip(d.text) == "q"
    ensures Round(defaultYes, d) == Some(Stopped(AttributeError)) <==> d.NotText?
    ensures Round(defaultYes, d) == Some(Answered(true)) <==>
      d.Str? && Strip(d.text) != "q" && (Normalised(d.text) == "y" || (Normalised(d.text) == "" && defaultYes))
    ensures Round(defaultYes, d) == Some(Answered(false)) <==>
      d.Str? && Strip(d.text) != "q" && (Normalised(d.text) == "n" || (Normalised(d.text) == "" && !defaultYes))
  {
  }

  function RoundOf(defaultYes: bool): Data -> Option<Verdict>
  {
    d => Round(defaultYes, d)
  }

  /**
   * `ask_yes_no` over the replies it is given: the verdict and the replies
   * read. It keeps asking exactly while every reply is rejected; otherwise it
   * ends with what the first reply that is not rejected settles, every
   * earlier reply having been rejected.
   */
  function AskYesNo(defaultYes: bool, replies: seq<Data>): (r: Option<(Verdict, nat)>)
    ensures r.None? <==> forall i :: 0 <= i < |replies| ==> Round(defaultYes, replies[i]).None?
    ensures r.Some? ==>
      && 1 <= r.value.1 <= |replies|
      && (forall i :: 0 <= i < r.value.1 - 1 ==> Round(defaultYes, replies[i]).None?)
      && Round(defaultYes, replies[r.value.1 - 1]) == Some(r.value.0)
  {
    SettleRounds(defaultYes, replies);
    Settle(RoundOf(defaultYes), replies)
  }

  /** `Settle` over the rounds of one default, stated reply by reply. */
  lemma SettleRounds(defaultYes: bool, replies: seq<Data>)
    ensures var r := Settle(RoundOf(defaultYes), replies);
      && (r.None? <==> forall i :: 0 <= i < |replies| ==> Round(defaultYes, replies[i]).None?)
      && (r.Some? ==>
        && 1 <= r.value.1 <= |replies|
        && (forall i :: 0 <= i < r.value.1 - 1 ==> Round(defaultYes, replies[i]).None?)
        && Round(defaultYes, replies[r.value.1 - 1]) == Some(r.value.0))
  {
    var round := RoundOf(defaultYes);
    SettleFacts(round, replies);
    forall i | 0 <= i < |replies| ensures round(replies[i]) == Round(defaultYes, replies[i]) {
      RoundOfApplies(defaultYes, replies[i]);
    }
  }

  lemma RoundOfApplies(defaultYes: bool, d: Data)
    ensures RoundOf(defaultYes)(d) == Round(defaultYes, d)
  {
  }

  /** Reading settles on the first reply when that reply settles it. */
  lemma SettleFirst<V>(round: Data -> Option<V>, replies: seq<Data>)
    requires replies != [] && round(replies[0]).Some?
    ensures Settle(round, replies) == Some((round(replies[0]).value, 1))
  {
  }

  /** An upper-case `Y` answers yes. */
  lemma UpperCaseYes(defaultYes: bool)
    ensures AskYesNo(defaultYes, [Str("Y")]) == Some((Answered(true), 1))
  {
    UpperYRound(defaultYes);
    SettleFirst(RoundOf(defaultYes), [Str("Y")]);
  }

  lemma UpperYRound(defaultYes: bool)
    ensures Round(defaultYes, Str("Y")) == Some(Answered(true))
  {
    StripUnpadded("Y");
    assert Lower("Y") == "y";
  }

  /** Any other reply is asked again: `maybe` then `n` answers no after two replies. */
  lemma AskedAgain(defaultYes: bool)
    ensures AskYesNo(defaultYes, [Str("maybe"), Str("n")]) == Some((Answered(false), 2))
  {
    var round := RoundOf(defaultYes);
    MaybeRejected(defaultYes);
    NoAnswersNo(defaultYes);
    var replies := [Str("maybe"), Str("n")];
    assert round(replies[0]) == None;
    assert replies[1..] == [Str("n")];
    assert Settle(round, [Str("n")]) == Some((Answered(false), 1));
  }

  lemma MaybeRejected(defaultYes: bool)
    ensures Round(defaultYes, Str("maybe")) == None
  {
    MaybeNotQuit();
    MaybeNotAccepted();
  }

  lemma MaybeNotQuit()
    ensures CollectUserInput(Str("maybe")) == Ok(Str("maybe"))
  {
    StripUnpadded("maybe");
  }

  lemma MaybeNotAccepted()
    ensures !Accepted(Normalised("maybe"))
  {
    StripUnpadded("maybe");
    LongReplyRejected("maybe");
  }

  /** A reply longer than one character once stripped is never accepted. */
  lemma LongReplyRejected(s: string)
    requires |Strip(s)| >= 2
    ensures !Accepted(Normalised(s))
  {
    assert |Normalised(s)| == |Strip(s)|;
  }

  lemma NoAnswersNo(defaultYes: bool)
    ensures Round(defaultYes, Str("n")) == Some(Answered(false))
  {
    StripUnpadded("n");
    assert Lower("n") == "n";
  }

  /** A blank reply takes the default. */
  lemma BlankTakesDefault(defaultYes: bool, blank: string)
    requires IsBlank(blank)
    ensures AskYesNo(defaultYes, [Str(blank)]) == Some((Answered(defaultYes), 1))
  {
    StripEmptyIffBlank(blank);
    assert Round(defaultYes, Str(blank)) == Some(Answered(defaultYes));
  }

  // ---------------------------------------------------------------------------
  // `collect_input_with_commands`

  /** A reply that is a command: a string starting with `/`. */
  predicate IsCommand(d: Data)
  {
    d.Str? && StartsWith(d.text, "/")
  }

  /** The command name: after the `/`, up to the first space. */
  function CommandName(s: string): string
    requires StartsWith(s, "/")
  {
    Split(s[1..], ' ')[0]
  }

  /** The text handed to `shlex.split`: every space-separated word but the first. */
  function ArgumentText(s: string): string
  {
    Join(Split(s, ' ')[1..], ' ')
  }

  /** One issued command; `arguments` is `None` when `shlex.split` raised. */
  datatype Call = Call(name: string, arguments: Option<seq<string>>)

  function CommandCall(s: string, shlexSplit: string -> Option<seq<string>>): Call
    requires StartsWith(s, "/")
  {
    Call(CommandName(s), shlexSplit(ArgumentText(s)))
  }

  /** How reading ends: a returned reply, or the end of the session. */
  datatype Outcome = Returned(data: Data) | Ended(why: Stop)

  /** One round of `collect_input_with_commands`: a command is issued and reading goes on. */
  function CommandRound(d: Data): Option<Outcome>
  {
    match CollectUserInput(d)
    case Err(e) => Some(Ended(e))
    case Ok(_) => if IsCommand(d) then None else Some(Returned(d))
  }

  /** A command never strips to `q`, so it never ends the session. */
  lemma CommandIsNotQuit(s: string)
    requires StartsWith(s, "/")
    ensures Strip(s) != "q"
  {
    assert LStrip(s) == s;
    assert !IsBlank(s);
    StripEmptyIffBlank(s);
    assert StartsWith(s, RStrip(s));
  }

  /**
   * A reply goes on reading iff it is a command; otherwise it is returned,
   * unless it strips to `q`.
   */
  lemma CommandRoundFacts(d: Data)
    ensures CommandRound(d).None? <==> IsCommand(d)
    ensures CommandRound(d) == Some(Ended(SessionExit)) <==> d.Str? && Strip(d.text) == "q"
    ensures CommandRound(d) == Some(Returned(d)) <==> !IsCommand(d) && !(d.Str? && Strip(d.text) == "q")
  {
    if IsCommand(d) {
      CommandIsNotQuit(d.text);
    }
  }

  /** The commands issued before reading settled, in order. */
  function Calls(replies: seq<Data>, n: nat, shlexSplit: string -> Option<seq<string>>): (r: seq<Call>)
    requires n <= |replies| && forall i :: 0 <= i < n ==> replies[i].Str? && StartsWith(replies[i].text, "/")
    ensures |r| == n
    ensures forall i :: 0 <= i < n ==> r[i] == CommandCall(replies[i].text, shlexSplit)
  {
    seq(n, i requires 0 <= i < n && IsCommand(replies[i]) => CommandCall(replies[i].text, shlexSplit))
  }

  /**
   * `collect_input_with_commands`: how reading settled (or `None` while the
   * replies run out) and the number of replies read; every reply before the
   * settling one is a command, issued with its name and `shlex`-split
   * arguments (see `Calls`).
   */
  function CollectWithCommands(replies: seq<Data>): Option<(Outcome, nat)>
  {
    Settle(CommandRound, replies)
  }

  /**
   * Reading stops at the first reply that is not a command: it is returned,
   * unless it is `q`. Every earlier reply is a command, so the commands issued
   * are exactly those replies, in order.
   */
  lemma CollectWithCommandsFacts(replies: seq<Data>)
    ensures var r := CollectWithCommands(replies);
      && (r.None? <==> forall i :: 0 <= i < |replies| ==> IsCommand(replies[i]))
      && (r.Some? ==>
            && 1 <= r.value.1 <= |replies|
            && (forall i :: 0 <= i < r.value.1 - 1 ==> IsCommand(replies[i]))
            && !IsCommand(replies[r.value.1 - 1])
            && (r.value.0.Returned? <==> !(replies[r.value.1 - 1].Str? && Strip(replies[r.value.1 - 1].text) == "q"))
            && (r.value.0.Returned? ==> r.value.0.data == replies[r.value.1 - 1]))
  {
    SettleFacts(CommandRound, replies);
    forall d ensures CommandRound(d).None? <==> IsCommand(d) {
      CommandRoundFacts(d);
    }
    var r := CollectWithCommands(replies);
    if r.Some? {
      CommandRoundFacts(replies[r.value.1 - 1]);
    }
  }

  /** `/name arg text`: the name is the first word after the `/`, the rest is the argument text. */
  lemma CommandWithArguments(name: string, rest: string)
    requires ' ' !in name
    ensures var s := "/" + name + " " + rest;
      CommandName(s) == name && ArgumentText(s) == rest
  {
    CommandNameBeforeSpace(name, rest);
    ArgumentsAfterSpace(name, rest);
  }

  lemma CommandNameBeforeSpace(name: string, rest: string)
    requires ' ' !in name
    ensures var s := "/" + name + " " + rest;
      CommandName(s) == name
  {
    var s := "/" + name + " " + rest;
    assert s[1..] == name + [' '] + rest;
    IndexOfAfter(name, ' ', rest);
    SplitAt(name, ' ', rest);
  }

  lemma ArgumentsAfterSpace(name: string, rest: string)
    requires ' ' !in name
    ensures var s := "/" + name + " " + rest;
      ArgumentText(s) == rest
  {
    var s := "/" + name + " " + rest;
    var head := "/" + name;
    assert ' ' !in head;
    assert s == head + [' '] + rest;
    SplitAt(head, ' ', rest);
    assert Split(s, ' ')[1..] == Split(rest, ' ');
    JoinSplit(rest, ' ');
  }

  /** `/name` alone: the whole word is the name and there are no arguments. */
  lemma CommandWithoutArguments(name: string)
    requires ' ' !in name
    ensures CommandName("/" + name) == name && ArgumentText("/" + name) == ""
  {
    var s := "/" + name;
    assert ' ' !in s;
    SplitWithoutSeparator(s, ' ');
    assert s[1..] == name;
    SplitWithoutSeparator(name, ' ');
  }
}

=== FILE: sorting.dfy ===
/**
 * Python's `sorted(xs, key=k)` and `sorted(xs, key=k, reverse=True)` for an
 * integer key. Both are stable: elements with equal keys keep their input
 * order (Python keeps stability under `reverse=True`). Modelled as insertion
 * sort, the result is pinned down by three facts proved below: it is ordered,
 * it is a permutation of the input, and each equal-key class is unchanged.
 */
module Sorting {

  /** The elements of `s` whose key is `k`, in order. */
  function WithKey<T>(s: seq<T>, key: T -> int, k: int): (r: seq<T>)
    ensures |r| <= |s|
  {
    if s == [] then []
    else (if key(s[0]) == k then [s[0]] else []) + WithKey(s[1..], key, k)
  }

  // ---------------------------------------------------------------------------
  // Ascending

  predicate Ascending<T>(s: seq<T>, key: T -> int)
  {
    forall i, j :: 0 <= i < j < |s| ==> key(s[i]) <= key(s[j])
  }

  /** Put `x` before the first element whose key is not smaller. */
  function InsertAsc<T>(x: T, s: seq<T>, key: T -> int): seq<T>
  {
    if s == [] || key(x) <= key(s[0]) then [x] + s
    else [s[0]] + InsertAsc(x, s[1..], key)
  }

  function SortAsc<T>(s: seq<T>, key: T -> int): seq<T>
  {
    if s == [] then [] else InsertAsc(s[0], SortAsc(s[1..], key), key)
  }

  lemma {:induction false} InsertAscElements<T>(x: T, s: seq<T>, key: T -> int)
    ensures multiset(InsertAsc(x, s, key)) == multiset{x} + multiset(s)
    decreases |s|
  {
    if s != [] && key(x) > key(s[0]) {
      InsertAscElements(x, s[1..], key);
      assert s == [s[0]] + s[1..];
    }
  }

  predicate AllAtLeast<T>(s: seq<T>, key: T -> int, bound: int)
  {
    forall i :: 0 <= i < |s| ==> key(s[i]) >= bound
  }

  lemma {:induction false} InsertAscBound<T>(x: T, s: seq<T>, key: T -> int, bound: int)
    requires AllAtLeast(s, key, bound) && key(x) >= bound
    ensures AllAtLeast(InsertAsc(x, s, key), key, bound)
    decreases |s|
  {
    if s != [] && key(x) > key(s[0]) {
      InsertAscBound(x, s[1..], key, bound);
      var r := InsertAsc(x, s, key);
      assert forall i :: 1 <= i < |r| ==> r[i] == InsertAsc(x, s[1..], key)[i - 1];
    }
  }

  lemma {:induction false} InsertAscOrdered<T>(x: T, s: seq<T>, key: T -> int)
    requires Ascending(s, key)
    ensures Ascending(InsertAsc(x, s, key), key)
    decreases |s|
  {
    if s != [] && key(x) > key(s[0]) {
      var t := s[1..];
      var u := InsertAsc(x, t, key);
      InsertAscOrdered(x, t, key);
      assert AllAtLeast(t, key, key(s[0])) by {
        forall i | 0 <= i < |t| ensures key(t[i]) >= key(s[0]) {
          assert t[i] == s[i + 1];
        }
      }
      InsertAscBound(x, t, key, key(s[0]));
      var r := [s[0]] + u;
      forall i, j | 0 <= i < j < |r| ensures key(r[i]) <= key(r[j]) {
        assert r[j] == u[j - 1];
        if i > 0 {
          assert r[i] == u[i - 1];
        }
      }
    }
  }

  lemma {:induction false} InsertAscStable<T>(x: T, s: seq<T>, key: T -> int, k: int)
    ensures WithKey(InsertAsc(x, s, key), key, k) == WithKey([x] + s, key, k)
    decreases |s|
  {
    if s != [] && key(x) > key(s[0]) {
      var t := s[1..];
      InsertAscStable(x, t, key, k);
      var r := [s[0]] + InsertAsc(x, t, key);
      assert r[1..] == InsertAsc(x, t, key);
      assert ([x] + s)[1..] == s;
      assert ([x] + t)[1..] == t;
      assert ([s[0]] + t)[1..] == t;
      assert s == [s[0]] + t;
    }
  }

  lemma {:induction false} SortAscFacts<T>(s: seq<T>, key: T -> int)
    ensures Ascending(SortAsc(s, key), key)
    ensures multiset(SortAsc(s, key)) == multiset(s)
    ensures forall k :: WithKey(SortAsc(s, key), key, k) == WithKey(s, key, k)
    decreases |s|
  {
    if s != [] {
      var t := s[1..];
      SortAscFacts(t, key);
      InsertAscElements(s[0], SortAsc(t, key), key);
      InsertAscOrdered(s[0], SortAsc(t, key), key);
      assert s == [s[0]] + t;
      forall k ensures WithKey(SortAsc(s, key), key, k) == WithKey(s, key, k) {
        InsertAscStable(s[0], SortAsc(t, key), key, k);
        assert ([s[0]] + SortAsc(t, key))[1..] == SortAsc(t, key);
      }
    }
  }

  // ---------------------------------------------------------------------------
  // Descending (`reverse=True`)

  predicate Descending<T>(s: seq<T>, key: T -> int)
  {
    forall i, j :: 0 <= i < j < |s| ==> key(s[i]) >= key(s[j])
  }

  /** Put `x` before the first element whose key is not larger. */
  function InsertDesc<T>(x: T, s: seq<T>, key: T -> int): seq<T>
  {
    if s == [] || key(x) >= key(s[0]) then [x] + s
    else [s[0]] + InsertDesc(x, s[1..], key)
  }

  function SortDesc<T>(s: seq<T>, key: T -> int): seq<T>
  {
    if s == [] then [] else InsertDesc(s[0], SortDesc(s[1..], key), key)
  }

  lemma {:induction false} InsertDescElements<T>(x: T, s: seq<T>, key: T -> int)
    ensures multiset(InsertDesc(x, s, key)) == multiset{x} + multiset(s)
    decreases |s|
  {
    if s != [] && key(x) < key(s[0]) {
      InsertDescElements(x, s[1..], key);
      assert s == [s[0]] + s[1..];
    }
  }

  predicate AllAtMost<T>(s: seq<T>, key: T -> int, bound: int)
  {
    forall i :: 0 <= i < |s| ==> key(s[i]) <= bound
  }

  lemma {:induction false} InsertDescBound<T>(x: T, s: seq<T>, key: T -> int, bound: int)
    requires AllAtMost(s, key, bound) && key(x) <= bound
    ensures AllAtMost(InsertDesc(x, s, key), key, bound)
    decreases |s|
  {
    if s != [] && key(x) < key(s[0]) {
      InsertDescBound(x, s[1..], key, bound);
      var r := InsertDesc(x, s, key);
      assert forall i :: 1 <= i < |r| ==> r[i] == InsertDesc(x, s[1..], key)[i - 1];
    }
  }

  lemma {:induction false} InsertDescOrdered<T>(x: T, s: seq<T>, key: T -> int)
    requires Descending(s, key)
    ensures Descending(InsertDesc(x, s, key), key)
    decreases |s|
  {
    if s != [] && key(x) < key(s[0]) {
      var t := s[1..];
      var u := InsertDesc(x, t, key);
      InsertDescOrdered(x, t, key);
      assert AllAtMost(t, key, key(s[0])) by {
        forall i | 0 <= i < |t| ensures key(t[i]) <= key(s[0]) {
          assert t[i] == s[i + 1];
        }
      }
      InsertDescBound(x, t, key, key(s[0]));
      var r := [s[0]] + u;
      forall i, j | 0 <= i < j < |r| ensures key(r[i]) >= key(r[j]) {
        assert r[j] == u[j - 1];
        if i > 0 {
          assert r[i] == u[i - 1];
        }
      }
    }
  }

  lemma {:induction false} InsertDescStable<T>(x: T, s: seq<T>, key: T -> int, k: int)
    ensures WithKey(InsertDesc(x, s, key), key, k) == WithKey([x] + s, key, k)
    decreases |s|
  {
    if s != [] && key(x) < key(s[0]) {
      var t := s[1..];
      InsertDescStable(x, t, key, k);
      var r := [s[0]] + InsertDesc(x, t, key);
      assert r[1..] == InsertDesc(x, t, key);
      assert ([x] + s)[1..] == s;
      assert ([x] + t)[1..] == t;
      assert ([s[0]] + t)[1..] == t;
      assert s == [s[0]] + t;
    }
  }

  lemma {:induction false} SortDescFacts<T>(s: seq<T>, key: T -> int)
    ensures Descending(SortDesc(s, key), key)
    ensures multiset(SortDesc(s, key)) == multiset(s)
    ensures forall k :: WithKey(SortDesc(s, key), key, k) == WithKey(s, key, k)
    decreases |s|
  {
    if s != [] {
      var t := s[1..];
      SortDescFacts(t, key);
      InsertDescElements(s[0], SortDesc(t, key), key);
      InsertDescOrdered(s[0], SortDesc(t, key), key);
      assert s == [s[0]] + t;
      forall k ensures WithKey(SortDesc(s, key), key, k) == WithKey(s, key, k) {
        InsertDescStable(s[0], SortDesc(t, key), key, k);
        assert ([s[0]] + SortDesc(t, key))[1..] == SortDesc(t, key);
      }
    }
  }

  lemma SortDescLength<T>(s: seq<T>, key: T -> int)
    ensures |SortDesc(s, key)| == |s|
  {
    SortDescFacts(s, key);
    assert |multiset(SortDesc(s, key))| == |multiset(s)|;
  }

  lemma SortAscLength<T>(s: seq<T>, key: T -> int)
    ensures |SortAsc(s, key)| == |s|
  {
    SortAscFacts(s, key);
    assert |multiset(SortAsc(s, key))| == |multiset(s)|;
  }
}

=== FILE: streaming_printer.dfy ===
/**
 * The two streaming printers: the newer one (mentat/parsers/streaming_printer.py),
 * which stops accepting text once it is finishing and can be shut down at
 * once, and the older one (mentat/streaming_printer.py), which keeps
 * accepting text and stops only once its queue has drained. Both queue the
 * characters of each string and print them one per iteration of
 * `print_lines`. The concurrency between adding and printing is modelled as
 * a sequence of events; sleeping is left out.
 */
module StreamingPrinters {

  // ---------------------------------------------------------------------------
  // The newer printer (mentat/parsers/streaming_printer.py)

  /**
   * `chars_remaining` is kept next to the queue, as in the source; `stopped`
   * records that `print_lines` has returned. `S` is the styles dict of a
   * formatted string (the empty dict for a plain one).
   */
  datatype Printer<S> = Printer(queue: seq<(char, S)>, charsRemaining: int, finishing: bool, shutdown: bool, stopped: bool)

  function Fresh<S>(): Printer<S>
  {
    Printer([], 0, false, false, false)
  }

  /** The counter agrees with the queue. */
  predicate Counted<S>(p: Printer<S>)
  {
    p.charsRemaining == |p.queue|
  }

  /** Every character of `s`, each with the same styles. */
  function Tagged<S>(s: string, styles: S): (r: seq<(char, S)>)
    ensures |r| == |s|
    ensures forall i :: 0 <= i < |s| ==> r[i] == (s[i], styles)
  {
    seq(|s|, i requires 0 <= i < |s| => (s[i], styles))
  }

  /** `add_string`: ignored while finishing or for an empty string; else queues `string + end`. */
  function AddString<S>(p: Printer<S>, s: string, styles: S, end: string): (r: Printer<S>)
    ensures p.finishing || s == [] ==> r == p
    ensures !p.finishing && s != [] ==>
      r == p.(queue := p.queue + Tagged(s + end, styles), charsRemaining := p.charsRemaining + |s + end|)
  {
    if p.finishing || |s| == 0 then p
    else
      var text := s + end;
      p.(queue := p.queue + Tagged(text, styles), charsRemaining := p.charsRemaining + |text|)
  }

  /**
   * One iteration of `print_lines`: it returns once shut down, or once the
   * queue is empty while finishing; otherwise it sends the first queued
   * character, if any. The second component is what was sent.
   */
  function Step<S>(p: Printer<S>): (r: (Printer<S>, seq<(char, S)>))
    ensures |r.1| <= 1
  {
    if p.stopped then (p, [])
    else if p.shutdown then (p.(stopped := true), [])
    else if |p.queue| > 0 then (p.(queue := p.queue[1..], charsRemaining := p.charsRemaining - 1), [p.queue[0]])
    else if p.finishing then (p.(stopped := true), [])
    else (p, [])
  }

  /** What can happen next: a call to `add_string`, an iteration of `print_lines`, `wrap_it_up`, `shutdown_printer`. */
  datatype Event<S> = Add(text: string, styles: S, end: string) | Tick | WrapUp | Shutdown

  function Apply<S>(p: Printer<S>, e: Event<S>): (Printer<S>, seq<(char, S)>)
  {
    match e
    case Add(s, styles, end) => (AddString(p, s, styles, end), [])
    case Tick => Step(p)
    case WrapUp => (p.(finishing := true), [])
    case Shutdown => (p.(shutdown := true), [])
  }

  /**
   * The printer after the events, and every character sent meanwhile, in
   * order. Nothing is lost or reordered: what was sent followed by what is
   * still queued is the old queue followed by every non-empty string added
   * before the first `wrap_it_up` (none, if already finishing).
   */
  function Run<S>(p: Printer<S>, events: seq<Event<S>>): (r: (Printer<S>, seq<(char, S)>))
    ensures r.1 + r.0.queue == p.queue + Texts(if p.finishing then [] else UntilWrap(events))
    decreases |events|
  {
    if events == [] then (p, [])
    else
      var e := events[0];
      var (q, sent) := Apply(p, e);
      var (r, later) := Run(q, events[1..]);
      ApplyContent(p, e);
      if p.finishing || e.WrapUp? then
        assert Texts<S>([]) == [];
        Regroup(sent, later, r.queue, q.queue, p.queue, [], []);
        (r, sent + later)
      else
        assert UntilWrap(events) == [e] + UntilWrap(events[1..]);
        assert Texts(UntilWrap(events)) == Added(e) + Texts(UntilWrap(events[1..]));
        Regroup(sent, later, r.queue, q.queue, p.queue, Added(e), Texts(UntilWrap(events[1..])));
        (r, sent + later)
  }

  /** The counter equals the queue length after any events. */
  lemma {:induction false} RunKeepsCount<S>(p: Printer<S>, events: seq<Event<S>>)
    requires Counted(p)
    ensures Counted(Run(p, events).0)
    decreases |events|
  {
    if events != [] {
      var q := Apply(p, events[0]).0;
      assert Counted(q);
      RunKeepsCount(q, events[1..]);
    }
  }

  /** The events up to the first `wrap_it_up`. */
  function UntilWrap<S>(events: seq<Event<S>>): seq<Event<S>>
  {
    if events == [] || events[0].WrapUp? then [] else [events[0]] + UntilWrap(events[1..])
  }

  /** The characters that the non-empty strings among the events ask to print. */
  function Texts<S>(events: seq<Event<S>>): seq<(char, S)>
  {
    if events == [] then []
    else
      var e := events[0];
      (if e.Add? && e.text != [] then Tagged(e.text + e.end, e.styles) else []) + Texts(events[1..])
  }

  /** The characters one event asks to print. */
  function Added<S>(e: Event<S>): seq<(char, S)>
  {
    if e.Add? && e.text != [] then Tagged(e.text + e.end, e.styles) else []
  }

  /** One event: what it sends followed by the new queue is the old queue and what it adds. */
  lemma ApplyContent<S>(p: Printer<S>, e: Event<S>)
    ensures var (q, sent) := Apply(p, e);
      && q.finishing == (p.finishing || e.WrapUp?)
      && sent + q.queue == p.queue + (if p.finishing then [] else Added(e))
  {
    if e.Tick? && !p.stopped && !p.shutdown && |p.queue| > 0 {
      assert [p.queue[0]] + p.queue[1..] == p.queue;
    }
  }

  /** Regrouping `(a + b) + c` where `b + c` and `a + b'` are known. */
  lemma Regroup<T>(sent0: seq<T>, later: seq<T>, queue: seq<T>, mid: seq<T>, before: seq<T>, added: seq<T>, t: seq<T>)
    requires later + queue == mid + t
    requires sent0 + mid == before + added
    ensures (sent0 + later) + queue == before + (added + t)
  {
    calc {
      (sent0 + later) + queue;
      sent0 + (later + queue);
      sent0 + (mid + t);
      (sent0 + mid) + t;
      (before + added) + t;
    }
  }

  function Ticks<S>(n: nat): (r: seq<Event<S>>)
    ensures |r| == n && forall i :: 0 <= i < n ==> r[i] == Tick
  {
    seq(n, i => Tick)
  }

  /**
   * After `wrap_it_up`, with no shutdown, `print_lines` sends the whole
   * queue, one character per iteration, and returns on the next one.
   */
  lemma {:induction false} FinishingDrains<S>(p: Printer<S>)
    requires Counted(p) && p.finishing && !p.shutdown && !p.stopped
    ensures var (r, sent) := Run(p, Ticks(|p.queue| + 1));
      sent == p.queue && r.queue == [] && r.charsRemaining == 0 && r.stopped
    decreases |p.queue|
  {
    var ticks: seq<Event<S>> := Ticks(|p.queue| + 1);
    assert ticks[1..] == Ticks(|p.queue|);
    if p.queue == [] {
      assert Run(p, ticks) == (p.(stopped := true), []);
    } else {
      var (q, sent0) := Step(p);
      FinishingDrains(q);
      assert Run(p, ticks) == (Run(q, ticks[1..]).0, sent0 + Run(q, ticks[1..]).1);
      assert [p.queue[0]] + p.queue[1..] == p.queue;
    }
  }

  /** Until it is finishing, an iteration with an empty queue just waits. */
  lemma IdleWaits<S>(p: Printer<S>)
    requires p.queue == [] && !p.finishing && !p.shutdown
    ensures Step(p) == (p, [])
  {
  }

  /** Once shut down, `print_lines` returns at its next iteration and sends nothing more. */
  lemma {:induction false} ShutdownStops<S>(p: Printer<S>, n: nat)
    requires p.shutdown
    ensures var (r, sent) := Run(p, Ticks(n));
      sent == [] && r.queue == p.queue && (n > 0 ==> r.stopped)
    decreases n
  {
    if n > 0 {
      var ticks: seq<Event<S>> := Ticks(n);
      assert ticks[1..] == Ticks(n - 1);
      var q := Step(p).0;
      ShutdownStops(q, n - 1);
      if n > 1 {
        assert Run(q, ticks[1..]).0.stopped;
      } else {
        assert Run(q, ticks[1..]) == (q, []);
      }
    }
  }

  // ---------------------------------------------------------------------------
  // The older printer (mentat/streaming_printer.py)

  /** The queue holds bare characters; `color` is accepted and ignored. */
  datatype OldPrinter = OldPrinter(queue: string, charsRemaining: int, shutdown: bool, stopped: bool)

  /** `add_string`: only an empty string is ignored, even after `wrap_it_up`. */
  function OldAddString(p: OldPrinter, s: string, end: string, color: string): (r: OldPrinter)
    ensures s == [] ==> r == p
    ensures s != [] ==> r == p.(queue := p.queue + s + end, charsRemaining := p.charsRemaining + |s + end|)
  {
    if |s| == 0 then p
    else
      var text := s + end;
      p.(queue := p.queue + text, charsRemaining := p.charsRemaining + |text|)
  }

  /** One iteration of `print_lines`: prints while anything is queued, and returns once empty after `wrap_it_up`. */
  function OldStep(p: OldPrinter): (r: (OldPrinter, string))
    ensures |r.1| <= 1
  {
    if p.stopped then (p, [])
    else if |p.queue| > 0 then (p.(queue := p.queue[1..], charsRemaining := p.charsRemaining - 1), [p.queue[0]])
    else if p.shutdown then (p.(stopped := true), [])
    else (p, [])
  }

  datatype OldEvent = OldAdd(text: string, end: string, color: string) | OldTick | OldWrapUp

  function OldApply(p: OldPrinter, e: OldEvent): (OldPrinter, string)
  {
    match e
    case OldAdd(s, end, color) => (OldAddString(p, s, end, color), [])
    case OldTick => OldStep(p)
    case OldWrapUp => (p.(shutdown := true), [])
  }

  function OldRun(p: OldPrinter, events: seq<OldEvent>): (OldPrinter, string)
    decreases |events|
  {
    if events == [] then (p, [])
    else
      var (q, sent) := OldApply(p, events[0]);
      var (r, later) := OldRun(q, events[1..]);
      (r, sent + later)
  }

  /** The characters one event asks to print. */
  function OldAdded(e: OldEvent): string
  {
    if e.OldAdd? && e.text != [] then e.text + e.end else []
  }

  /** The characters that every non-empty string among the events asks to print. */
  function OldTexts(events: seq<OldEvent>): string
  {
    if events == [] then [] else OldAdded(events[0]) + OldTexts(events[1..])
  }

  lemma OldApplyContent(p: OldPrinter, e: OldEvent)
    requires p.charsRemaining == |p.queue|
    ensures var (q, sent) := OldApply(p, e);
      q.charsRemaining == |q.queue| && sent + q.queue == p.queue + OldAdded(e)
  {
    if e.OldTick? && !p.stopped && |p.queue| > 0 {
      assert [p.queue[0]] + p.queue[1..] == p.queue;
    }
  }

  /**
   * The counter equals the queue length, and nothing is lost or reordered:
   * what was sent followed by what is queued is the old queue followed by
   * every non-empty string added, before or after `wrap_it_up`.
   */
  lemma {:induction false} OldRunFacts(p: OldPrinter, events: seq<OldEvent>)
    requires p.charsRemaining == |p.queue|
    ensures var (r, sent) := OldRun(p, events);
      r.charsRemaining == |r.queue| && sent + r.queue == p.queue + OldTexts(events)
    decreases |events|
  {
    if events != [] {
      var e := events[0];
      var (q, sent0) := OldApply(p, e);
      var (r, later) := OldRun(q, events[1..]);
      OldApplyContent(p, e);
      OldRunFacts(q, events[1..]);
      assert OldRun(p, events) == (r, sent0 + later);
      Regroup(sent0, later, r.queue, q.queue, p.queue, OldAdded(e), OldTexts(events[1..]));
    }
  }

  function OldTicks(n: nat): (r: seq<OldEvent>)
    ensures |r| == n && forall i :: 0 <= i < n ==> r[i] == OldTick
  {
    seq(n, i => OldTick)
  }

  /** After `wrap_it_up` the queue is still printed in full, and the loop returns on the next iteration. */
  lemma {:induction false} OldWrapUpDrains(p: OldPrinter)
    requires p.charsRemaining == |p.queue| && p.shutdown && !p.stopped
    ensures var (r, sent) := OldRun(p, OldTicks(|p.queue| + 1));
      sent == p.queue && r.queue == [] && r.charsRemaining == 0 && r.stopped
    decreases |p.queue|
  {
    var ticks := OldTicks(|p.queue| + 1);
    assert ticks[1..] == OldTicks(|p.queue|);
    if p.queue == [] {
      assert OldRun(p, ticks) == (p.(stopped := true), []);
    } else {
      var (q, sent0) := OldStep(p);
      OldWrapUpDrains(q);
      assert OldRun(p, ticks) == (OldRun(q, ticks[1..]).0, sent0 + OldRun(q, ticks[1..]).1);
      assert [p.queue[0]] + p.queue[1..] == p.queue;
    }
  }

  /** Unlike the newer printer, the older one still queues a string added after `wrap_it_up`. */
  lemma AddAfterWrapUp(s: string, end: string, color: string)
    requires s != []
    ensures OldAddString(OldPrinter([], 0, true, false), s, end, color).queue == s + end
    ensures AddString(Printer([], 0, true, false, false), s, 0, end).queue == []
  {
  }
}

=== FILE: trees.dfy ===
// What the two context trees (`mentat/context_tree/` and `mentat/file_node.py`)
// share: a node owning a dictionary of children keyed by name, navigation by
// path parts, dictionary assignment, and the parent chain behind `root()` and
// `relative_path()`.

module Trees {
  import opened Wrappers
  import opened PyText
  import opened PathParts

  /** What `path.is_dir()` says of a node's path. */
  datatype Kind = Directory | File

  /**
   * A node and its children, in the dictionary's insertion order; `data` is
   * what the particular tree keeps per node (settings, or file text).
   */
  datatype Tree<A> = Tree(name: string, kind: Kind, data: A, children: seq<Tree<A>>)

  function Names<A>(cs: seq<Tree<A>>): (r: seq<string>)
    ensures |r| == |cs|
    ensures forall i :: 0 <= i < |cs| ==> r[i] == cs[i].name
  {
    if |cs| == 0 then [] else [cs[0].name] + Names(cs[1..])
  }

  lemma NamesAppend<A>(a: seq<Tree<A>>, b: seq<Tree<A>>)
    ensures Names(a + b) == Names(a) + Names(b)
  {
  }

  /** A dictionary's keys are distinct. */
  predicate DistinctNames<A>(cs: seq<Tree<A>>)
  {
    forall i, j :: 0 <= i < j < |cs| ==> cs[i].name != cs[j].name
  }

  /** `children[name]`, `None` where the dictionary raises `KeyError`. */
  function ChildNamed<A>(cs: seq<Tree<A>>, name: string): (r: Option<Tree<A>>)
    ensures r.None? <==> name !in Names(cs)
    ensures r.Some? ==> r.value in cs && r.value.name == name
  {
    if |cs| == 0 then None
    else if cs[0].name == name then Some(cs[0])
    else ChildNamed(cs[1..], name)
  }

  lemma {:induction false} ChildNamedUnique<A>(cs: seq<Tree<A>>, i: nat)
    requires DistinctNames(cs) && i < |cs|
    ensures ChildNamed(cs, cs[i].name) == Some(cs[i])
  {
    if i > 0 {
      assert cs[0].name != cs[i].name;
      ChildNamedUnique(cs[1..], i - 1);
    }
  }

  /** Descending part by part from `n`; `None` at the first missing part. */
  function Lookup<A>(n: Tree<A>, parts: seq<string>): Option<Tree<A>>
    decreases |parts|
  {
    if |parts| == 0 then Some(n)
    else match ChildNamed(n.children, parts[0])
      case None => None
      case Some(c) => Lookup(c, parts[1..])
  }

  /** Looking up `a + b` is looking up `a`, then `b` from where that lands. */
  lemma {:induction false} LookupAppend<A>(n: Tree<A>, a: seq<string>, b: seq<string>)
    ensures Lookup(n, a + b) == match Lookup(n, a)
      case None => None
      case Some(m) => Lookup(m, b)
    decreases |a|
  {
    if |a| > 0 {
      assert (a + b)[0] == a[0] && (a + b)[1..] == a[1..] + b;
      match ChildNamed(n.children, a[0])
      case None =>
      case Some(c) => LookupAppend(c, a[1..], b);
    } else {
      assert a + b == b;
    }
  }

  lemma LookupStep<A>(n: Tree<A>, i: nat, rest: seq<string>)
    requires DistinctNames(n.children) && i < |n.children|
    requires |rest| > 0 && rest[0] == n.children[i].name
    ensures Lookup(n, rest) == Lookup(n.children[i], rest[1..])
  {
    ChildNamedUnique(n.children, i);
  }

  lemma LocationStep(at: seq<string>, name: string, loc: seq<string>)
    requires StartsWith(loc, at + [name])
    ensures StartsWith(loc, at)
    ensures |loc[|at|..]| > 0 && loc[|at|..][0] == name && loc[|at|..][1..] == loc[|at| + 1..]
  {
    assert loc[..|at|] == (at + [name])[..|at|];
    assert loc[|at|] == (at + [name])[|at|];
  }

  /** `children[node.name] = node`: replaced in place if the key exists, else appended. */
  function Put<A>(cs: seq<Tree<A>>, node: Tree<A>): (r: seq<Tree<A>>)
  {
    if |cs| == 0 then [node]
    else if cs[0].name == node.name then [node] + cs[1..]
    else [cs[0]] + Put(cs[1..], node)
  }

  lemma {:induction false} PutFacts<A>(cs: seq<Tree<A>>, node: Tree<A>)
    requires DistinctNames(cs)
    ensures DistinctNames(Put(cs, node))
    ensures node in Put(cs, node)
    ensures forall c :: c in Put(cs, node) ==> c == node || (c in cs && c.name != node.name)
    ensures forall c :: c in cs && c.name != node.name ==> c in Put(cs, node)
    ensures node.name in Names(cs) ==> |Put(cs, node)| == |cs|
    ensures node.name !in Names(cs) ==> Put(cs, node) == cs + [node]
  {
    PutMembers(cs, node);
    PutNames(cs, node);
    if node.name !in Names(cs) {
      PutNew(cs, node);
      AppendNew(cs, node);
    } else {
      SameNamesDistinct(cs, Put(cs, node));
    }
  }

  /** Distinct names depend on the names alone. */
  lemma SameNamesDistinct<A>(a: seq<Tree<A>>, b: seq<Tree<A>>)
    requires DistinctNames(a) && Names(b) == Names(a)
    ensures DistinctNames(b)
  {
    forall i, j | 0 <= i < j < |b|
      ensures b[i].name != b[j].name
    {
      assert Names(b)[i] == a[i].name && Names(b)[j] == a[j].name;
    }
  }

  /** The tail of a keyed list is keyed, and none of it shares the head's name. */
  lemma DistinctNamesTail<A>(cs: seq<Tree<A>>)
    requires DistinctNames(cs) && |cs| > 0
    ensures DistinctNames(cs[1..])
    ensures forall c :: c in cs[1..] ==> c.name != cs[0].name
  {
    forall c | c in cs[1..]
      ensures c.name != cs[0].name
    {
      var j :| 1 <= j < |cs| && cs[j] == c;
    }
  }

  /** `Put` replaces the same-named child, or adds the node; every other child stays. */
  lemma {:induction false} PutMembers<A>(cs: seq<Tree<A>>, node: Tree<A>)
    requires DistinctNames(cs)
    ensures node in Put(cs, node)
    ensures forall c :: c in Put(cs, node) ==> c == node || (c in cs && c.name != node.name)
    ensures forall c :: c in cs && c.name != node.name ==> c in Put(cs, node)
  {
    if |cs| > 0 {
      DistinctNamesTail(cs);
      assert cs == [cs[0]] + cs[1..];
      if cs[0].name != node.name {
        PutMembers(cs[1..], node);
      }
    }
  }

  /** The names after `Put`: unchanged when the key exists, else the new key appended. */
  lemma {:induction false} PutNames<A>(cs: seq<Tree<A>>, node: Tree<A>)
    ensures Names(Put(cs, node)) == if node.name in Names(cs) then Names(cs) else Names(cs) + [node.name]
  {
    if |cs| > 0 {
      assert Names(cs) == [cs[0].name] + Names(cs[1..]);
      if cs[0].name == node.name {
        assert Names([node] + cs[1..]) == [node.name] + Names(cs[1..]);
      } else {
        PutNames(cs[1..], node);
        assert Names(Put(cs, node)) == [cs[0].name] + Names(Put(cs[1..], node));
      }
    }
  }

  lemma {:induction false} PutNew<A>(cs: seq<Tree<A>>, node: Tree<A>)
    requires node.name !in Names(cs)
    ensures Put(cs, node) == cs + [node]
  {
    if |cs| > 0 {
      assert Names(cs) == [cs[0].name] + Names(cs[1..]);
      PutNew(cs[1..], node);
      assert cs == [cs[0]] + cs[1..];
    }
  }

  lemma AppendNew<A>(cs: seq<Tree<A>>, node: Tree<A>)
    requires DistinctNames(cs) && node.name !in Names(cs)
    ensures DistinctNames(cs + [node])
    ensures Names(cs + [node]) == Names(cs) + [node.name]
  {
    assert forall i :: 0 <= i < |cs| ==> cs[i].name != node.name by {
      forall i | 0 <= i < |cs|
        ensures cs[i].name != node.name
      {
        assert Names(cs)[i] == cs[i].name;
      }
    }
  }

  /**
   * A node's `parent` links, ending at the parentless node; each link holds
   * the node's absolute path.
   */
  datatype Ancestry = Top(path: Path) | Under(path: Path, parent: Ancestry)

  /** `root()`: follow `parent` until there is none. */
  function Root(a: Ancestry): (r: Path)
  {
    match a
    case Top(p) => p
    case Under(_, up) => Root(up)
  }

  /** `relative_path()`: the path relative to the root's, `None` for `ValueError`. */
  function RelativePath(a: Ancestry): Option<Path>
  {
    RelativeTo(a.path, Root(a))
  }

  /** The chain built by constructing each child with `Path(parent.path, name)`. */
  function Descend(a: Ancestry, names: seq<string>): Ancestry
    decreases |names|
  {
    if |names| == 0 then a
    else Descend(Under(Child(a.path, names[0]), a), names[1..])
  }

  lemma {:induction false} DescendFacts(a: Ancestry, names: seq<string>)
    ensures Root(Descend(a, names)) == Root(a)
    ensures Descend(a, names).path == Path(a.path.absolute, a.path.parts + names)
    decreases |names|
  {
    if |names| > 0 {
      DescendFacts(Under(Child(a.path, names[0]), a), names[1..]);
      assert a.path.parts + [names[0]] + names[1..] == a.path.parts + names;
    }
  }

  /** A node reached from the root through `names` has root `root` and relative path `names`. */
  lemma RootAndRelativePath(root: Path, names: seq<string>)
    ensures Root(Descend(Top(root), names)) == root
    ensures RelativePath(Descend(Top(root), names)) == Some(Path(false, names))
  {
    DescendFacts(Top(root), names);
    RelativeToJoined(root, names);
  }
}

=== FILE: unified_diff.dfy ===
/**
 * The unified-diff edit format (mentat/parsers/unified_diff_parser.py): the
 * line predicates the streaming loop consults, the `--- a` / `+++ b` header,
 * and the translation of `-`/`+`/context hunks into replacement ranges found
 * by a three-stage search of the file.
 */
module UnifiedDiff {
  import opened Wrappers
  import opened PyText
  import FileEdits
  import Parsing

  // ---------------------------------------------------------------------------
  // Line predicates

  /** The line may still turn into a header or hunk separator, so it is not printed yet. */
  predicate CouldBeSpecial(curLine: string)
  {
    var line := Strip(curLine);
    StartsWith("@", line) || StartsWith("@@", line) || StartsWith(line, "---") || StartsWith(line, "+++")
    || StartsWith("---", line) || StartsWith("+++", line)
  }

  predicate StartsSpecial(line: string)
  {
    StartsWith(line, "---")
  }

  predicate EndsSpecial(line: string)
  {
    StartsWith(line, "+++")
  }

  predicate EndsCode(line: string)
  {
    Strip(line) == "@@"
  }

  lemma PrefixOfPrefix(s: string, p: string, q: string)
    requires StartsWith(s, p) && StartsWith(s, q) && |q| <= |p|
    ensures StartsWith(p, q)
  {
    assert p[..|q|] == s[..|p|][..|q|];
  }

  /**
   * Every prefix of a line that opens a header, closes one or ends the code
   * is held back: the line is never printed before it can be recognised.
   */
  lemma CouldBeSpecialCoversPrefixes(l: string, k: nat)
    requires k <= |l|
    requires StartsSpecial(Strip(l)) || EndsSpecial(Strip(l)) || EndsCode(l)
    ensures CouldBeSpecial(l[..k])
  {
    var s := Strip(l);
    var p := Strip(l[..k]);
    StripPrefix(l, k);
    if StartsSpecial(s) || EndsSpecial(s) {
      var mark := if StartsSpecial(s) then "---" else "+++";
      if |p| <= 3 {
        PrefixOfPrefix(s, mark, p);
      } else {
        PrefixOfPrefix(s, p, mark);
      }
    } else {
      PrefixOfPrefix(s, "@@", p);
    }
  }

  // ---------------------------------------------------------------------------
  // The header block

  const DevNull := "/dev/null"

  /** `_special_block`: the file names follow the four-character `--- ` and `+++ ` markers. */
  function SpecialBlock(block: string): (r: Result<Parsing.Header, Parsing.BlockError>)
    ensures r.Err? <==> '\n' !in block
    ensures r.Ok? ==> r.value.hasCode && r.value.first == -1 && r.value.last == -1
    ensures r.Ok? ==> r.value.edit.path == r.value.fileName && r.value.edit.replacements == []
    ensures r.Ok? ==> r.value.edit.rename == r.value.newName
  {
    var lines := Split(block, '\n');
    if |lines| < 2 then Err(Parsing.IndexError)
    else
      var source := SliceFrom(lines[0], 4);
      var target := SliceFrom(lines[1], 4);
      var creation := source == DevNull;
      var deletion := target == DevNull;
      var fileName := if creation then target else source;
      var newName := if fileName == target || deletion then None else Some(target);
      Ok(Parsing.Header(fileName, newName, FileEdits.FileEdit(fileName, [], creation, deletion, newName), true, -1, -1))
  }

  /** The header the model writes for a change from `source` to `target`. */
  function HeaderBlock(source: string, target: string): string
  {
    "--- " + source + "\n+++ " + target + "\n"
  }

  /**
   * A header names its file by the source unless the source is `/dev/null`
   * (a creation, named by the target); a `/dev/null` target is a deletion;
   * differing names are a rename to the target.
   */
  lemma HeaderBlockMeaning(source: string, target: string)
    requires '\n' !in source && '\n' !in target
    ensures SpecialBlock(HeaderBlock(source, target)).Ok?
    ensures var h := SpecialBlock(HeaderBlock(source, target)).value;
      && h.fileName == (if source == DevNull then target else source)
      && (h.edit.isCreation <==> source == DevNull)
      && (h.edit.isDeletion <==> target == DevNull)
      && (h.newName.Some? <==> h.fileName != target && target != DevNull)
      && (h.newName.Some? ==> h.newName.value == target)
  {
    var parts := ["--- " + source, "+++ " + target, ""];
    assert Join(parts, '\n') == HeaderBlock(source, target) by {
      assert Join(parts[2..], '\n') == "";
      assert Join(parts[1..], '\n') == parts[1] + "\n" + "";
    }
    assert '\n' !in "--- " + source && '\n' !in "+++ " + target;
    SplitJoin(parts, '\n');
    assert SliceFrom(parts[0], 4) == source;
    assert SliceFrom(parts[1], 4) == target;
  }

  // ---------------------------------------------------------------------------
  // Hunks

  datatype CodeError = InvalidFormat | NoContext | NotFound

  /** A stripped `@` separates hunks; a stripped `@@` ends the block. */
  predicate IsSeparator(line: string)
  {
    Strip(line) == "@" || Strip(line) == "@@"
  }

  /** Empty, added, removed or context. */
  predicate WellFormed(line: string)
  {
    line == "" || StartsWith(line, "+") || StartsWith(line, "-") || StartsWith(line, " ")
  }

  /** The first loop of `_add_code_block`: cut the lines into hunks. */
  function Hunks(lines: seq<string>, cur: seq<string>): Result<seq<seq<string>>, CodeError>
  {
    if lines == [] then Ok(if cur == [] then [] else [cur])
    else if IsSeparator(lines[0]) then
      if Strip(lines[0]) == "@@" then Ok([cur])
      else
        match Hunks(lines[1..], [])
        case Ok(hs) => Ok([cur] + hs)
        case Err(e) => Err(e)
    else if !WellFormed(lines[0]) then Err(InvalidFormat)
    else Hunks(lines[1..], cur + [lines[0]])
  }

  /** The lines before the first `@@` line. */
  function Body(lines: seq<string>): (r: seq<string>)
    ensures |r| <= |lines|
  {
    if lines == [] || Strip(lines[0]) == "@@" then [] else [lines[0]] + Body(lines[1..])
  }

  /** A line the hunk loop accepts without error. */
  predicate Acceptable(line: string)
  {
    IsSeparator(line) || WellFormed(line)
  }

  /** The lines that are not separators. */
  function Content(lines: seq<string>): seq<string>
  {
    if lines == [] then [] else (if IsSeparator(lines[0]) then [] else [lines[0]]) + Content(lines[1..])
  }

  function Flatten(hs: seq<seq<string>>): seq<string>
  {
    if hs == [] then [] else hs[0] + Flatten(hs[1..])
  }

  predicate AllAcceptable(lines: seq<string>)
  {
    forall i :: 0 <= i < |lines| ==> Acceptable(lines[i])
  }

  /** Cutting into hunks fails exactly when a line before the closing `@@` is not acceptable. */
  lemma {:induction false} HunksOkIff(lines: seq<string>, cur: seq<string>)
    ensures Hunks(lines, cur).Ok? <==> AllAcceptable(Body(lines))
  {
    if lines != [] && Strip(lines[0]) != "@@" {
      var rest := Body(lines[1..]);
      assert Body(lines) == [lines[0]] + rest;
      if IsSeparator(lines[0]) {
        HunksOkIff(lines[1..], []);
        AllAcceptableCons(lines[0], rest);
        assert Hunks(lines, cur).Ok? == Hunks(lines[1..], []).Ok?;
      } else if WellFormed(lines[0]) {
        HunksOkIff(lines[1..], cur + [lines[0]]);
        AllAcceptableCons(lines[0], rest);
      } else {
        assert !Acceptable(Body(lines)[0]);
      }
    }
  }

  lemma AllAcceptableCons(line: string, rest: seq<string>)
    requires Acceptable(line)
    ensures AllAcceptable([line] + rest) <==> AllAcceptable(rest)
  {
    var b := [line] + rest;
    if AllAcceptable(rest) {
      forall i | 0 <= i < |b| ensures Acceptable(b[i]) {
        if i > 0 { assert b[i] == rest[i - 1]; }
      }
    }
    if AllAcceptable(b) {
      forall i | 0 <= i < |rest| ensures Acceptable(rest[i]) {
        assert b[i + 1] == rest[i];
      }
    }
  }

  /** The hunks, read in order, are exactly the non-separator lines before the closing `@@`. */
  lemma {:induction false} HunksContent(lines: seq<string>, cur: seq<string>)
    ensures Hunks(lines, cur).Ok? ==> Flatten(Hunks(lines, cur).value) == cur + Content(Body(lines))
  {
    if lines == [] || Strip(lines[0]) == "@@" {
      assert Flatten([cur]) == cur + Flatten([]);
      assert cur + [] == cur;
      if lines == [] {
        assert Flatten([]) == [];
      }
    } else if IsSeparator(lines[0]) {
      HunksContent(lines[1..], []);
      if Hunks(lines[1..], []).Ok? {
        var hs := Hunks(lines[1..], []).value;
        assert ([cur] + hs)[1..] == hs;
        assert Content(Body(lines)) == Content(Body(lines[1..])) by {
          assert Body(lines) == [lines[0]] + Body(lines[1..]);
          assert ([lines[0]] + Body(lines[1..]))[1..] == Body(lines[1..]);
        }
      }
    } else if WellFormed(lines[0]) {
      HunksContent(lines[1..], cur + [lines[0]]);
      assert Content(Body(lines)) == [lines[0]] + Content(Body(lines[1..])) by {
        assert Body(lines) == [lines[0]] + Body(lines[1..]);
        assert ([lines[0]] + Body(lines[1..]))[1..] == Body(lines[1..]);
      }
    }
  }

  // ---------------------------------------------------------------------------
  // Searching the file

  /** The removed and context lines of a hunk, without their marker. */
  function SearchLines(change: seq<string>): seq<string>
  {
    if change == [] then []
    else (if StartsWith(change[0], "-") || StartsWith(change[0], " ") then [change[0][1..]] else [])
         + SearchLines(change[1..])
  }

  /** The lines that start with `mark`, without it. */
  function Tails(change: seq<string>, mark: char): seq<string>
  {
    if change == [] then []
    else (if StartsWith(change[0], [mark]) then [change[0][1..]] else []) + Tails(change[1..], mark)
  }

  lemma {:induction false} SearchLinesLength(change: seq<string>)
    ensures |SearchLines(change)| == CountStartingWith(change, "-") + CountStartingWith(change, " ")
  {
    if change != [] {
      SearchLinesLength(change[1..]);
    }
  }

  /** Both blocks are blank once joined. */
  predicate BothBlank(orig: seq<string>, want: seq<string>)
  {
    Strip(Concat(want)) == "" && Strip(Concat(orig)) == ""
  }

  /** `_exact_match`: 0 for two blank blocks, else the first occurrence of `want`, else -1. */
  function ExactMatch(orig: seq<string>, want: seq<string>): (r: int)
    ensures r >= -1
    ensures BothBlank(orig, want) ==> r == 0
    ensures !BothBlank(orig, want) && r >= 0 ==>
      OccursAt(orig, want, r) && forall j :: 0 <= j < r ==> !OccursAt(orig, want, j)
    ensures r == -1 <==> !BothBlank(orig, want) && forall j :: 0 <= j ==> !OccursAt(orig, want, j)
  {
    if BothBlank(orig, want) then 0
    else
      match FindFrom(orig, want, 0)
      case Some(i) => i
      case None => -1
  }

  function LowerAll(lines: seq<string>): (r: seq<string>)
    ensures |r| == |lines| && forall i :: 0 <= i < |lines| ==> r[i] == Lower(lines[i])
  {
    if lines == [] then [] else [Lower(lines[0])] + LowerAll(lines[1..])
  }

  function StripAll(lines: seq<string>): (r: seq<string>)
    ensures |r| == |lines| && forall i :: 0 <= i < |lines| ==> r[i] == Strip(lines[i])
  {
    if lines == [] then [] else [Strip(lines[0])] + StripAll(lines[1..])
  }

  /** `_matching_index`: exact, then lower-cased, then lower-cased and stripped. */
  function MatchingIndex(orig: seq<string>, want: seq<string>): int
  {
    var exact := ExactMatch(orig, want);
    if exact != -1 then exact
    else
      var lowered := ExactMatch(LowerAll(orig), LowerAll(want));
      if lowered != -1 then lowered
      else ExactMatch(StripAll(LowerAll(orig)), StripAll(LowerAll(want)))
  }

  /** The search succeeds at `i` in one comparison stage. */
  predicate FoundAt(orig: seq<string>, want: seq<string>, i: int)
  {
    OccursAt(orig, want, i) || (i == 0 && BothBlank(orig, want))
  }

  /**
   * The stages are tried in order and the first success wins: an exact hit is
   * always preferred, a lower-cased hit is used only when there is no exact
   * one, and -1 means no stage found the block.
   */
  lemma MatchingIndexStages(orig: seq<string>, want: seq<string>)
    ensures var r := MatchingIndex(orig, want);
      var lo, lw := LowerAll(orig), LowerAll(want);
      && r >= -1
      && (FoundAt(orig, want, r) || FoundAt(lo, lw, r) || FoundAt(StripAll(lo), StripAll(lw), r) || r == -1)
      && (ExactMatch(orig, want) != -1 ==> r == ExactMatch(orig, want))
      && (ExactMatch(orig, want) == -1 && ExactMatch(lo, lw) != -1 ==> r == ExactMatch(lo, lw))
      && (r == -1 <==> forall i :: 0 <= i ==>
            !FoundAt(orig, want, i) && !FoundAt(lo, lw, i) && !FoundAt(StripAll(lo), StripAll(lw), i))
  {
  }

  // ---------------------------------------------------------------------------
  // From a located hunk to replacements

  /**
   * The second loop of `_add_code_block`: one replacement per `+`/`-` run.
   * A run opens only on a `+` or `-` line, so every replacement removes a
   * line or adds one.
   */
  function Build(change: seq<string>, start: Option<int>, adds: seq<string>, index: int): seq<FileEdits.Replacement>
  {
    if change == [] then
      if start.Some? then [FileEdits.Replacement(start.value, index, adds)] else []
    else
      var line := change[0];
      if StartsWith(line, " ") then
        (if start.Some? then [FileEdits.Replacement(start.value, index, adds)] else [])
        + Build(change[1..], None, [], index + 1)
      else if StartsWith(line, "+") then
        Build(change[1..], if start.Some? then start else Some(index), adds + [line[1..]], index)
      else if StartsWith(line, "-") then
        Build(change[1..], if start.Some? then start else Some(index), adds, index + 1)
      else
        Build(change[1..], start, adds, index)
  }

  /** Every replacement removes a line or adds one. */
  predicate EachChanges(rs: seq<FileEdits.Replacement>)
  {
    forall k :: 0 <= k < |rs| ==> rs[k].start < rs[k].end || rs[k].newLines != []
  }

  /** A run opens only on a `+` or `-` line, so every replacement of a hunk removes a line or adds one. */
  lemma {:induction false} BuildEachChanges(change: seq<string>, start: Option<int>, adds: seq<string>, index: int)
    requires start.None? || adds != [] || start.value < index
    ensures EachChanges(Build(change, start, adds, index))
    decreases |change|
  {
    if change != [] {
      var line := change[0];
      if StartsWith(line, " ") {
        BuildEachChanges(change[1..], None, [], index + 1);
        var rest := Build(change[1..], None, [], index + 1);
        if start.Some? {
          var r := [FileEdits.Replacement(start.value, index, adds)] + rest;
          assert forall k :: 1 <= k < |r| ==> r[k] == rest[k - 1];
        } else {
          assert [] + rest == rest;
        }
      } else if StartsWith(line, "+") {
        BuildEachChanges(change[1..], if start.Some? then start else Some(index), adds + [line[1..]], index);
      } else if StartsWith(line, "-") {
        BuildEachChanges(change[1..], if start.Some? then start else Some(index), adds, index + 1);
      } else {
        BuildEachChanges(change[1..], start, adds, index);
      }
    }
  }

  /** Total number of lines removed by the replacements. */
  function Removed(rs: seq<FileEdits.Replacement>): int
  {
    if rs == [] then 0 else rs[0].end - rs[0].start + Removed(rs[1..])
  }

  /** The new lines of the replacements, in order. */
  function Added(rs: seq<FileEdits.Replacement>): seq<string>
  {
    if rs == [] then [] else rs[0].newLines + Added(rs[1..])
  }

  lemma RemovedCons(r: FileEdits.Replacement, rs: seq<FileEdits.Replacement>)
    ensures Removed([r] + rs) == r.end - r.start + Removed(rs)
  {
    assert ([r] + rs)[1..] == rs;
  }

  lemma AddedCons(r: FileEdits.Replacement, rs: seq<FileEdits.Replacement>)
    ensures Added([r] + rs) == r.newLines + Added(rs)
  {
    assert ([r] + rs)[1..] == rs;
  }

  /** Every `-` line removes exactly one line: the ranges cover as many lines as there are `-` lines. */
  lemma {:induction false} BuildRemoved(change: seq<string>, start: Option<int>, adds: seq<string>, index: int)
    requires start.Some? ==> start.value <= index
    ensures Removed(Build(change, start, adds, index)) ==
      (if start.Some? then index - start.value else 0) + CountStartingWith(change, "-")
  {
    if change == [] {
      if start.Some? {
        RemovedCons(FileEdits.Replacement(start.value, index, adds), []);
      }
    } else {
      var line := change[0];
      var s := if start.Some? then start else Some(index);
      if StartsWith(line, " ") {
        BuildRemoved(change[1..], None, [], index + 1);
        if start.Some? {
          RemovedCons(FileEdits.Replacement(start.value, index, adds), Build(change[1..], None, [], index + 1));
        } else {
          assert [] + Build(change[1..], None, [], index + 1) == Build(change[1..], None, [], index + 1);
        }
      } else if StartsWith(line, "+") {
        BuildRemoved(change[1..], s, adds + [line[1..]], index);
      } else if StartsWith(line, "-") {
        BuildRemoved(change[1..], s, adds, index + 1);
      } else {
        BuildRemoved(change[1..], start, adds, index);
      }
    }
  }

  /** The new lines are exactly the `+` lines, without their marker, in order. */
  lemma {:induction false} BuildAdded(change: seq<string>, start: Option<int>, adds: seq<string>, index: int)
    requires start.None? ==> adds == []
    ensures Added(Build(change, start, adds, index)) == adds + Tails(change, '+')
  {
    if change == [] {
      if start.Some? {
        AddedCons(FileEdits.Replacement(start.value, index, adds), []);
      }
      assert adds + [] == adds;
    } else {
      var line := change[0];
      var s := if start.Some? then start else Some(index);
      if StartsWith(line, " ") {
        var rest := Build(change[1..], None, [], index + 1);
        BuildAdded(change[1..], None, [], index + 1);
        if start.Some? {
          AddedCons(FileEdits.Replacement(start.value, index, adds), rest);
        } else {
          assert [] + rest == rest;
        }
        assert Tails(change, '+') == Tails(change[1..], '+');
      } else if StartsWith(line, "+") {
        BuildAdded(change[1..], s, adds + [line[1..]], index);
        assert Tails(change, '+') == [line[1..]] + Tails(change[1..], '+');
      } else if StartsWith(line, "-") {
        BuildAdded(change[1..], s, adds, index + 1);
        assert Tails(change, '+') == Tails(change[1..], '+');
      } else {
        BuildAdded(change[1..], start, adds, index);
        assert Tails(change, '+') == Tails(change[1..], '+');
      }
    }
  }

  /** Ranges are proper, strictly increasing and separated by context lines. */
  predicate Increasing(rs: seq<FileEdits.Replacement>)
  {
    (forall i :: 0 <= i < |rs| ==> rs[i].start <= rs[i].end)
    && (forall i, j :: 0 <= i < j < |rs| ==> rs[i].end < rs[j].start)
  }

  /** Every range lies within `[lo, hi]`. */
  predicate Within(rs: seq<FileEdits.Replacement>, lo: int, hi: int)
  {
    forall i :: 0 <= i < |rs| ==> lo <= rs[i].start && rs[i].end <= hi
  }

  lemma IncreasingCons(r: FileEdits.Replacement, rs: seq<FileEdits.Replacement>, hi: int)
    requires r.start <= r.end < hi
    requires Increasing(rs) && forall i :: 0 <= i < |rs| ==> hi <= rs[i].start
    ensures Increasing([r] + rs)
  {
    var t := [r] + rs;
    forall i, j | 0 <= i < j < |t| ensures t[i].end < t[j].start {
      if i == 0 {
        assert t[j] == rs[j - 1];
      } else {
        assert t[i] == rs[i - 1] && t[j] == rs[j - 1];
      }
    }
  }

  /** The upper end of the lines a hunk located at `index` can touch. */
  function Reach(change: seq<string>, index: int): int
  {
    index + CountStartingWith(change, "-") + CountStartingWith(change, " ")
  }

  lemma BuildOrderedContext(change: seq<string>, start: Option<int>, adds: seq<string>, index: int)
    requires change != [] && StartsWith(change[0], " ")
    requires start.Some? ==> start.value <= index
    requires Increasing(Build(change[1..], None, [], index + 1))
    requires Within(Build(change[1..], None, [], index + 1), index + 1, Reach(change[1..], index + 1))
    ensures Increasing(Build(change, start, adds, index))
    ensures Within(Build(change, start, adds, index), if start.Some? then start.value else index, Reach(change, index))
  {
    var rest := Build(change[1..], None, [], index + 1);
    var rs := Build(change, start, adds, index);
    assert Reach(change, index) == Reach(change[1..], index + 1);
    if start.Some? {
      var r := FileEdits.Replacement(start.value, index, adds);
      IncreasingCons(r, rest, index + 1);
      assert rs == [r] + rest;
      assert forall i :: 1 <= i < |rs| ==> rs[i] == rest[i - 1];
    } else {
      assert rs == rest;
    }
  }

  /**
   * The replacements of a hunk located at `index` are proper, strictly
   * increasing, and stay inside the searched lines `[index, index + |search|]`.
   */
  lemma {:induction false} BuildOrdered(change: seq<string>, start: Option<int>, adds: seq<string>, index: int)
    requires start.Some? ==> start.value <= index
    ensures Increasing(Build(change, start, adds, index))
    ensures Within(Build(change, start, adds, index), if start.Some? then start.value else index, Reach(change, index))
  {
    if change == [] {
      assert Reach(change, index) == index;
    } else {
      var line := change[0];
      var s := if start.Some? then start else Some(index);
      if StartsWith(line, " ") {
        BuildOrdered(change[1..], None, [], index + 1);
        BuildOrderedContext(change, start, adds, index);
      } else if StartsWith(line, "+") {
        BuildOrdered(change[1..], s, adds + [line[1..]], index);
        assert Reach(change, index) == Reach(change[1..], index);
      } else if StartsWith(line, "-") {
        BuildOrdered(change[1..], s, adds, index + 1);
        assert Reach(change, index) == Reach(change[1..], index + 1);
      } else {
        BuildOrdered(change[1..], start, adds, index);
        assert Reach(change, index) == Reach(change[1..], index);
      }
    }
  }

  /**
   * The hunk of the single-replacement test: context, two removals, one
   * addition, context, located at `i`, replaces lines `i+1` and `i+2`.
   */
  lemma OneRunExample(a: string, b: string, c: string, d: string, e: string, i: int)
    ensures Build([" " + a, "-" + b, "-" + c, "+" + d, " " + e], None, [], i)
         == [FileEdits.Replacement(i + 1, i + 3, [d])]
  {
    var ch := [" " + a, "-" + b, "-" + c, "+" + d, " " + e];
    assert ch[1..] == ["-" + b, "-" + c, "+" + d, " " + e];
    assert ch[2..] == ["-" + c, "+" + d, " " + e];
    assert ch[3..] == ["+" + d, " " + e];
    assert ch[4..] == [" " + e];
    assert ch[5..] == [];
    assert ("+" + d)[1..] == d;
    assert StartsWith(ch[0], " ") && StartsWith(ch[1], "-") && !StartsWith(ch[1], " ") && !StartsWith(ch[1], "+");
    assert StartsWith(ch[2], "-") && !StartsWith(ch[2], " ") && !StartsWith(ch[2], "+");
    assert StartsWith(ch[3], "+") && !StartsWith(ch[3], " ");
    assert StartsWith(ch[4], " ");
    assert Build(ch, None, [], i) == [] + Build(ch[1..], None, [], i + 1);
    assert Build(ch[1..], None, [], i + 1) == Build(ch[2..], Some(i + 1), [], i + 2);
    assert Build(ch[2..], Some(i + 1), [], i + 2) == Build(ch[3..], Some(i + 1), [], i + 3);
    assert Build(ch[3..], Some(i + 1), [], i + 3) == Build(ch[4..], Some(i + 1), [] + [d], i + 3);
    assert Build(ch[4..], Some(i + 1), [d], i + 3) == [FileEdits.Replacement(i + 1, i + 3, [d])] + Build([], None, [], i + 4);
    assert Build([], None, [], i + 4) == [];
    assert [FileEdits.Replacement(i + 1, i + 3, [d])] + [] == [FileEdits.Replacement(i + 1, i + 3, [d])];
    assert [] + [d] == [d];
    assert [] + Build(ch[1..], None, [], i + 1) == Build(ch[1..], None, [], i + 1);
    assert Build(ch, None, [], i) == [FileEdits.Replacement(i + 1, i + 3, [d])];
  }

  // ---------------------------------------------------------------------------
  // `_add_code_block`

  /** A hunk can be placed: it has context, or the file is empty; and its lines are found. */
  predicate Placeable(fileLines: seq<string>, change: seq<string>)
  {
    if SearchLines(change) == [] then Concat(fileLines) == ""
    else MatchingIndex(fileLines, SearchLines(change)) != -1
  }

  /** One hunk of the second pass: a hunk without context fits only an empty file. */
  function LocateHunk(fileLines: seq<string>, change: seq<string>): (r: Result<seq<FileEdits.Replacement>, CodeError>)
    ensures r.Ok? <==> Placeable(fileLines, change)
  {
    var search := SearchLines(change);
    if search == [] then
      if Concat(fileLines) == "" then Ok([FileEdits.Replacement(0, 0, seq(|change|, k requires 0 <= k < |change| => SliceFrom(change[k], 1)))])
      else Err(NoContext)
    else
      var i := MatchingIndex(fileLines, search);
      if i == -1 then Err(NotFound) else Ok(Build(change, None, [], i))
  }

  /**
   * The second pass over all hunks; the first failure discards everything.
   * Locating succeeds exactly when every hunk can be placed.
   */
  function Locate(fileLines: seq<string>, hunks: seq<seq<string>>): (r: Result<seq<FileEdits.Replacement>, CodeError>)
    ensures r.Ok? <==> forall k :: 0 <= k < |hunks| ==> Placeable(fileLines, hunks[k])
  {
    if hunks == [] then Ok([])
    else
      assert forall k :: 1 <= k < |hunks| ==> hunks[k] == hunks[1..][k - 1];
      match LocateHunk(fileLines, hunks[0])
      case Err(e) => Err(e)
      case Ok(rs) =>
        match Locate(fileLines, hunks[1..])
        case Err(e) => Err(e)
        case Ok(more) => Ok(rs + more)
  }

  /** `_add_code_block` without its printing: the replacements to append, or why none are. */
  function AddCodeBlock(fileLines: seq<string>, codeBlock: string): Result<seq<FileEdits.Replacement>, CodeError>
  {
    match Hunks(Split(codeBlock, '\n'), [])
    case Err(e) => Err(e)
    case Ok(hunks) => Locate(fileLines, hunks)
  }

  /** The callbacks this format gives the streaming parser; `files` holds the current file contents. */
  function Callbacks(files: map<string, seq<string>>): Parsing.Format
  {
    Parsing.Format(
      StartsSpecial,
      EndsSpecial,
      EndsCode,
      SpecialBlock,
      (renames: map<string, string>, special: string, code: string, h: Parsing.Header) =>
        match AddCodeBlock(Parsing.FileLinesFor(files, renames, h.fileName), code)
        case Ok(rs) => rs
        case Err(_) => [])
  }

  /**
   * Any error (a malformed line, a hunk without context in a non-empty file,
   * lines not found) leaves every edit unchanged; otherwise exactly the
   * located replacements are appended to the current edit.
   */
  lemma AddCodeEffect(files: map<string, seq<string>>, st: Parsing.State, code: string)
    requires Parsing.Valid(st)
    ensures var f := Callbacks(files);
      st.header.Some? ==>
      var res := AddCodeBlock(Parsing.FileLinesFor(files, st.renames, st.header.value.fileName), code);
      && (res.Err? ==> Parsing.AddCode(f, st, code) == st.edits)
      && (res.Ok? ==> var i := st.current.value;
            Parsing.AddCode(f, st, code) == st.edits[i := st.edits[i].(replacements := st.edits[i].replacements + res.value)])
  {
    if st.header.Some? {
      var i := st.current.value;
      assert st.edits[i].replacements + [] == st.edits[i].replacements;
      assert st.edits[i := st.edits[i]] == st.edits;
    }
  }
}

=== FILE: values.dfy ===
// The JSON-like values the settings dictionaries and stream messages carry,
// as far as the modelled code tells them apart.

module Values {
  /** A string, a list of strings, or anything else (numbers, booleans, nested objects). */
  datatype Value = Str(s: string) | StrList(xs: seq<string>) | Other

  /** `isinstance(d.get(key), str)`. */
  predicate IsStr(d: map<string, Value>, key: string)
  {
    key in d && d[key].Str?
  }
}

=== FILE: wrappers.dfy ===
/**
 * Optional values and error-carrying results, the two shapes the rest of the
 * model uses for Python's `None` and for raised exceptions.
 */
module Wrappers {

  datatype Option<+T> = None | Some(value: T)
  {
    predicate IsFailure() { None? }

    function PropagateFailure<U>(): Option<U>
      requires None?
    {
      None
    }

    function Extract(): T
      requires Some?
    {
      value
    }

    function GetOr(default: T): T
    {
      if Some? then value else default
    }
  }

  /** An outcome: a value, or the exception the source would raise. */
  datatype Result<+T, +E> = Ok(value: T) | Err(error: E)
  {
    predicate IsFailure() { Err? }

    function PropagateFailure<U>(): Result<U, E>
      requires Err?
    {
      Err(error)
    }

    function Extract(): T
      requires Ok?
    {
      value
    }
  }

  /** Applies `f` to every element; None as soon as one application is None. */
  function Traverse<A, B>(xs: seq<A>, f: A -> Option<B>): (r: Option<seq<B>>)
    ensures r.Some? <==> forall i :: 0 <= i < |xs| ==> f(xs[i]).Some?
    ensures r.Some? ==> |r.value| == |xs|
    ensures r.Some? ==> forall i :: 0 <= i < |xs| ==> f(xs[i]) == Some(r.value[i])
  {
    if xs == [] then Some([])
    else
      var head := f(xs[0]);
      var tail := Traverse(xs[1..], f);
      assert forall i :: 1 <= i < |xs| ==> xs[i] == xs[1..][i - 1];
      if head.None? || tail.None? then None else Some([head.value] + tail.value)
  }

  /** All the values when every result is Ok; otherwise the first error, as a loop that raises would. */
  function Collect<T, E>(rs: seq<Result<T, E>>): (r: Result<seq<T>, E>)
    ensures r.Ok? <==> forall i :: 0 <= i < |rs| ==> rs[i].Ok?
    ensures r.Ok? ==> |r.value| == |rs| && forall i :: 0 <= i < |rs| ==> rs[i] == Ok(r.value[i])
    ensures r.Err? ==> exists k :: 0 <= k < |rs| && rs[k] == Err(r.error) && forall j :: 0 <= j < k ==> rs[j].Ok?
  {
    if rs == [] then Ok([])
    else
      assert forall i :: 1 <= i < |rs| ==> rs[i] == rs[1..][i - 1];
      match rs[0]
      case Err(e) => Err(e)
      case Ok(v) =>
        match Collect(rs[1..])
        case Err(e) =>
          FirstErrorAfterOk(rs, e);
          Err(e)
        case Ok(vs) => Ok([v] + vs)
  }

  /** An error first among the later results stays first once an Ok result is put before them. */
  lemma FirstErrorAfterOk<T, E>(rs: seq<Result<T, E>>, e: E)
    requires rs != [] && rs[0].Ok?
    requires exists k :: 0 <= k < |rs[1..]| && rs[1..][k] == Err(e) && forall j :: 0 <= j < k ==> rs[1..][j].Ok?
    ensures exists k :: 0 <= k < |rs| && rs[k] == Err(e) && forall j :: 0 <= j < k ==> rs[j].Ok?
  {
    var k :| 0 <= k < |rs[1..]| && rs[1..][k] == Err(e) && forall j :: 0 <= j < k ==> rs[1..][j].Ok?;
    assert rs[k + 1] == Err(e);
    assert forall j :: 1 <= j < k + 1 ==> rs[j] == rs[1..][j - 1];
  }

  lemma TraverseAllSome<A, B>(xs: seq<A>, f: A -> Option<B>, ys: seq<B>)
    requires |xs| == |ys|
    requires forall i :: 0 <= i < |xs| ==> f(xs[i]) == Some(ys[i])
    ensures Traverse(xs, f) == Some(ys)
  {
    var r := Traverse(xs, f);
    assert r.Some?;
    forall i | 0 <= i < |xs| ensures r.value[i] == ys[i] {
      assert f(xs[i]) == Some(r.value[i]);
    }
    assert r.value == ys;
  }
}
